=== FILE: README.md ===
# teeworlds-utilities in Dafny

A model of the core of teeworlds-utilities, the TypeScript/JavaScript library that cuts the fixed-layout sprite sheets of the game Teeworlds (skins, gameskins, emoticons, particules) into named parts, recolours them and lays them out on boards and scenes. Every module below is one area of the library:

- `Numbers` — the ECMAScript number conversions the code relies on: `Math.trunc`, ToInt32 behind `<<` and `|`, and ToUint8Clamp, which a write into an ImageData buffer performs.
- `Colors`, `ColorFormats` — the colour classes of lib/color.ts (range-checked RGBA, HSL and packed codes, grayscale and tint, the Teeworlds code law) and the colour-string parsers and pixel operations of src/color.ts and src/color.js.
- `Utils` — `isDigit`, `genChunks`, `closestNumber`, `argsChecker` and `getNameFromPath` in their lib/ and src/ versions.
- `Pixels` — canvases as rows of RGBA pixels, `getImageData`/`putImageData` as rectangle copy and paste, the in-place per-pixel rewrite loop, and the body re-weighting `reorderBody` (histogram, mode, remap) as `array` loops.
- `Parts`, `Data` — the part tables of lib/asset/part.ts, lib/data.ts and src/data.js, their lookup and scaling.
- `Assets`, `Skins` — the `MinimalAsset`/`Asset` class of lib/asset/base.ts (load, multiplier, empty, scale, restore, part colouring, part caching) and the `Skin` and `SkinFull` classes of lib/asset/skin.ts.
- `Elements`, `Drafts`, `Changers` — the older asset drafts lib/asset.ts, src/asset.js, src/extractor.js and src/lib.js, with their element buffers, and the changers that copy parts between sheets (lib/changer.ts, src/changer.js, src/lib.js).
- `Boards`, `Caches` — the grid board of lib/board.ts and the no-overwrite cache of lib/cache.ts.
- `Scenes`, `SceneBlocks` — the scene makers of lib/scene.ts, lib/scene.js and src/scene.js: scheme checks, action dispatch, line and square tiling, block queues and their canvas caches.
- `Fixes` — the size fixing of lib/fix.ts and lib/fix.js.

Objects whose fields the source updates in place are classes whose methods carry `modifies` clauses; each of their methods is specified by a function of the old state, and the properties the library promises are lemmas about those functions. Exceptions are values of a shared `Error` type. `TypeError` stands for every crash the code makes instead of the exception it names: a property read on `undefined`, `Object.keys` or `Object.entries` of `undefined`, a call of a method the object lacks (`basicOperation` on a `ColorRGBA`, `args` that do not spread), and `new` on a name its module does not export (`ElementError` in lib/asset.ts, `InvalidElement` in lib/changer.ts, `InvalidScene` in src/scene.js, and `COLOR_FORMAT`, read by lib/asset.ts and src/asset.js). Arithmetic is exact: channels and multipliers are `real`, and the conversions to bytes are written out. Where a draft differs from another (lib/ against src/, TypeScript against JavaScript) one member takes the draft as a parameter. Where the code as written cannot do what it evidently means to (recolouring in lib/asset.ts and src/asset.js, the swapped line of src/scene.js, the missing eye of `createSkinOverview`), the model has both: a member as written, with a lemma stating what it does, and the intended member, with the properties proved about it; "## Findings" pairs them.

`reorderBody` divides the band above the mode by `invOrgWeight`, which lib/asset/skin.ts:199 computes before the mode is found, so it is always 255; a description of the algorithm as dividing by 255 minus the mode does not match the code, and the model follows the code.

## Model

| member | source | states |
|---|---|---|
| Numbers.Trunc | lib/asset/skin.ts:232-236 | `Math.trunc` rounds toward zero: t <= x < t + 1 for x >= 0 and t - 1 < x <= t for x < 0 |
| Numbers.Signed32 | lib/color.ts:196-199 | a 32-bit pattern read as a signed integer lies in -2^31..2^31 and has that pattern |
| Numbers.ToInt32 | lib/color.ts:196-199 | the ToInt32 conversion behind `<<=` and `|=` lands in -2^31..2^31 |
| Numbers.ShiftLeft8 | lib/color.ts:196 | `x << 8` lands in -2^31..2^31 |
| Numbers.Or32 | lib/color.ts:197-199 | `x | y` lands in -2^31..2^31 |
| Numbers.ToInt32Small | lib/color.ts:194-196 | ToInt32 of a number in 0..2^31 is its integer part |
| Numbers.ShiftSmall | lib/color.ts:196-198 | a number below 2^23 shifted left by 8 is its integer part times 256 |
| Numbers.OrLowByte | lib/color.ts:197-199 | OR-ing a number in 0..255 into a multiple of 256 below 2^31 adds its integer part |
| Numbers.ToUint8Clamp | lib/asset/base.ts:446-449 | the write into an ImageData byte clamps to 0..255 and rounds to within 0.5 |
| Numbers.ClampOfByte | lib/asset/base.ts:439-449 | a byte written back is read back unchanged |
| Numbers.ClampMonotone | lib/asset/base.ts:446-449 | the byte write is monotone |
| Colors.SetColorValueBase | lib/color.ts:31-44 | succeeds exactly when from <= value <= to and then returns the value unchanged; otherwise a ColorError |
| Colors.SetColorValue | lib/color.ts:57-59 | the range check over [0, to] |
| Colors.ApplyColorSucceeds | lib/color.ts:139-146 | `applyColor` passes exactly when every tinted channel (alpha included) stays in 0..255 and then yields the tint channel·c/255; otherwise a ColorError |
| Colors.ApplyColorInRange | lib/color.ts:139-146 | with the pixel and the tint in 0..255, no setter of `applyColor` fails and the result stays in 0..255 |
| Colors.TintByWhite | lib/color.ts:139-146 | tinting by (255, 255, 255, 255) changes nothing |
| Colors.GrayLaws | lib/color.ts:111-128 | `blackAndWhite` keeps the channel mean, keeps a pixel whose r, g, b are equal, is idempotent and stays in 0..255 |
| Colors.ColorRGBA.constructor | lib/color.ts:67-77 | the constructor stores r, g, b, a unchecked |
| Colors.ColorRGBA.Set | lib/color.ts:79-82 | a setter refuses a value outside 0..255 with a ColorError and changes nothing; otherwise it writes that one channel |
| Colors.ColorRGBA.ToArray | lib/color.ts:89-91 | `[r, g, b, a]` in that order |
| Colors.ColorRGBA.BlackAndWhite | lib/color.ts:120-128 | the new value is the grayscale of the old one (alpha kept) |
| Colors.ColorRGBA.ApplyColor | lib/color.ts:139-146 | the new value and outcome are those of the four checked writes, the first failing write stopping the rest |
| Colors.RgbaTwCode | lib/color.ts:107-109 | `ColorRGBA.twCode` always fails with a ColorError |
| Colors.MakeHsl | lib/color.ts:160-168 | `new ColorHSL(h, s, l)` succeeds exactly when h is in [0, 360] and s, l in [0, 100], and then holds those values |
| Colors.ColorHSL.FromChecked | lib/color.ts:160-164 | a ColorHSL built from a valid triple holds that triple |
| Colors.ColorHSL.Set | lib/color.ts:166-168 | the h, s, l setters refuse values outside their limit (360, 100, 100) with a ColorError and leave the value unchanged; otherwise they write one field |
| Colors.MakeColorCode | lib/color.ts:208-210 | `new ColorCode(v)` succeeds exactly when 0 <= v <= 0xFFFFFF and then keeps v |
| Colors.TwCodeHigh | lib/color.ts:194-198 | for a valid HSL value the hue and saturation bytes lie in 0..255 and the first shifts and OR pack them as (hue·256 + saturation)·256 |
| Colors.TwCodeLow | lib/color.ts:199 | the last OR adds a lightness term in 0..254 below the packed bytes, and a negative term makes the code negative |
| Colors.OrNegative | lib/color.ts:199 | OR with a negative 32-bit number is negative |
| Colors.TwCodeLaw | lib/color.ts:193-202 | `twCode` of a valid HSL value succeeds exactly when l > 50, then equals hue·65536 + saturation·256 + lightness term; otherwise a ColorError from the constructor |
| Colors.TwCodeSteps | lib/color.ts:194-201 | `twCode` is the final OR of the packed hue/saturation with the lightness term, then the ColorCode constructor |
| Colors.OrTruncates | lib/color.ts:197-199 | the right operand of `|` only counts through its integer part |
| Colors.LightnessSign | lib/color.ts:199 | the lightness term lies in -256..254 and is non-negative exactly when l > 50 |
| Colors.TwCodeExample | lib/color.ts:193-202 | HSL (169, 100, 75) packs to 7864190 (hue byte 119) |
| Colors.CodeBytes | lib/color.ts:212-218 | `toArray` of a code gives three bytes in 0..255 |
| Colors.CodeBytesRoundTrip | lib/color.ts:212-218 | b0·65536 + b1·256 + b2 is the code (its integer part) |
| Colors.CodeHslFails | lib/color.ts:226-235 | `hsl()` of a code fails with a ColorError exactly when the lightness byte is 255 |
| Colors.CodeHslExample | lib/color.ts:226-235 | 0x78FF80 reads as HSL (120·360/255, 100, 19200/255) |
| Colors.CodeRoundTrip | lib/color.ts:193-235 | reading an integral code as HSL and packing it again with `twCode` gives the code back when its lightness byte is not 255 |
| Colors.TripleBytes | lib/color.ts:194-199 | the numbers of a byte triple, scaled back as `twCode` does, give the bytes again, and their lightness is above 50 |
| ColorFormats.FirstDigit | src/color.ts:25 | the position of the first digit, with no digit before it |
| ColorFormats.DigitPrefix | src/color.ts:25 | the longest all-digit prefix |
| ColorFormats.FirstDigitRun | src/color.ts:25-32 | `match(/\d+/)` finds nothing exactly when the field holds no digit, and otherwise a non-empty run of digits |
| ColorFormats.CheckFieldsMeaning | src/color.ts:24-40 | the fields are accepted exactly when each has a digit run within its limit, the values are then those runs read as numbers, and a refusal is an InvalidColor |
| ColorFormats.ParsedFields | src/color.ts:18-42 | an accepted colour has 3 or 4 values, each within its limit; a refusal is an InvalidColor |
| ColorFormats.ParseFields | src/color.ts:19-42 | the split-and-overwrite loop computes ParsedFields |
| ColorFormats.ReadFields | src/color.ts:24-40 | the loop over the pieces stops at the first bad field and otherwise replaces every field by its number |
| ColorFormats.RgbFormat | src/color.ts:18-43 | `rgbFormat` is ParsedFields with the limits 255, 255, 255, 255 |
| ColorFormats.HslFormat | src/color.ts:45-72 | `hslFormat` is ParsedFields with the limits 360, 100, 100, 255 |
| ColorFormats.RenderParses | src/color.ts:18-72 | every list of 3 or 4 values within the limits, written as "v0,v1,v2[,v3]", parses back to itself |
| ColorFormats.FieldExample | src/color.ts:25-34 | "x12y34" reads as 12 (surrounding text and later runs ignored) and " - " has no number |
| ColorFormats.ToHex | src/color.ts:92 | `toString(16)` is never empty |
| ColorFormats.PadZeros | src/color.ts:93-95 | left padding with '0' to length k |
| ColorFormats.PadToHex | src/color.ts:92-95 | the padded hexadecimal notation of a number below 16^k is its last k hexadecimal digits |
| ColorFormats.FixedHexValue | src/color.ts:97 | k fixed hexadecimal digits read back as the number modulo 16^k |
| ColorFormats.CodeFormat | src/color.ts:75-103 | refuses with an InvalidColor a code that is not all digits or is above 0xFFFFFF, and otherwise returns the HSL triple of the code's three bytes (CodeFormatSpec) |
| ColorFormats.CodeHexPairs | src/color.ts:92-97 | the pairs read back as the three bytes of the code, and as 0, 0, 10 for NaN |
| ColorFormats.NaNChunks | src/color.ts:92-97 | "NaN" padded to "000NaN" reads in pairs as 0, 0 and 10 |
| ColorFormats.CodeChunks | src/color.ts:92-97 | the pairs of the padded notation of a code are its bytes (code >> 16) & 255, (code >> 8) & 255, code & 255 |
| ColorFormats.CodeFormatOfDecimal | src/color.ts:75-103 | a decimal code is accepted exactly when it is at most 0xFFFFFF, then reads as (b0·360/255, b1·100/255, (b2/2 + 128)·100/255); otherwise an InvalidColor |
| ColorFormats.CodeFormatExamples | src/color.ts:75-103 | 7929728 (0x78FF80) reads as (120·360/255, 100, 19200/255) |
| ColorFormats.CodeFormatEmpty | src/color.ts:76-100 | the empty code passes `isDigit`, becomes NaN and reads as (0, 0, 13300/255) |
| ColorFormats.CodeFormatRefusesLetters | src/color.ts:76-81 | "12ab" is refused with an InvalidColor |
| ColorFormats.CodeFormatMatchesColorCode | src/color.ts:92-100 | for an accepted code, the triple is the one `ColorCode.hsl` of lib/color.ts computes for the same number |
| ColorFormats.Color.constructor | src/color.ts:10-15 | the constructor stores r, g, b, a |
| ColorFormats.ColorOf | src/color.js:3-9 | `new Color(...values)`: alpha is 255 unless a fourth value is given |
| ColorFormats.ExtractorColorArg | src/extractor.js:157-175 | `_getColorArg` succeeds exactly when the RGB parser accepts, yields the Color of the values with every channel in 0..255, and otherwise fails with an InvalidColor |
| ColorFormats.BlackAndWhite | src/color.ts:105-111 | the pixel's colour channels become their mean, alpha kept |
| ColorFormats.DefaultOpTs | src/color.ts:113-118 | every channel, alpha included, is multiplied by the colour's channel over 255 |
| ColorFormats.DefaultOpJs | src/color.js:27-34 | grayscale first, then every channel tinted; a pixel tinted by itself is tinted by its own grayscale |
| ColorFormats.ColorMode | src/color.ts:126-129 | "default" is known to both modules and "grayscale" only to src/color.ts (src/color.js:36-38) |
| ColorFormats.ApplyOpInRange | src/color.ts:105-118 | pixels and tints in 0..255 stay in 0..255 under either operation |
| ColorFormats.GrayThenTintAgree | src/color.js:27-34 | grayscale then `defaultOp` of src/color.ts is `defaultOp` of src/color.js |
| Utils.IsDigit | lib/utils/util.ts:7-15 | true exactly when every character is a decimal digit; "" gives true (the same loop is in lib/utils.ts, lib/utils.js and src/utils.js) |
| Utils.GenChunks | lib/utils/util.ts:30-38 | the chunks concatenate back to the source, all but the last have length `size`, the last has length 1..size, and their count is the ceiling of |src|/size |
| Utils.FloorDiv | lib/utils/util.ts:50 | `Math.floor(n / m)` for an integer divisor: the q with m·q <= n < m·q + m (or the mirror for m < 0) |
| Utils.FloorMultiple | lib/utils/util.ts:50-51 | m·floor(n/m) is a multiple of m, at most n and within m of it for m > 0, and 0 for n = 0 |
| Utils.ClosestNumber | lib/utils/util.ts:49-65 | `closestNumber` is NaN (None) exactly when m = 0 and otherwise a multiple of m |
| Utils.Closer | lib/utils/util.ts:60-64 | the result is one of the two candidates |
| Utils.ClosestNumberTie | lib/utils/util.ts:60-64 | on a tie the second candidate (the multiple above) is returned: the floor multiple only wins when strictly closer |
| Utils.ClosestNumberOfMultiple | lib/utils/util.ts:49-65 | for n, m > 0 with m dividing n, `closestNumber` returns n |
| Utils.NearestMultiple | lib/utils/util.ts:49-65 | the reference nearest multiple, ties going up: a multiple of m within (n - m, n + m] |
| Utils.NearestMultipleIsNearest | lib/utils/util.ts:49-65 | no multiple of m is nearer to n than NearestMultiple |
| Utils.ClosestNumberAgrees | lib/utils/util.ts:49-65 | for n >= 0 and m > 0, `closestNumber` is the nearest multiple of m |
| Utils.ClosestNumberNegative | lib/utils/util.ts:54-58 | below zero it is not: `closestNumber(-1, 4)` is -4 while 0 is nearest |
| Utils.ClosestNumberNegativeDivisor | lib/utils/util.ts:54-58 | with a negative m the second candidate moves away: `closestNumber(5, -4)` is 8 while 4 is nearer |
| Utils.ArgsChecker | lib/utils/util.ts:79-87 | true exactly when every element of `args` is among the needed names (a subset test; the same in lib/utils.ts) |
| Utils.ArgsCheckerGuarded | lib/utils.js:81-92 | false for a null `args`, otherwise the subset test |
| Utils.Split | lib/utils/util.ts:97-100 | `split` of a one-character separator always yields at least one piece |
| Utils.SplitJoin | lib/utils/util.ts:97-100 | joining the pieces with the separator gives the string back and no piece holds the separator |
| Utils.JoinSplit | lib/utils/util.ts:97-100 | splitting what a join built gives back separator-free pieces |
| Utils.GetNameFromPathShape | lib/utils/util.ts:96-102 | the name holds neither '/' nor '.', starts right after the last '/' (or at the start) and ends at a '.' or the end of the path |
| Utils.LastPieceIsSuffix | lib/utils/util.ts:98-99 | `.at(-1)` of the split is the suffix after the last separator |
| Utils.FirstPieceIsPrefix | lib/utils/util.ts:100-101 | `.at(0)` of the split is the prefix before the first separator |
| Utils.Decimal | lib/asset/base.ts:576-579 | the decimal notation of a number is never empty |
| Utils.DecimalRoundTrip | src/color.ts:83 | decimal notation holds only digits and `parseInt` reads it back as the number |
| Pixels.WrittenReal | lib/asset/base.ts:439-449 | a byte pixel read into a colour and written back unchanged is the same pixel |
| Pixels.PixelAtBytes | lib/asset/base.ts:438-442 | pixel k of the flat buffer of a run of pixels is pixel k (bytes 4k..4k+3) |
| Pixels.PutPixel | lib/asset/base.ts:446-449 | writing pixel k replaces its four bytes and nothing else |
| Pixels.ProgressStep | lib/asset/base.ts:438-450 | one more turn of the loop writes the next pixel after those already written |
| Pixels.ProgressNext | lib/asset/base.ts:439-442 | the pixel the loop reads next has not been written yet |
| Pixels.RewrittenAt | lib/asset/base.ts:438-450 | pixel k of the rewritten buffer is the callback's image of pixel k, and the buffer keeps its length |
| Pixels.FailureStep | lib/asset/base.ts:444 | a throwing callback on pixel k is the loop's outcome; a passing one lets the loop go on to pixel k + 1 |
| Pixels.RewriteOne | lib/asset/base.ts:439-449 | one turn reads pixel k, runs the callback and, when it passes, writes the pixel back after those already written |
| Pixels.RewritePixels | lib/asset/base.ts:438-450 | the in-place loop's outcome is the first callback failure, and when none fails every 4-byte pixel is replaced by the callback's colour written through ToUint8Clamp |
| Pixels.NeverFails | lib/asset/base.ts:438-450 | a callback that never fails on byte pixels lets the loop run to the end |
| Pixels.RealInRange | lib/asset/base.ts:439-442 | a colour built from bytes has every channel in 0..255 |
| Pixels.Frequencies | lib/asset/skin.ts:212-216 | the first loop leaves, in a fresh array, the count of each red byte among the pixels whose alpha exceeds 128 |
| Pixels.ArgmaxIsMode | lib/asset/skin.ts:218-222 | the mode search finds a highest count and no earlier value has it (the smallest such value) |
| Pixels.Mode | lib/asset/skin.ts:218-222 | the second loop's `orgWeight` is the smallest value with the highest count (0 when no pixel counts) |
| Pixels.Remap | lib/asset/skin.ts:227-237 | a pixel is skipped exactly when its red byte and the mode are both 0 |
| Pixels.LowBand | lib/asset/skin.ts:229-230 | at or below a positive mode, trunc(v/mode·192) lies in 0..192 |
| Pixels.HighBand | lib/asset/skin.ts:233-236 | above the mode, trunc((v - mode)/255·63 + 192) lies in 192..255 (the divisor is fixed at 255, so branch 231 is dead) |
| Pixels.RemappedAt | lib/asset/skin.ts:224-242 | pixel k of the re-weighted buffer is pixel k remapped, and the buffer keeps its length |
| Pixels.ReweightOne | lib/asset/skin.ts:225-241 | one turn of the third loop remaps pixel k after those already remapped |
| Pixels.Reweight | lib/asset/skin.ts:224-242 | the third loop remaps every pixel in place, whatever its alpha |
| Pixels.ReorderBuffer | lib/asset/skin.ts:196-242 | `reorderBody` on a buffer: the buffer is remapped around its mode |
| Pixels.ReweightedMonotone | lib/asset/skin.ts:227-237 | the remapping keeps the order of values |
| Pixels.ModeMapsTo192 | lib/asset/skin.ts:230 | a positive mode maps to 192 |
| Pixels.ReweightNotIdempotent | lib/asset/skin.ts:227-237 | on a body whose mode is already 192, 255 becomes 207 while 192 stays: the re-weighting is not idempotent |
| Pixels.RemapPixelShape | lib/asset/skin.ts:239-241 | red, green and blue all get the remapped red value, alpha is never written, and a skipped pixel is unchanged |
| Pixels.Cut | lib/asset/base.ts:428-433 | `getImageData` of a w×h rectangle holds w·h pixels |
| Pixels.Paste | lib/asset/base.ts:452-456 | `putImageData` keeps the canvas's shape |
| Pixels.Clear | lib/asset/base.ts:524-527 | `clearRect` keeps the canvas's shape |
| Pixels.PasteOfCut | lib/asset/base.ts:428-456 | pasting back a buffer that maps every pixel of the cut rectangle maps the pixels inside the rectangle and keeps every other pixel |
| Pixels.RewriteRect | lib/asset/base.ts:420-459 | `_colorPart` with a passing callback recolours exactly the rectangle's pixels |
| Pixels.ReweightRect | lib/asset/skin.ts:202-255 | re-weighting a rectangle and pasting it back remaps exactly that rectangle |
| Pixels.ClearThenPaste | lib/asset/skin.ts:244-255 | clearing a rectangle before pasting into it changes nothing the paste does not overwrite |
| Pixels.FromBytes | lib/utils/canvas.ts:82-93 | `canvasFromImageData` gives a canvas of the buffer's width and height |
| Pixels.CutRebuilt | lib/asset/base.ts:598-605 | a rectangle cut out and rebuilt into its own canvas shows the rectangle's pixels at their offsets, transparent where it overhangs |
| Pixels.ImageData.constructor | lib/asset/base.ts:428-434 | an ImageData holds w·h pixels as 4·w·h bytes |
| Pixels.Canvas.constructor | lib/utils/canvas.ts:83-86 | `createCanvas(w, h)` is a transparent w×h canvas |
| Pixels.Canvas.Clone | lib/utils/canvas.ts:95-105 | `cloneCanvas` holds a copy of the image |
| Pixels.Canvas.GetImageData | lib/asset/base.ts:428-433 | a fresh copy of the rectangle's bytes |
| Pixels.Canvas.PutImageData | lib/asset/base.ts:452-456 | the canvas's pixels become the paste of the buffer |
| Pixels.Canvas.ClearRect | lib/asset/base.ts:524-527 | the rectangle becomes transparent black |
| Parts.ScaleByOne | lib/asset/part.ts:17-27 | `scaleMetadata(r, 1)` is r |
| Parts.ScaleCompose | lib/asset/part.ts:17-27 | scaling by a then by b is scaling by a·b |
| Parts.ScaleKeepsFit | lib/asset/part.ts:17-27 | a rectangle inside a sheet, scaled by m >= 0, lies inside the sheet scaled by m |
| Parts.SkinIndex | lib/asset/part.ts:153-166 | every skin part has a row of the SKIN table, below 12 |
| Parts.GameskinIndex | lib/asset/part.ts:167-216 | every gameskin part has a row of the GAMESKIN table, below 48 |
| Parts.EmoticonIndex | lib/asset/part.ts:217-234 | every emoticon part has a row of the EMOTICON table, below 16 |
| Parts.ParticuleIndex | lib/asset/part.ts:235-249 | every particule part has a row of the PARTICULE table, below 13 |
| Parts.GetAssetPartsMetadata | lib/asset/part.ts:268-272 | nothing (undefined) exactly for UNKNOWN; otherwise a non-empty table of parts of that kind only |
| Parts.Find | lib/asset/part.ts:261-265 | the key lookup finds a rectangle exactly when the part is listed, and it is a listed row's rectangle |
| Parts.GetAssetPartMetadata | lib/asset/part.ts:253-266 | UNKNOWN and a part that is not a key of the kind's table fail with an AssetPartError; otherwise the part's own table entry |
| Parts.RowIndex | lib/asset/part.ts:152-249 | every part is listed on its own row of its kind's table |
| Parts.FindOwnRow | lib/asset/part.ts:261-265 | in a known kind's table the lookup finds exactly the parts of that kind, each with its own row's rectangle |
| Parts.RowIsOwn | lib/asset/part.ts:152-249 | no part is listed twice: a row naming a part is that part's own row |
| Parts.GameskinIndexOfRow | lib/asset/part.ts:167-216 | the row of the part listed on GAMESKIN row i is i |
| Parts.RowFits | lib/asset/part.ts:153-249 | every part's rectangle lies inside its kind's base sheet (256×128, 1024×512, 512×512, 512×512; lib/asset/skin.ts:55) |
| Parts.ScaledRowFits | lib/asset/base.ts:345-350 | a part's rectangle scaled by m >= 0 lies inside the sheet scaled by m |
| Parts.PartsFitSheet | lib/asset/part.ts:152-249 | every rectangle of a known kind's table lies inside that kind's base sheet |
| Parts.GameskinRowFits | lib/asset/part.ts:168-215 | every GAMESKIN rectangle lies inside 1024×512 |
| Parts.BaseSizeDivisible | lib/asset/skin.ts:55-56 | every base sheet is a whole number of divisor cells (also lib/asset/gameskin.ts:5-6, lib/asset/emoticon.ts:7-8, lib/asset/particule.ts:7-8) |
| Parts.EmoticonGrid | lib/asset/part.ts:218-233 | emoticon i is the 128×128 square at column i % 4, row i / 4 |
| Parts.EmoticonSquareOnce | lib/asset/part.ts:218-233 | every square of the 4×4 grid holds exactly one emoticon |
| Parts.FindListed | lib/asset/part.ts:261-265 | a part listed on a row, and elsewhere only with the same rectangle, is found with that rectangle |
| Parts.FindAbsent | lib/asset/part.ts:261-265 | a part on no row is not found |
| Data.DataFor | src/asset.js:126-127 | a type name gives a table exactly when it is one of the data module's exports, and then that export's table |
| Data.Lookup | lib/asset.ts:183-201 | a name gives an element exactly when it is a key of the table, and then the value stored under it |
| Data.Keys | lib/asset.ts:203-210 | `Object.keys` lists the table's keys in order |
| Data.TablesFit | lib/data.ts:19-134 | every element of every table with a size, in both modules, has a positive size and lies inside the sheet (src/data.js:20-36 too) |
| Data.SizesMatchKinds | lib/data.ts:20-21 | each sheet size is a whole number of divisor cells and agrees with the base size and divisor of the asset kind of the same name (also lib/data.ts:39-40, 94-95, 117-118) |
| Data.NamedTablesMatchParts | lib/data.ts:22-90 | the SKIN and GAMESKIN elements are the part tables of lib/asset/part.ts:153-216: each part's row holds the part's string value and its rectangle |
| Data.GameskinNameMatches | lib/data.ts:42-89 | the GAMESKIN element on a part's row is keyed by the part's string value (lib/asset/part.ts:168-215) |
| Data.GameskinRectMatches | lib/data.ts:42-89 | the GAMESKIN element on row i has the rectangle of row i of the part table |
| Data.NumberedTablesMatchParts | lib/data.ts:96-133 | the EMOTICON and PARTICULE rectangles are those of the part tables, in the same order (lib/asset/part.ts:218-248) |
| Data.EmoticonKeys | lib/data.ts:96-113 | EMOTICON key k is the 128×128 square at column (k - 1) mod 4, row (k - 1) div 4 |
| Data.SrcSkinMatchesLib | src/data.js:20-36 | src/data.js SKIN has the size and elements of lib/data.ts SKIN (lib/data.ts:19-36) but no divisor |
| Data.ExportedTypes | src/data.js:45-47 | src/data.js knows the type "SKIN" only, GAMESKIN included among the unknown; lib/data.ts knows the four kinds (lib/data.ts:136) |
| Data.GameskinRowFits | lib/data.ts:38-91 | every lib/data.ts GAMESKIN rectangle is non-empty and lies inside 1024×512 |
| Data.EmoticonKeyOneDigit | lib/data.ts:96-113 | emoticon row i below 9 is keyed by the decimal of i + 1 and sits at column i mod 4, line i div 4 of 128-pixel squares |
| Data.EmoticonKeyTwoDigits | lib/data.ts:96-113 | the same for the rows keyed by two digits |
| Assets.Factor | lib/asset/part.ts:3-8 | every AssetHelpSize is at least 1 (1, 2, 4, 8) |
| Assets.MultiplierOf | lib/asset/base.ts:106-112 | `multiplier` fails with an AssetError exactly when the base width is 0, and otherwise is the w >= 0 with w·baseW = canvas width |
| Assets.PartRect | lib/asset/base.ts:345-350 | `getPartMetadata` fails with an AssetPartError when the table lookup does, with an AssetError when the base width is 0, and otherwise is the table entry scaled by the multiplier, with non-negative fields |
| Assets.MultiplierOfScaled | lib/asset/base.ts:106-127 | a canvas k times the base width has multiplier k |
| Assets.PartInsideCanvas | lib/asset/base.ts:345-350 | on a canvas with its kind's proportions, every part the asset finds lies inside the canvas |
| Assets.ScaledInsideCanvas | lib/asset/base.ts:345-350 | a rectangle inside the base sheet, scaled by the multiplier of a proportional canvas, lies inside the canvas |
| Assets.Region | lib/asset/base.ts:428-433 | `getImageData` and `putImageData` truncate the rectangle's coordinates |
| Assets.RectRewriteEffect | lib/asset/base.ts:428-456 | when no pixel throws, the pixels inside the rectangle are recoloured by the callback, the others are kept, and the canvas keeps its shape |
| Assets.PartRewriteEffect | lib/asset/base.ts:420-459 | a passing `_colorPart` found the part, recolours exactly the pixels inside its rectangle and keeps the canvas's shape |
| Assets.PartsRewriteOutside | lib/asset/base.ts:489-495 | `colorParts` keeps every pixel outside all the parts' rectangles, whether it fails or not |
| Assets.PartRewriteOutside | lib/asset/base.ts:420-459 | `_colorPart` keeps every pixel outside the part's rectangle, whether it fails or not |
| Assets.TintingNeverFails | lib/asset/base.ts:469-481 | with a colour in 0..255, `colorPart` never fails on a part the asset finds |
| Assets.TintingNeverFailsIn | lib/asset/base.ts:473-477 | grayscale then `applyColor` with a colour in 0..255 never throws on any rectangle |
| Assets.Asset.Minimal | lib/asset/base.ts:97-99 | a MinimalAsset holds its metadata and no canvas |
| Assets.Asset.constructor | lib/asset/base.ts:308-314 | an Asset holds its metadata and id, saves parts to '.', and has verification on |
| Assets.Asset.SetVerification | lib/asset/base.ts:322-326 | sets the verification flag and nothing else |
| Assets.Asset.SetName | lib/asset/base.ts:223-227 | sets the metadata's name and nothing else |
| Assets.Asset.SetPartSaveDirectory | lib/asset/base.ts:561-565 | sets the save directory and nothing else |
| Assets.Asset.LoadFromCanvas | lib/asset/base.ts:388-411 | refuses with a FileError a canvas whose sides are not multiples of the divisor while verification is on; otherwise takes the canvas and a snapshot of it (lib/asset/base.ts:164-171) |
| Assets.Asset.Empty | lib/asset/base.ts:120-127 | `empty(k)` loads a fresh transparent canvas of the base size times k, whose multiplier is then k |
| Assets.Asset.Multiplier | lib/asset/base.ts:106-112 | a zero base width is an AssetError; otherwise, before any canvas is loaded, a TypeError; with a canvas, MultiplierOf its width |
| Assets.Asset.GetPartMetadata | lib/asset/base.ts:345-350 | a part missing from the kind's table is an AssetPartError, loaded or not; a found part without a canvas fails as the multiplier does; with a canvas, PartRect |
| Assets.Asset.Scale | lib/asset/base.ts:134-157 | with no canvas loaded, a TypeError and nothing changes; `scale(k)` does nothing when the canvas already has the base size times k, and otherwise loads the resampled canvas of that size; the multiplier is then k |
| Assets.Asset.Restore | lib/asset/base.ts:235-240 | with no canvas loaded, a TypeError (`cloneCanvas` of undefined, lib/utils/canvas.ts:95-105); otherwise the canvas becomes a fresh copy of the load-time snapshot, which is kept, so a second restore gives the same pixels |
| Assets.Asset.ColorPartWith | lib/asset/base.ts:420-459 | `_colorPart` fails as the part lookup does when no canvas is loaded, and otherwise leaves the outcome and pixels PartRewrite gives: the part's rectangle through the callback |
| Assets.Asset.ColorPart | lib/asset/base.ts:469-481 | `colorPart` grays then tints the part; no canvas fails as the part lookup does; with a colour in 0..255 it fails exactly when the part lookup does, loaded or not |
| Assets.Asset.ColorParts | lib/asset/base.ts:489-495 | `colorParts` colours the parts left to right and stops at the first failure; with no canvas loaded the first part's lookup error, or Pass for no parts |
| Assets.Asset.SetColor | lib/asset/base.ts:503-510 | `setColor` colours every key of the kind's table in table order; an UNKNOWN kind throws a TypeError; with no canvas loaded the first key fails as the multiplier does; a MinimalAsset does nothing, loaded or not (lib/asset/base.ts:272-274) |
| Assets.Asset.GetPartCacheKey | lib/asset/base.ts:573-582 | the metadata's name is overwritten with id + name + '_' + part and the key is the hash of the new metadata |
| Assets.Asset.SavePart | lib/asset/base.ts:589-613 | the part's pixels are cut into a canvas of their own and cached under the new key unless that key is already cached |
| Assets.TableKeys | lib/asset/base.ts:508 | `Object.keys` of a table lists its keys in order |
| Assets.PartCacheName | lib/asset/base.ts:576-579 | the new name is longer than the old one |
| Assets.CacheNamesDiffer | lib/asset/base.ts:573-613 | two `getPartCacheKey` calls in a row never give the same name, so a repeated `savePart` of the same part misses the cache |
| Assets.EmptyAccepted | lib/asset/base.ts:120-127 | the asset of every kind accepts its own empty canvas at every help size |
| Assets.FitsProportionalCanvas | lib/asset/base.ts:388-397 | a rectangle inside the base sheet scaled by the multiplier of a canvas of the same proportions lies inside the canvas |
| Skins.Floored | lib/asset/skin.ts:135-139 | the floored colour keeps hue and saturation, has lightness at least 52.5 and at least the old one, and is either 52.5 or unchanged |
| Skins.FlooredTwice | lib/asset/skin.ts:137-139 | the floor is idempotent and keeps a valid HSL colour valid |
| Skins.SkinRect | lib/asset/skin.ts:134-152 | a skin part's rectangle has non-negative coordinates and sides |
| Skins.SkinRectFound | lib/asset/base.ts:345-350 | on a SKIN asset `getPartMetadata` finds every skin part, at its scaled SKIN row |
| Skins.ReorderedBodyEffect | lib/asset/skin.ts:193-256 | `reorderBody` remaps every pixel of the body rectangle around the body's mode and leaves every other pixel as it was |
| Skins.GrayingPasses | lib/asset/skin.ts:141-145 | the grayscale pass of skin `colorPart` never throws |
| Skins.SkinPartColouredTints | lib/asset/skin.ts:134-152 | so skin `colorPart` always reaches the tint, on the grayed and, for the body, re-weighted canvas |
| Skins.BeforeTintEffect | lib/asset/skin.ts:141-149 | before the tint every pixel of the part is grayed, and re-weighted for the body; every other pixel is kept |
| Skins.SkinPartColouredEffect | lib/asset/skin.ts:134-152 | with a tint in 0..255 skin `colorPart` never fails, turns every pixel of the part into the tinted prepared pixel, and keeps every other pixel |
| Skins.SkinPartColouredPasses | lib/asset/skin.ts:134-152 | with a tint in 0..255 skin `colorPart` never throws |
| Skins.SkinPartColouredOutside | lib/asset/skin.ts:134-152 | whatever the tint, skin `colorPart` keeps every pixel outside the part |
| Skins.SkinPartsPass | lib/asset/base.ts:489-495 | with a tint in 0..255 skin `colorParts` never throws |
| Skins.SkinPartsOutside | lib/asset/base.ts:489-495 | skin `colorParts` keeps every pixel outside all the parts, whether it throws or not |
| Skins.SkinTableParts | lib/data.ts:19-36 | the skin parts in SKIN table order, one per row |
| Skins.Skin.constructor | lib/asset/skin.ts:52-63 | a new Skin has the SKIN metadata, no canvas, orientation 0 and the default eyes |
| Skins.Skin.SetEyeAssetPart | lib/asset/skin.ts:71-75 | sets the eye part and nothing else |
| Skins.Skin.SetOrientation | lib/asset/skin.ts:89-97 | an angle outside [0, 360] is an AssetError that changes nothing; otherwise the orientation becomes the angle |
| Skins.Skin.LoadFromCanvas | lib/asset/skin.ts:120-132 | the base load, then a square render canvas of (96 + 12) times the multiplier; a refused canvas changes nothing |
| Skins.Skin.Scale | lib/asset/base.ts:134-157 | the base `scale` through the skin's `loadFromCanvas`; no canvas is a TypeError |
| Skins.Skin.ReorderBody | lib/asset/skin.ts:193-256 | the body buffer is re-weighted around its mode and put back over the cleared body rectangle; it never fails on a loaded skin, and throws a TypeError at the body lookup's multiplier on an unloaded one |
| Skins.Skin.ColorPart | lib/asset/skin.ts:134-152 | the argument's lightness is floored in place, loaded or not; with no canvas the graying throws a TypeError, otherwise the pixels become SkinPartColoured of the old pixels |
| Skins.Skin.ColorParts | lib/asset/base.ts:489-495 | each part in order through skin `colorPart` until one throws; the colour is floored once parts are given; with no canvas, a TypeError for any parts |
| Skins.Skin.SetColor | lib/asset/base.ts:503-510 | every SKIN table part in order through skin `colorPart`; with no canvas, a floored colour and a TypeError |
| Skins.ScaledMultiplier | lib/asset/skin.ts:120-132 | a canvas k times the skin sheet has render multiplier k |
| Skins.RenderHoldsBody | lib/asset/skin.ts:124-127 | the render canvas holds the scaled body with a margin of 6 multiplier units on each side |
| Skins.ProcessAngle | lib/asset/skin.ts:685-692 | a missing or zero argument falls back to the skin's orientation; the hammer is snapped to 240 or 300 |
| Skins.WeaponFlip | lib/asset/skin.ts:605-609 | the weapon is flipped exactly when looking left differs from being the hammer |
| Skins.FlipFollowsFacing | lib/asset/skin.ts:605-609 | with the hammer snap, every weapon is mirrored exactly when the tee looks left |
| Skins.SkinFull.constructor | lib/asset/skin.ts:429-447 | a 250×250 UNKNOWN MinimalAsset with an empty canvas, the hammer, emoticon part 1_1 and no emoticon |
| Skins.SkinFull.SetSkin | lib/asset/skin.ts:455-459 | keeps the skin scaled to 256×128; a skin with no canvas is a TypeError that changes nothing |
| Skins.SkinFull.SetWeapon | lib/asset/skin.ts:466-471 | sets the weapon and nothing else |
| Skins.SkinFull.SetGameskin | lib/asset/skin.ts:479-487 | keeps the scaled gameskin and the weapon when one is given; a failure keeps both |
| Skins.SkinFull.SetEmoticon | lib/asset/skin.ts:495-502 | keeps the scaled emoticon, then sets the part and the skin's eyes when a part is given; without a skin that step is a TypeError after the emoticon was kept |
| Skins.SkinFull.SetEmoticonPart | lib/asset/skin.ts:509-517 | keeps the part, then sets the skin's eyes to the emoticon's; without a skin that is a TypeError after the part was kept |
| Skins.SkinFull.ResetEmoticon | lib/asset/skin.ts:519-525 | drops the emoticon and puts the default eyes back; without a skin that is a TypeError |
| Skins.SkinFull.Process | lib/asset/skin.ts:674-704 | fails with a TypeError exactly when the skin or gameskin was never set; otherwise gives ProcessAngle and WeaponFlip of it |
| Elements.PasteWhole | lib/asset.ts:104-106 | pasting a whole buffer at the origin of a canvas of its size shows exactly the buffer |
| Elements.TwElement.constructor | lib/asset.ts:26-31 | an element holds its name and buffer and a fresh blank canvas of the buffer's size |
| Elements.TwElement.SetCanvas | lib/asset.ts:104-106 | afterwards the canvas shows the buffer |
| Elements.TwElement.Rewrite | lib/asset.ts:33-56 | the pixel loop: on success the buffer is Rewritten with the callback and shown; a throwing callback leaves the canvas as it was |
| Elements.TwElement.SetColorLib | lib/asset.ts:33-56 | the named ColorRGBA operation over every pixel: `blackAndWhite` and `applyColor` never fail with a colour in 0..255; `basicOperation`, which ColorRGBA lacks, throws a TypeError on any buffer holding a pixel; a throw leaves the canvas as it was |
| Elements.TwElement.SetColorMode | src/asset.js:19-47 | a mode missing from COLOR_MODE is refused with nothing touched; otherwise every pixel goes through the mode's operation and the canvas shows the buffer |
| Elements.TwElement.ReorderBody | lib/asset.ts:58-102 | the buffer is remapped around its own mode (most common gray to 192) |
| Elements.LibCallbackPasses | lib/asset.ts:33-56 | with a colour in 0..255 `blackAndWhite` and `applyColor` never throw on any buffer; `basicOperation` throws a TypeError exactly when the buffer holds a pixel |
| Drafts.UpperCaseSkin | lib/asset.ts:129 | the upper-cased type name is "SKIN" exactly when the name spells "skin" in any mix of cases |
| Drafts.ExportedSound | lib/data.ts:19-134 | every table either data module exports has a positive sheet size and every element inside it |
| Drafts.SrcDraftsKnowOnlySkin | src/asset.js:123-127 | the drafts under src/ refuse every type name but SKIN as an unknown type, whatever the image |
| Drafts.SrcAssetNeverLoads | src/asset.js:148-156 | src/asset.js never accepts an image: the SKIN table has no divisor, so the ratio test throws a TypeError once the image is read (src/data.js:20-36) |
| Drafts.LibRatioRule | lib/asset.ts:140-173 | every lib table has a divisor, and a known type's image is accepted exactly when `validRatio` is off or both sides are multiples of the divisor |
| Drafts.AspectRule | src/extractor.js:96-111 | src/extractor.js and src/lib.js accept a SKIN sheet exactly when it is twice as wide as high |
| Drafts.CutRegionWhole | lib/asset.ts:192-194 | at a whole multiplier the cut rectangle is the table rectangle scaled exactly |
| Drafts.ExtractRunFirst | lib/asset.ts:203-210 | an `extract` run is its first name's turn, then the rest unless that turn threw |
| Drafts.ExtractRunGrows | lib/asset.ts:203-210 | a run only appends distinct names of the table in first-asked order, and a passing run leaves every asked name among the keys |
| Drafts.ExtractRunPasses | lib/asset.ts:183-210 | on a loaded asset a run over table names passes; a name outside the table fails with the draft's unknown-element error, a TypeError in lib/asset.ts, whose `ElementError` is not exported |
| Drafts.ExtractAllRun | lib/asset.ts:212-219 | `extractAll` on a loaded asset passes and leaves every element of the table extracted |
| Drafts.ColorLimitForSkin | lib/asset.ts:231-237 | hue and saturation are kept; the lightness is at least the limit and at least the old one, and is one of the two |
| Drafts.ColorConvertLimits | lib/asset.ts:239-262 | past the format lookup, other types keep an RGB colour as given and SKIN always comes out of an HSL colour with lightness at least 52.5 |
| Drafts.ColorArg | lib/asset.ts:221-262 | the colour `setColor` reads from its text: always a TypeError for lib/asset.ts and src/asset.js, whose `COLOR_FORMAT` is not exported; for src/extractor.js a colour of bytes exactly when the RGB parser accepts, InvalidColor otherwise |
| Drafts.LibSetColorThrows | lib/asset.ts:264-285 | as written lib/asset.ts never recolours: the conversion throws a TypeError whatever the text, and `basicOperation` would throw on the first pixel of any element |
| Drafts.AssetJsSetColorThrows | src/asset.js:206-256 | as written src/asset.js never recolours: its conversion throws a TypeError, and src/color.js, which it loads, has no "grayscale" mode, which src/color.ts has |
| Drafts.RecolourOutcome | lib/asset.ts:271-282 | one turn of the loop fails only for a mode src/color.js does not know in src/extractor.js, and then touches nothing; the intended turns of lib/asset.ts and src/asset.js always pass |
| Drafts.ColourRunFirst | lib/asset.ts:271-282 | a `setColor` run is its first name's turn, then the rest unless that turn failed |
| Drafts.ColourRunPrefix | lib/asset.ts:271-282 | over distinct names, every name before the first unextracted one is recoloured exactly once, other buffers are kept, and the run fails there with the draft's not-extracted error (a TypeError in lib/asset.ts); over extracted names it passes |
| Drafts.ColourRunStep | lib/asset.ts:271-282 | one step of a run over an extracted name whose recolouring passes |
| Drafts.ColourAll | lib/asset.ts:287-291 | the loop of `setColorAll` in a passing mode recolours every extracted element exactly once |
| Drafts.ColourRefusedMode | src/extractor.js:177-186 | a mode src/color.js does not know stops the run at its first extracted name with nothing recoloured |
| Drafts.RecolourElement | lib/asset.ts:275-281 | the element's buffer becomes Recolour of the old buffer and the canvas shows it: the in-place loops agree with the loop body on values |
| Drafts.SkinRenderSize | lib/asset.ts:305-309 | a SKIN sheet at k times base size renders on a 108·k square: the 96·k body plus the margin |
| Drafts.RenderFileNameOfPath | lib/asset.ts:379 | without a name the render is named after the last segment of the image path |
| Drafts.MultiplierOf | lib/asset.ts:175-177 | the multiplier is non-negative and times the table width gives the image width |
| Drafts.Cutout | lib/asset.ts:183-201 | a cut exists exactly for names of the table and holds 4·w·h bytes |
| Drafts.OrderStore | lib/asset.ts:206 | storing under a key keeps the key order in step with the keys; a new key goes last |
| Drafts.CutsFromTrans | lib/asset.ts:203-210 | cuts made in two runs one after the other were made from the same canvas |
| Drafts.BuffersStore | lib/asset.ts:275-281 | replacing one element's buffer replaces it in the buffers by name |
| Drafts.TwAssetBase.constructor | lib/asset.ts:128-133 | the type is upper-cased, the path kept, no table, image, canvas, element or render |
| Drafts.TwAssetBase.Preprocess | lib/asset.ts:140-164 | the outcome is PreprocessOutcome: unknown type, then unloadable image, then refused ratio; on success the canvas shows the image and src/asset.js resets the elements |
| Drafts.TwAssetBase.Load | lib/asset.ts:146-164 | the table is stored, the image loaded and validated; the outcome is ImageOutcome |
| Drafts.TwAssetBase.ChangeSrc | lib/asset.ts:135-138 | the path becomes the file name, then `preprocess()` with the ratio checked |
| Drafts.TwAssetBase.GetMultiplier | lib/asset.ts:175-177 | the image width over the table width; before both are there src/lib.js gives 0 and the others throw a TypeError (src/lib.js:83-89) |
| Drafts.TwAssetBase.Cut | lib/asset.ts:183-201 | fails as CutFailure says (an unknown name is a TypeError in lib/asset.ts, InvalidElement in src/); a name already cut gives the stored element, another gives the scaled rectangle read off the canvas |
| Drafts.TwAssetBase.Extract | lib/asset.ts:203-210 | the new key order and the outcome are ExtractRun's, whose unknown-name error is the draft's; stored elements are kept and new ones are cut from the canvas |
| Drafts.TwAssetBase.ExtractName | lib/asset.ts:205-206 | one turn of the loop, as ExtractRun of one name, with the draft's error for an unknown name |
| Drafts.TwAssetBase.ExtractAll | lib/asset.ts:212-219 | no table is a TypeError; otherwise the run over the table's keys in table order |
| Drafts.TwAssetBase.SetColor | lib/asset.ts:264-285 | as written, lib/asset.ts and src/asset.js throw a TypeError before any element is looked at (their colour conversion reads an undefined `COLOR_FORMAT`); src/extractor.js refuses a text its parser rejects with InvalidColor and otherwise runs ColourRun over the parsed colour; only buffers change |
| Drafts.TwAssetBase.ColourName | lib/asset.ts:272-281 | one turn of the loop, as ColourRun of one name |
| Drafts.TwAssetBase.ColourNames | lib/asset.ts:271-282 | the loop past the conversion: the buffers by name become ColourRun's; only buffers change |
| Drafts.TwAssetBase.ColourAllElements | lib/asset.ts:287-291 | `setColorAll` past the conversion: a TypeError while `elements` is not an object, otherwise ColourRun over the keys, recolouring every element exactly once in a passing mode |
| Drafts.TwAssetBase.SetColorAll | lib/asset.ts:287-291 | throws a TypeError while `elements` is not an object, and as written always in lib/asset.ts and src/asset.js; otherwise ColourRun over the keys, recolouring every element once in a passing mode |
| Drafts.TwAssetBase.Render | lib/asset.ts:293-299 | only a SKIN renders; the body, shadows, foot and eye are extracted and the render canvas is the body's plus the margin |
| Drafts.TwAssetBase.SaveRender | lib/asset.ts:378-387 | with a render the file `render_<name>` is written; otherwise lib/asset.ts throws, src/asset.js returns undefined and src/extractor.js returns 84 |
| Changers.LibRectsAll | lib/changer.ts:32-45 | one pair of rectangles per destination |
| Changers.CopiesClearThenDraw | lib/changer.ts:32-54 | call 2i clears destination i's rectangle and call 2i+1 draws the origin into that very rectangle |
| Changers.CopiesLength | lib/changer.ts:32-54 | two calls per destination |
| Changers.LibChangeGrows | lib/changer.ts:24-57 | a lib/changer.ts run only appends to the calls it is given |
| Changers.LibChangePasses | lib/changer.ts:24-57 | with a destination, a run over a loaded source passes exactly when every name was extracted and is in the table, and then made two calls per name and destination; every failure is a TypeError (`InvalidElement` is not exported by lib/error.ts) |
| Changers.LibDestinationIsScaledTable | lib/changer.ts:33-45 | an element cut at the source multiplier lands on the table rectangle scaled by the destination's multiplier |
| Changers.ExtractorSourceUnscaled | src/changer.js:41-61 | src/changer.js reads the element at the table's unscaled corner with its scaled size, and draws it at that rectangle times the ratio of the image widths |
| Changers.ExtractorCopiesPass | src/changer.js:38-63 | over a loaded source whose keys are extracted names of the table the loop passes and only appends |
| Changers.LibJsDestinationIsScaledTable | src/lib.js:161-194 | with the source multiplier, src/lib.js draws each part onto the table rectangle scaled by the destination's multiplier |
| Changers.LibJsChangeGrows | src/lib.js:161-194 | a src/lib.js run passes exactly when there is a table and every name is in it, and only appends |
| Changers.TwAssetChanger.constructor | lib/changer.ts:8-22 | the changer holds its kind, source asset and destinations, and has drawn nothing |
| Changers.TwAssetChanger.CopyToDests | lib/changer.ts:32-54 | the calls grow by Copies: clear then draw, destination by destination |
| Changers.TwAssetChanger.ChangeTs | lib/changer.ts:24-57 | the calls made are LibChange's |
| Changers.TwAssetChanger.ChangeExtractor | src/changer.js:31-66 | the names are extracted first (a failure stops with nothing drawn), then every extracted element is copied, named or not |
| Changers.TwAssetChanger.CopyEntries | src/changer.js:38-63 | the calls made are ExtractorCopies' |
| Changers.TwAssetChanger.ChangeLibJs | src/lib.js:161-194 | the calls made are LibJsChange's, with the source multiplier |
| Boards.PositionSteps | lib/board.ts:32-39 | cell (0, 0) sits one gap in from the corner, and each next column or line one cell and one gap further |
| Boards.Capacity | lib/board.ts:50-56 | the grid holds maxRowCell·maxLineCell cells |
| Boards.InGridInsideBoard | lib/board.ts:41-48 | every cell inside the grid lies on the board of `getSize` |
| Boards.AdmitsInGridIsAdmits | lib/board.ts:58-65 | the intended position test is the written one without the column and line just past the grid |
| Boards.AdmitsPastEdge | lib/board.ts:58-65 | as written, a one-line board of five 210-wide cells admits column 5, drawn entirely off the board |
| Boards.AddOutcome | lib/board.ts:50-67 | `addCell` passes exactly when there is room and the written position test admits the cell; otherwise a BoardError |
| Boards.AddRunAppends | lib/board.ts:72-78 | the cells only grow, never past capacity; the run passes exactly when every cell was added, and then the cells are the old ones followed by the new ones |
| Boards.AddRunPrefix | lib/board.ts:72-78 | from a fuller board the same run never adds more |
| Boards.Centred | lib/board.ts:118-133 | a picture is drawn at its cell's corner plus half the room left on each axis |
| Boards.Fitted | lib/board.ts:89-103 | a picture is replaced by its resized copy only when wider or taller than a cell; the position is kept |
| Boards.OverviewAmount | lib/board.ts:160-162 | an amount outside 1..5 becomes 5, one inside is kept |
| Boards.OverviewCellsInside | lib/board.ts:166-194 | every overview cell passes both position tests and lies on the board |
| Boards.Board.constructor | lib/board.ts:27-30 | a board holds its configuration and no cell |
| Boards.Board.AddCell | lib/board.ts:50-70 | appends the cell when AddOutcome passes, else throws and changes nothing; duplicates are allowed |
| Boards.Board.AddCells | lib/board.ts:72-78 | the outcome and cells are AddRun's: added in order up to the first refusal |
| Boards.Board.Resize | lib/board.ts:89-103 | every cell becomes Fitted of its old self, in place |
| Boards.Board.Paste | lib/board.ts:118-133 | one draw per cell, in the order added, each Centred |
| Boards.Board.Process | lib/board.ts:105-137 | the canvas has the board's size and every picture, fitted when asked, is drawn centred in its cell |
| Boards.EyeLookup | lib/asset/part.ts:253-266 | an eye part reads its row of the skin table; a missing part (an EMOTES entry the enum lacks, read through `eyeAssetPart` at lib/asset/skin.ts:292-297) throws an AssetPartError |
| Boards.OverviewEyes | lib/board.ts:139-145 | every eye of the first n EMOTES entries exists exactly when n <= 2; from n = 3 on the third, `SkinPart.PAIN_EYE`, throws an AssetPartError; every intended eye is found |
| Boards.AddFrames | lib/board.ts:180-193 | frame i is added at column i while eye i is found; the loop passes exactly when every eye of the first n is found, and then the board holds the n frames in order; otherwise it throws the AssetPartError |
| Boards.Overview | lib/board.ts:166-194 | the loop over the first n eyes passes exactly when each is a part, and then draws frame i centred at column i of a board of n cells; otherwise it throws the AssetPartError and draws nothing |
| Boards.CreateSkinOverview | lib/board.ts:155-194 | as written, the overview is drawn exactly when n = OverviewAmount is at most 2; from 3 on, the default 5 included, it throws an AssetPartError and draws nothing |
| Boards.CreateSkinOverviewIntended | lib/board.ts:139-194 | with the sheet's third eye in place of the missing one, every amount gives a board of n cells, frame i drawn centred at column i |
| Caches.Put | lib/cache.ts:57-65 | a new key is added with the value and reported; an existing key keeps its value; no other key changes |
| Caches.FirstWriteWins | lib/cache.ts:57-65 | after a run of `set` calls a present key keeps its value, a new key holds its first write, and no unwritten key appears |
| Caches.Cache.constructor | lib/cache.ts:11-13 | a new cache holds no key |
| Caches.Cache.Exists | lib/cache.ts:23-25 | true exactly for the keys set since construction or the last reset |
| Caches.Cache.Get | lib/cache.ts:37-43 | null exactly for an absent key, otherwise the stored value |
| Caches.Cache.Set | lib/cache.ts:57-65 | answers true exactly on a new key; the key then reads the new value, or its old one if it was present; every other key reads as before |
| Caches.Cache.Reset | lib/cache.ts:72-76 | every key reads null afterwards |
| Caches.DoubleSetExample | lib/cache.test.ts:7-15 | the second `set('hello', ...)` answers false, 'hello' reads 'world' and 'unknown' reads null |
| Scenes.Entries | lib/scene.ts:54 | `Object.keys`/`Object.entries` throw exactly on null and undefined |
| Scenes.CheckScheme | lib/scene.ts:53-59 | `checkScheme` passes exactly when every key of the scheme is `size` or `actions`; a non-object throws a TypeError |
| Scenes.SchemeKeysExamples | lib/scene.ts:53-59 | an empty scheme and one with only `actions` pass; a third key is refused; null throws |
| Scenes.Scheme.constructor | lib/scene.ts:48-51 | a scheme holds its path and empty data (undefined in lib/scene.js) |
| Scenes.Scheme.Preprocess | lib/scene.ts:61-71 | the file wins over the given scheme; with neither it throws the scene error and keeps the data; then the keys are checked |
| Scenes.UnionUpdate | lib/scene.ts:117-120 | registering onto a table is a union with what was registered |
| Scenes.GetAction | lib/scene.ts:122-128 | an action comes back exactly for a registered string name, and it is the one registered |
| Scenes.CallResult | lib/scene.ts:92-97 | the call passes exactly when the arguments have keys and every needed name is among them; otherwise a TypeError or the scene error |
| Scenes.LookupRemove | lib/scene.ts:99-102 | deleting another key leaves a read alone |
| Scenes.NamesRemove | lib/scene.ts:101 | deleting a key keeps the other names and brings no new one |
| Scenes.RemoveAbsent | lib/scene.ts:101 | deleting an absent key changes nothing |
| Scenes.RemoveValues | lib/scene.ts:101-104 | deleting a present key of distinct keys takes out exactly its value |
| Scenes.ArrangePermutes | lib/scene.ts:92-107 | the call passes the needed values in declared order, then the others, and the arguments are a permutation of the object's values |
| Scenes.Actions.constructor | lib/scene.ts:113-115 | no action is registered |
| Scenes.Actions.Add | lib/scene.ts:117-120 | a later action of the same name replaces the earlier one |
| Scenes.LookupPut | lib/scene.ts:99-102 | writing an existing key changes the read of that key only |
| Scenes.PutSame | lib/scene.ts:99-102 | writing back a key's own value changes nothing |
| Scenes.NamesRemoveAll | lib/scene.ts:99-102 | after the needed names are deleted, the names left are the old ones that were not needed |
| Scenes.Consumed | lib/scene.ts:99-104 | a called object keeps exactly its names that were not needed; anything else is left as it was |
| Scenes.Actions.Call | lib/scene.ts:92-107 | the result is CallResult; a passing call leaves the caller's `args` object without its needed names (Consumed), a throwing one leaves it as it was |
| Scenes.Actions.TryCall | lib/scene.ts:130-136 | nothing for an unknown name, else the action's method with the arranged arguments, or the call's error; the `args` object is left Consumed exactly when the call passes |
| Scenes.ExecStep | lib/scene.ts:234-238 | one item of a run: a throw ends it with that item and the rest untouched, a skipped item is kept, a call appends and leaves the item with its arguments consumed |
| Scenes.LeftItem | lib/scene.ts:91-107 | an item whose action took needed arguments from an `args` object throws "Missing args" when called again; any other called item is left as it was |
| Scenes.SecondRunFails | lib/scene.ts:231-241 | after a run that passed, running the scheme's items again throws the scene error as soon as one action had taken needed arguments |
| Scenes.WithOwnActions | lib/scene.ts:232 | writing back a scheme's own action list changes nothing |
| Scenes.ExecRunCalls | lib/scene.ts:231-241 | an `execScheme` run only appends, at most one call per item, each to a registered method |
| Scenes.ExecRunUnknown | lib/scene.ts:234-238 | items that name no registered action make no call |
| Scenes.LineSteps | lib/scene.ts:281-291 | the loop draws something exactly when the start is at or before the end on both axes, and then starts at the start |
| Scenes.LineInside | lib/scene.ts:281-291 | every block of the loop lies between the start and the end |
| Scenes.LineStride | lib/scene.ts:288-290 | each block is one turn of the loop after the one before: x moves by w while below dx, y by h while below dy |
| Scenes.LinePoints | lib/scene.ts:264-291 | the same start and end throw the scene error; blocks lie in the box of the two points; one coordinate past adds nothing; both past draw the line from the end |
| Scenes.RowIndex | lib/scene.ts:318-320 | a row holds x, x + w, ... while below dx and nothing from dx on |
| Scenes.GridCons | lib/scene.ts:317-321 | a row on top of a grid one row lower is a grid |
| Scenes.SquareIndex | lib/scene.ts:307-322 | `addSquare`'s blocks are the grid points from the top-left corner strictly above and left of the bottom-right one, row after row |
| Scenes.Blocks | lib/scene.ts:294-305 | one block per point |
| Scenes.BlocksIndex | lib/scene.ts:294-305 | block i is drawn at point i with the source's size |
| Scenes.BlocksAppend | lib/scene.ts:294-305 | the blocks of two runs of points are the blocks of each, in order |
| Scenes.WalkStep | lib/scene.ts:281-291 | one turn of the loop adds the block at the current point, then the blocks of the points after it |
| Scenes.CanvasCache.constructor | lib/scene.js:11-14 | an empty cache |
| Scenes.CanvasCache.GetCanvas | lib/scene.js:24-32 | null exactly for an unknown key, else the stored canvas |
| Scenes.CanvasCache.AddCanvas | lib/scene.js:16-22 | a key already there keeps its canvas; a new one is stored |
| Scenes.CanvasSizeOf | lib/scene.ts:217-223 | reading `size.w` throws exactly when the size is null or missing |
| Scenes.MissingSizeCrashes | lib/scene.ts:53-71 | a scheme without a size passes the key check, then `initCanvas` throws |
| Scenes.Scene.constructor | lib/scene.ts:148-153 | a scene holds a fresh scheme for the path, no action and no part |
| Scenes.Scene.Register | lib/scene.ts:159-209 | the six actions are registered onto the table |
| Scenes.Scene.Preprocess | lib/scene.ts:155-215 | the scheme, the six actions, then the canvas at `size.w` by `size.h`; a missing size throws there |
| Scenes.Scene.ExecItem | lib/scene.ts:234-238 | one turn of the loop gives ItemCall: the keys checked, then `tryCall` with the item's name and arguments |
| Scenes.Scene.RunItems | lib/scene.ts:233-238 | the loop's calls are ExecRun's and the items it leaves are ExecItems' |
| Scenes.Scene.ExecScheme | lib/scene.ts:231-241 | the calls are ExecRun's over the scheme's actions, and the scheme's action list becomes the items the calls leave (ExecItems); a missing action list is a TypeError with no call and no change |
| Scenes.Scene.AddBlock | lib/scene.ts:294-305 | one part is appended |
| Scenes.Scene.Walk | lib/scene.ts:281-291 | the parts grow by the blocks of LineSteps |
| Scenes.Scene.AddLine | lib/scene.ts:258-292 | the parts grow by the blocks of LinePoints, or the scene error is thrown with nothing added |
| Scenes.Scene.AddRow | lib/scene.ts:318-320 | the parts grow by the blocks of one row |
| Scenes.Scene.AddSquare | lib/scene.ts:307-322 | the parts grow by the blocks of the square's grid, rows outer, columns inner |
| Scenes.Scene.DrawParts | lib/scene.ts:246-255 | one draw per part, in the order added |
| Scenes.RandomIndexSkipsLast | lib/scene.ts:327 | the index `setRandomBackground` draws is in range but never the last background's |
| Scenes.IntendedIndexCovers | lib/scene.ts:327 | the intended draw is in range and reaches every background |
| SceneBlocks.Plus | src/scene.js:133-136 | `a + b` is a number exactly when both sides are, and then their sum |
| SceneBlocks.Default | src/scene.js:140 | an undefined argument takes the parameter default, another one is kept |
| SceneBlocks.OwnProperties | src/scene.js:47-75 | nine properties in creation order, `path` first |
| SceneBlocks.WithoutPath | src/scene.js:77-85 | no property left is `path` |
| SceneBlocks.WithoutPathKeeps | src/scene.js:77-85 | filtering keeps every other property, in order |
| SceneBlocks.ValuesOfIndex | src/scene.js:77-85 | the values come in the order of the properties |
| SceneBlocks.ParametersOrder | src/scene.js:77-85 | the parameters are sx, sy, sw, sh, dx, dy, dw, dh, as `drawImage` takes them |
| SceneBlocks.FromParameters | src/scene.js:240 | a block read back from parameters has the path it was given |
| SceneBlocks.ParametersRoundTrip | src/scene.js:77-85 | drawing a block's parameters draws exactly that block |
| SceneBlocks.StepsJs | src/scene.js:124-137 | the loop visits something exactly when the start is at or before the end on both axes |
| SceneBlocks.StepBlocks | src/scene.js:125-129 | one block per point visited |
| SceneBlocks.StepsJsNum | src/scene.js:124-137 | on numbers and positive steps the loop visits the points of the lib/scene.js line |
| SceneBlocks.TilesIndex | src/scene.js:125-129 | block i is cut at (ssx, ssy) with size (w, h) and drawn at point i with that size |
| SceneBlocks.IntendedLineShape | src/scene.js:116-138 | the intended line throws exactly for the same start and end; every block is cut at (ssx, ssy) and drawn, with the same size, between the two corners |
| SceneBlocks.LineAsIntended | src/scene.js:116-138 | unless both start coordinates are past the end, the line as written adds the intended line's blocks, and throws exactly where the intended line does, with a TypeError for its InvalidScene |
| SceneBlocks.LineSwappedAsWritten | src/scene.js:116-122 | with both start coordinates past the end, the line as written adds at most one block, of undefined size, and throws a TypeError when the start equals (w, h) |
| SceneBlocks.SwappedLineLost | src/scene.js:122 | from (5, 5) back to (0, 0) in steps of 1 the line as written adds nothing; the intended line has six blocks |
| SceneBlocks.SwappedLineThrows | src/scene.js:122 | from (5, 5) back to (0, 0) in steps of 5 the line as written throws a TypeError; the intended line has two blocks |
| SceneBlocks.TwSceneBlocks.constructor | src/scene.js:90-93 | no block is queued |
| SceneBlocks.TwSceneBlocks.AddBlock | src/scene.js:95-108 | one block is appended |
| SceneBlocks.TwSceneBlocks.Reset | src/scene.js:110-113 | the queue is empty |
| SceneBlocks.TwSceneBlocks.Walk | src/scene.js:124-137 | the queue grows by StepBlocks of StepsJs |
| SceneBlocks.TwSceneBlocks.AddLine | src/scene.js:116-138 | the queue grows by LineJs's blocks, seven-argument recursive call included; the same start and end throw a TypeError (`InvalidScene` is not exported by src/error.js) and a throw adds nothing |
| SceneBlocks.TwSceneBlocks.AddLineIntended | src/scene.js:116-138 | the queue grows by IntendedLine's blocks; the same start and end are refused with InvalidScene and add nothing |
| SceneBlocks.TwSceneBlocks.SetBackground | src/scene.js:155-162 | one block: the whole w×h image over the scene, 640×384 unless given |
| SceneBlocks.TwSceneBlocks.SetRandomBackground | src/scene.js:140-153 | always a TypeError with nothing queued: `listFile` is destructured from src/utils.js, which does not export it (src/utils.js:48-53) |
| SceneBlocks.CanvasCache.constructor | src/scene.js:17-20 | an empty cache |
| SceneBlocks.CanvasCache.GetCanvas | src/scene.js:33-44 | null exactly for a missing key, or when the width differs and h is defined, since the misspelt height is undefined |
| SceneBlocks.CanvasCache.AddCanvas | src/scene.js:22-31 | a key already there keeps its canvas |
| SceneBlocks.GetCanvasWithoutHeight | src/scene.js:213-227 | without a height every stored key is found, whatever the width |
| SceneBlocks.DrawRunDraws | src/scene.js:232-243 | a passing run draws one call per block in order with its parameters; the cache keeps what it had and holds every drawn path; a failure is InvalidFile |
| SceneBlocks.DrawRunPasses | src/scene.js:232-243 | when every path is cached or loadable the run passes |
| SceneBlocks.RenderRunCallbacks | src/scene.js:266-287 | every callback called is a key of `resolveCallback`, and each `addTee` comes right after a `drawBlocks` |
| SceneBlocks.RenderRunPasses | src/scene.js:269-284 | a run passes exactly when no action is null or undefined and every action naming a callback has `args` that spread (an array or a string); every other run throws a TypeError |
| SceneBlocks.RenderRunSkips | src/scene.js:274-275 | actions naming no callback take no step |
| SceneBlocks.IsValidMapres | src/scene.js:184-192 | the flag is 1 exactly for a 1024×1024 image and 0 otherwise |
| SceneBlocks.TwSceneMaker.constructor | src/scene.js:167-182 | a 640×384 canvas unless given, empty queue and cache |
| SceneBlocks.TwSceneMaker.DrawBlocks | src/scene.js:232-243 | the draws and cache are DrawRun's; a passing run empties the queue, a failed one keeps it |
| SceneBlocks.TwSceneMaker.PasteCanvas | src/scene.js:297-305 | one draw of the whole canvas at the destination |
| SceneBlocks.TwSceneMaker.AddTee | src/scene.js:250-263 | a tee that failed to load or render is skipped; otherwise its render is pasted |
| SceneBlocks.TwSceneMaker.RenderFromScheme | src/scene.js:266-287 | the steps are RenderRun's followed by a last `drawBlocks`; a missing block list, a null action or `args` that do not spread throw a TypeError |
| Fixes.ClosestNatural | lib/utils/util.ts:49-65 | `closestNumber` of a natural number by a positive one is a natural number, the nearest multiple |
| Fixes.FixedHeight | lib/fix.ts:22-25 | the fixed height is a multiple of the base height, as `closestNumber` gives it |
| Fixes.RatioTimesMultiple | lib/fix.ts:27-28 | the base ratio times k base heights is k base widths |
| Fixes.FixedSize | lib/fix.ts:17-28 | the fixed width is non-negative and the fixed height a multiple of the base height |
| Fixes.ScaledSize | lib/fix.ts:27-28 | for a multiple of the base height the size is that many base sizes |
| Fixes.FixedSizeScalesBase | lib/fix.ts:17-28 | the fixed size is k times the base size, k the fixed height over the base height |
| Fixes.FixedHeightNearest | lib/fix.ts:22-25 | no multiple of the base height is nearer the canvas height than the fixed height |
| Fixes.FixedSizeVanishes | lib/fix.ts:17-28 | a canvas under half the base height is fixed to 0 by 0 |
| Fixes.FixedSizeOfMultiple | lib/fix.ts:17-28 | a canvas of k base heights gets k base sizes |
| Fixes.FixedSizeMovesHeight | lib/fix.ts:30-36 | a height off the base height's multiples always gets a new canvas |
| Fixes.FixAssetSize | lib/fix.ts:12-52 | false with the canvas kept when the fixed size is the canvas's own; otherwise a fresh canvas of the fixed size holding the resampled old one, and true |
| Fixes.GoodSizeKept | lib/fix.test.ts:13-19 | a canvas of k times the base size is kept |
| Fixes.AndAssign | lib/fix.js:25-34 | `&=` leaves the number 1 when both sides hold and 0 otherwise |
| Fixes.FixedSide | lib/fix.js:29-30 | a fixed side is a multiple of the divisor |
| Fixes.FixedSideKeeps | lib/fix.js:29-33 | a side is kept exactly when it is already a multiple of the divisor |
| Fixes.FixedFlagMeaning | lib/fix.js:23-35 | the flag is the number 1 exactly for an image of a good format, and never `true` |
| Fixes.TwAssetFix.constructor | lib/fix.js:9-16 | the fix holds its path, divisor and loaded canvas, with no fixed size yet |
| Fixes.TwAssetFix.GetFixedSize | lib/fix.js:23-35 | each side is rounded to the nearest multiple of the divisor and the flag is FixedFlag |
| Fixes.TwAssetFix.Fix | lib/fix.js:37-53 | as written it never refuses, since the flag is never `=== true`, and always builds the resampled fixed canvas |
| Fixes.TwAssetFix.FixIntended | lib/fix.js:37-53 | an image already of a good format is refused with InvalidAsset and nothing is built; otherwise the fixed canvas is built |
| Fixes.GoodFormatNotRefused | lib/fix.js:39-40 | a 256×128 skin with divisor 8×4 has a good format, yet `fix` as written does not refuse it |

## Left out

- File and network I/O: `load`, `loadFromPath`, `loadFromUrl`, `save`, `saveAs`, `saveRender`'s file write, `saveScene`, `saveInDir`, `listFile`, lib/utils/files.ts and the reading of JSON schemes. Loaded images, the length of a folder listing and parsed schemes are parameters, and a file write is recorded as a value.
- Raster operations of the canvas library: `drawImage` resampling, `clearRect` and the rotate/flip/scale/crop/resize helpers. Draws and clears are recorded as values, and resampled pixels are parameters.
- Render geometry and trigonometry: the compositing offsets and factors of `render`, `positionFromAngle`, `Math.hypot`, the hand and weapon placement and the emoticon overlay (lib/asset/skin.ts:282-385, 532-667). Only the angle and the mirroring of the weapon are modelled.
- Foreign and non-deterministic calls: RGB↔HSL conversion of the color-convert package, the MD5 of `hashCacheKey`, the uuid of an asset and `Math.random` are parameters.
- Names imported but not defined in the library's files: `TEE_WEAPON_METADATA`, `getEyesFromEmoticon` and `BLINK_SCALE` are parameters or left out. `listFile` of src/scene.js is not exported by src/utils.js, so `SceneBlocks.TwSceneBlocks.SetRandomBackground` always throws. `colorBody` and `colorTee` are left out because they name `SkinPart.PAIN_EYE`, which the `SkinPart` enum lacks. The same missing name in `createSkinOverview`'s EMOTES is modelled (`Boards.Emotes`).
- `setHat` of lib/asset.ts and src/asset.js, and the UI files (lib/card.ts, lib/card.js, src/card.ts, lib/textBox.ts), because they rest on image loading, compositing and font metrics.
- lib/asset.js is not part of this model. `Fixes.TwAssetFix` takes the loaded image and the divisor as its constructor's arguments instead of inheriting them from it.
- Asynchrony: `await` is dropped and everything runs in program order. The un-awaited recursive `addLine` of lib/scene.ts:273 and lib/scene.js:283 is treated as finishing before the loop that follows it.
- lib/scene.ts and lib/scene.js `setRandomBackground`, `addTee`, `setBackground` and `getCanvasFromCache` load images and are left out; only the index `setRandomBackground` draws is modelled (`Scenes.RandomIndex`). `Scenes.Scene.ExecScheme` records the calls it makes without running them, and so does `SceneBlocks.TwSceneMaker.RenderFromScheme`, which models the spread of `args` (an array or a string spreads, anything else throws a TypeError) but not what the called method then does with them.
- Scenes.Consumed: deleting needed names from an array or a string `args` is not modelled, since the registered actions' needed names are words, never indices. One `args` object shared by two action items is not captured either; each item's deletions land on its own copy.
- Drafts.ColorConvertLimits, Drafts.RecolourOutcome, Drafts.ColourRunPrefix, Drafts.ColourAll: for lib/asset.ts and src/asset.js these state the intended recolouring loop, which the code as written never reaches (`Drafts.LibSetColorThrows`, `Drafts.AssetJsSetColorThrows`).
- Assets.Asset.SetName, Assets.Asset.GetPartCacheKey: the model gives each asset its own metadata record. lib/asset/gameskin.ts:4-13 shares one module-level GAMESKIN_METADATA object between all gameskins, and lib/asset/base.ts:97-99 stores it by reference, so renaming one gameskin renames them all; that aliasing is not captured.
- Assets.Asset.constructor: stores a copy of the metadata, not the shared object of the gameskin module, for the same reason.
- Changers.TwAssetChanger.ChangeExtractor: requires a preprocessed source. A `change` before `preprocess` is `Object.entries(undefined)` at src/changer.js:38, a TypeError, which is not modelled.
- Drafts.TwAssetBase.SetColorAll: the key order is the order of extraction. `Object.keys` would list integer-like keys (the numbered parts of the EMOTICON and PARTICULE tables) first, in ascending order; that reordering is not modelled.
- Floating point: channels, HSL values and multipliers are exact reals. `Math.trunc` of a double quotient can differ from exact truncation at integer boundaries.
- Element objects of the drafts are values in a map. Sharing of one element object between two holders, and changes through such an alias, are not captured. The in-place buffer loops are modelled on `Elements.TwElement`, and `Drafts.RecolourElement` ties the two.
- Skins.Skin.ColorParts: the loop of `colorParts` is a recursion over the part list, not a `for` loop.
- Skins.Skin.ColorPart: modelled for a `ColorHSL` argument only, whose lightness the source floors in place; other colour classes go through a conversion that is a parameter.
- Scenes.Scene.Walk, Scenes.Scene.AddLine, Scenes.Scene.AddRow, Scenes.Scene.AddSquare: require positive block sizes for all inputs, including ones on which the source terminates (an empty range, or a zero size on the axis that is not stepped). A zero or negative step on a nonempty range never ends the source's loop.
- SceneBlocks.TwSceneBlocks.AddLine, SceneBlocks.TwSceneBlocks.AddLineIntended: require positive (or, as written, `undefined`) steps for all inputs, including ones on which the source terminates, for the same reason.
- Changers.TwAssetChanger.ChangeTs: requires a positive source image width, because a zero width divides by zero.
- Fixes.FixAssetSize: requires a positive base height and a loaded canvas. Without them the source divides by zero or crashes on `undefined`.
- Fixes.TwAssetFix.constructor: requires a positive divisor. For a zero divisor `closestNumber` gives NaN, which is not modelled.
- Scenes.ActionItems: a value that is neither an array nor a string is treated as throwing when `for..of` iterates it, and a non-string action name never matches a registered action.
- SceneBlocks.CanvasCache.GetCanvas: models the `heigth` misspelling of src/scene.js:38 as written.
- Utils.ClosestNumber: the `n * m > 0` sign test is stated as a test of both signs, and `m * (q ± 1)` as `n1 ± m`. The two are equal in exact arithmetic.
- Colors.TwCodeExample: lib/color.test.ts:19-22 expects 7929728 for `ColorHSL(169, 100, 75)`, while lib/color.ts:193-202 gives 7864190. The model follows the code. That test file also imports a `ColorTwCode` that lib/color.ts does not export.
- lib/fix.test.ts calls a `skin.load` that lib/asset/base.ts does not define. Its two cases are stated on the canvas sizes instead (`Fixes.GoodSizeKept`, `Fixes.FixedSizeMovesHeight`).

## Findings

| source | as written | input that shows it | evidently intended | confidence | as-written member | corrected member |
|---|---|---|---|---|---|---|
| lib/board.ts:58-65 | `addCell` refuses only x > maxRowCell and y > maxLineCell, so the column and the line just past the grid are accepted | a one-line board of five 210 by 175 cells with gaps 1 and 20: cell (5, 0) is accepted and drawn at x = 1056 on a board 1056 wide | accept columns 0 to maxRowCell − 1 and lines 0 to maxLineCell − 1, whose cells all lie on the board | not executed | Boards.AdmitsPastEdge | Boards.InGridInsideBoard |
| src/scene.js:122 | the swapped recursive `addLine` passes seven arguments to a nine-parameter method, so the end point lands in `dx`/`dy` and the steps become `undefined` | `addLine(p, 0, 0, 5, 5, 0, 0, 1, 1)` adds no block, and with steps 5 it throws a TypeError (src/scene.js:119 names an `InvalidScene` that src/error.js does not export) | add the line from the end to the start, with the path, the source corner and both steps passed on | not executed | SceneBlocks.SwappedLineLost | SceneBlocks.IntendedLineShape |
| lib/scene.ts:327 | the background index is `Math.floor(Math.random() * (backgrounds.length - 1))` | two backgrounds: the index is always 0, so the second is never chosen | `Math.floor(Math.random() * backgrounds.length)`, which reaches every background | not executed | Scenes.RandomIndexSkipsLast | Scenes.IntendedIndexCovers |
| lib/board.ts:142 | EMOTES holds `SkinPart.PAIN_EYE`, which the `SkinPart` enum of lib/asset/part.ts:35-48 lacks, so the third eye is `undefined`, `render` falls back to the unset eye part and `getAssetPartMetadata` throws | `createSkinOverview(skin, gameskin)` with the default amount 5 throws an AssetPartError at i = 2 | the sheet's third eye, the pain eye, which the enum names BLINK_EYE (lib/asset/part.ts:162) | not executed | Boards.OverviewEyes | Boards.CreateSkinOverviewIntended |
| lib/fix.js:32-40 | `ret &=` turns the flag into the number 1 or 0, and `fix` refuses only when it is `=== true`, which never holds | a 256 by 128 skin with divisor 8 by 4 already has a good format, yet `fix` goes on and builds a new canvas | refuse an image already of a good format with InvalidAsset | not executed | Fixes.GoodFormatNotRefused | Fixes.TwAssetFix.FixIntended |
| lib/asset.ts:221-285 | `colorConvert` reads `COLOR_FORMAT`, which lib/color.ts does not export, and the loop calls `basicOperation`, which `ColorRGBA` lacks; a missing element throws an `ElementError` that lib/error.ts does not export | `setColor("255, 0, 0", "rgb", "body")` on an extracted skin throws a TypeError before any pixel changes | parse the text by its format, then per element turn it gray and tint it with the colour | not executed | Drafts.LibSetColorThrows | Drafts.ColourAll |
| src/asset.js:206-264 | `require("./color")` loads src/color.js, which exports no `COLOR_FORMAT`, so `Object.keys(COLOR_FORMAT)` throws; src/color.js also has no "grayscale" mode | `setColor("255, 0, 0", "rgb", "body")` throws a TypeError | use the formats and the "grayscale" mode of src/color.ts | not executed | Drafts.AssetJsSetColorThrows | Drafts.ColourAll |

=== FILE: assets.dfy ===
// The asset of lib/asset/base.ts: a canvas loaded under size rules, its
// snapshot for `restore`, the multiplier that scales the part table to the
// canvas, the per-part recolouring loop `_colorPart` and its callers, and the
// memoised `savePart`.

module Assets {
  import opened Results
  import opened Numbers
  import opened Colors
  import opened Parts
  import opened Pixels
  import opened Caches

  datatype Dimensions = Dimensions(w: nat, h: nat)

  /** `IAssetMetadata`: base sheet size, divisor, kind and the optional
      name. */
  datatype Metadata = Metadata(baseSize: Dimensions, divisor: Dimensions, kind: AssetKind, name: Option<string>)

  /** `DEFAULT_METADATA` (base.ts:42-46). */
  const DefaultMetadata: Metadata := Metadata(Dimensions(1, 1), Dimensions(1, 1), Unknown, None)

  /** The metadata each one-constructor subclass passes (skin.ts:54-58 and the
      gameskin, emoticon and particule classes). */
  function KindMetadata(kind: AssetKind): Metadata
  {
    Metadata(Dimensions(BaseWidth(kind), BaseHeight(kind)), Dimensions(DivisorWidth(kind), DivisorHeight(kind)), kind, None)
  }

  /** `AssetHelpSize`: the factors an asset can be emptied or scaled to. */
  datatype HelpSize = Default | MiniHd | Hd | FourK

  function Factor(k: HelpSize): (f: nat)
    ensures f >= 1
  {
    match k
    case Default => 1
    case MiniHd => 2
    case Hd => 4
    case FourK => 8
  }

  // ---------------------------------------------------------------------------
  // Multiplier and part rectangles

  /** `multiplier`: the canvas width over the base width, refused when the
      base width is 0. */
  function MultiplierOf(md: Metadata, width: nat): (r: Result<real>)
    ensures r.Err? <==> md.baseSize.w == 0
    ensures r.Err? ==> r.error == AssetError
    ensures r.Ok? ==> r.value >= 0.0 && r.value * md.baseSize.w as real == width as real
  {
    if md.baseSize.w == 0 then Err(AssetError)
    else
      DivNonNeg(width as real, md.baseSize.w as real);
      Ok(width as real / md.baseSize.w as real)
  }

  /** `getPartMetadata(part)`: the table entry, looked up first, scaled by the
      multiplier; an unknown kind or a part outside the kind's table fails with
      AssetPartError, a zero base width with AssetError. */
  function PartRect(md: Metadata, width: nat, part: AssetPart): (r: Result<Rect>)
    ensures r.Ok? <==> GetAssetPartMetadata(md.kind, part).Ok? && md.baseSize.w != 0
    ensures GetAssetPartMetadata(md.kind, part).Err? ==> r == Err(AssetPartError)
    ensures GetAssetPartMetadata(md.kind, part).Ok? && md.baseSize.w == 0 ==> r == Err(AssetError)
    ensures r.Ok? ==> r.value == ScaleMetadata(GetAssetPartMetadata(md.kind, part).value, MultiplierOf(md, width).value)
    ensures r.Ok? ==> 0.0 <= r.value.x && 0.0 <= r.value.y && 0.0 <= r.value.w && 0.0 <= r.value.h
  {
    var found := GetAssetPartMetadata(md.kind, part);
    if found.Err? then Err(found.error)
    else if md.baseSize.w == 0 then Err(AssetError)
    else
      var m := MultiplierOf(md, width).value;
      var rect := found.value;
      ScaledRowFits(part, m);
      Ok(ScaleMetadata(rect, m))
  }

  /** The canvas size `empty(k)` and `scale(k)` aim for. */
  function ScaledSize(md: Metadata, k: HelpSize): (nat, nat)
  {
    (md.baseSize.w * Factor(k), md.baseSize.h * Factor(k))
  }

  /** A canvas k times the base width has multiplier k. */
  lemma MultiplierOfScaled(md: Metadata, f: nat)
    requires md.baseSize.w != 0
    ensures MultiplierOf(md, md.baseSize.w * f) == Ok(f as real)
  {
    var b := md.baseSize.w as real;
    assert (md.baseSize.w * f) as real == b * f as real;
    assert b * f as real / b == f as real;
  }

  /** On a canvas with the proportions of its kind's sheet, every part the
      asset finds lies inside the canvas. */
  lemma PartInsideCanvas(kind: AssetKind, width: nat, height: nat, part: AssetPart)
    requires kind != Unknown && height * BaseWidth(kind) == width * BaseHeight(kind)
    requires PartRect(KindMetadata(kind), width, part).Ok?
    ensures FitsIn(PartRect(KindMetadata(kind), width, part).value, width as real, height as real)
  {
    RowFits(part);
    ScaledInsideCanvas(BaseWidth(kind), BaseHeight(kind), width, height, PartRow(part));
  }

  /** A rectangle inside a base sheet, scaled by the multiplier of a canvas of
      the sheet's proportions, is inside the canvas. */
  lemma ScaledInsideCanvas(bw: nat, bh: nat, width: nat, height: nat, rect: Rect)
    requires bw > 0 && height * bw == width * bh
    requires FitsIn(rect, bw as real, bh as real)
    ensures FitsIn(ScaleMetadata(rect, width as real / bw as real), width as real, height as real)
  {
    var m := width as real / bw as real;
    DivNonNeg(width as real, bw as real);
    assert m * bw as real == width as real;
    ScaleKeepsFit(rect, bw as real, bh as real, m);
    FitsProportionalCanvas(ScaleMetadata(rect, m), bw, bh, width, height, m);
  }

  /** A rectangle inside the base sheet scaled by the multiplier of a canvas
      of the same proportions is inside the canvas. */
  lemma FitsProportionalCanvas(s: Rect, bw: nat, bh: nat, width: nat, height: nat, m: real)
    requires bw > 0 && height * bw == width * bh && m * bw as real == width as real
    requires FitsIn(s, bw as real * m, bh as real * m)
    ensures FitsIn(s, width as real, height as real)
  {
    assert height as real * bw as real == width as real * bh as real;
    assert (bh as real * m) * bw as real == (m * bw as real) * bh as real;
  }

  /** The integer rectangle `getImageData` and `putImageData` work on: the
      coordinates are truncated. */
  function Region(r: Rect): (g: (int, int, nat, nat))
    requires r.w >= 0.0 && r.h >= 0.0
    ensures g.0 == Trunc(r.x) && g.1 == Trunc(r.y) && g.2 == Trunc(r.w) && g.3 == Trunc(r.h)
  {
    (Trunc(r.x), Trunc(r.y), Trunc(r.w), Trunc(r.h))
  }

  predicate InRegion(r: Rect, i: int, j: int)
    requires r.w >= 0.0 && r.h >= 0.0
  {
    var (x, y, w, h) := Region(r);
    x <= i < x + w && y <= j < y + h
  }

  // ---------------------------------------------------------------------------
  // Recolouring parts

  /** `_colorPart(part, callback)` on a canvas's pixels: the part's rectangle
      is cut out, every pixel of it goes through the callback, and the result
      is pasted back; a failed lookup or a callback that throws leaves the
      pixels as they were. */
  function PartRewrite(md: Metadata, width: nat, rows: seq<seq<Pixel>>, part: AssetPart, f: PixelCallback): (Outcome, seq<seq<Pixel>>)
  {
    match PartRect(md, width, part)
    case Err(e) => (Fail(e), rows)
    case Ok(r) => RectRewrite(rows, r, f)
  }

  /** The rewrite of a rectangle the lookup found: its pixels through the
      callback, put back only when none of them made it throw. */
  function RectRewrite(rows: seq<seq<Pixel>>, r: Rect, f: PixelCallback): (Outcome, seq<seq<Pixel>>)
    requires r.w >= 0.0 && r.h >= 0.0
  {
    var (x, y, w, h) := Region(r);
    var s := Bytes(Cut(rows, x, y, w, h));
    var o := FailureFrom(s, f, 0);
    (o, if o.Pass? then Paste(rows, x, y, w, h, Rewritten(s, f)) else rows)
  }

  /** Inside the rectangle every pixel is recoloured by the callback, outside
      it every pixel is kept, and the canvas keeps its shape. */
  lemma RectRewriteEffect(rows: seq<seq<Pixel>>, r: Rect, f: PixelCallback, i: int, j: int)
    requires r.w >= 0.0 && r.h >= 0.0
    requires RectRewrite(rows, r, f).0.Pass? && 0 <= j < |rows| && 0 <= i < |rows[j]|
    ensures var after := RectRewrite(rows, r, f).1;
      |after| == |rows| && |after[j]| == |rows[j]| &&
      after[j][i] == if InRegion(r, i, j) then Recoloured(rows[j][i], f) else rows[j][i]
  {
    var (x, y, w, h) := Region(r);
    RewriteRect(rows, x, y, w, h, f, i, j);
  }

  /** `colorParts`: the parts in order; the first failure stops the run, the
      parts before it keep their new colours. */
  function PartsRewrite(md: Metadata, width: nat, rows: seq<seq<Pixel>>, parts: seq<AssetPart>, f: PixelCallback): (Outcome, seq<seq<Pixel>>)
    decreases |parts|
  {
    if parts == [] then (Pass, rows)
    else
      var (o, next) := PartRewrite(md, width, rows, parts[0], f);
      if o.Fail? then (o, next) else PartsRewrite(md, width, next, parts[1..], f)
  }

  /** What `_colorPart` does to each pixel: the pixels inside the part's
      rectangle are recoloured by the callback, every other pixel is kept, and
      the canvas keeps its shape. */
  lemma PartRewriteEffect(md: Metadata, width: nat, rows: seq<seq<Pixel>>, part: AssetPart, f: PixelCallback, i: int, j: int)
    requires PartRewrite(md, width, rows, part, f).0.Pass? && 0 <= j < |rows| && 0 <= i < |rows[j]|
    ensures PartRect(md, width, part).Ok?
    ensures var after := PartRewrite(md, width, rows, part, f).1;
      |after| == |rows| && |after[j]| == |rows[j]| &&
      after[j][i] == if InRegion(PartRect(md, width, part).value, i, j) then Recoloured(rows[j][i], f) else rows[j][i]
  {
    RectRewriteEffect(rows, PartRect(md, width, part).value, f, i, j);
  }

  /** A run of `colorParts` keeps the canvas's shape and leaves every pixel
      outside all the parts' rectangles as it was, whether it fails or not. */
  lemma {:induction false} PartsRewriteOutside(md: Metadata, width: nat, rows: seq<seq<Pixel>>, parts: seq<AssetPart>, f: PixelCallback, i: int, j: int)
    requires 0 <= j < |rows| && 0 <= i < |rows[j]|
    requires forall k :: 0 <= k < |parts| ==> OutsidePart(md, width, parts[k], i, j)
    ensures PixelKept(rows, PartsRewrite(md, width, rows, parts, f).1, i, j)
    decreases |parts|
  {
    if parts != [] {
      var r := PartRewrite(md, width, rows, parts[0], f);
      PartRewriteOutside(md, width, rows, parts[0], f, i, j);
      if r.0.Pass? {
        assert forall k :: 1 <= k < |parts| ==> parts[1..][k - 1] == parts[k];
        PartsRewriteOutside(md, width, r.1, parts[1..], f, i, j);
        assert PartsRewrite(md, width, rows, parts, f) == PartsRewrite(md, width, r.1, parts[1..], f);
      } else {
        assert PartsRewrite(md, width, rows, parts, f) == r;
      }
    }
  }

  /** One part of the run: a pixel outside the part's rectangle is kept,
      whether the rewrite fails or not. */
  lemma PartRewriteOutside(md: Metadata, width: nat, rows: seq<seq<Pixel>>, part: AssetPart, f: PixelCallback, i: int, j: int)
    requires 0 <= j < |rows| && 0 <= i < |rows[j]|
    requires OutsidePart(md, width, part, i, j)
    ensures PixelKept(rows, PartRewrite(md, width, rows, part, f).1, i, j)
  {
    if PartRewrite(md, width, rows, part, f).0.Pass? {
      PartRewriteEffect(md, width, rows, part, f, i, j);
    }
  }

  /** Pixel (i, j) lies outside the part's rectangle, or the lookup of the
      part fails. */
  predicate OutsidePart(md: Metadata, width: nat, part: AssetPart, i: int, j: int)
  {
    PartRect(md, width, part).Ok? ==> !InRegion(PartRect(md, width, part).value, i, j)
  }

  /** The callback of `blackAndWhite` alone, which never fails. */
  function Graying(): PixelCallback
  {
    v => (Gray(v), Pass)
  }

  /** The callback of `colorPart`: grayscale, then `applyColor` with the
      colour's RGBA. */
  function Tinting(color: Rgba): PixelCallback
  {
    v => AppliedColor(Gray(v), color)
  }

  /** With a colour in 0..255, `colorPart` never fails on a part the asset
      finds. */
  lemma TintingNeverFails(md: Metadata, width: nat, rows: seq<seq<Pixel>>, part: AssetPart, color: Rgba)
    requires InByteRange(color) && PartRect(md, width, part).Ok?
    ensures PartRewrite(md, width, rows, part, Tinting(color)).0 == Pass
  {
    TintingNeverFailsIn(rows, PartRect(md, width, part).value, color);
  }

  /** The same on any rectangle. */
  lemma TintingNeverFailsIn(rows: seq<seq<Pixel>>, r: Rect, color: Rgba)
    requires InByteRange(color) && r.w >= 0.0 && r.h >= 0.0
    ensures RectRewrite(rows, r, Tinting(color)).0 == Pass
  {
    var f := Tinting(color);
    forall p | InByteRange(p)
      ensures f(p).1 == Pass
    {
      GrayLaws(p);
      ApplyColorInRange(Gray(p), color);
    }
    var (x, y, w, h) := Region(r);
    NeverFails(Bytes(Cut(rows, x, y, w, h)), f, 0);
  }

  lemma BufferOfRegion(w: nat, h: nat)
    ensures (4 * w * h) % 4 == 0
  {
    assert 4 * w * h == 4 * (w * h);
    DivModUnique(4 * (w * h), 4, w * h, 0);
  }

  // ---------------------------------------------------------------------------
  // The asset

  /** `MinimalAsset` and `Asset` (base.ts:90-635). A MinimalAsset loads any
      canvas and its `setColor` does nothing; an Asset checks the canvas size
      against the divisor while verification is on. */
  class Asset {
    const minimal: bool
    /** The uuid an Asset draws when constructed. */
    const id: string
    var metadata: Metadata
    var canvas: Canvas?
    /** `originalCanvas`: the copy taken at load time. */
    var original: Image
    var verification: bool
    var partSaveDirectory: string

    ghost predicate Valid()
      reads this, canvas
    {
      Shaped(original.rows, original.width, original.height) && (canvas != null ==> canvas.Valid())
    }

    /** `new MinimalAsset(metadata)`. */
    constructor Minimal(md: Metadata)
      ensures Valid() && minimal && metadata == md && canvas == null
    {
      minimal := true;
      id := "";
      metadata := md;
      canvas := null;
      original := Image(0, 0, []);
      verification := false;
      partSaveDirectory := "";
    }

    /** `new Asset(metadata)`: parts are saved to '.', verification is on. */
    constructor (md: Metadata, uuid: string)
      ensures Valid() && !minimal && id == uuid && metadata == md && canvas == null
      ensures verification && partSaveDirectory == "."
    {
      minimal := false;
      id := uuid;
      metadata := md;
      canvas := null;
      original := Image(0, 0, []);
      verification := true;
      partSaveDirectory := ".";
    }

    /** `multiplier`: the base width is checked first; before any canvas
        is loaded, reading `this.canvas.width` is a TypeError. */
    function Multiplier(): (r: Result<real>)
      reads this
      ensures canvas != null ==> r == MultiplierOf(metadata, canvas.width)
      ensures canvas == null ==> r.Err? && (r.error == AssetError <==> metadata.baseSize.w == 0)
      ensures r.Err? ==> r.error in {AssetError, TypeError}
    {
      if canvas != null then MultiplierOf(metadata, canvas.width)
      else if metadata.baseSize.w == 0 then Err(AssetError)
      else Err(TypeError)
    }

    /** `getPartMetadata(part)`: the table lookup, then the multiplier, so
        an unknown part is an AssetPartError even when no canvas is loaded,
        and a known part without a canvas fails as the multiplier does. */
    function GetPartMetadata(part: AssetPart): (r: Result<Rect>)
      reads this
      ensures canvas != null ==> r == PartRect(metadata, canvas.width, part)
      ensures canvas == null ==> r.Err?
      ensures GetAssetPartMetadata(metadata.kind, part).Err? ==> r == Err(AssetPartError)
      ensures GetAssetPartMetadata(metadata.kind, part).Ok? && canvas == null ==> r == Err(Multiplier().error)
    {
      var found := GetAssetPartMetadata(metadata.kind, part);
      if found.Err? then Err(AssetPartError)
      else if canvas == null then Err(Multiplier().error)
      else PartRect(metadata, canvas.width, part)
    }

    /** `hasValidAspectRatio`: with verification on, both sides must be
        multiples of the divisor (a remainder by 0 is NaN, never 0). */
    predicate HasValidAspectRatio(width: nat, height: nat)
      reads this
    {
      minimal || !verification ||
      (metadata.divisor.w != 0 && width % metadata.divisor.w == 0 &&
       metadata.divisor.h != 0 && height % metadata.divisor.h == 0)
    }

    method SetVerification(value: bool)
      modifies this
      ensures verification == value
      ensures metadata == old(metadata) && canvas == old(canvas) && original == old(original)
      ensures partSaveDirectory == old(partSaveDirectory)
    {
      verification := value;
    }

    method SetName(name: string)
      modifies this
      ensures metadata == old(metadata).(name := Some(name))
      ensures canvas == old(canvas) && original == old(original) && verification == old(verification)
      ensures partSaveDirectory == old(partSaveDirectory)
    {
      metadata := metadata.(name := Some(name));
    }

    method SetPartSaveDirectory(directory: string)
      modifies this
      ensures partSaveDirectory == directory
      ensures metadata == old(metadata) && canvas == old(canvas) && original == old(original)
      ensures verification == old(verification)
    {
      partSaveDirectory := directory;
    }

    /** `loadFromCanvas(c)`: a canvas of the wrong size is refused with a
        FileError; otherwise the asset takes the canvas itself and a copy of
        it for `restore`. */
    method LoadFromCanvas(c: Canvas) returns (o: Outcome)
      requires Valid() && c.Valid()
      modifies this
      ensures Valid()
      ensures o == if HasValidAspectRatio(c.width, c.height) then Pass else Fail(FileError)
      ensures o.Pass? ==> canvas == c && original == c.Snapshot()
      ensures o.Fail? ==> canvas == old(canvas) && original == old(original)
      ensures metadata == old(metadata) && verification == old(verification)
      ensures partSaveDirectory == old(partSaveDirectory)
    {
      if !HasValidAspectRatio(c.width, c.height) {
        return Fail(FileError);
      }
      canvas := c;
      original := c.Snapshot();
      o := Pass;
    }

    /** `empty(k)`: a transparent canvas of the base size times k. */
    method Empty(k: HelpSize) returns (o: Outcome)
      requires Valid()
      modifies this
      ensures Valid()
      ensures o == if HasValidAspectRatio(metadata.baseSize.w * Factor(k), metadata.baseSize.h * Factor(k)) then Pass else Fail(FileError)
      ensures o.Pass? ==> fresh(canvas) && (canvas.width, canvas.height) == ScaledSize(metadata, k)
      ensures o.Pass? ==> canvas.rows == Blank(canvas.width, canvas.height)
      ensures o.Pass? && metadata.baseSize.w != 0 ==> Multiplier() == Ok(Factor(k) as real)
      ensures o.Fail? ==> canvas == old(canvas) && original == old(original)
      ensures metadata == old(metadata) && verification == old(verification)
    {
      var c := new Canvas(metadata.baseSize.w * Factor(k), metadata.baseSize.h * Factor(k));
      if metadata.baseSize.w != 0 {
        MultiplierOfScaled(metadata, Factor(k));
      }
      o := LoadFromCanvas(c);
    }

    /** `scale(k)`: nothing happens when the canvas already has the base size
        times k; otherwise the canvas is redrawn at that size. The resampled
        pixels `drawImage` produces are a parameter. */
    method Scale(k: HelpSize, resampled: seq<seq<Pixel>>) returns (o: Outcome)
      requires Valid()
      requires Shaped(resampled, metadata.baseSize.w * Factor(k), metadata.baseSize.h * Factor(k))
      modifies this
      ensures Valid() && (canvas != null <==> old(canvas) != null)
      ensures old(canvas) == null ==> o == Fail(TypeError)
      ensures old(canvas) != null && ScaledSize(metadata, k) == (old(canvas.width), old(canvas.height)) ==>
        o == Pass && canvas == old(canvas) && original == old(original)
      ensures old(canvas) != null && ScaledSize(metadata, k) != (old(canvas.width), old(canvas.height)) ==>
        o == (if HasValidAspectRatio(ScaledSize(metadata, k).0, ScaledSize(metadata, k).1) then Pass else Fail(FileError))
      ensures old(canvas) != null && ScaledSize(metadata, k) != (old(canvas.width), old(canvas.height)) && o.Pass? ==>
        fresh(canvas) && canvas.Snapshot() == Image(ScaledSize(metadata, k).0, ScaledSize(metadata, k).1, resampled) &&
        original == canvas.Snapshot()
      ensures o.Fail? ==> canvas == old(canvas) && original == old(original)
      ensures o.Pass? && metadata.baseSize.w != 0 ==> Multiplier() == Ok(Factor(k) as real)
      ensures metadata == old(metadata) && verification == old(verification)
    {
      if canvas == null {
        return Fail(TypeError);
      }
      var (w, h) := ScaledSize(metadata, k);
      if metadata.baseSize.w != 0 {
        MultiplierOfScaled(metadata, Factor(k));
      }
      if w == canvas.width && h == canvas.height {
        return Pass;
      }
      var c := new Canvas.Clone(Image(w, h, resampled));
      o := LoadFromCanvas(c);
    }

    /** `restore()`: a fresh copy of the snapshot taken at load time. Before
        any load there is no snapshot, and `cloneCanvas(undefined)` reads
        `width` of undefined: a TypeError. */
    method Restore() returns (o: Outcome)
      requires Valid()
      modifies this
      ensures Valid()
      ensures old(canvas) == null ==> o == Fail(TypeError) && canvas == null
      ensures old(canvas) != null ==> o == Pass && fresh(canvas) && canvas.Snapshot() == original
      ensures original == old(original) && metadata == old(metadata) && verification == old(verification)
    {
      if canvas == null {
        return Fail(TypeError);
      }
      canvas := new Canvas.Clone(original);
      o := Pass;
    }

    /** `_colorPart(color, part, callback)`. */
    method ColorPartWith(part: AssetPart, f: PixelCallback) returns (o: Outcome)
      requires Valid()
      modifies canvas
      ensures Valid()
      ensures canvas == null ==> o == Fail(GetPartMetadata(part).error)
      ensures canvas != null ==> (o, canvas.rows) == PartRewrite(metadata, canvas.width, old(canvas.rows), part, f)
    {
      var pm := GetPartMetadata(part);
      if pm.Err? {
        return Fail(pm.error);
      }
      var (x, y, w, h) := Region(pm.value);
      var imageData := canvas.GetImageData(x, y, w, h);
      BufferOfRegion(w, h);
      o := RewritePixels(imageData.data, f);
      if o.Fail? {
        return;
      }
      canvas.PutImageData(imageData, x, y);
    }

    /** `colorPart(color, part)`: grayscale then tint every pixel of the part;
        with a colour in 0..255 it fails only when the lookup does. */
    method ColorPart(color: Rgba, part: AssetPart) returns (o: Outcome)
      requires Valid()
      modifies canvas
      ensures Valid()
      ensures canvas == null ==> o == Fail(GetPartMetadata(part).error)
      ensures canvas != null ==> (o, canvas.rows) == PartRewrite(metadata, canvas.width, old(canvas.rows), part, Tinting(color))
      ensures InByteRange(color) ==> (o.Pass? <==> GetPartMetadata(part).Ok?)
    {
      if canvas != null && InByteRange(color) && GetPartMetadata(part).Ok? {
        TintingNeverFails(metadata, canvas.width, canvas.rows, part, color);
      }
      o := ColorPartWith(part, Tinting(color));
    }

    /** `colorParts(color, ...parts)`. */
    method ColorParts(color: Rgba, parts: seq<AssetPart>) returns (o: Outcome)
      requires Valid()
      modifies canvas
      ensures Valid()
      ensures canvas == null ==> o == if parts == [] then Pass else Fail(GetPartMetadata(parts[0]).error)
      ensures canvas != null ==> (o, canvas.rows) == PartsRewrite(metadata, canvas.width, old(canvas.rows), parts, Tinting(color))
    {
      if canvas == null {
        if parts == [] {
          return Pass;
        }
        o := ColorPart(color, parts[0]);
        return;
      }
      var i := 0;
      while i < |parts|
        invariant 0 <= i <= |parts| && Valid() && canvas != null
        invariant PartsRewrite(metadata, canvas.width, old(canvas.rows), parts, Tinting(color))
               == PartsRewrite(metadata, canvas.width, canvas.rows, parts[i..], Tinting(color))
      {
        assert parts[i..][1..] == parts[i + 1..];
        o := ColorPart(color, parts[i]);
        if o.Fail? {
          return;
        }
        i := i + 1;
      }
      o := Pass;
    }

    /** `setColor(color)`: every part of the kind's table, in table order. An
        UNKNOWN asset has no table, and `Object.keys` of it throws. Before
        any load the first part fails as the multiplier does. A MinimalAsset
        does nothing, loaded or not. */
    method SetColor(color: Rgba) returns (o: Outcome)
      requires Valid()
      modifies canvas
      ensures Valid()
      ensures minimal ==> o == Pass && (canvas != null ==> canvas.rows == old(canvas.rows))
      ensures !minimal && metadata.kind == Unknown ==> o == Fail(TypeError) && (canvas != null ==> canvas.rows == old(canvas.rows))
      ensures !minimal && metadata.kind != Unknown && canvas == null ==> o == Fail(Multiplier().error)
      ensures !minimal && metadata.kind != Unknown && canvas != null ==>
        (o, canvas.rows) == PartsRewrite(metadata, canvas.width, old(canvas.rows),
                                         TableKeys(GetAssetPartsMetadata(metadata.kind).value), Tinting(color))
    {
      if minimal {
        return Pass;
      }
      var parts := GetAssetPartsMetadata(metadata.kind);
      if parts.None? {
        return Fail(TypeError);
      }
      assert PartKind(TableKeys(parts.value)[0]) == metadata.kind;
      o := ColorParts(color, TableKeys(parts.value));
    }

    /** `getPartCacheKey(part)`: the metadata's name is overwritten with the
        id, the old name and the part, and the hash of the metadata is the
        key. `hashCacheKey(JSON.stringify(...))` is a parameter. */
    method GetPartCacheKey(part: AssetPart, hash: Metadata -> string) returns (key: string)
      modifies this
      ensures metadata == old(metadata).(name := Some(PartCacheName(id, old(metadata.name), part)))
      ensures key == hash(metadata)
      ensures canvas == old(canvas) && original == old(original) && verification == old(verification)
      ensures partSaveDirectory == old(partSaveDirectory)
    {
      metadata := metadata.(name := Some(id + NameText(metadata.name) + "_" + PartName(part)));
      key := hash(metadata);
    }

    /** `savePart(part)`: the part's pixels are cut out into a canvas of their
        own and kept in the cache under the part's key, unless the key is
        already there. Writing the file is not modelled. */
    method SavePart(part: AssetPart, cache: Cache<Image>, hash: Metadata -> string) returns (o: Outcome)
      requires Valid() && cache.Valid()
      modifies this, cache
      ensures Valid() && cache.Valid() && canvas == old(canvas)
      ensures metadata == old(metadata).(name := Some(PartCacheName(id, old(metadata.name), part)))
      ensures var key := hash(metadata);
        if key in old(cache.written) then o == Pass && cache.store == old(cache.store)
        else match GetPartMetadata(part)
          case Err(e) => o == Fail(e) && cache.store == old(cache.store)
          case Ok(r) =>
            var (x, y, w, h) := Region(r);
            o == Pass && cache.store == old(cache.store)[key := Image(w, h, FromBytes(Bytes(Cut(canvas.rows, x, y, w, h)), w, h))]
    {
      var key := GetPartCacheKey(part, hash);
      var cached := cache.Get(key);
      if cached.Some? {
        return Pass;
      }
      var pm := GetPartMetadata(part);
      if pm.Err? {
        return Fail(pm.error);
      }
      var (x, y, w, h) := Region(pm.value);
      var imageData := canvas.GetImageData(x, y, w, h);
      var partCanvas := new Canvas.Clone(Image(w, h, FromBytes(imageData.data[..], w, h)));
      var added := cache.Set(key, partCanvas.Snapshot());
      o := Pass;
    }
  }

  /** `Object.keys` of a part table, in table order. */
  function TableKeys(t: seq<(AssetPart, Rect)>): (ks: seq<AssetPart>)
    ensures |ks| == |t| && forall i :: 0 <= i < |t| ==> ks[i] == t[i].0
  {
    seq(|t|, i requires 0 <= i < |t| => t[i].0)
  }

  /** JavaScript's `+` on an undefined name writes "undefined". */
  function NameText(name: Option<string>): string
  {
    if name.None? then "undefined" else name.value
  }

  function PartCacheName(id: string, name: Option<string>, part: AssetPart): (s: string)
    ensures |s| > |NameText(name)|
  {
    id + NameText(name) + "_" + PartName(part)
  }

  /** Every `getPartCacheKey` lengthens the name, so two calls in a row, for
      the same part or not, never hash the same metadata. */
  lemma CacheNamesDiffer(id: string, name: Option<string>, part: AssetPart, part': AssetPart)
    ensures var first := PartCacheName(id, name, part);
      PartCacheName(id, Some(first), part') != first
  {
  }

  /** The asset of every kind accepts its own empty canvas at every help
      size: the base sheet is a whole number of divisor cells. */
  lemma EmptyAccepted(kind: AssetKind, k: HelpSize)
    ensures var md := KindMetadata(kind);
      md.divisor.w != 0 && (md.baseSize.w * Factor(k)) % md.divisor.w == 0 &&
      md.divisor.h != 0 && (md.baseSize.h * Factor(k)) % md.divisor.h == 0
  {
    BaseSizeDivisible(kind);
    var md := KindMetadata(kind);
    MultipleStaysMultiple(md.baseSize.w, md.divisor.w, Factor(k));
    MultipleStaysMultiple(md.baseSize.h, md.divisor.h, Factor(k));
  }

  lemma MultipleStaysMultiple(a: nat, d: nat, f: nat)
    requires d > 0 && a % d == 0
    ensures (a * f) % d == 0
  {
    DivModUnique(a * f, d, (a / d) * f, 0);
  }
}

=== FILE: board.dfy ===
// The board of lib/board.ts: a grid of cells of equal size separated by
// gaps, filled cell by cell, then pasted onto one canvas with every picture
// centred in its cell; and the skin overview built on it.

module Boards {
  import opened Results
  import Parts

  /** The `BoardConfig` of a board: the grid's columns and lines, the cell
      size and the gaps. */
  datatype Config = Config(maxRowCell: int, maxLineCell: int, cellWidth: int, cellHeight: int, xGap: int, yGap: int)

  datatype Position = Position(x: int, y: int)

  datatype Dimensions = Dimensions(w: int, h: int)

  /** A canvas placed on the board, known by an identity and its size; what
      it shows is not modelled. */
  datatype Picture = Picture(id: nat, w: int, h: int)

  /** A `Cell<Canvas>`: a grid position and its content. */
  datatype Cell = Cell(x: int, y: int, content: Picture)

  /** A `drawImage(content, x, y)` on the board's canvas. */
  datatype Draw = Draw(content: Picture, x: real, y: real)

  /** `getPosition`: the top-left corner of a grid cell on the canvas. */
  function PositionOf(c: Config, p: Position): Position
  {
    Position(p.x * (c.xGap + c.cellWidth) + c.xGap, p.y * (c.yGap + c.cellHeight) + c.yGap)
  }

  /** `getSize`: every column and line with a gap before it, and one gap
      after the last. */
  function SizeOf(c: Config): Dimensions
  {
    Dimensions(c.maxRowCell * (c.cellWidth + c.xGap) + c.xGap, c.maxLineCell * (c.cellHeight + c.yGap) + c.yGap)
  }

  /** The first cell lies one gap in from the corner, and each next column or
      line one cell and one gap further. */
  lemma PositionSteps(c: Config, p: Position)
    ensures PositionOf(c, Position(0, 0)) == Position(c.xGap, c.yGap)
    ensures PositionOf(c, Position(p.x + 1, p.y)).x == PositionOf(c, p).x + c.cellWidth + c.xGap
    ensures PositionOf(c, Position(p.x, p.y + 1)).y == PositionOf(c, p).y + c.cellHeight + c.yGap
  {
  }

  /** The number of cells the grid holds. */
  function Capacity(c: Config): (n: nat)
    ensures c.maxRowCell >= 0 && c.maxLineCell >= 0 ==> n == c.maxRowCell * c.maxLineCell
  {
    if c.maxRowCell * c.maxLineCell < 0 then 0 else c.maxRowCell * c.maxLineCell
  }

  /** The position test of `addCell` as written: the last column and line
      are compared with `>`, so a cell one past the grid is accepted. */
  predicate Admits(c: Config, cell: Cell)
  {
    !(cell.x < 0 || cell.y < 0 || cell.x > c.maxRowCell || cell.y > c.maxLineCell)
  }

  /** The position test `addCell` evidently means: a column and a line of the
      grid. */
  predicate AdmitsInGrid(c: Config, cell: Cell)
  {
    0 <= cell.x < c.maxRowCell && 0 <= cell.y < c.maxLineCell
  }

  /** The rectangle of a cell lies within the board, gaps included. */
  predicate InsideBoard(c: Config, cell: Cell)
  {
    var p := PositionOf(c, Position(cell.x, cell.y));
    var s := SizeOf(c);
    c.xGap <= p.x && p.x + c.cellWidth + c.xGap <= s.w &&
    c.yGap <= p.y && p.y + c.cellHeight + c.yGap <= s.h
  }

  lemma ColumnInside(k: int, n: int, step: int, gap: int)
    requires 0 <= k < n && step >= 0
    ensures gap <= k * step + gap && k * step + gap + step <= n * step + gap
  {
    assert (k + 1) * step <= n * step by {
      assert (n - (k + 1)) * step >= 0;
    }
  }

  /** Every cell the intended test admits lies on the board. */
  lemma InGridInsideBoard(c: Config, cell: Cell)
    requires c.cellWidth + c.xGap >= 0 && c.cellHeight + c.yGap >= 0
    ensures AdmitsInGrid(c, cell) ==> InsideBoard(c, cell)
  {
    if AdmitsInGrid(c, cell) {
      ColumnInside(cell.x, c.maxRowCell, c.cellWidth + c.xGap, c.xGap);
      ColumnInside(cell.y, c.maxLineCell, c.cellHeight + c.yGap, c.yGap);
    }
  }

  /** The intended test is the written one without the column and the line
      just past the grid. */
  lemma AdmitsInGridIsAdmits(c: Config, cell: Cell)
    ensures AdmitsInGrid(c, cell) <==> Admits(c, cell) && cell.x != c.maxRowCell && cell.y != c.maxLineCell
  {
  }

  /** As written, a one-line board of five 210-wide cells admits column 5,
      whose picture is drawn at the board's right edge, entirely off it. */
  lemma AdmitsPastEdge()
    ensures var c := Config(5, 1, 210, 175, 1, 20);
      var cell := Cell(5, 0, Picture(0, 210, 175));
      Admits(c, cell) && !InsideBoard(c, cell) &&
      PositionOf(c, Position(5, 0)).x == SizeOf(c).w
  {
  }

  /** The outcome of `addCell` on a board holding `used` cells: the capacity
      is examined first, the position second. */
  function AddOutcome(c: Config, used: nat, cell: Cell): (o: Outcome)
    ensures o == Pass <==> used < Capacity(c) && Admits(c, cell)
    ensures o != Pass ==> o == Fail(BoardError)
  {
    if c.maxRowCell * c.maxLineCell - used <= 0 then Fail(BoardError)
    else if !Admits(c, cell) then Fail(BoardError)
    else Pass
  }

  /** `addCells(...cells)`: the cells in order until the first refused one.
      Returns the outcome and the board's cells. */
  function AddRun(c: Config, cells: seq<Cell>, add: seq<Cell>): (Outcome, seq<Cell>)
    decreases |add|
  {
    if add == [] then (Pass, cells)
    else
      var o := AddOutcome(c, |cells|, add[0]);
      if o.Fail? then (o, cells) else AddRun(c, cells + [add[0]], add[1..])
  }

  /** The cells held only grow, never past the capacity, and keep to the
      written position test; the run passes exactly when every cell was
      added, and then the cells are the old ones followed by the new ones. */
  lemma {:induction false} AddRunAppends(c: Config, cells: seq<Cell>, add: seq<Cell>)
    requires |cells| <= Capacity(c)
    ensures var (o, out) := AddRun(c, cells, add);
      |cells| <= |out| <= Capacity(c) && out[..|cells|] == cells &&
      (forall i :: |cells| <= i < |out| ==> Admits(c, out[i])) &&
      (o == Pass <==> out == cells + add)
    decreases |add|
  {
    if add != [] && AddOutcome(c, |cells|, add[0]) == Pass {
      var next := cells + [add[0]];
      AddRunAppends(c, next, add[1..]);
      var out := AddRun(c, next, add[1..]).1;
      assert out[..|cells|] == next[..|cells|];
      assert next + add[1..] == cells + add;
    } else if add != [] {
      assert |cells + add| > |cells|;
    }
  }

  /** The same run from a board holding more cells never adds more:
      `addCells` is all or a prefix. */
  lemma {:induction false} AddRunPrefix(c: Config, cells: seq<Cell>, add: seq<Cell>)
    ensures var (o, out) := AddRun(c, cells, add);
      |cells| <= |out| <= |cells| + |add| && out == cells + add[..|out| - |cells|]
    decreases |add|
  {
    if add != [] && AddOutcome(c, |cells|, add[0]) == Pass {
      var next := cells + [add[0]];
      AddRunPrefix(c, next, add[1..]);
      var out := AddRun(c, next, add[1..]).1;
      var k := |out| - |next|;
      assert add[..k + 1] == [add[0]] + add[1..][..k];
    } else {
      assert add[..0] == [];
    }
  }

  /** The centre of a picture in a cell: the corner plus half the room left
      around it on each axis. */
  function Centred(c: Config, cell: Cell): (d: Draw)
    ensures var p := PositionOf(c, Position(cell.x, cell.y));
      d.content == cell.content &&
      d.x - p.x as real == (p.x + c.cellWidth) as real - (d.x + cell.content.w as real) &&
      d.y - p.y as real == (p.y + c.cellHeight) as real - (d.y + cell.content.h as real)
  {
    var p := PositionOf(c, Position(cell.x, cell.y));
    Draw(cell.content, p.x as real + (c.cellWidth - cell.content.w) as real / 2.0,
         p.y as real + (c.cellHeight - cell.content.h) as real / 2.0)
  }

  /** The cell's content after `resizeBoardCanvas`: replaced by the foreign
      `resizeCanvas` result only when it is wider or taller than a cell. */
  function Fitted(c: Config, cell: Cell, resize: (Picture, Dimensions) -> Picture): (r: Cell)
    ensures r.x == cell.x && r.y == cell.y
    ensures cell.content.w <= c.cellWidth && cell.content.h <= c.cellHeight ==> r == cell
    ensures cell.content.w > c.cellWidth || cell.content.h > c.cellHeight ==>
      r.content == resize(cell.content, Dimensions(c.cellWidth, c.cellHeight))
  {
    if cell.content.w > c.cellWidth || cell.content.h > c.cellHeight then
      cell.(content := resize(cell.content, Dimensions(c.cellWidth, c.cellHeight)))
    else cell
  }

  /** The picture count `createSkinOverview` uses: an amount outside 1..5
      (the number of eye emotes) becomes 5. */
  function OverviewAmount(amount: int): (n: int)
    ensures 1 <= n <= 5
    ensures 1 <= amount <= 5 ==> n == amount
    ensures amount < 1 || amount > 5 ==> n == 5
  {
    if amount < 1 || amount > 5 then 5 else amount
  }

  /** The overview's board: one line of `n` cells of 210 by 175. */
  function OverviewConfig(n: int): Config
  {
    Config(n, 1, 210, 175, 1, 20)
  }

  /** The overview's cells all pass both position tests and lie on its
      board, whose size is 211 per picture plus one, by 215. */
  lemma OverviewCellsInside(amount: int, i: int, p: Picture)
    requires 0 <= i < OverviewAmount(amount)
    ensures var c := OverviewConfig(OverviewAmount(amount));
      Admits(c, Cell(i, 0, p)) && AdmitsInGrid(c, Cell(i, 0, p)) && InsideBoard(c, Cell(i, 0, p)) &&
      SizeOf(c) == Dimensions(211 * OverviewAmount(amount) + 1, 215)
  {
    InGridInsideBoard(OverviewConfig(OverviewAmount(amount)), Cell(i, 0, p));
  }

  /** `Board<Canvas>`: a grid configuration and the cells added so far, in
      order. */
  class Board {
    const config: Config
    var cells: seq<Cell>

    /** What `addCell` keeps: no more cells than the grid holds, each at a
        position the written test admits. */
    ghost predicate Valid()
      reads this
    {
      |cells| <= Capacity(config) && forall i :: 0 <= i < |cells| ==> Admits(config, cells[i])
    }

    constructor (config: Config)
      ensures Valid() && this.config == config && cells == []
    {
      this.config := config;
      cells := [];
    }

    function GetPosition(p: Position): (r: Position)
      reads this
      ensures r == PositionOf(config, p)
    {
      PositionOf(config, p)
    }

    function GetSize(): (r: Dimensions)
      reads this
      ensures r == SizeOf(config)
    {
      SizeOf(config)
    }

    /** `addCell(cell)`: appends the cell, or throws a BoardError and
        changes nothing. Duplicate positions are allowed. */
    method AddCell(cell: Cell) returns (o: Outcome)
      requires Valid()
      modifies this
      ensures Valid()
      ensures o == AddOutcome(config, |old(cells)|, cell)
      ensures cells == if o == Pass then old(cells) + [cell] else old(cells)
    {
      var used := |cells|;
      var total := config.maxRowCell * config.maxLineCell;
      if total - used <= 0 {
        return Fail(BoardError);
      }
      if cell.x < 0 || cell.y < 0 || cell.x > config.maxRowCell || cell.y > config.maxLineCell {
        return Fail(BoardError);
      }
      cells := cells + [cell];
      o := Pass;
    }

    /** `addCells(...cells)`: stops at the first refusal, keeping the cells
        already added. */
    method AddCells(add: seq<Cell>) returns (o: Outcome)
      requires Valid()
      modifies this
      ensures Valid()
      ensures (o, cells) == AddRun(config, old(cells), add)
    {
      o := Pass;
      var k := 0;
      while k < |add|
        invariant 0 <= k <= |add|
        invariant Valid() && o == Pass
        invariant AddRun(config, old(cells), add) == AddRun(config, cells, add[k..])
      {
        assert add[k..][1..] == add[k + 1..];
        assert AddRun(config, cells, add[k..]) ==
          if AddOutcome(config, |cells|, add[k]).Fail? then (AddOutcome(config, |cells|, add[k]), cells)
          else AddRun(config, cells + [add[k]], add[k + 1..]);
        o := AddCell(add[k]);
        if o.Fail? {
          return;
        }
        k := k + 1;
      }
    }

    /** `resizeBoardCanvas(board)`: every picture wider or taller than a
        cell is replaced by its resized copy, in place. */
    method Resize(resize: (Picture, Dimensions) -> Picture)
      requires Valid()
      modifies this
      ensures Valid()
      ensures |cells| == |old(cells)|
      ensures forall i :: 0 <= i < |cells| ==> cells[i] == Fitted(config, old(cells)[i], resize)
    {
      var i := 0;
      while i < |cells|
        invariant 0 <= i <= |cells| == |old(cells)|
        invariant Valid()
        invariant forall j :: 0 <= j < i ==> cells[j] == Fitted(config, old(cells)[j], resize)
        invariant forall j :: i <= j < |cells| ==> cells[j] == old(cells)[j]
      {
        var cell := cells[i];
        var w, h := cell.content.w, cell.content.h;
        if w > config.cellWidth || h > config.cellHeight {
          cells := cells[i := cell.(content := resize(cell.content, Dimensions(config.cellWidth, config.cellHeight)))];
        }
        i := i + 1;
      }
    }

    /** The drawing loop of `processBoardCanvas`: each cell's picture,
        centred in its cell, in the order the cells were added. */
    method Paste() returns (draws: seq<Draw>)
      ensures |draws| == |cells|
      ensures forall i :: 0 <= i < |cells| ==> draws[i] == Centred(config, cells[i])
    {
      draws := [];
      for i := 0 to |cells|
        invariant |draws| == i
        invariant forall j :: 0 <= j < i ==> draws[j] == Centred(config, cells[j])
      {
        var cell := cells[i];
        var p := GetPosition(Position(cell.x, cell.y));
        var x := p.x as real + (config.cellWidth - cell.content.w) as real / 2.0;
        var y := p.y as real + (config.cellHeight - cell.content.h) as real / 2.0;
        draws := draws + [Draw(cell.content, x, y)];
      }
    }

    /** `processBoardCanvas(board, resize)`: optionally fit the pictures,
        then a canvas of the board's size with every picture pasted. */
    method Process(resize: bool, fit: (Picture, Dimensions) -> Picture) returns (size: Dimensions, draws: seq<Draw>)
      requires Valid()
      modifies this
      ensures Valid() && size == SizeOf(config)
      ensures |cells| == |old(cells)| == |draws|
      ensures forall i :: 0 <= i < |cells| ==>
        cells[i] == (if resize then Fitted(config, old(cells)[i], fit) else old(cells)[i]) &&
        draws[i] == Centred(config, cells[i])
    {
      if resize {
        Resize(fit);
      }
      size := GetSize();
      draws := Paste();
    }
  }

  /** `EMOTES`, the eye of each overview frame. Its third entry names
      `SkinPart.PAIN_EYE`, which the `SkinPart` enum does not have
      (lib/asset/part.ts:35-48), so it is `undefined`: None here. */
  const Emotes: seq<Option<Parts.SkinPart>> :=
    [Some(Parts.DefaultEye), Some(Parts.AngryEye), None, Some(Parts.HappyEye), Some(Parts.ScaryEye)]

  /** The eyes evidently meant: the third eye of the skin sheet, the pain eye
      of the game, is the one the enum names `BLINK_EYE`. */
  const IntendedEmotes: seq<Option<Parts.SkinPart>> :=
    [Some(Parts.DefaultEye), Some(Parts.AngryEye), Some(Parts.BlinkEye), Some(Parts.HappyEye), Some(Parts.ScaryEye)]

  /** What rendering frame i does with its eye: `skin.render()` takes
      `eyeAssetPart || this.eyeAssetPart` and looks it up in the SKIN table
      through `getPartCanvas`; `undefined` is no own key of the table, so the
      lookup throws an AssetPartError. */
  function EyeLookup(eye: Option<Parts.SkinPart>): (r: Result<Parts.Rect>)
    ensures r.Err? <==> eye.None?
    ensures r.Err? ==> r.error == AssetPartError
    ensures eye.Some? ==> r == Ok(Parts.PartRow(Parts.SkinP(eye.value)))
  {
    match eye
    case None => Err(AssetPartError)
    case Some(part) => Parts.GetAssetPartMetadata(Parts.Skin, Parts.SkinP(part))
  }

  /** The loop of `createSkinOverview` over the first n eyes of a list, with
      the rendered frames (the tee with emote i holding weapon i; the rest of
      the rendering is outside this model) given: frame i is added at column
      i once its eye is found, and the first eye that is not found throws. */
  method AddFrames(board: Board, emotes: seq<Option<Parts.SkinPart>>, amount: int, frames: seq<Picture>)
    returns (o: Outcome)
    requires |emotes| == 5 && |frames| >= OverviewAmount(amount)
    requires board.Valid() && board.config == OverviewConfig(OverviewAmount(amount)) && board.cells == []
    modifies board
    ensures o == Pass <==> forall i :: 0 <= i < OverviewAmount(amount) ==> emotes[i].Some?
    ensures o != Pass ==> o == Fail(AssetPartError)
    ensures board.Valid()
    ensures o == Pass ==> |board.cells| == OverviewAmount(amount)
    ensures o == Pass ==> forall i :: 0 <= i < |board.cells| ==> board.cells[i] == Cell(i, 0, frames[i])
  {
    var n := OverviewAmount(amount);
    for i := 0 to n
      invariant board.Valid() && board.config == OverviewConfig(n)
      invariant |board.cells| == i
      invariant forall j :: 0 <= j < i ==> board.cells[j] == Cell(j, 0, frames[j])
      invariant forall j :: 0 <= j < i ==> emotes[j].Some?
    {
      var eye := EyeLookup(emotes[i]);
      if eye.Err? {
        return Fail(eye.error);
      }
      OverviewCellsInside(amount, i, frames[i]);
      var added := board.AddCell(Cell(i, 0, frames[i]));
      assert added == Pass;
    }
    o := Pass;
  }

  /** `createSkinOverview` over an eye list: the frames are added, and a
      board filled to the end is pasted without resizing. */
  method Overview(emotes: seq<Option<Parts.SkinPart>>, amount: int, frames: seq<Picture>)
    returns (o: Outcome, size: Dimensions, draws: seq<Draw>)
    requires |emotes| == 5 && |frames| >= OverviewAmount(amount)
    ensures var n := OverviewAmount(amount);
      (o == Pass <==> forall i :: 0 <= i < n ==> emotes[i].Some?) &&
      (o != Pass ==> o == Fail(AssetPartError) && draws == []) &&
      (o == Pass ==> size == SizeOf(OverviewConfig(n)) && |draws| == n)
    ensures var n := OverviewAmount(amount);
      o == Pass ==> forall i :: 0 <= i < n ==> draws[i] == Centred(OverviewConfig(n), Cell(i, 0, frames[i]))
  {
    var board := new Board(OverviewConfig(OverviewAmount(amount)));
    o := AddFrames(board, emotes, amount, frames);
    if o != Pass {
      return o, Dimensions(0, 0), [];
    }
    size, draws := board.Process(false, (p: Picture, d: Dimensions) => p);
  }

  /** `createSkinOverview(skin, gameskin, amount)` as written: only one or
      two frames can be drawn; from the third on, the undefined eye throws,
      so the default amount of 5 always throws. */
  method CreateSkinOverview(amount: int, frames: seq<Picture>) returns (o: Outcome, size: Dimensions, draws: seq<Draw>)
    requires |frames| >= OverviewAmount(amount)
    ensures var n := OverviewAmount(amount);
      (o == Pass <==> n <= 2) && (o != Pass ==> o == Fail(AssetPartError) && draws == []) &&
      (o == Pass ==> size == SizeOf(OverviewConfig(n)) && |draws| == n)
    ensures var n := OverviewAmount(amount);
      o == Pass ==> forall i :: 0 <= i < n ==> draws[i] == Centred(OverviewConfig(n), Cell(i, 0, frames[i]))
  {
    OverviewEyes(amount);
    o, size, draws := Overview(Emotes, amount, frames);
  }

  /** `createSkinOverview` with the eyes it evidently meant: a board of `n`
      cells, frame i at column i, for every amount. */
  method CreateSkinOverviewIntended(amount: int, frames: seq<Picture>) returns (size: Dimensions, draws: seq<Draw>)
    requires |frames| >= OverviewAmount(amount)
    ensures var n := OverviewAmount(amount);
      size == SizeOf(OverviewConfig(n)) && |draws| == n &&
      forall i :: 0 <= i < n ==> draws[i] == Centred(OverviewConfig(n), Cell(i, 0, frames[i]))
  {
    var o;
    o, size, draws := Overview(IntendedEmotes, amount, frames);
  }

  /** Every eye of the overview is found exactly when at most two frames are
      asked for: the third eye of `EMOTES` is undefined and its lookup
      throws, while every eye of the intended list is found. */
  lemma OverviewEyes(amount: int)
    ensures (forall i :: 0 <= i < OverviewAmount(amount) ==> Emotes[i].Some?) <==> OverviewAmount(amount) <= 2
    ensures OverviewAmount(amount) >= 3 ==> EyeLookup(Emotes[2]) == Err(AssetPartError)
    ensures forall i :: 0 <= i < OverviewAmount(amount) ==> EyeLookup(IntendedEmotes[i]).Ok?
  {
    if OverviewAmount(amount) >= 3 {
      assert Emotes[2].None?;
    }
  }
}

=== FILE: cache.dfy ===
// The generic key/value cache of lib/cache.ts: a dictionary that never
// overwrites an entry and can be emptied as a whole.

module Caches {
  import opened Results

  /** A `set` on a store: a new key is added and reported, an existing key
      keeps its value. */
  function Put<T>(store: map<string, T>, key: string, value: T): (r: (map<string, T>, bool))
    ensures r.1 <==> key !in store
    ensures r.0.Keys == store.Keys + {key} && r.0[key] == (if r.1 then value else store[key])
    ensures forall k :: k in store ==> r.0[k] == store[k]
  {
    if key in store then (store, false) else (store[key := value], true)
  }

  /** The store after a run of `set` calls. */
  function PutAll<T>(store: map<string, T>, writes: seq<(string, T)>): map<string, T>
    decreases |writes|
  {
    if writes == [] then store
    else PutAll(Put(store, writes[0].0, writes[0].1).0, writes[1..])
  }

  /** The first write of a key in a run. */
  function FirstWrite<T>(writes: seq<(string, T)>, key: string): Option<T>
  {
    if writes == [] then None
    else if writes[0].0 == key then Some(writes[0].1)
    else FirstWrite(writes[1..], key)
  }

  /** The first write of a key wins: after a run of `set` calls, a key
      already present keeps its value, and a new key holds the value of its
      first write; no other key appears. */
  lemma {:induction false} FirstWriteWins<T>(store: map<string, T>, writes: seq<(string, T)>, key: string)
    ensures key in store ==> key in PutAll(store, writes) && PutAll(store, writes)[key] == store[key]
    ensures key !in store && FirstWrite(writes, key).Some? ==>
      key in PutAll(store, writes) && PutAll(store, writes)[key] == FirstWrite(writes, key).value
    ensures key !in store && FirstWrite(writes, key).None? ==> key !in PutAll(store, writes)
    decreases |writes|
  {
    if writes != [] {
      FirstWriteWins(Put(store, writes[0].0, writes[0].1).0, writes[1..], key);
    }
  }

  class Cache<T> {
    var store: map<string, T>
    /** The keys passed to a successful `set` since construction or the last
        `reset`. */
    ghost var written: set<string>

    ghost predicate Valid()
      reads this
    {
      store.Keys == written
    }

    constructor ()
      ensures Valid() && store == map[] && written == {}
    {
      store := map[];
      written := {};
    }

    /** `exists(key)`: the key was set since construction or the last reset. */
    function Exists(key: string): (b: bool)
      requires Valid()
      reads this
      ensures b <==> key in written
    {
      key in store
    }

    /** `get(key)`: the stored value, or null for an absent key. */
    function Get(key: string): (r: Option<T>)
      requires Valid()
      reads this
      ensures r.None? <==> key !in written
      ensures r.Some? ==> key in store && r.value == store[key]
    {
      if !Exists(key) then None else Some(store[key])
    }

    /** `set(key, value)`: stores and answers true on a new key, answers false
        and keeps the old value on an existing one. */
    method Set(key: string, value: T) returns (added: bool)
      requires Valid()
      modifies this
      ensures Valid()
      ensures added <==> key !in old(written)
      ensures (store, added) == Put(old(store), key, value)
      ensures Get(key) == if added then Some(value) else old(Get(key))
      ensures forall k :: k != key ==> Get(k) == old(Get(k))
    {
      if Exists(key) {
        return false;
      }
      store := store[key := value];
      written := written + {key};
      added := true;
    }

    /** `reset()`: every key is forgotten. */
    method Reset()
      requires Valid()
      modifies this
      ensures Valid() && written == {}
      ensures forall k :: Get(k).None?
    {
      store := map[];
      written := {};
    }
  }

  /** The double set of cache.test.ts: the second `set` of 'hello' answers
      false, 'hello' still reads 'world' and 'unknown' reads null. */
  method DoubleSetExample() returns (second: bool, hello: Option<string>, unknown: Option<string>)
    ensures !second && hello == Some("world") && unknown.None?
  {
    var cache := new Cache<string>();
    var first := cache.Set("hello", "world");
    second := cache.Set("hello", "world");
    hello := cache.Get("hello");
    unknown := cache.Get("unknown");
  }
}

=== FILE: changers.dfy ===
// The part copiers of the older drafts: `TwAssetChanger.change` in
// lib/changer.ts, src/changer.js and src/lib.js. Each copies named elements
// of a source sheet onto destination sheets of the same type; the model
// records the `clearRect` and `drawImage` calls each destination context
// receives, in order, and proves where the rectangles land.

module Changers {
  import opened Results
  import opened Data
  import opened Drafts
  import Parts

  /** The three drafts of `TwAssetChanger`. */
  datatype ChangerDraft = LibChangerTs | SrcChangerJs | SrcLibChanger

  /** What a copy draws from: an extracted element's own canvas
      (lib/changer.ts) or the source image (src/changer.js, src/lib.js). */
  datatype Origin = ElementCanvas(name: string) | SourceImage

  /** A call on the 2D context of destination number `dest`. */
  datatype CanvasOp =
    | ClearRect(dest: nat, area: Parts.Rect)
    | DrawImage(dest: nat, origin: Origin, from: Parts.Rect, to: Parts.Rect)

  /** The asset draft each changer draft is built on. */
  function BaseDraft(k: ChangerDraft): Draft
  {
    match k
    case LibChangerTs => LibAssetTs
    case SrcChangerJs => SrcExtractorJs
    case SrcLibChanger => SrcLibJs
  }

  // ---------------------------------------------------------------------------
  // rectangles

  /** lib/changer.ts: the whole element canvas, drawn at the table corner
      scaled by the destination's multiplier and stretched by the ratio of
      the image widths. */
  function LibRects(b: Box, p: Piece, size: Size, srcW: nat, destW: nat): (Parts.Rect, Parts.Rect)
    requires srcW > 0 && size.w > 0
  {
    var sizeM := destW as real / srcW as real;
    var posM := destW as real / size.w as real;
    (Parts.Rt(0, 0, p.width, p.height),
     Parts.Rect(b.x as real * posM, b.y as real * posM, p.width as real * sizeM, p.height as real * sizeM))
  }

  /** src/changer.js: the table corner, unscaled, with the element's size,
      read off the source image; the destination is that rectangle times the
      ratio of the image widths. */
  function ExtractorRects(b: Box, p: Piece, srcW: nat, destW: nat): (Parts.Rect, Parts.Rect)
    requires srcW > 0
  {
    var from := Parts.Rect(b.x as real, b.y as real, p.width as real, p.height as real);
    (from, Parts.ScaleMetadata(from, destW as real / srcW as real))
  }

  /** src/lib.js: the table rectangle times the source multiplier, read off
      the source image; the destination is that times the ratio of the image
      widths. */
  function LibJsRects(b: Box, srcM: real, srcW: nat, destW: nat): (Parts.Rect, Parts.Rect)
    requires srcW > 0
  {
    var from := Parts.ScaleMetadata(ToRect(b), srcM);
    (from, Parts.ScaleMetadata(from, destW as real / srcW as real))
  }

  /** The pairs of rectangles of one name, one pair per destination. */
  function LibRectsAll(b: Box, p: Piece, size: Size, srcW: nat, dests: seq<nat>): (rs: seq<(Parts.Rect, Parts.Rect)>)
    requires srcW > 0 && size.w > 0
    ensures |rs| == |dests|
  {
    seq(|dests|, i requires 0 <= i < |dests| => LibRects(b, p, size, srcW, dests[i]))
  }

  function ExtractorRectsAll(b: Box, p: Piece, srcW: nat, dests: seq<nat>): (rs: seq<(Parts.Rect, Parts.Rect)>)
    requires srcW > 0
    ensures |rs| == |dests|
  {
    seq(|dests|, i requires 0 <= i < |dests| => ExtractorRects(b, p, srcW, dests[i]))
  }

  function LibJsRectsAll(b: Box, srcM: real, srcW: nat, dests: seq<nat>): (rs: seq<(Parts.Rect, Parts.Rect)>)
    requires srcW > 0
    ensures |rs| == |dests|
  {
    seq(|dests|, i requires 0 <= i < |dests| => LibJsRects(b, srcM, srcW, dests[i]))
  }

  /** The inner loop of `change` from destination `i` on: each destination
      has its rectangle cleared, then the origin drawn into it. */
  function Copies(origin: Origin, rects: seq<(Parts.Rect, Parts.Rect)>, i: nat): seq<CanvasOp>
    requires i <= |rects|
    decreases |rects| - i
  {
    if i == |rects| then []
    else [ClearRect(i, rects[i].1), DrawImage(i, origin, rects[i].0, rects[i].1)] + Copies(origin, rects, i + 1)
  }

  /** Every call of one name's copies: call 2i clears destination i's
      rectangle and call 2i+1 draws into that very rectangle. */
  lemma {:induction false} CopiesClearThenDraw(origin: Origin, rects: seq<(Parts.Rect, Parts.Rect)>, i: nat)
    requires i <= |rects|
    ensures var c := Copies(origin, rects, i);
      |c| == 2 * (|rects| - i) &&
      forall j :: 0 <= j < |rects| - i ==>
        c[2 * j] == ClearRect(i + j, rects[i + j].1) &&
        c[2 * j + 1] == DrawImage(i + j, origin, rects[i + j].0, rects[i + j].1)
    decreases |rects| - i
  {
    if i < |rects| {
      CopiesClearThenDraw(origin, rects, i + 1);
      var c := Copies(origin, rects, i);
      var rest := Copies(origin, rects, i + 1);
      assert c == [ClearRect(i, rects[i].1), DrawImage(i, origin, rects[i].0, rects[i].1)] + rest;
      forall j | 0 <= j < |rects| - i
        ensures c[2 * j] == ClearRect(i + j, rects[i + j].1)
        ensures c[2 * j + 1] == DrawImage(i + j, origin, rects[i + j].0, rects[i + j].1)
      {
        if j > 0 {
          assert c[2 * j] == rest[2 * (j - 1)];
          assert c[2 * j + 1] == rest[2 * (j - 1) + 1];
        }
      }
    }
  }

  /** Two calls per destination. */
  lemma {:induction false} CopiesLength(origin: Origin, rects: seq<(Parts.Rect, Parts.Rect)>, i: nat)
    requires i <= |rects|
    ensures |Copies(origin, rects, i)| == 2 * (|rects| - i)
    decreases |rects| - i
  {
    if i < |rects| {
      CopiesLength(origin, rects, i + 1);
    }
  }

  // ---------------------------------------------------------------------------
  // lib/changer.ts

  /** `change(...names)` of lib/changer.ts, appending to the calls `acc`:
      a name never extracted throws (`new InvalidElement`, which lib/error.ts
      does not export, so a TypeError); the table entry and the source image
      are read for every destination. */
  function LibChange(els: map<string, Piece>, t: Option<AssetData>, img: Option<(nat, nat)>, dests: seq<nat>,
                     acc: seq<CanvasOp>, names: seq<string>): (Outcome, seq<CanvasOp>)
    requires t.Some? ==> Sound(t.value)
    requires img.Some? ==> img.value.0 > 0
    decreases |names|
  {
    if names == [] then (Pass, acc)
    else if names[0] !in els then (Fail(TypeError), acc)
    else if t.None? then (Fail(TypeError), acc)
    else if dests == [] then LibChange(els, t, img, dests, acc, names[1..])
    else
      match Lookup(t.value.elements, names[0])
      case None => (Fail(TypeError), acc)
      case Some(b) =>
        if img.None? then (Fail(TypeError), acc)
        else
          var rects := LibRectsAll(b, els[names[0]], t.value.size.value, img.value.0, dests);
          LibChange(els, t, img, dests, acc + Copies(ElementCanvas(names[0]), rects, 0), names[1..])
  }

  /** A lib/changer.ts run only appends to the calls it is given. */
  lemma {:induction false} LibChangeGrows(els: map<string, Piece>, t: Option<AssetData>, img: Option<(nat, nat)>,
                                          dests: seq<nat>, acc: seq<CanvasOp>, names: seq<string>)
    requires t.Some? ==> Sound(t.value)
    requires img.Some? ==> img.value.0 > 0
    ensures var out := LibChange(els, t, img, dests, acc, names).1;
      |acc| <= |out| && out[..|acc|] == acc
    decreases |names|
  {
    if names != [] && names[0] in els && t.Some? {
      if dests == [] {
        LibChangeGrows(els, t, img, dests, acc, names[1..]);
      } else if Lookup(t.value.elements, names[0]).Some? && img.Some? {
        var b := Lookup(t.value.elements, names[0]).value;
        var here := Copies(ElementCanvas(names[0]), LibRectsAll(b, els[names[0]], t.value.size.value, img.value.0, dests), 0);
        LibChangeGrows(els, t, img, dests, acc + here, names[1..]);
        assert (acc + here)[..|acc|] == acc;
      }
    }
  }

  lemma OneMore(n: nat, k: nat)
    ensures n * (k + 1) == n + n * k
  {
  }

  /** With at least one destination, a lib/changer.ts run over a loaded
      source passes exactly when every name was extracted and is in the
      table, and then it made two calls per name and destination; every
      failure is a TypeError. */
  lemma {:induction false} LibChangePasses(els: map<string, Piece>, t: AssetData, img: (nat, nat), dests: seq<nat>,
                                           acc: seq<CanvasOp>, names: seq<string>)
    requires Sound(t) && img.0 > 0 && dests != []
    ensures var (o, out) := LibChange(els, Some(t), Some(img), dests, acc, names);
      (o == Pass <==> forall i :: 0 <= i < |names| ==> names[i] in els && Lookup(t.elements, names[i]).Some?) &&
      (o == Pass ==> |out| == |acc| + 2 * |dests| * |names|) &&
      (o != Pass ==> o == Fail(TypeError))
    decreases |names|
  {
    if names != [] {
      var rest := names[1..];
      assert forall i :: 1 <= i < |names| ==> names[i] == rest[i - 1];
      if names[0] in els && Lookup(t.elements, names[0]).Some? {
        var b := Lookup(t.elements, names[0]).value;
        var rects := LibRectsAll(b, els[names[0]], t.size.value, img.0, dests);
        CopiesLength(ElementCanvas(names[0]), rects, 0);
        LibChangePasses(els, t, img, dests, acc + Copies(ElementCanvas(names[0]), rects, 0), rest);
        OneMore(2 * |dests|, |rest|);
      }
    }
  }

  /** An element cut at exactly the source multiplier lands on the table
      rectangle scaled by the destination's multiplier: the ratio of the
      image widths undoes the source multiplier. */
  lemma LibDestinationIsScaledTable(b: Box, p: Piece, size: Size, srcW: nat, destW: nat)
    requires srcW > 0 && size.w > 0
    requires p.width as real == b.w as real * (srcW as real / size.w as real)
    requires p.height as real == b.h as real * (srcW as real / size.w as real)
    ensures LibRects(b, p, size, srcW, destW).1 == Parts.ScaleMetadata(ToRect(b), destW as real / size.w as real)
  {
    var k := srcW as real / size.w as real;
    var sizeM := destW as real / srcW as real;
    var posM := destW as real / size.w as real;
    assert k * sizeM == posM;
    assert p.width as real * sizeM == b.w as real * (k * sizeM);
    assert p.height as real * sizeM == b.h as real * (k * sizeM);
  }

  // ---------------------------------------------------------------------------
  // src/changer.js

  /** The loop of src/changer.js over `Object.entries(this.elements)`, in
      key order, appending to `acc`: the table entry is read before the
      destination loop, the source image and the entry's corner inside it. */
  function ExtractorCopies(els: map<string, Piece>, t: Option<AssetData>, img: Option<(nat, nat)>, dests: seq<nat>,
                           acc: seq<CanvasOp>, order: seq<string>): (Outcome, seq<CanvasOp>)
    requires img.Some? ==> img.value.0 > 0
    decreases |order|
  {
    if order == [] then (Pass, acc)
    else if t.None? then (Fail(TypeError), acc)
    else if dests == [] then ExtractorCopies(els, t, img, dests, acc, order[1..])
    else if img.None? || order[0] !in els || Lookup(t.value.elements, order[0]).None? then (Fail(TypeError), acc)
    else
      var rects := ExtractorRectsAll(Lookup(t.value.elements, order[0]).value, els[order[0]], img.value.0, dests);
      ExtractorCopies(els, t, img, dests, acc + Copies(SourceImage, rects, 0), order[1..])
  }

  /** src/changer.js reads the element at the table's corner, unscaled, but
      with its scaled size; the destination is that rectangle scaled by the
      ratio of the image widths. */
  lemma ExtractorSourceUnscaled(b: Box, p: Piece, srcW: nat, destW: nat)
    requires srcW > 0
    ensures var (from, to) := ExtractorRects(b, p, srcW, destW);
      from.x == b.x as real && from.y == b.y as real &&
      from.w == p.width as real && from.h == p.height as real &&
      to == Parts.ScaleMetadata(from, destW as real / srcW as real)
  {
  }

  /** Over a loaded source whose keys are all extracted names of the
      table, the loop passes and only appends. */
  lemma {:induction false} ExtractorCopiesPass(els: map<string, Piece>, t: AssetData, img: (nat, nat), dests: seq<nat>,
                                               acc: seq<CanvasOp>, order: seq<string>)
    requires img.0 > 0
    requires forall i :: 0 <= i < |order| ==> order[i] in els && Lookup(t.elements, order[i]).Some?
    ensures var (o, out) := ExtractorCopies(els, Some(t), Some(img), dests, acc, order);
      o == Pass && |acc| <= |out| && out[..|acc|] == acc
    decreases |order|
  {
    if order != [] {
      var rest := order[1..];
      assert forall i :: 0 <= i < |rest| ==> rest[i] == order[i + 1];
      if dests == [] {
        ExtractorCopiesPass(els, t, img, dests, acc, rest);
      } else {
        var rects := ExtractorRectsAll(Lookup(t.elements, order[0]).value, els[order[0]], img.0, dests);
        var here := Copies(SourceImage, rects, 0);
        ExtractorCopiesPass(els, t, img, dests, acc + here, rest);
        var out := ExtractorCopies(els, Some(t), Some(img), dests, acc, order).1;
        assert out[..|acc|] == (acc + here)[..|acc|];
      }
    }
  }

  // ---------------------------------------------------------------------------
  // src/lib.js

  /** `change(...names)` of src/lib.js, appending to `acc`: a name outside
      the changer's own table throws (a TypeError, the error class it names
      is not exported); the source image is read for every destination. */
  function LibJsChange(t: Option<AssetData>, img: Option<(nat, nat)>, srcM: real, dests: seq<nat>,
                       acc: seq<CanvasOp>, names: seq<string>): (Outcome, seq<CanvasOp>)
    requires img.Some? ==> img.value.0 > 0
    decreases |names|
  {
    if names == [] then (Pass, acc)
    else if t.None? || Lookup(t.value.elements, names[0]).None? then (Fail(TypeError), acc)
    else if dests == [] then LibJsChange(t, img, srcM, dests, acc, names[1..])
    else if img.None? then (Fail(TypeError), acc)
    else
      var rects := LibJsRectsAll(Lookup(t.value.elements, names[0]).value, srcM, img.value.0, dests);
      LibJsChange(t, img, srcM, dests, acc + Copies(SourceImage, rects, 0), names[1..])
  }

  /** With the source multiplier of a loaded source, src/lib.js draws each
      part onto the table rectangle scaled by the destination's own
      multiplier. */
  lemma LibJsDestinationIsScaledTable(b: Box, size: Size, srcW: nat, destW: nat)
    requires srcW > 0 && size.w > 0
    ensures LibJsRects(b, srcW as real / size.w as real, srcW, destW).1 ==
      Parts.ScaleMetadata(ToRect(b), destW as real / size.w as real)
  {
    var k := srcW as real / size.w as real;
    var r := destW as real / srcW as real;
    Parts.ScaleCompose(ToRect(b), k, r);
    assert k * r == destW as real / size.w as real;
  }

  /** A src/lib.js run passes exactly when every name is in the table (and
      the table exists); it only appends. */
  lemma {:induction false} LibJsChangeGrows(t: Option<AssetData>, img: (nat, nat), srcM: real, dests: seq<nat>,
                                            acc: seq<CanvasOp>, names: seq<string>)
    requires img.0 > 0
    ensures var (o, out) := LibJsChange(t, Some(img), srcM, dests, acc, names);
      |acc| <= |out| && out[..|acc|] == acc &&
      (o == Pass <==> names == [] || (t.Some? && forall i :: 0 <= i < |names| ==> Lookup(t.value.elements, names[i]).Some?)) &&
      (o != Pass ==> o == Fail(TypeError))
    decreases |names|
  {
    if names != [] && t.Some? && Lookup(t.value.elements, names[0]).Some? {
      var rest := names[1..];
      assert forall i :: 1 <= i < |names| ==> names[i] == rest[i - 1];
      var here := if dests == [] then [] else
        Copies(SourceImage, LibJsRectsAll(Lookup(t.value.elements, names[0]).value, srcM, img.0, dests), 0);
      LibJsChangeGrows(t, img, srcM, dests, acc + here, rest);
      if dests == [] {
        assert acc + here == acc;
      }
      var out := LibJsChange(t, Some(img), srcM, dests, acc, names).1;
      assert out[..|acc|] == (acc + here)[..|acc|];
    }
  }

  // ---------------------------------------------------------------------------
  // the changer

  class TwAssetChanger {
    const draft: ChangerDraft
    /** The asset whose elements are copied: the changer itself in
        lib/changer.ts and src/changer.js (which extend `TwAssetBase`),
        `this.src` in src/lib.js. */
    const base: TwAssetBase
    /** The widths of the destinations' images, as `preprocess` loaded
        them. */
    const dests: seq<nat>
    /** The calls the destination contexts received, in order. */
    var ops: seq<CanvasOp>

    ghost predicate Valid()
      reads this, base, base.canvas
    {
      base.Valid() && base.draft == BaseDraft(draft) && (base.img.Some? ==> base.img.value.0 > 0)
    }

    /** `this.data` of src/lib.js: the changer's own table for the type. */
    function Table(): Option<AssetData>
      reads this, base
    {
      DataFor(Source(base.draft), base.assetType)
    }

    constructor (k: ChangerDraft, base: TwAssetBase, dests: seq<nat>)
      requires base.Valid() && base.draft == BaseDraft(k) && (base.img.Some? ==> base.img.value.0 > 0)
      ensures Valid() && draft == k && this.base == base && this.dests == dests && ops == []
    {
      draft, this.base, this.dests := k, base, dests;
      ops := [];
    }

    /** Clear, then draw, each destination in turn. */
    method CopyToDests(origin: Origin, rects: seq<(Parts.Rect, Parts.Rect)>)
      modifies this
      ensures ops == old(ops) + Copies(origin, rects, 0)
    {
      var i := 0;
      while i < |rects|
        invariant 0 <= i <= |rects|
        invariant ops + Copies(origin, rects, i) == old(ops) + Copies(origin, rects, 0)
      {
        var (from, to) := rects[i];
        ops := ops + [ClearRect(i, to)];
        ops := ops + [DrawImage(i, origin, from, to)];
        i := i + 1;
      }
    }

    /** `change(...names)` of lib/changer.ts. */
    method ChangeTs(names: seq<string>) returns (o: Outcome)
      requires Valid() && draft == LibChangerTs
      modifies this
      ensures Valid()
      ensures (o, ops) == LibChange(base.elements, base.data, base.img, dests, old(ops), names)
    {
      var els, t, img := base.elements, base.data, base.img;
      var k := 0;
      while k < |names|
        invariant 0 <= k <= |names|
        invariant LibChange(els, t, img, dests, old(ops), names) == LibChange(els, t, img, dests, ops, names[k..])
      {
        var name := names[k];
        assert names[k..][1..] == names[k + 1..];
        if name !in els {
          return Fail(TypeError);
        }
        if t.None? {
          return Fail(TypeError);
        }
        if dests != [] {
          var b := Lookup(t.value.elements, name);
          if b.None? || img.None? {
            return Fail(TypeError);
          }
          CopyToDests(ElementCanvas(name), LibRectsAll(b.value, els[name], t.value.size.value, img.value.0, dests));
        }
        k := k + 1;
      }
      o := Pass;
    }

    /** `change(...names)` of src/changer.js: extract the names first, then
        copy every extracted element, named or not. */
    method ChangeExtractor(names: seq<string>) returns (o: Outcome)
      requires Valid() && draft == SrcChangerJs
      modifies this, base
      ensures Valid()
      ensures var (e, ord) := ExtractRun(base.draft, old(base.data), old(base.keyed), old(base.canvas) != null,
                                         old(base.order), names);
        base.order == ord &&
        if e.Fail? then o == e && ops == old(ops)
        else (o, ops) == ExtractorCopies(base.elements, base.data, base.img, dests, old(ops), base.order)
    {
      var e := base.Extract(names);
      if e.Fail? {
        return e;
      }
      o := CopyEntries(base.elements, base.data, base.img, base.order);
    }

    /** The loop of src/changer.js over the extracted entries. */
    method CopyEntries(els: map<string, Piece>, t: Option<AssetData>, img: Option<(nat, nat)>, order: seq<string>)
      returns (o: Outcome)
      requires img.Some? ==> img.value.0 > 0
      modifies this
      ensures (o, ops) == ExtractorCopies(els, t, img, dests, old(ops), order)
    {
      var k := 0;
      while k < |order|
        invariant 0 <= k <= |order|
        invariant ExtractorCopies(els, t, img, dests, old(ops), order) == ExtractorCopies(els, t, img, dests, ops, order[k..])
      {
        var name := order[k];
        assert order[k..][1..] == order[k + 1..];
        if t.None? {
          return Fail(TypeError);
        }
        if dests != [] {
          if img.None? || name !in els || Lookup(t.value.elements, name).None? {
            return Fail(TypeError);
          }
          CopyToDests(SourceImage, ExtractorRectsAll(Lookup(t.value.elements, name).value, els[name], img.value.0, dests));
        }
        k := k + 1;
      }
      o := Pass;
    }

    /** `change(...names)` of src/lib.js. */
    method ChangeLibJs(names: seq<string>) returns (o: Outcome)
      requires Valid() && draft == SrcLibChanger
      modifies this
      ensures Valid()
      ensures (o, ops) == LibJsChange(Table(), base.img, SourceMultiplier(), dests, old(ops), names)
    {
      var t, img, srcM := Table(), base.img, SourceMultiplier();
      var k := 0;
      while k < |names|
        invariant 0 <= k <= |names|
        invariant LibJsChange(t, img, srcM, dests, old(ops), names) == LibJsChange(t, img, srcM, dests, ops, names[k..])
      {
        var name := names[k];
        assert names[k..][1..] == names[k + 1..];
        if t.None? || Lookup(t.value.elements, name).None? {
          return Fail(TypeError);
        }
        if dests != [] {
          if img.None? {
            return Fail(TypeError);
          }
          CopyToDests(SourceImage, LibJsRectsAll(Lookup(t.value.elements, name).value, srcM, img.value.0, dests));
        }
        k := k + 1;
      }
      o := Pass;
    }

    /** `this.src._getMultiplier()` of src/lib.js: 0 until the source has a
        table and an image. */
    function SourceMultiplier(): real
      requires Valid()
      reads this, base, base.canvas
    {
      if base.data.Some? && base.img.Some? then MultiplierOf(base.data.value, base.img.value.0) else 0.0
    }
  }
}

=== FILE: colors.dfy ===
// The colour values of lib/color.ts: range-checked channel setters, the
// ColorRGBA pixel with its grayscale and multiplicative tint, the ColorHSL
// value with its packed Teeworlds code, and the ColorCode value with its
// bytes and its HSL reading. Numbers are exact reals.

module Colors {
  import opened Results
  import opened Numbers

  /** `setColorValueBase(value, from, to)`: the value when it lies in
      [from, to], a ColorError otherwise. */
  function SetColorValueBase(value: real, from: real, to: real): (r: Result<real>)
    ensures r.Ok? <==> from <= value <= to
    ensures r.Ok? ==> r.value == value
    ensures r.Err? ==> r.error == ColorError
  {
    if value < from || value > to then Err(ColorError) else Ok(value)
  }

  /** `setColorValue(value, to)`: the range [0, to]. */
  function SetColorValue(value: real, to: real): (r: Result<real>)
    ensures r == (if 0.0 <= value <= to then Ok(value) else Err(ColorError))
  {
    SetColorValueBase(value, 0.0, to)
  }

  /** The four channels of a ColorRGBA, as a value. */
  datatype Rgba = Rgba(r: real, g: real, b: real, a: real)

  datatype Channel = R | G | B | A

  function Get(p: Rgba, ch: Channel): real
  {
    match ch
    case R => p.r
    case G => p.g
    case B => p.b
    case A => p.a
  }

  function With(p: Rgba, ch: Channel, v: real): Rgba
  {
    match ch
    case R => p.(r := v)
    case G => p.(g := v)
    case B => p.(b := v)
    case A => p.(a := v)
  }

  predicate InByteRange(p: Rgba)
  {
    0.0 <= p.r <= 255.0 && 0.0 <= p.g <= 255.0 && 0.0 <= p.b <= 255.0 && 0.0 <= p.a <= 255.0
  }

  /** `average`: the mean of the three colour channels. */
  function Average(p: Rgba): real
  {
    (p.r + p.g + p.b) / 3.0
  }

  /** `blackAndWhite`: the colour channels become their mean, unrounded;
      alpha is kept. */
  function Gray(p: Rgba): Rgba
  {
    Rgba(Average(p), Average(p), Average(p), p.a)
  }

  /** Every channel multiplied by the tint's channel over 255. */
  function Tint(p: Rgba, c: Rgba): Rgba
  {
    Rgba(p.r * c.r / 255.0, p.g * c.g / 255.0, p.b * c.b / 255.0, p.a * c.a / 255.0)
  }

  /** `applyColor`: four checked writes of the tinted channels, in the
      order r, g, b, a. The first out-of-range value stops the sequence with a
      ColorError; the channels written before it keep their new values. */
  function AppliedColor(p: Rgba, c: Rgba): (Rgba, Outcome)
  {
    var t := Tint(p, c);
    if SetColorValue(t.r, 255.0).Err? then (p, Fail(ColorError))
    else if SetColorValue(t.g, 255.0).Err? then (p.(r := t.r), Fail(ColorError))
    else if SetColorValue(t.b, 255.0).Err? then (p.(r := t.r, g := t.g), Fail(ColorError))
    else if SetColorValue(t.a, 255.0).Err? then (t.(a := p.a), Fail(ColorError))
    else (t, Pass)
  }

  /** `applyColor` succeeds exactly when the whole tint stays in 0..255, and
      then yields the tint. */
  lemma ApplyColorSucceeds(p: Rgba, c: Rgba)
    ensures AppliedColor(p, c).1 == Pass <==> InByteRange(Tint(p, c))
    ensures AppliedColor(p, c).1 == Pass ==> AppliedColor(p, c).0 == Tint(p, c)
    ensures AppliedColor(p, c).1.Fail? ==> AppliedColor(p, c).1.error == ColorError
  {
  }

  /** With the pixel and the tint both in 0..255, no setter of `applyColor`
      fails. */
  lemma {:induction false} ApplyColorInRange(p: Rgba, c: Rgba)
    requires InByteRange(p) && InByteRange(c)
    ensures AppliedColor(p, c) == (Tint(p, c), Pass)
    ensures InByteRange(Tint(p, c))
  {
    ProductInByteRange(p.r, c.r);
    ProductInByteRange(p.g, c.g);
    ProductInByteRange(p.b, c.b);
    ProductInByteRange(p.a, c.a);
    ApplyColorSucceeds(p, c);
  }

  /** A tint of pure white changes nothing. */
  lemma TintByWhite(p: Rgba)
    ensures Tint(p, Rgba(255.0, 255.0, 255.0, 255.0)) == p
  {
  }

  /** Grayscale keeps the mean, keeps a pixel whose channels are already
      equal, and is idempotent. */
  lemma GrayLaws(p: Rgba)
    ensures Average(Gray(p)) == Average(p)
    ensures p.r == p.g == p.b ==> Gray(p) == p
    ensures Gray(Gray(p)) == Gray(p)
    ensures InByteRange(p) ==> InByteRange(Gray(p))
  {
  }

  /** ColorRGBA: four channels behind range-checked setters. */
  class ColorRGBA {
    var r: real
    var g: real
    var b: real
    var a: real

    function Value(): Rgba
      reads this
    {
      Rgba(r, g, b, a)
    }

    /** The constructor stores its arguments unchecked. */
    constructor (r: real, g: real, b: real, a: real)
      ensures Value() == Rgba(r, g, b, a)
    {
      this.r, this.g, this.b, this.a := r, g, b, a;
    }

    /** The `r`, `g`, `b` and `a` setters: a value outside 0..255 is refused
        with a ColorError and nothing changes. */
    method Set(ch: Channel, value: real) returns (o: Outcome)
      modifies this
      ensures o == (if 0.0 <= value <= 255.0 then Pass else Fail(ColorError))
      ensures Value() == (if o.Pass? then With(old(Value()), ch, value) else old(Value()))
    {
      var checked := SetColorValue(value, 255.0);
      if checked.Err? {
        return Fail(checked.error);
      }
      match ch {
        case R => r := value;
        case G => g := value;
        case B => b := value;
        case A => a := value;
      }
      o := Pass;
    }

    /** `toArray`. */
    function ToArray(): (s: seq<real>)
      reads this
      ensures |s| == 4 && s[0] == r && s[1] == g && s[2] == b && s[3] == a
    {
      [r, g, b, a]
    }

    /** `blackAndWhite`: writes the fields directly, without the setters. */
    method BlackAndWhite()
      modifies this
      ensures Value() == Gray(old(Value()))
    {
      var average := (r + g + b) / 3.0;
      r := average;
      g := average;
      b := average;
    }

    /** `applyColor(color)`: each channel through its setter, reading the
        tint channel at the moment of the write, so a ColorRGBA may tint
        itself. */
    method ApplyColor(color: ColorRGBA) returns (o: Outcome)
      modifies this
      ensures Value() == AppliedColor(old(Value()), old(color.Value())).0
      ensures o == AppliedColor(old(Value()), old(color.Value())).1
    {
      ghost var p, c := Value(), color.Value();
      ghost var t := Tint(p, c);
      ghost var expected := AppliedColor(p, c);
      o := Set(R, r * color.r / 255.0);
      if o.Fail? {
        assert expected == (p, Fail(ColorError));
        return;
      }
      assert Value() == p.(r := t.r) && color.g == c.g && color.b == c.b && color.a == c.a;
      o := Set(G, g * color.g / 255.0);
      if o.Fail? {
        assert expected == (p.(r := t.r), Fail(ColorError));
        return;
      }
      assert Value() == p.(r := t.r, g := t.g) && color.b == c.b && color.a == c.a;
      o := Set(B, b * color.b / 255.0);
      if o.Fail? {
        assert expected == (p.(r := t.r, g := t.g), Fail(ColorError));
        return;
      }
      assert Value() == t.(a := p.a) && color.a == c.a;
      o := Set(A, a * color.a / 255.0);
      assert expected == (if o.Pass? then (t, Pass) else (t.(a := p.a), Fail(ColorError)));
    }
  }

  /** `ColorRGBA.twCode` is not implemented: it always fails. */
  function RgbaTwCode(c: Rgba): (r: Result<ColorCode>)
    ensures r == Err(ColorError)
  {
    Err(ColorError)
  }

  /** The three values of a ColorHSL. */
  datatype Hsl = Hsl(h: real, s: real, l: real)

  datatype HslField = H | S | L

  /** The limit of each HSL setter. */
  function HslLimit(f: HslField): real
  {
    match f
    case H => 360.0
    case S => 100.0
    case L => 100.0
  }

  predicate HslValid(v: Hsl)
  {
    0.0 <= v.h <= 360.0 && 0.0 <= v.s <= 100.0 && 0.0 <= v.l <= 100.0
  }

  /** The `new ColorHSL(h, s, l)`: the setters for h, s and l, in that
      order; any value out of range is a ColorError. */
  function MakeHsl(h: real, s: real, l: real): (r: Result<Hsl>)
    ensures r.Ok? <==> HslValid(Hsl(h, s, l))
    ensures r.Ok? ==> r.value == Hsl(h, s, l)
    ensures r.Err? ==> r.error == ColorError
  {
    match SetColorValue(h, 360.0)
    case Err(e) => Err(e)
    case Ok(h') =>
      match SetColorValue(s, 100.0)
      case Err(e) => Err(e)
      case Ok(s') =>
        match SetColorValue(l, 100.0)
        case Err(e) => Err(e)
        case Ok(l') => Ok(Hsl(h', s', l'))
  }

  /** ColorHSL: hue in 0..360, saturation and lightness in 0..100. */
  class ColorHSL {
    var h: real
    var s: real
    var l: real

    function Value(): Hsl
      reads this
    {
      Hsl(h, s, l)
    }

    ghost predicate Valid()
      reads this
    {
      HslValid(Value())
    }

    constructor FromChecked(v: Hsl)
      requires HslValid(v)
      ensures Value() == v && Valid()
    {
      h, s, l := v.h, v.s, v.l;
    }

    /** `new ColorHSL(h, s, l)`: a new object, or the ColorError of the
        first setter that refuses its value. */
    static method Create(h: real, s: real, l: real) returns (r: Result<ColorHSL>)
      ensures r.Ok? <==> MakeHsl(h, s, l).Ok?
      ensures r.Err? ==> r.error == ColorError
      ensures r.Ok? ==> fresh(r.value) && r.value.Value() == Hsl(h, s, l) && r.value.Valid()
    {
      var v := MakeHsl(h, s, l);
      if v.Err? {
        return Err(v.error);
      }
      var c := new ColorHSL.FromChecked(v.value);
      r := Ok(c);
    }

    /** The `h`, `s` and `l` setters. */
    method Set(f: HslField, value: real) returns (o: Outcome)
      modifies this
      ensures o == (if 0.0 <= value <= HslLimit(f) then Pass else Fail(ColorError))
      ensures o.Pass? ==> Value() == (match f
                                      case H => old(Value()).(h := value)
                                      case S => old(Value()).(s := value)
                                      case L => old(Value()).(l := value))
      ensures o.Fail? ==> Value() == old(Value())
      ensures old(Valid()) ==> Valid()
    {
      var checked := SetColorValue(value, HslLimit(f));
      if checked.Err? {
        return Fail(checked.error);
      }
      match f {
        case H => h := value;
        case S => s := value;
        case L => l := value;
      }
      o := Pass;
    }

    /** `twCode()` of this object. */
    function TwCode(): Result<ColorCode>
      reads this
    {
      HslTwCode(Value())
    }
  }

  /** A packed Teeworlds code: `setColorValue(value, 0xffffff)` keeps every
      ColorCode within 0..0xFFFFFF. */
  type CodeValue = x: real | 0.0 <= x <= 16777215.0

  /** ColorCode: a read-only code. */
  datatype ColorCode = ColorCode(code: CodeValue)

  /** `new ColorCode(value)`. */
  function MakeColorCode(value: real): (r: Result<ColorCode>)
    ensures r.Ok? <==> 0.0 <= value <= 16777215.0
    ensures r.Ok? ==> r.value.code == value
    ensures r.Err? ==> r.error == ColorError
  {
    match SetColorValue(value, 16777215.0)
    case Err(e) => Err(e)
    case Ok(v) => Ok(ColorCode(v))
  }

  /** `twCode()` of an HSL value: h·255/360, shifted left 8, OR s·255/100,
      shifted left 8, OR (l·255/100 − 128)·2, every step through ToInt32. */
  function HslTwCode(v: Hsl): Result<ColorCode>
  {
    var code3 := HueSaturationCode(v);
    var code4 := Or32(code3 as real, (v.l * 255.0 / 100.0 - 128.0) * 2.0);
    MakeColorCode(code4 as real)
  }

  /** The first three steps of `twCode`: the hue shifted left, OR the
      saturation, shifted left again. */
  function HueSaturationCode(v: Hsl): int
  {
    var code0 := v.h * 255.0 / 360.0;
    var code1 := ShiftLeft8(code0);
    var code2 := Or32(code1 as real, v.s * 255.0 / 100.0);
    ShiftLeft8(code2 as real)
  }

  /** The hue, saturation and lightness bytes that `twCode` packs. */
  function HueByte(v: Hsl): int { Trunc(v.h * 255.0 / 360.0) }
  function SaturationByte(v: Hsl): int { Trunc(v.s * 255.0 / 100.0) }
  function LightnessTerm(v: Hsl): int { Trunc((v.l * 255.0 / 100.0 - 128.0) * 2.0) }

  lemma TruncBounds(x: real, lo: int, hi: int)
    requires lo as real <= x < hi as real + 1.0 && lo <= 0 <= hi
    ensures lo <= Trunc(x) <= hi
  {
  }

  /** The first three steps of `twCode`: hue byte, then saturation byte,
      each below 256, packed without overlap. */
  lemma {:induction false} TwCodeHigh(v: Hsl)
    requires HslValid(v)
    ensures 0 <= HueByte(v) <= 255 && 0 <= SaturationByte(v) <= 255
    ensures HueSaturationCode(v) == (HueByte(v) * 256 + SaturationByte(v)) * 256
  {
    var hb, sb := HueByte(v), SaturationByte(v);
    TruncBounds(v.h * 255.0 / 360.0, 0, 255);
    TruncBounds(v.s * 255.0 / 100.0, 0, 255);
    ShiftSmall(v.h * 255.0 / 360.0);
    OrLowByte(hb, v.s * 255.0 / 100.0);
    ShiftSmall((hb * 256 + sb) as real);
  }

  /** The last OR of `twCode`: a lightness term in 0..254 is added below the
      packed hue and saturation; a negative one makes the result negative. */
  lemma TwCodeLow(high: int, t: int)
    requires 0 <= high < 65536 && -256 <= t <= 254
    ensures t >= 0 ==> Or32((high * 256) as real, t as real) == high * 256 + t
    ensures t < 0 ==> Or32((high * 256) as real, t as real) < 0
  {
    if t >= 0 {
      OrLowByte(high, t as real);
    } else {
      OrNegative(high * 256, t);
    }
  }

  /** OR with a negative 32-bit number stays negative. */
  lemma OrNegative(a: nat, t: int)
    requires a < TWO31 && -TWO31 <= t < 0
    ensures Or32(a as real, t as real) < 0
  {
    Pow2Values();
    assert ToInt32(a as real) == a;
    assert ToInt32(t as real) == t;
    var ut := Unsigned32(t);
    assert ut == t + TWO32;
    BitOrAtLeast(a, ut);
    BitOrBound(a, ut, 32);
  }

  /** The Teeworlds code law: `twCode` of a valid HSL value succeeds exactly
      when the lightness is above 50, and then packs hue, saturation and
      lightness bytes as hue·65536 + saturation·256 + lightness. At or below
      50 the lightness term is negative, the OR sets the sign bit and the
      ColorCode constructor refuses the negative code. */
  lemma {:induction false} TwCodeLaw(v: Hsl)
    requires HslValid(v)
    ensures 0 <= HueByte(v) <= 255 && 0 <= SaturationByte(v) <= 255
    ensures HslTwCode(v).Ok? <==> v.l > 50.0
    ensures HslTwCode(v).Err? ==> HslTwCode(v).error == ColorError
    ensures v.l > 50.0 ==>
              0 <= LightnessTerm(v) <= 254 &&
              HslTwCode(v).value.code == (HueByte(v) * 65536 + SaturationByte(v) * 256 + LightnessTerm(v)) as real
  {
    TwCodeSteps(v);
    LightnessSign(v);
    var high := HueByte(v) * 256 + SaturationByte(v);
    TwCodeLow(high, LightnessTerm(v));
  }

  /** `twCode` is the last OR applied to the packed hue and saturation and
      the integer lightness term. */
  lemma {:induction false} TwCodeSteps(v: Hsl)
    requires HslValid(v)
    ensures 0 <= HueByte(v) <= 255 && 0 <= SaturationByte(v) <= 255
    ensures HslTwCode(v) == MakeColorCode(Or32(((HueByte(v) * 256 + SaturationByte(v)) * 256) as real,
                                               LightnessTerm(v) as real) as real)
  {
    TwCodeHigh(v);
    OrTruncates(HueSaturationCode(v) as real, (v.l * 255.0 / 100.0 - 128.0) * 2.0);
  }

  /** The right operand of `|` only matters through its integer part. */
  lemma OrTruncates(a: real, x: real)
    ensures Or32(a, x) == Or32(a, Trunc(x) as real)
  {
    assert Trunc(Trunc(x) as real) == Trunc(x);
  }

  /** The lightness term lies in -256..254 and is non-negative exactly when
      the lightness is above 50. */
  lemma LightnessSign(v: Hsl)
    requires HslValid(v)
    ensures -256 <= LightnessTerm(v) <= 254
    ensures LightnessTerm(v) >= 0 <==> v.l > 50.0
  {
    var x := (v.l * 255.0 / 100.0 - 128.0) * 2.0;
    TruncBounds(x, -256, 254);
    assert x > -1.0 <==> v.l > 50.0;
  }

  /** The `ColorHSL(169, 100, 75)` of color.test.ts:19 packs to 7864190
      (hue byte 119), not to the 7929728 that test expects. */
  lemma TwCodeExample()
    ensures HslTwCode(Hsl(169.0, 100.0, 75.0)) == Ok(ColorCode(7864190.0))
  {
    var v := Hsl(169.0, 100.0, 75.0);
    TwCodeLaw(v);
    assert HueByte(v) == 119;
    assert SaturationByte(v) == 255;
    assert LightnessTerm(v) == 126;
  }

  /** `toArray()` of a code: bytes `(code >> 16) & 0xff`, `(code >> 8) & 0xff`
      and `code & 0xff`, ToInt32 truncating a fractional code first. */
  function CodeBytes(c: ColorCode): (bs: seq<int>)
    ensures |bs| == 3 && forall i :: 0 <= i < 3 ==> 0 <= bs[i] <= 255
  {
    var n := c.code.Floor;
    [(n / 65536) % 256, (n / 256) % 256, n % 256]
  }

  /** The bytes put back together give the code again (its integer part). */
  lemma CodeBytesRoundTrip(c: ColorCode)
    ensures CodeBytes(c)[0] * 65536 + CodeBytes(c)[1] * 256 + CodeBytes(c)[2] == c.code.Floor
  {
    var n := c.code.Floor;
    var q, r := n / 256, n % 256;
    DivModUnique(n, 65536, q / 256, (q % 256) * 256 + r);
    DivModUnique(n / 65536, 256, 0, n / 65536);
  }

  /** The HSL numbers a code's bytes stand for: hue b0·360/255, saturation
      b1·100/255 and lightness (b2/2 + 128)·100/255. */
  function CodeTriple(bs: seq<int>): (t: seq<real>)
    requires |bs| == 3
    ensures |t| == 3
  {
    [bs[0] as real * 360.0 / 255.0, bs[1] as real * 100.0 / 255.0, (bs[2] as real / 2.0 + 128.0) * 100.0 / 255.0]
  }

  /** `hsl()` of a code: its triple, checked by the ColorHSL setters. */
  function CodeHsl(c: ColorCode): Result<Hsl>
  {
    var t := CodeTriple(CodeBytes(c));
    MakeHsl(t[0], t[1], t[2])
  }

  /** `hsl()` fails exactly when the lightness byte is 255, whose lightness
      exceeds 100. */
  lemma CodeHslFails(c: ColorCode)
    ensures CodeHsl(c).Err? <==> CodeBytes(c)[2] == 255
    ensures CodeHsl(c).Err? ==> CodeHsl(c).error == ColorError
  {
    var bs := CodeBytes(c);
    assert bs[0] as real * 360.0 / 255.0 <= 360.0;
    assert bs[1] as real * 100.0 / 255.0 <= 100.0;
  }

  /** color.test.ts:26-31: the code 0x78FF80 reads as HSL
      (120·360/255, 100, 192·100/255). */
  lemma CodeHslExample()
    ensures CodeHsl(ColorCode(7929728.0)) == Ok(Hsl(120.0 * 360.0 / 255.0, 100.0, 19200.0 / 255.0))
  {
    assert CodeBytes(ColorCode(7929728.0)) == [120, 255, 128];
  }

  /** Reading an integral code as HSL and packing it again gives the code
      back whenever its lightness byte is not 255 (exact arithmetic). */
  lemma {:induction false} CodeRoundTrip(c: ColorCode)
    requires c.code.Floor as real == c.code && CodeBytes(c)[2] != 255
    ensures CodeHsl(c).Ok? && HslTwCode(CodeHsl(c).value) == Ok(c)
  {
    CodeHslFails(c);
    var v := CodeHsl(c).value;
    var bs := CodeBytes(c);
    TripleBytes(bs);
    assert HueByte(v) == bs[0] && SaturationByte(v) == bs[1] && LightnessTerm(v) == bs[2];
    TwCodeLaw(v);
    CodeBytesRoundTrip(c);
    assert HslTwCode(v).value.code == c.code;
  }

  /** The numbers of a byte triple, scaled back as `twCode` does, give the
      bytes again; the lightness of any byte is above 50. */
  lemma TripleBytes(bs: seq<int>)
    requires |bs| == 3 && forall i :: 0 <= i < 3 ==> 0 <= bs[i] <= 255
    ensures var t := CodeTriple(bs);
            Trunc(t[0] * 255.0 / 360.0) == bs[0] && Trunc(t[1] * 255.0 / 100.0) == bs[1] &&
            Trunc((t[2] * 255.0 / 100.0 - 128.0) * 2.0) == bs[2] && t[2] > 50.0
  {
    var t := CodeTriple(bs);
    assert t[0] * 255.0 / 360.0 == bs[0] as real;
    assert t[1] * 255.0 / 100.0 == bs[1] as real;
    assert (t[2] * 255.0 / 100.0 - 128.0) * 2.0 == bs[2] as real;
  }
}

=== FILE: data.dfy ===
// The element tables of lib/data.ts and of its older draft src/data.js: for
// each asset type, the sheet size at base resolution, the divisor the sheet
// size must be a multiple of, and the rectangle `[x, y, w, h]` of every named
// element.

module Data {
  import opened Results
  import Parts
  import Utils

  /** A `{w, h}` pair. */
  datatype Size = Size(w: int, h: int)

  /** An element `[x, y, w, h]` at base resolution. */
  datatype Box = Box(x: int, y: int, w: int, h: int)

  /** One table: its `size`, its `divisor` (missing from the src/data.js
      tables), its `ratio` (only the src/data.js GAMESKIN has one) and its
      `elements` in key order. */
  datatype AssetData = AssetData(size: Option<Size>, divisor: Option<Size>, ratio: Option<int>,
                                 elements: seq<(string, Box)>)

  /** The two data modules. */
  datatype DataSource = LibData | SrcData

  /** The same rectangle as a part-table rectangle. */
  function ToRect(b: Box): Parts.Rect
  {
    Parts.Rt(b.x, b.y, b.w, b.h)
  }

  /** The `elements` of SKIN (lib/data.ts:23-34), in key order. */
  function LibSkinRow(i: int): (string, Box)
  {
    match i
    case 0 => ("body", Box(0, 0, 96, 96))
    case 1 => ("body_shadow", Box(96, 0, 96, 96))
    case 2 => ("hand", Box(192, 0, 32, 32))
    case 3 => ("hand_shadow", Box(224, 0, 32, 32))
    case 4 => ("foot", Box(192, 32, 64, 32))
    case 5 => ("foot_shadow", Box(192, 64, 64, 32))
    case 6 => ("default_eye", Box(64, 96, 32, 32))
    case 7 => ("angry_eye", Box(96, 96, 32, 32))
    case 8 => ("blink_eye", Box(128, 96, 32, 32))
    case 9 => ("happy_eye", Box(160, 96, 32, 32))
    case 10 => ("cross_eye", Box(192, 96, 32, 32))
    case _ => ("scary_eye", Box(224, 96, 32, 32))
  }

  /** The `elements` of GAMESKIN (lib/data.ts:42-89), in key order. */
  function LibGameskinRow(i: int): (string, Box)
  {
    if i < 12 then LibGameskinRows0(i)
    else if i < 24 then LibGameskinRows12(i)
    else if i < 36 then LibGameskinRows24(i)
    else LibGameskinRows36(i)
  }

  function LibGameskinRows0(i: int): (string, Box)
  {
    match i
    case 0 => ("hook", Box(64, 0, 128, 32))
    case 1 => ("hammer_cursor", Box(0, 0, 64, 64))
    case 2 => ("gun_cursor", Box(0, 128, 64, 64))
    case 3 => ("shotgun_cursor", Box(0, 192, 64, 64))
    case 4 => ("grenade_cursor", Box(0, 256, 64, 64))
    case 5 => ("ninja_cursor", Box(0, 320, 64, 64))
    case 6 => ("laser_cursor", Box(0, 384, 64, 64))
    case 7 => ("hammer", Box(64, 32, 128, 96))
    case 8 => ("gun", Box(64, 128, 128, 64))
    case 9 => ("shotgun", Box(64, 192, 256, 64))
    case 10 => ("grenade", Box(64, 256, 256, 64))
    case _ => ("ninja", Box(64, 320, 256, 64))
  }

  function LibGameskinRows12(i: int): (string, Box)
  {
    match i
    case 12 => ("laser", Box(64, 384, 224, 96))
    case 13 => ("gun_ammo", Box(192, 128, 64, 64))
    case 14 => ("shotgun_ammo", Box(320, 192, 64, 64))
    case 15 => ("grenade_ammo", Box(320, 256, 64, 64))
    case 16 => ("laser_ammo", Box(320, 384, 64, 64))
    case 17 => ("gun_particle_1", Box(256, 128, 128, 64))
    case 18 => ("gun_particle_2", Box(384, 128, 128, 64))
    case 19 => ("gun_particle_3", Box(512, 128, 128, 64))
    case 20 => ("shotgun_particle_1", Box(384, 192, 128, 64))
    case 21 => ("shotgun_particle_2", Box(512, 192, 128, 64))
    case 22 => ("shotgun_particle_3", Box(640, 192, 128, 64))
    case _ => ("particle_1", Box(192, 0, 32, 32))
  }

  function LibGameskinRows24(i: int): (string, Box)
  {
    match i
    case 24 => ("particle_2", Box(224, 0, 32, 32))
    case 25 => ("particle_3", Box(256, 0, 32, 32))
    case 26 => ("particle_4", Box(192, 32, 32, 32))
    case 27 => ("particle_5", Box(224, 32, 32, 32))
    case 28 => ("particle_6", Box(256, 32, 32, 32))
    case 29 => ("particle_7", Box(288, 0, 64, 64))
    case 30 => ("particle_8", Box(352, 0, 64, 64))
    case 31 => ("particle_9", Box(416, 0, 64, 64))
    case 32 => ("star_1", Box(480, 0, 64, 64))
    case 33 => ("star_2", Box(544, 0, 64, 64))
    case 34 => ("star_3", Box(608, 0, 64, 64))
    case _ => ("health_full", Box(672, 0, 64, 64))
  }

  function LibGameskinRows36(i: int): (string, Box)
  {
    match i
    case 36 => ("health_empty", Box(736, 0, 64, 64))
    case 37 => ("armor_full", Box(672, 64, 64, 64))
    case 38 => ("armor_empty", Box(736, 64, 64, 64))
    case 39 => ("heart", Box(320, 64, 64, 64))
    case 40 => ("shield", Box(384, 64, 64, 64))
    case 41 => ("minus", Box(256, 64, 64, 64))
    case 42 => ("ninja_timer", Box(672, 128, 128, 64))
    case 43 => ("ninja_particle_1", Box(800, 0, 224, 128))
    case 44 => ("ninja_particle_2", Box(800, 128, 224, 128))
    case 45 => ("ninja_particle_3", Box(800, 256, 224, 128))
    case 46 => ("flag_blue", Box(384, 256, 128, 256))
    case _ => ("flag_red", Box(512, 256, 128, 256))
  }

  /** The `elements` of EMOTICON (lib/data.ts:97-112), in key order. */
  function LibEmoticonRow(i: int): (string, Box)
  {
    match i
    case 0 => ("1", Box(0, 0, 128, 128))
    case 1 => ("2", Box(128, 0, 128, 128))
    case 2 => ("3", Box(256, 0, 128, 128))
    case 3 => ("4", Box(384, 0, 128, 128))
    case 4 => ("5", Box(0, 128, 128, 128))
    case 5 => ("6", Box(128, 128, 128, 128))
    case 6 => ("7", Box(256, 128, 128, 128))
    case 7 => ("8", Box(384, 128, 128, 128))
    case 8 => ("9", Box(0, 256, 128, 128))
    case 9 => ("10", Box(128, 256, 128, 128))
    case 10 => ("11", Box(256, 256, 128, 128))
    case 11 => ("12", Box(384, 256, 128, 128))
    case 12 => ("13", Box(0, 384, 128, 128))
    case 13 => ("14", Box(128, 384, 128, 128))
    case 14 => ("15", Box(256, 384, 128, 128))
    case _ => ("16", Box(384, 384, 128, 128))
  }

  /** The `elements` of PARTICULE (lib/data.ts:120-132), in key order. */
  function LibParticuleRow(i: int): (string, Box)
  {
    match i
    case 0 => ("1", Box(0, 0, 64, 64))
    case 1 => ("2", Box(64, 0, 64, 64))
    case 2 => ("3", Box(128, 0, 64, 64))
    case 3 => ("4", Box(192, 0, 64, 64))
    case 4 => ("5", Box(256, 0, 64, 64))
    case 5 => ("6", Box(0, 64, 64, 64))
    case 6 => ("7", Box(64, 64, 64, 64))
    case 7 => ("8", Box(128, 64, 64, 64))
    case 8 => ("9", Box(192, 64, 64, 64))
    case 9 => ("10", Box(256, 64, 128, 128))
    case 10 => ("11", Box(0, 128, 128, 128))
    case 11 => ("12", Box(128, 128, 128, 128))
    case _ => ("13", Box(0, 256, 256, 256))
  }

  /** SKIN of lib/data.ts:19-36. */
  function LibSkin(): AssetData
  {
    AssetData(Some(Size(256, 128)), Some(Size(8, 4)), None, seq(12, i => LibSkinRow(i)))
  }

  /** GAMESKIN of lib/data.ts:38-91. */
  function LibGameskin(): AssetData
  {
    AssetData(Some(Size(1024, 512)), Some(Size(32, 16)), None, seq(48, i => LibGameskinRow(i)))
  }

  /** EMOTICON of lib/data.ts:93-114. */
  function LibEmoticon(): AssetData
  {
    AssetData(Some(Size(512, 512)), Some(Size(4, 4)), None, seq(16, i => LibEmoticonRow(i)))
  }

  /** PARTICULE of lib/data.ts:116-134. */
  function LibParticule(): AssetData
  {
    AssetData(Some(Size(512, 512)), Some(Size(8, 8)), None, seq(13, i => LibParticuleRow(i)))
  }

  /** SKIN of src/data.js:20-36: the same size and elements as lib/data.ts,
      but no divisor. */
  function SrcSkin(): AssetData
  {
    AssetData(Some(Size(256, 128)), None, None, seq(12, i => SrcSkinRow(i)))
  }

  /** The `elements` of SKIN in src/data.js:22-35. */
  function SrcSkinRow(i: int): (string, Box)
  {
    match i
    case 0 => ("body", Box(0, 0, 96, 96))
    case 1 => ("body_shadow", Box(96, 0, 96, 96))
    case 2 => ("hand", Box(192, 0, 32, 32))
    case 3 => ("hand_shadow", Box(224, 0, 32, 32))
    case 4 => ("foot", Box(192, 32, 64, 32))
    case 5 => ("foot_shadow", Box(192, 64, 64, 32))
    case 6 => ("default_eye", Box(64, 96, 32, 32))
    case 7 => ("angry_eye", Box(96, 96, 32, 32))
    case 8 => ("blink_eye", Box(128, 96, 32, 32))
    case 9 => ("happy_eye", Box(160, 96, 32, 32))
    case 10 => ("cross_eye", Box(192, 96, 32, 32))
    case _ => ("scary_eye", Box(224, 96, 32, 32))
  }

  /** GAMESKIN of src/data.js:38-43: a ratio and one element, no size. It is
      not exported. */
  function SrcGameskin(): AssetData
  {
    AssetData(None, None, Some(2), [("hammer_crosshair", Box(0, 0, 64, 64))])
  }

  /** The exports of each data module, in export order (lib/data.ts:136,
      src/data.js:45-47). */
  function Exports(src: DataSource): seq<(string, AssetData)>
  {
    match src
    case LibData => [("SKIN", LibSkin()), ("GAMESKIN", LibGameskin()), ("EMOTICON", LibEmoticon()),
                     ("PARTICULE", LibParticule())]
    case SrcData => [("SKIN", SrcSkin())]
  }

  /** `Object.keys(data).includes(type) ? data[type] : undefined`. */
  function DataFor(src: DataSource, assetType: string): (r: Option<AssetData>)
    ensures r.Some? <==> exists i :: 0 <= i < |Exports(src)| && Exports(src)[i].0 == assetType
    ensures r.Some? ==> exists i :: 0 <= i < |Exports(src)| && Exports(src)[i] == (assetType, r.value)
  {
    Lookup(Exports(src), assetType)
  }

  /** The value stored under the first occurrence of `key`. */
  function Lookup<V>(t: seq<(string, V)>, key: string): (r: Option<V>)
    ensures r.Some? <==> exists i :: 0 <= i < |t| && t[i].0 == key
    ensures r.Some? ==> exists i :: 0 <= i < |t| && t[i] == (key, r.value)
  {
    if t == [] then None
    else if t[0].0 == key then Some(t[0].1)
    else
      LookupTail(t, key);
      Lookup(t[1..], key)
  }

  lemma LookupTail<V>(t: seq<(string, V)>, key: string)
    requires t != [] && t[0].0 != key
    ensures (exists i :: 0 <= i < |t| && t[i].0 == key) <==> (exists i :: 0 <= i < |t[1..]| && t[1..][i].0 == key)
    ensures forall v :: (exists i :: 0 <= i < |t[1..]| && t[1..][i] == (key, v)) ==> (exists i :: 0 <= i < |t| && t[i] == (key, v))
  {
    if exists i :: 0 <= i < |t| && t[i].0 == key {
      var i :| 0 <= i < |t| && t[i].0 == key;
      assert t[1..][i - 1].0 == key;
    }
    forall v | (exists i :: 0 <= i < |t[1..]| && t[1..][i] == (key, v))
      ensures exists i :: 0 <= i < |t| && t[i] == (key, v)
    {
      var i :| 0 <= i < |t[1..]| && t[1..][i] == (key, v);
      assert t[i + 1] == (key, v);
    }
  }

  /** The keys of a table, in order (`Object.keys`). */
  function Keys<V>(t: seq<(string, V)>): (ks: seq<string>)
    ensures |ks| == |t| && forall i :: 0 <= i < |t| ==> ks[i] == t[i].0
  {
    if t == [] then [] else [t[0].0] + Keys(t[1..])
  }

  /** Every element lies inside the sheet, with a positive size. */
  predicate ElementsFit(d: AssetData)
  {
    d.size.Some? &&
    forall i :: 0 <= i < |d.elements| ==>
      var b := d.elements[i].1;
      0 <= b.x && 0 <= b.y && 0 < b.w && 0 < b.h && b.x + b.w <= d.size.value.w && b.y + b.h <= d.size.value.h
  }

  /** Every table with a size, in both modules, holds its elements inside
      the sheet. */
  lemma TablesFit()
    ensures ElementsFit(LibSkin()) && ElementsFit(LibEmoticon()) && ElementsFit(LibParticule())
    ensures ElementsFit(LibGameskin())
    ensures ElementsFit(SrcSkin())
  {
    forall i | 0 <= i < 48
      ensures var b := LibGameskinRow(i).1;
        0 <= b.x && 0 <= b.y && 0 < b.w && 0 < b.h && b.x + b.w <= 1024 && b.y + b.h <= 512
    {
      GameskinRowFits(i);
    }
  }

  lemma GameskinRowFits(i: int)
    requires 0 <= i < 48
    ensures var b := LibGameskinRow(i).1;
      0 <= b.x && 0 <= b.y && 0 < b.w && 0 < b.h && b.x + b.w <= 1024 && b.y + b.h <= 512
  {
    if i < 24 {
    } else {
    }
  }

  /** Each lib/data.ts sheet size is a whole number of divisor cells, and
      agrees with the base size and divisor of the asset kind of the same
      name. */
  lemma SizesMatchKinds()
    ensures forall k: Parts.AssetKind | k != Parts.Unknown ::
      var d := KindData(k);
      d.size == Some(Size(Parts.BaseWidth(k), Parts.BaseHeight(k))) &&
      d.divisor == Some(Size(Parts.DivisorWidth(k), Parts.DivisorHeight(k))) &&
      d.size.value.w % d.divisor.value.w == 0 && d.size.value.h % d.divisor.value.h == 0
  {
    forall k: Parts.AssetKind | k != Parts.Unknown
      ensures KindData(k).size.value.w % KindData(k).divisor.value.w == 0
    {
      Parts.BaseSizeDivisible(k);
    }
  }

  /** The lib/data.ts table of each known asset kind. */
  function KindData(k: Parts.AssetKind): AssetData
    requires k != Parts.Unknown
  {
    match k
    case Skin => LibSkin()
    case Gameskin => LibGameskin()
    case Emoticon => LibEmoticon()
    case Particule => LibParticule()
  }

  /** The SKIN and GAMESKIN elements of lib/data.ts are the part tables of
      lib/asset/part.ts: the row of every part holds the part's string value
      and the part's rectangle. */
  lemma NamedTablesMatchParts()
    ensures forall p: Parts.SkinPart ::
      LibSkinRow(Parts.SkinIndex(p)).0 == Parts.SkinPartName(p) &&
      ToRect(LibSkinRow(Parts.SkinIndex(p)).1) == Parts.SkinRow(Parts.SkinIndex(p)).1
    ensures forall p: Parts.GameskinPart ::
      LibGameskinRow(Parts.GameskinIndex(p)).0 == Parts.GameskinPartName(p) &&
      ToRect(LibGameskinRow(Parts.GameskinIndex(p)).1) == Parts.GameskinRow(Parts.GameskinIndex(p)).1
  {
    forall p: Parts.SkinPart
      ensures LibSkinRow(Parts.SkinIndex(p)).0 == Parts.SkinPartName(p)
      ensures ToRect(LibSkinRow(Parts.SkinIndex(p)).1) == Parts.SkinRow(Parts.SkinIndex(p)).1
    {
      match p
      case Body =>
      case BodyShadow =>
      case Hand =>
      case HandShadow =>
      case Foot =>
      case FootShadow =>
      case DefaultEye =>
      case AngryEye =>
      case BlinkEye =>
      case HappyEye =>
      case CrossEye =>
      case ScaryEye =>
    }
    forall p: Parts.GameskinPart
      ensures LibGameskinRow(Parts.GameskinIndex(p)).0 == Parts.GameskinPartName(p)
      ensures ToRect(LibGameskinRow(Parts.GameskinIndex(p)).1) == Parts.GameskinRow(Parts.GameskinIndex(p)).1
    {
      GameskinNameMatches(p);
      GameskinRectMatches(Parts.GameskinIndex(p));
    }
  }

  /** The lib/data.ts GAMESKIN row of a part holds the part's name; checked
      twelve parts at a time. */
  lemma GameskinNameMatches(p: Parts.GameskinPart)
    ensures LibGameskinRow(Parts.GameskinIndex(p)).0 == Parts.GameskinPartName(p)
  {
    match p
    case Hook =>
    case HammerCursor =>
    case GunCursor =>
    case ShotgunCursor =>
    case GrenadeCursor =>
    case NinjaCursor =>
    case LaserCursor =>
    case Hammer =>
    case Gun =>
    case Shotgun =>
    case Grenade =>
    case Ninja =>
    case _ => GameskinNamesFrom12(p);
  }

  lemma GameskinNamesFrom12(p: Parts.GameskinPart)
    requires Parts.GameskinIndex(p) >= 12
    ensures LibGameskinRow(Parts.GameskinIndex(p)).0 == Parts.GameskinPartName(p)
  {
    match p
    case Laser =>
    case GunAmmo =>
    case ShotgunAmmo =>
    case GrenadeAmmo =>
    case LaserAmmo =>
    case GunParticle1 =>
    case GunParticle2 =>
    case GunParticle3 =>
    case ShotgunParticle1 =>
    case ShotgunParticle2 =>
    case ShotgunParticle3 =>
    case Particle1 =>
    case _ => GameskinNamesFrom24(p);
  }

  lemma GameskinNamesFrom24(p: Parts.GameskinPart)
    requires Parts.GameskinIndex(p) >= 24
    ensures LibGameskinRow(Parts.GameskinIndex(p)).0 == Parts.GameskinPartName(p)
  {
    match p
    case Particle2 =>
    case Particle3 =>
    case Particle4 =>
    case Particle5 =>
    case Particle6 =>
    case Particle7 =>
    case Particle8 =>
    case Particle9 =>
    case Star1 =>
    case Star2 =>
    case Star3 =>
    case HealthFull =>
    case _ => GameskinNamesFrom36(p);
  }

  lemma GameskinNamesFrom36(p: Parts.GameskinPart)
    requires Parts.GameskinIndex(p) >= 36
    ensures LibGameskinRow(Parts.GameskinIndex(p)).0 == Parts.GameskinPartName(p)
  {
    match p
    case HealthEmpty =>
    case ArmorFull =>
    case ArmorEmpty =>
    case Heart =>
    case Shield =>
    case Minus =>
    case NinjaTimer =>
    case NinjaParticle1 =>
    case NinjaParticle2 =>
    case NinjaParticle3 =>
    case FlagBlue =>
    case FlagRed =>
    case _ => assert false;
  }

  /** The lib/data.ts GAMESKIN row of a part holds the part's rectangle. */
  lemma GameskinRectMatches(i: int)
    requires 0 <= i < 48
    ensures ToRect(LibGameskinRow(i).1) == Parts.GameskinRow(i).1
  {
    if i < 24 {
    } else {
    }
  }

  /** The numbered EMOTICON and PARTICULE rectangles of lib/data.ts are those
      of the EMOTICON and PARTICULE part tables, in the same order. */
  lemma NumberedTablesMatchParts()
    ensures forall i :: 0 <= i < 16 ==> ToRect(LibEmoticonRow(i).1) == Parts.EmoticonRow(i).1
    ensures forall i :: 0 <= i < 13 ==> ToRect(LibParticuleRow(i).1) == Parts.ParticuleRow(i).1
  {
  }

  /** EMOTICON key k sits in column (k - 1) mod 4 and row (k - 1) div 4 of a
      grid of 128x128 squares. */
  lemma EmoticonKeys()
    ensures forall i :: 0 <= i < 16 ==>
      LibEmoticonRow(i) == (Utils.Decimal(i + 1), Box(128 * (i % 4), 128 * (i / 4), 128, 128))
  {
    forall i | 0 <= i < 16
      ensures LibEmoticonRow(i) == (Utils.Decimal(i + 1), Box(128 * (i % 4), 128 * (i / 4), 128, 128))
    {
      if i < 9 {
        EmoticonKeyOneDigit(i);
      } else {
        EmoticonKeyTwoDigits(i);
      }
    }
  }

  lemma EmoticonKeyOneDigit(i: int)
    requires 0 <= i < 9
    ensures LibEmoticonRow(i) == (Utils.Decimal(i + 1), Box(128 * (i % 4), 128 * (i / 4), 128, 128))
  {
  }

  lemma EmoticonKeyTwoDigits(i: int)
    requires 9 <= i < 16
    ensures LibEmoticonRow(i) == (Utils.Decimal(i + 1), Box(128 * (i % 4), 128 * (i / 4), 128, 128))
  {
    DecimalTeen(i + 1);
  }

  lemma DecimalTeen(n: nat)
    requires 10 <= n < 20
    ensures Utils.Decimal(n) == ['1', Utils.DigitChar(n - 10)]
  {
    assert n / 10 == 1 && n % 10 == n - 10;
  }

  /** src/data.js SKIN holds the same size and elements as lib/data.ts SKIN,
      but no divisor. */
  lemma SrcSkinMatchesLib()
    ensures SrcSkin().size == LibSkin().size && SrcSkin().elements == LibSkin().elements
    ensures SrcSkin().divisor.None? && LibSkin().divisor.Some?
  {
    assert forall i :: 0 <= i < 12 ==> SrcSkin().elements[i] == LibSkin().elements[i];
  }

  /** src/data.js exports SKIN only, so every other type name, GAMESKIN
      included, is unknown to it; lib/data.ts knows the four kinds. */
  lemma ExportedTypes(t: string)
    ensures DataFor(SrcData, t).Some? <==> t == "SKIN"
    ensures DataFor(LibData, t).Some? <==> t in ["SKIN", "GAMESKIN", "EMOTICON", "PARTICULE"]
  {
    var e := Exports(LibData);
    if t in ["SKIN", "GAMESKIN", "EMOTICON", "PARTICULE"] {
      assert t == e[0].0 || t == e[1].0 || t == e[2].0 || t == e[3].0;
    }
    assert Exports(SrcData)[0].0 == "SKIN";
  }
}

=== FILE: drafts.dfy ===
// The older drafts of the asset class: lib/asset.ts, src/asset.js,
// src/extractor.js and src/lib.js. Each keeps a type name, the table of its
// data module, the last image loaded, the canvas the image was drawn on and
// the elements cut out of it so far; they differ in the errors they throw,
// in the ratio rule, in when `elements` is (re)set and in how they recolour.

module Drafts {
  import opened Results
  import opened Numbers
  import opened Colors
  import opened Pixels
  import opened Data
  import opened Elements
  import Parts
  import Assets
  import Utils
  import ColorFormats

  /** The four drafts of `TwAssetBase`. */
  datatype Draft = LibAssetTs | SrcAssetJs | SrcExtractorJs | SrcLibJs

  /** lib/asset.ts reads lib/data.ts; the drafts under src/ read src/data.js. */
  function Source(d: Draft): DataSource
  {
    if d == LibAssetTs then LibData else SrcData
  }

  // ---------------------------------------------------------------------------
  // The errors each draft throws. lib/asset.ts constructs `ElementError`,
  // which lib/error.ts does not export, and src/lib.js constructs
  // `InvalidAssetType` and `InvalidElementType`, which src/error.js does not
  // export: `new undefined` throws a TypeError instead.

  function UnknownTypeError(d: Draft): Error
  {
    match d
    case LibAssetTs => AssetError
    case SrcAssetJs => InvalidAsset
    case SrcExtractorJs => InvalidAsset
    case SrcLibJs => TypeError
  }

  function UnknownElementError(d: Draft): Error
  {
    match d
    case LibAssetTs => TypeError
    case SrcAssetJs => InvalidElement
    case SrcExtractorJs => InvalidElement
    case SrcLibJs => TypeError
  }

  /** An image that cannot be loaded, or whose ratio is refused. */
  function FileErrorOf(d: Draft): Error
  {
    if d == LibAssetTs then FileError else InvalidFile
  }

  /** `setColor` on a name that was never extracted. */
  function NotExtractedError(d: Draft): Error
  {
    if d == LibAssetTs then TypeError else InvalidElement
  }

  /** `render` on a type other than SKIN. */
  function RenderError(d: Draft): Error
  {
    if d == LibAssetTs then AssetError else InvalidAsset
  }

  // ---------------------------------------------------------------------------
  // type.toUpperCase(), on ASCII letters

  function UpperChar(c: char): char
  {
    if 'a' <= c <= 'z' then (c as int - 32) as char else c
  }

  function UpperCase(s: string): (u: string)
    ensures |u| == |s|
  {
    seq(|s|, i requires 0 <= i < |s| => UpperChar(s[i]))
  }

  /** The type name is matched without regard to case: a name upper-cases to
      "SKIN" exactly when it spells "skin" in any mix of cases. */
  lemma UpperCaseSkin(t: string)
    ensures UpperCase(t) == "SKIN" <==>
      |t| == 4 && t[0] in "sS" && t[1] in "kK" && t[2] in "iI" && t[3] in "nN"
  {
    if UpperCase(t) == "SKIN" {
      assert UpperCase(t)[0] == 'S' && UpperCase(t)[1] == 'K' && UpperCase(t)[2] == 'I' && UpperCase(t)[3] == 'N';
    }
    if |t| == 4 && t[0] in "sS" && t[1] in "kK" && t[2] in "iI" && t[3] in "nN" {
      assert UpperCase(t)[0] == 'S' && UpperCase(t)[1] == 'K' && UpperCase(t)[2] == 'I' && UpperCase(t)[3] == 'N';
    }
  }

  // ---------------------------------------------------------------------------
  // preprocess and the ratio rule

  /** A table the asset methods can work on: a positive sheet size and every
      element inside it. */
  predicate Sound(t: AssetData)
  {
    t.size.Some? && t.size.value.w > 0 && t.size.value.h > 0 && NonNegative(t.elements)
  }

  /** No element has a negative width or height. */
  predicate NonNegative(els: seq<(string, Box)>)
    decreases |els|
  {
    els == [] || (els[0].1.w >= 0 && els[0].1.h >= 0 && NonNegative(els[1..]))
  }

  lemma {:induction false} PositiveNonNegative(els: seq<(string, Box)>)
    requires forall i :: 0 <= i < |els| ==> els[i].1.w > 0 && els[i].1.h > 0
    ensures NonNegative(els)
    decreases |els|
  {
    if els != [] {
      assert forall i :: 0 <= i < |els[1..]| ==> els[1..][i] == els[i + 1];
      PositiveNonNegative(els[1..]);
    }
  }

  /** The rectangle found under a name has no negative side. */
  lemma {:induction false} LookupNonNegative(els: seq<(string, Box)>, name: string)
    requires NonNegative(els) && Lookup(els, name).Some?
    ensures Lookup(els, name).value.w >= 0 && Lookup(els, name).value.h >= 0
    decreases |els|
  {
    if els[0].0 != name {
      LookupNonNegative(els[1..], name);
    }
  }

  /** Every table either data module exports is sound. */
  lemma ExportedSound(src: DataSource, t: string)
    requires DataFor(src, t).Some?
    ensures Sound(DataFor(src, t).value)
  {
    ExportedTypes(t);
    TablesFit();
    var d := DataFor(src, t).value;
    if src == SrcData {
      assert d == SrcSkin();
    } else if t == "SKIN" {
      assert d == LibSkin();
    } else if t == "GAMESKIN" {
      assert d == LibGameskin();
    } else if t == "EMOTICON" {
      assert d == LibEmoticon();
    } else {
      assert d == LibParticule();
    }
    assert ElementsFit(d);
    PositiveNonNegative(d.elements);
  }

  /** `width / height == size.w / size.h`, with a zero height never equal. */
  predicate SameAspect(width: nat, height: nat, s: Size)
  {
    height != 0 && s.h != 0 && width as real / height as real == s.w as real / s.h as real
  }

  /** `isRatioLegal()`: lib/asset.ts and src/asset.js ask both sides to be
      multiples of the table's divisor (a remainder by 0 is NaN, never 0) and
      throw a TypeError on a table without a divisor; src/extractor.js and
      src/lib.js compare the aspect with the table's size. */
  function RatioLegal(d: Draft, t: AssetData, width: nat, height: nat): Result<bool>
  {
    if d == LibAssetTs || d == SrcAssetJs then
      match t.divisor
      case None => Err(TypeError)
      case Some(div) => Ok(div.w != 0 && width % div.w == 0 && div.h != 0 && height % div.h == 0)
    else
      match t.size
      case None => Err(TypeError)
      case Some(s) => Ok(SameAspect(width, height, s))
  }

  /** Whether a refused ratio stops `preprocess`: in lib/asset.ts and
      src/asset.js only when `validRatio` is set, in the other two always. */
  predicate RatioEnforced(d: Draft, validRatio: bool)
  {
    validRatio || d == SrcExtractorJs || d == SrcLibJs
  }

  /** Whether a successful `preprocess` resets `elements` to `{}`. */
  predicate Resets(d: Draft)
  {
    d == SrcAssetJs || d == SrcExtractorJs
  }

  function SizeOf(image: Option<Image>): Option<(nat, nat)>
  {
    if image.Some? then Some((image.value.width, image.value.height)) else None
  }

  /** What `preprocess` throws: an unknown type, an image that does not load
      (`None`), then the ratio test. */
  function PreprocessOutcome(d: Draft, assetType: string, size: Option<(nat, nat)>, validRatio: bool): Outcome
  {
    match DataFor(Source(d), assetType)
    case None => Fail(UnknownTypeError(d))
    case Some(t) => ImageOutcome(d, t, size, validRatio)
  }

  /** The part of `preprocess` after the type was found: the image, then
      its ratio against the table `t`. */
  function ImageOutcome(d: Draft, t: AssetData, size: Option<(nat, nat)>, validRatio: bool): Outcome
  {
    match size
    case None => Fail(FileErrorOf(d))
    case Some((w, h)) =>
      match RatioLegal(d, t, w, h)
      case Err(e) => Fail(e)
      case Ok(legal) => if !legal && RatioEnforced(d, validRatio) then Fail(FileErrorOf(d)) else Pass
  }

  /** The drafts under src/ know SKIN only: any other name is an unknown
      type (a TypeError in src/lib.js), whatever the image. */
  lemma SrcDraftsKnowOnlySkin(d: Draft, assetType: string, size: Option<(nat, nat)>, validRatio: bool)
    requires d != LibAssetTs && assetType != "SKIN"
    ensures PreprocessOutcome(d, assetType, size, validRatio) == Fail(UnknownTypeError(d))
  {
    ExportedTypes(assetType);
  }

  /** src/asset.js never loads an image: its only table has no divisor, so
      the ratio test throws a TypeError once the image is read. */
  lemma SrcAssetNeverLoads(assetType: string, size: Option<(nat, nat)>, validRatio: bool)
    ensures PreprocessOutcome(SrcAssetJs, assetType, size, validRatio) != Pass
    ensures assetType == "SKIN" && size.Some? ==> PreprocessOutcome(SrcAssetJs, assetType, size, validRatio) == Fail(TypeError)
  {
    ExportedTypes(assetType);
    SrcSkinMatchesLib();
    if assetType == "SKIN" {
      assert DataFor(SrcData, assetType).value == SrcSkin();
    }
  }

  /** lib/asset.ts accepts a known type's image exactly when `validRatio` is
      off or both sides are multiples of the divisor. */
  lemma LibRatioRule(assetType: string, w: nat, h: nat, validRatio: bool)
    requires DataFor(LibData, assetType).Some?
    ensures DataFor(LibData, assetType).value.divisor.Some?
    ensures var div := DataFor(LibData, assetType).value.divisor.value;
      PreprocessOutcome(LibAssetTs, assetType, Some((w, h)), validRatio) ==
        if validRatio && !(w % div.w == 0 && h % div.h == 0) then Fail(FileError) else Pass
  {
    ExportedTypes(assetType);
    var t := DataFor(LibData, assetType).value;
    if assetType == "SKIN" {
      assert t == LibSkin();
    } else if assetType == "GAMESKIN" {
      assert t == LibGameskin();
    } else if assetType == "EMOTICON" {
      assert t == LibEmoticon();
    } else {
      assert t == LibParticule();
    }
  }

  /** src/extractor.js and src/lib.js accept a SKIN sheet exactly when it is
      twice as wide as it is high (256 by 128 at base size). */
  lemma AspectRule(d: Draft, w: nat, h: nat, validRatio: bool)
    requires d == SrcExtractorJs || d == SrcLibJs
    ensures PreprocessOutcome(d, "SKIN", Some((w, h)), validRatio) ==
      if h > 0 && w == 2 * h then Pass else Fail(InvalidFile)
  {
    ExportedTypes("SKIN");
    assert DataFor(SrcData, "SKIN").value == SrcSkin();
    assert 256.0 / 128.0 == 2.0;
    if h > 0 {
      var q := w as real / h as real;
      assert q * h as real == w as real;
      if q == 2.0 {
        assert w as real == (2 * h) as real;
        assert w == 2 * h;
      } else {
        assert w != 2 * h;
      }
    }
  }

  // ---------------------------------------------------------------------------
  // cut and extract

  /** The rectangle `cut` reads: the table rectangle times the multiplier,
      truncated by `getImageData`. */
  function CutRegion(b: Box, m: real): (int, int, nat, nat)
    requires b.w >= 0 && b.h >= 0 && m >= 0.0
  {
    Assets.Region(Parts.ScaleMetadata(ToRect(b), m))
  }

  /** At a whole multiplier the cut rectangle is the table rectangle scaled
      exactly. */
  lemma CutRegionWhole(b: Box, k: nat)
    requires b.w >= 0 && b.h >= 0
    ensures CutRegion(b, k as real) == (b.x * k, b.y * k, b.w * k, b.h * k)
  {
    var r := Parts.ScaleMetadata(ToRect(b), k as real);
    assert r.x == (b.x * k) as real && r.y == (b.y * k) as real;
    assert r.w == (b.w * k) as real && r.h == (b.h * k) as real;
    TruncWhole(b.x * k);
    TruncWhole(b.y * k);
    TruncWhole(b.w * k);
    TruncWhole(b.h * k);
    var g := Assets.Region(r);
    assert g == (b.x * k, b.y * k, b.w * k, b.h * k);
  }

  lemma TruncWhole(n: int)
    ensures Trunc(n as real) == n
  {
    var t := Trunc(n as real);
    if n >= 0 {
      assert t as real <= n as real < t as real + 1.0;
    } else {
      assert t as real - 1.0 < n as real <= t as real;
    }
  }

  /** Why `cut(name)` throws, if it does: no table (`data` unset), a name
      outside the table, no `elements` object, or no canvas to cut from for a
      name not cut yet. */
  function CutFailure(d: Draft, t: Option<AssetData>, keyed: bool, present: bool, loaded: bool,
                      name: string): Option<Error>
  {
    if t.None? then Some(TypeError)
    else if Lookup(t.value.elements, name).None? then Some(UnknownElementError(d))
    else if !keyed then Some(TypeError)
    else if present then None
    else if !loaded then Some(TypeError)
    else None
  }

  /** `extract(...names)` on the keys `order` of `elements`: each name is cut
      and stored in turn; the first throw ends the run and keeps the names
      stored before it. */
  function ExtractRun(d: Draft, t: Option<AssetData>, keyed: bool, loaded: bool, order: seq<string>,
                      names: seq<string>): (Outcome, seq<string>)
    decreases |names|
  {
    if names == [] then (Pass, order)
    else
      match CutFailure(d, t, keyed, names[0] in order, loaded, names[0])
      case Some(e) => (Fail(e), order)
      case None =>
        ExtractRun(d, t, keyed, loaded, if names[0] in order then order else order + [names[0]], names[1..])
  }

  /** A run is its first name's turn, then, unless that turn threw, the
      run of the rest. */
  lemma ExtractRunFirst(d: Draft, t: Option<AssetData>, keyed: bool, loaded: bool, order: seq<string>,
                        names: seq<string>)
    requires names != []
    ensures var (o, next) := ExtractRun(d, t, keyed, loaded, order, names[..1]);
      ExtractRun(d, t, keyed, loaded, order, names) ==
        if o.Fail? then (o, next) else ExtractRun(d, t, keyed, loaded, next, names[1..])
  {
    assert names[..1][1..] == [];
  }

  predicate Distinct(s: seq<string>)
  {
    forall i, j :: 0 <= i < j < |s| ==> s[i] != s[j]
  }

  /** A run only appends: the new keys are distinct names of the table, in
      the order they were first asked for, and a run that passes leaves every
      asked name among the keys. */
  lemma {:induction false} ExtractRunGrows(d: Draft, t: Option<AssetData>, keyed: bool, loaded: bool,
                                           order: seq<string>, names: seq<string>)
    requires Distinct(order)
    ensures var (o, out) := ExtractRun(d, t, keyed, loaded, order, names);
      |order| <= |out| && out[..|order|] == order && Distinct(out) &&
      (forall n :: n in out[|order|..] ==> n in names && t.Some? && Lookup(t.value.elements, n).Some?) &&
      (o.Pass? ==> forall n :: n in names ==> n in out)
    decreases |names|
  {
    if names != [] && CutFailure(d, t, keyed, names[0] in order, loaded, names[0]).None? {
      var next := if names[0] in order then order else order + [names[0]];
      assert Distinct(next);
      ExtractRunGrows(d, t, keyed, loaded, next, names[1..]);
      var (o, out) := ExtractRun(d, t, keyed, loaded, order, names);
      assert out[..|next|] == next by {
        assert out == ExtractRun(d, t, keyed, loaded, next, names[1..]).1;
      }
      assert out[..|order|] == next[..|order|];
      forall n | n in out[|order|..]
        ensures n in names && t.Some? && Lookup(t.value.elements, n).Some?
      {
        if n !in out[|next|..] {
          assert n == names[0];
        }
      }
      if o.Pass? {
        forall n | n in names
          ensures n in out
        {
          if n != names[0] {
            assert n in names[1..];
          } else {
            assert n in next;
          }
        }
      }
    }
  }

  /** A run over names of the table, on a keyed and loaded asset, passes;
      one with a name outside the table fails with the unknown-element
      error. */
  lemma {:induction false} ExtractRunPasses(d: Draft, t: AssetData, order: seq<string>, names: seq<string>)
    ensures var o := ExtractRun(d, Some(t), true, true, order, names).0;
      (o == Pass <==> forall k :: 0 <= k < |names| ==> Lookup(t.elements, names[k]).Some?) &&
      (o != Pass ==> o == Fail(UnknownElementError(d)))
    decreases |names|
  {
    if names != [] && Lookup(t.elements, names[0]).Some? {
      var next := if names[0] in order then order else order + [names[0]];
      ExtractRunPasses(d, t, next, names[1..]);
      assert forall k :: 1 <= k < |names| ==> names[k] == names[1..][k - 1];
    }
  }

  /** `extractAll()` on a loaded asset extracts every element of the table. */
  lemma ExtractAllRun(d: Draft, t: AssetData, order: seq<string>)
    requires Distinct(order)
    ensures var (o, out) := ExtractRun(d, Some(t), true, true, order, Keys(t.elements));
      o == Pass && forall i :: 0 <= i < |t.elements| ==> t.elements[i].0 in out
  {
    var ks := Keys(t.elements);
    forall k | 0 <= k < |ks|
      ensures Lookup(t.elements, ks[k]).Some?
    {
      assert t.elements[k].0 == ks[k];
    }
    ExtractRunPasses(d, t, order, ks);
    ExtractRunGrows(d, Some(t), true, true, order, ks);
    forall i | 0 <= i < |t.elements|
      ensures t.elements[i].0 in ExtractRun(d, Some(t), true, true, order, ks).1
    {
      assert ks[i] in ks;
    }
  }

  // ---------------------------------------------------------------------------
  // setColor

  /** `_colorLimitForSkin(color, limit)`: the third HSL component (the
      lightness) raised to at least `limit`, so that no skin is fully black. */
  function ColorLimitForSkin(hsl: (real, real, real), limit: real): (r: (real, real, real))
    ensures r.0 == hsl.0 && r.1 == hsl.1
    ensures r.2 >= limit && r.2 >= hsl.2 && (r.2 == limit || r.2 == hsl.2)
  {
    if hsl.2 < limit then (hsl.0, hsl.1, limit) else hsl
  }

  /** The default limit of `colorLimitForSkin`. */
  const SkinLightnessLimit: real := 52.5

  /** `colorConvert(color, standard)` once `COLOR_FORMAT[standard]` has parsed
      the text into `values`: the conversions of the color-convert package
      are parameters. Only SKIN goes through HSL with the lightness limit. */
  function ColorConvert(assetType: string, standard: string, values: (real, real, real),
                        rgbToHsl: ((real, real, real)) -> (real, real, real),
                        hslToRgb: ((real, real, real)) -> (real, real, real)): (real, real, real)
  {
    var rgbFormat := if standard == "rgb" then values else hslToRgb(values);
    var hsl := if standard == "rgb" then rgbToHsl(values) else values;
    if assetType != "SKIN" then rgbFormat
    else hslToRgb(ColorLimitForSkin(hsl, SkinLightnessLimit))
  }

  /** Other types keep an RGB colour as it was given; SKIN always comes out
      of an HSL colour whose lightness is at least 52.5. */
  lemma ColorConvertLimits(assetType: string, standard: string, values: (real, real, real),
                           rgbToHsl: ((real, real, real)) -> (real, real, real),
                           hslToRgb: ((real, real, real)) -> (real, real, real))
    ensures assetType != "SKIN" && standard == "rgb" ==>
      ColorConvert(assetType, standard, values, rgbToHsl, hslToRgb) == values
    ensures assetType == "SKIN" ==> exists hsl: (real, real, real) ::
      hsl.2 >= SkinLightnessLimit && ColorConvert(assetType, standard, values, rgbToHsl, hslToRgb) == hslToRgb(hsl)
  {
    if assetType == "SKIN" {
      var hsl := if standard == "rgb" then rgbToHsl(values) else values;
      var lim := ColorLimitForSkin(hsl, SkinLightnessLimit);
      assert lim.2 >= SkinLightnessLimit;
    }
  }

  /** The colour `setColor` works with, read from its text. lib/asset.ts and
      src/asset.js look the format up in `COLOR_FORMAT`, which neither
      lib/color.ts nor src/color.js (what `require("./color")` loads)
      exports, so their conversion throws a TypeError whatever the text;
      src/extractor.js parses "r, g, b[, a]" itself. */
  function ColorArg(d: Draft, text: string): (r: Result<Rgba>)
    requires d != SrcLibJs
    ensures d != SrcExtractorJs ==> r == Err(TypeError)
    ensures d == SrcExtractorJs ==>
      (r.Ok? <==> ColorFormats.ParsedFields(text, ColorFormats.RgbLimits).Ok?) && (r.Err? ==> r.error == InvalidColor)
    ensures r.Ok? ==> InByteRange(r.value)
  {
    if d != SrcExtractorJs then Err(TypeError)
    else
      match ColorFormats.ParsedFields(text, ColorFormats.RgbLimits)
      case Err(_) => Err(InvalidColor)
      case Ok(values) => Ok(ColorFormats.ColorOf(values))
  }

  /** As written, lib/asset.ts never recolours: the conversion throws before
      the first name, and past it the tint it names, `basicOperation`,
      throws on the first pixel of any element. */
  lemma LibSetColorThrows(text: string, color: Rgba, s: seq<Byte>)
    ensures ColorArg(LibAssetTs, text) == Err(TypeError)
    ensures |s| >= 4 ==> FailureFrom(s, LibCallback(BasicOperation, color), 0) == Fail(TypeError)
  {
    LibCallbackPasses(BasicOperation, color, s);
  }

  /** As written, src/asset.js never recolours: the conversion throws before
      the first name, and past it src/color.js would refuse the "grayscale"
      mode src/asset.js asks for first. */
  lemma AssetJsSetColorThrows(text: string)
    ensures ColorArg(SrcAssetJs, text) == Err(TypeError)
    ensures ColorFormats.ColorMode(ColorFormats.ColorJs, "grayscale").None?
    ensures ColorFormats.ColorMode(ColorFormats.ColorTs, "grayscale").Some?
  {
  }

  /** What the loop of `setColor` does to one extracted element once a
      colour is in hand. src/extractor.js applies the one mode asked for,
      refusing a mode src/color.js does not know before touching a pixel.
      lib/asset.ts and src/asset.js never reach their loop (see ColorArg);
      for them this is the recolouring they evidently intend: lib/asset.ts
      grays, re-weights the body, then tints with `applyColor`, the ColorRGBA
      method standing where it names the missing `basicOperation`;
      src/asset.js does the same with the "grayscale" and "default" modes of
      src/color.ts, the colour module that exports what it reads. */
  function Recolour(d: Draft, name: string, mode: string, color: Rgba, s: seq<Byte>): (Outcome, seq<Byte>)
    requires d != SrcLibJs
  {
    match d
    case LibAssetTs =>
      var g := Rewritten(s, LibCallback(BlackAndWhite, color));
      var b := if name == "body" then Remapped(g, BodyMode(g)) else g;
      (Pass, Rewritten(b, LibCallback(ApplyColor, color)))
    case SrcAssetJs =>
      var g := Rewritten(s, ModeCallback(ColorFormats.ColorTs, ColorFormats.GrayscaleOp, color));
      var b := if name == "body" then Remapped(g, BodyMode(g)) else g;
      (Pass, Rewritten(b, ModeCallback(ColorFormats.ColorTs, ColorFormats.DefaultOp, color)))
    case SrcExtractorJs =>
      match ColorFormats.ColorMode(ColorFormats.ColorJs, mode)
      case None => (Fail(InvalidColor), s)
      case Some(op) => (Pass, Rewritten(s, ModeCallback(ColorFormats.ColorJs, op, color)))
  }

  /** Whether recolouring an element passes: always, except for a mode
      src/color.js does not know in src/extractor.js. */
  predicate RecolourPasses(d: Draft, mode: string)
  {
    d != SrcExtractorJs || mode == "default"
  }

  lemma RecolourOutcome(d: Draft, name: string, mode: string, color: Rgba, s: seq<Byte>)
    requires d != SrcLibJs
    ensures Recolour(d, name, mode, color, s).0 == if RecolourPasses(d, mode) then Pass else Fail(InvalidColor)
    ensures !RecolourPasses(d, mode) ==> Recolour(d, name, mode, color, s).1 == s
  {
    if d == SrcExtractorJs {
      var op := ColorFormats.ColorMode(ColorFormats.ColorJs, mode);
      assert op.Some? ==> op == Some(ColorFormats.DefaultOp);
    }
  }

  /** The loop of `setColor(color, ..., ...names)` on the buffers of the
      extracted elements, keyed by name: names in turn, stopping at the
      first name that was never extracted (a TypeError when `elements` is
      not an object yet) or at the first refused mode. */
  function ColourRun(d: Draft, keyed: bool, bufs: map<string, seq<Byte>>, names: seq<string>,
                     mode: string, color: Rgba): (Outcome, map<string, seq<Byte>>)
    requires d != SrcLibJs
    decreases |names|
  {
    if names == [] then (Pass, bufs)
    else if !keyed then (Fail(TypeError), bufs)
    else if names[0] !in bufs then (Fail(NotExtractedError(d)), bufs)
    else
      var (o, s) := Recolour(d, names[0], mode, color, bufs[names[0]]);
      if o.Fail? then (o, bufs)
      else ColourRun(d, keyed, bufs[names[0] := s], names[1..], mode, color)
  }

  /** A run is its first name's turn, then, unless that turn failed, the
      run of the rest. */
  lemma ColourRunFirst(d: Draft, keyed: bool, bufs: map<string, seq<Byte>>, names: seq<string>,
                       mode: string, color: Rgba)
    requires d != SrcLibJs && names != []
    ensures var (o, next) := ColourRun(d, keyed, bufs, names[..1], mode, color);
      ColourRun(d, keyed, bufs, names, mode, color) ==
        if o.Fail? then (o, next) else ColourRun(d, keyed, next, names[1..], mode, color)
  {
    assert names[..1][1..] == [];
  }

  /** The buffers after recolouring each name of `ns` once. */
  function Recoloured(d: Draft, bufs: map<string, seq<Byte>>, ns: seq<string>, mode: string,
                      color: Rgba): map<string, seq<Byte>>
    requires d != SrcLibJs
  {
    map n | n in bufs :: if n in ns then Recolour(d, n, mode, color, bufs[n]).1 else bufs[n]
  }

  /** A run over distinct names, in a mode that passes, recolours each name
      before the first unextracted one exactly once, leaves every other
      buffer as it was, and fails there; a run over extracted names only
      passes. */
  lemma {:induction false} ColourRunPrefix(d: Draft, bufs: map<string, seq<Byte>>, names: seq<string>, k: nat,
                                           mode: string, color: Rgba)
    requires d != SrcLibJs && RecolourPasses(d, mode) && Distinct(names)
    requires k <= |names| && (forall i :: 0 <= i < k ==> names[i] in bufs) && (k < |names| ==> names[k] !in bufs)
    ensures ColourRun(d, true, bufs, names, mode, color) ==
      (if k == |names| then Pass else Fail(NotExtractedError(d)), Recoloured(d, bufs, names[..k], mode, color))
    decreases |names|
  {
    if k == 0 {
      assert Recoloured(d, bufs, names[..k], mode, color) == bufs;
    } else {
      var n := names[0];
      var rest := names[1..];
      assert n !in rest[..k - 1] by {
        forall i | 0 <= i < k - 1 ensures rest[i] != n { assert names[0] != names[i + 1]; }
      }
      assert names[..k] == [n] + rest[..k - 1];
      assert Distinct(rest);
      var s := Recolour(d, n, mode, color, bufs[n]).1;
      ColourRunStep(d, bufs, names, mode, color);
      ColourRunPrefix(d, bufs[n := s], rest, k - 1, mode, color);
      RecolouredStep(d, bufs, n, rest[..k - 1], mode, color);
    }
  }

  /** One step of a run over an extracted name whose recolouring passes. */
  lemma ColourRunStep(d: Draft, bufs: map<string, seq<Byte>>, names: seq<string>, mode: string, color: Rgba)
    requires d != SrcLibJs && RecolourPasses(d, mode) && names != [] && names[0] in bufs
    ensures ColourRun(d, true, bufs, names, mode, color) ==
      ColourRun(d, true, bufs[names[0] := Recolour(d, names[0], mode, color, bufs[names[0]]).1], names[1..], mode, color)
  {
    RecolourOutcome(d, names[0], mode, color, bufs[names[0]]);
  }

  lemma RecolouredStep(d: Draft, bufs: map<string, seq<Byte>>, n: string, ns: seq<string>, mode: string, color: Rgba)
    requires d != SrcLibJs && n in bufs && n !in ns
    ensures Recoloured(d, bufs[n := Recolour(d, n, mode, color, bufs[n]).1], ns, mode, color) ==
      Recoloured(d, bufs, [n] + ns, mode, color)
  {
    var lhs := Recoloured(d, bufs[n := Recolour(d, n, mode, color, bufs[n]).1], ns, mode, color);
    var rhs := Recoloured(d, bufs, [n] + ns, mode, color);
    forall m | m in bufs
      ensures lhs[m] == rhs[m]
    {
      assert (m in [n] + ns) == (m == n || m in ns);
    }
  }

  /** `setColorAll` on a keyed asset, in a mode that passes, recolours every
      extracted element exactly once. */
  lemma ColourAll(d: Draft, bufs: map<string, seq<Byte>>, order: seq<string>, mode: string, color: Rgba)
    requires d != SrcLibJs && RecolourPasses(d, mode) && Distinct(order)
    requires forall n :: n in bufs <==> n in order
    ensures ColourRun(d, true, bufs, order, mode, color) ==
      (Pass, map n | n in bufs :: Recolour(d, n, mode, color, bufs[n]).1)
  {
    assert forall i :: 0 <= i < |order| ==> order[i] in bufs;
    ColourRunPrefix(d, bufs, order, |order|, mode, color);
    assert order[..|order|] == order;
    RecolouredAll(d, bufs, order, mode, color);
  }

  lemma RecolouredAll(d: Draft, bufs: map<string, seq<Byte>>, ns: seq<string>, mode: string, color: Rgba)
    requires d != SrcLibJs && forall n :: n in bufs ==> n in ns
    ensures Recoloured(d, bufs, ns, mode, color) == map n | n in bufs :: Recolour(d, n, mode, color, bufs[n]).1
  {
  }

  /** A mode src/color.js does not know stops src/extractor.js's
      `setColor` at its first extracted name with nothing recoloured. */
  lemma ColourRefusedMode(bufs: map<string, seq<Byte>>, names: seq<string>, mode: string, color: Rgba)
    requires mode != "default" && names != [] && names[0] in bufs
    ensures ColourRun(SrcExtractorJs, true, bufs, names, mode, color) == (Fail(InvalidColor), bufs)
  {
    RecolourOutcome(SrcExtractorJs, names[0], mode, color, bufs[names[0]]);
  }

  /** Recolour one element in place: the pixel loops of `TwElement` the
      draft's `setColor` loop calls, in its order (for lib/asset.ts and
      src/asset.js, the intended calls of Recolour). */
  method RecolourElement(d: Draft, e: TwElement, mode: string, color: Rgba) returns (o: Outcome)
    requires d != SrcLibJs && (d == LibAssetTs ==> InByteRange(color))
    requires e.Valid() && e.Synced()
    modifies e.imgData.data, e.canvas
    ensures e.Valid() && e.Synced()
    ensures (o, e.imgData.data[..]) == Recolour(d, e.name, mode, color, old(e.imgData.data[..]))
  {
    match d
    case LibAssetTs =>
      o := e.SetColorLib(color, BlackAndWhite);
      if e.name == "body" {
        e.ReorderBody();
      }
      o := e.SetColorLib(color, ApplyColor);
    case SrcAssetJs =>
      o := e.SetColorMode(ColorFormats.ColorTs, "grayscale", color);
      if e.name == "body" {
        e.ReorderBody();
      }
      o := e.SetColorMode(ColorFormats.ColorTs, "default", color);
    case SrcExtractorJs =>
      o := e.SetColorMode(ColorFormats.ColorJs, mode, color);
  }

  // ---------------------------------------------------------------------------
  // render and saveRender

  /** The eye `render` extracts: `eye || 'default_eye'` in lib/asset.ts and
      src/asset.js, a default parameter (so "" stays "") in
      src/extractor.js. */
  function EyeName(d: Draft, eye: Option<string>): string
  {
    if d == SrcExtractorJs then (if eye.Some? then eye.value else "default_eye")
    else if eye.Some? && eye.value != "" then eye.value else "default_eye"
  }

  function RenderParts(d: Draft, eye: Option<string>): seq<string>
  {
    ["body", "body_shadow", "foot", "foot_shadow", EyeName(d, eye)]
  }

  /** The render canvas: the body's size plus a margin of 12 base pixels. */
  function RenderSize(w: nat, h: nat, m: real): (real, real)
  {
    (w as real + 12.0 * m, h as real + 12.0 * m)
  }

  /** A SKIN sheet at k times the base size renders on a square of 108·k:
      the 96·k body plus the margin. */
  lemma SkinRenderSize(k: nat)
    ensures Lookup(SrcSkin().elements, "body") == Some(Box(0, 0, 96, 96))
    ensures var r := CutRegion(Box(0, 0, 96, 96), k as real);
      RenderSize(r.2, r.3, k as real) == ((108 * k) as real, (108 * k) as real)
  {
    assert SrcSkin().elements[0] == ("body", Box(0, 0, 96, 96));
    CutRegionWhole(Box(0, 0, 96, 96), k);
  }

  /** What `saveRender` returns: the file it writes, or, when nothing was
      rendered, `undefined` (src/asset.js) or 84 (src/extractor.js). */
  datatype SaveReturn = Saved(file: string) | ReturnedUndefined | ReturnedCode(code: int)

  /** `name || path.split('/').pop()`. */
  function RenderFileName(name: Option<string>, path: string): string
  {
    if name.Some? && name.value != "" then name.value
    else
      var pieces := Utils.Split(path, '/');
      pieces[|pieces| - 1]
  }

  /** Without a name the render is named after the last segment of the
      image path. */
  lemma RenderFileNameOfPath(name: Option<string>, path: string)
    requires name.None? || name == Some("")
    ensures var f := RenderFileName(name, path);
      '/' !in f && |f| <= |path| && path[|path| - |f|..] == f &&
      (|f| == |path| || path[|path| - |f| - 1] == '/')
  {
    Utils.LastSegment(path);
  }

  // ---------------------------------------------------------------------------
  // the asset

  /** An extracted element as the asset holds it: the size of its canvas and
      the pixel buffer that canvas shows. */
  datatype Piece = Piece(width: nat, height: nat, data: seq<Byte>)

  /** `getMultiplier()`: how many image pixels stand for one pixel of the
      table, for an image `width` pixels wide. */
  function MultiplierOf(t: AssetData, width: nat): (m: real)
    requires Sound(t)
    ensures m >= 0.0 && m * t.size.value.w as real == width as real
  {
    width as real / t.size.value.w as real
  }

  /** What `cut(name)` reads off the canvas rows for a name of the table:
      its rectangle scaled by the multiplier, as `getImageData` returns it. */
  function Cutout(rows: seq<seq<Pixel>>, t: AssetData, m: real, name: string): (p: Option<Piece>)
    requires Sound(t) && m >= 0.0
    ensures p.Some? <==> Lookup(t.elements, name).Some?
    ensures p.Some? ==> |p.value.data| == 4 * (p.value.width * p.value.height)
  {
    match Lookup(t.elements, name)
    case None => None
    case Some(b) =>
      LookupNonNegative(t.elements, name);
      var (x, y, w, h) := CutRegion(b, m);
      Some(Piece(w, h, Bytes(Pixels.Cut(rows, x, y, w, h))))
  }

  /** `multiplier || this._getMultiplier()` of src/lib.js: a multiplier
      passed to `_cut` wins unless it is missing or zero. */
  function UsedMultiplier(given: Option<real>, computed: real): real
  {
    if given.Some? && given.value != 0.0 then given.value else computed
  }

  /** The buffers of the extracted elements, by name. */
  function Buffers(els: map<string, Piece>): map<string, seq<Byte>>
  {
    map n | n in els :: els[n].data
  }

  /** `order` lists the keys of `els`, each once. */
  ghost predicate KeyOrder<V>(els: map<string, V>, order: seq<string>)
  {
    Distinct(order) && (forall i :: 0 <= i < |order| ==> order[i] in els) && (forall n :: n in els ==> n in order)
  }

  /** Storing under a key keeps the key order in step with the keys: a new
      key goes to the end. */
  lemma OrderStore<V>(els: map<string, V>, order: seq<string>, name: string, v: V)
    requires KeyOrder(els, order)
    ensures KeyOrder(els[name := v], if name in els then order else order + [name])
  {
  }

  /** Every element of `before` is still in `els`, unchanged. */
  ghost predicate Kept(before: map<string, Piece>, els: map<string, Piece>)
  {
    forall n :: n in before ==> n in els && els[n] == before[n]
  }

  /** Every element of `els` that `before` lacks was cut from `rows`, with
      the table `t` and an image as wide as `img` says. */
  ghost predicate CutsFrom(before: map<string, Piece>, els: map<string, Piece>, rows: seq<seq<Pixel>>,
                           t: Option<AssetData>, img: Option<(nat, nat)>)
  {
    forall n :: n in els && n !in before ==>
      t.Some? && img.Some? && Sound(t.value) && Cutout(rows, t.value, MultiplierOf(t.value, img.value.0), n) == Some(els[n])
  }

  /** Cuts made in two runs, one after the other, were made from the same
      canvas. */
  lemma CutsFromTrans(a: map<string, Piece>, b: map<string, Piece>, c: map<string, Piece>, canvas: Canvas?,
                      t: Option<AssetData>, img: Option<(nat, nat)>)
    requires Kept(a, b) && Kept(b, c)
    requires canvas != null ==> CutsFrom(a, b, canvas.rows, t, img) && CutsFrom(b, c, canvas.rows, t, img)
    ensures Kept(a, c)
    ensures canvas != null ==> CutsFrom(a, c, canvas.rows, t, img)
  {
  }

  /** Replacing one buffer replaces it in the buffers by name. */
  lemma BuffersStore(els: map<string, Piece>, name: string, s: seq<Byte>)
    requires name in els
    ensures Buffers(els[name := els[name].(data := s)]) == Buffers(els)[name := s]
  {
  }

  lemma BuffersRecoloured(d: Draft, els: map<string, Piece>, mode: string, color: Rgba)
    requires d != SrcLibJs
    ensures (map n | n in Buffers(els) :: Recolour(d, n, mode, color, Buffers(els)[n]).1) ==
      (map n | n in els :: Recolour(d, n, mode, color, els[n].data).1)
  {
  }

  /** The same elements, each of the same size: only buffers changed. */
  ghost predicate Reshaped(before: map<string, Piece>, els: map<string, Piece>)
  {
    els.Keys == before.Keys &&
    forall n :: n in els ==> els[n].width == before[n].width && els[n].height == before[n].height
  }

  class TwAssetBase {
    const draft: Draft
    /** `type.toUpperCase()`. */
    const assetType: string
    var path: string
    /** `data[type]`, once `preprocess` found the type. */
    var data: Option<AssetData>
    /** The size of the last image `loadImage` returned, kept even when its
        ratio is refused. */
    var img: Option<(nat, nat)>
    /** The canvas the last accepted image was drawn on. */
    var canvas: Canvas?
    /** Whether `this.elements` is an object: from the constructor on in
        lib/asset.ts and src/lib.js, only after a successful `preprocess` in
        src/asset.js and src/extractor.js. */
    var keyed: bool
    var elements: map<string, Piece>
    /** The keys of `elements` in insertion order, as `Object.keys` lists
        keys that are not array indices (the numbered keys of the EMOTICON
        and PARTICULE tables it would list first, in ascending order). */
    var order: seq<string>
    /** The size of `rCanvas`, once `render` built it. */
    var rendered: Option<(real, real)>

    /** A canvas only with an image and a sound table, elements only once
        `this.elements` is an object and a canvas was there to cut them
        from, and the key order in step with the keys. */
    ghost predicate Valid()
      reads this, canvas
    {
      (canvas != null ==> canvas.Valid() && img.Some? && data.Some?) &&
      (data.Some? ==> Sound(data.value)) &&
      (!keyed ==> elements == map[]) &&
      (elements != map[] ==> canvas != null) &&
      KeyOrder(elements, order)
    }

    /** An image was accepted: there is a canvas to cut from and a
        multiplier. */
    predicate Loaded()
      reads this
    {
      canvas != null && img.Some? && data.Some? && Sound(data.value)
    }

    constructor (d: Draft, assetType: string, path: string)
      ensures Valid()
      ensures draft == d && this.assetType == UpperCase(assetType) && this.path == path
      ensures data.None? && img.None? && canvas == null && elements == map[] && order == [] && rendered.None?
      ensures keyed == (d == LibAssetTs || d == SrcLibJs)
    {
      draft := d;
      this.assetType := UpperCase(assetType);
      this.path := path;
      data, img, canvas := None, None, null;
      keyed := d == LibAssetTs || d == SrcLibJs;
      elements, order, rendered := map[], [], None;
    }

    /** `preprocess(validRatio)` with the image `loadImage(path)` gives
        (`None` when it cannot be loaded). */
    method Preprocess(image: Option<Image>, validRatio: bool) returns (o: Outcome)
      requires Valid()
      requires image.Some? ==> Shaped(image.value.rows, image.value.width, image.value.height)
      modifies this
      ensures Valid()
      ensures o == PreprocessOutcome(draft, assetType, SizeOf(image), validRatio)
      ensures var t := DataFor(Source(draft), assetType);
        data == (if t.Some? then t else old(data)) &&
        img == (if t.Some? && image.Some? then SizeOf(image) else old(img))
      ensures o.Pass? ==> canvas != null && fresh(canvas) && canvas.Snapshot() == image.value
      ensures o.Fail? ==> canvas == old(canvas)
      ensures o.Pass? && Resets(draft) ==> keyed && elements == map[] && order == []
      ensures o.Fail? || !Resets(draft) ==> keyed == old(keyed) && elements == old(elements) && order == old(order)
      ensures path == old(path) && rendered == old(rendered)
    {
      var t := DataFor(Source(draft), assetType);
      if t.None? {
        return Fail(UnknownTypeError(draft));
      }
      ExportedSound(Source(draft), assetType);
      o := Load(t.value, image, validRatio);
    }

    /** `preprocess` once the type's table `t` was found: store it, load the
        image and test its ratio. */
    method Load(t: AssetData, image: Option<Image>, validRatio: bool) returns (o: Outcome)
      requires Valid() && Sound(t)
      requires image.Some? ==> Shaped(image.value.rows, image.value.width, image.value.height)
      modifies this
      ensures Valid()
      ensures o == ImageOutcome(draft, t, SizeOf(image), validRatio)
      ensures data == Some(t) && img == (if image.Some? then SizeOf(image) else old(img))
      ensures o.Pass? ==> canvas != null && fresh(canvas) && canvas.Snapshot() == image.value
      ensures o.Fail? ==> canvas == old(canvas)
      ensures o.Pass? && Resets(draft) ==> keyed && elements == map[] && order == []
      ensures o.Fail? || !Resets(draft) ==> keyed == old(keyed) && elements == old(elements) && order == old(order)
      ensures path == old(path) && rendered == old(rendered)
    {
      data := Some(t);
      if image.Some? {
        img := SizeOf(image);
      }
      o := ImageOutcome(draft, t, SizeOf(image), validRatio);
      if o.Pass? {
        canvas := new Canvas.Clone(image.value);
        if Resets(draft) {
          keyed, elements, order := true, map[], [];
        }
      }
    }

    /** `changeSrc(filename)`: a new path, then `preprocess()` with the ratio
        checked. */
    method ChangeSrc(filename: string, image: Option<Image>) returns (o: Outcome)
      requires Valid() && draft != SrcLibJs
      requires image.Some? ==> Shaped(image.value.rows, image.value.width, image.value.height)
      modifies this
      ensures Valid()
      ensures path == filename
      ensures o == PreprocessOutcome(draft, assetType, SizeOf(image), true)
      ensures o.Pass? ==> canvas != null && fresh(canvas) && canvas.Snapshot() == image.value
      ensures o.Fail? || !Resets(draft) ==> elements == old(elements) && order == old(order)
    {
      path := filename;
      o := Preprocess(image, true);
    }

    /** `getMultiplier()`: the image width over the table width. Before an
        image and a table are there, src/lib.js answers 0 and the other
        drafts throw on the missing object. */
    function GetMultiplier(): (r: Result<real>)
      requires Valid()
      reads this, canvas
      ensures data.Some? && img.Some? ==>
        r.Ok? && r.value >= 0.0 && r.value * data.value.size.value.w as real == img.value.0 as real
      ensures data.None? || img.None? ==> r == if draft == SrcLibJs then Ok(0.0) else Err(TypeError)
    {
      if data.None? || img.None? then
        (if draft == SrcLibJs then Ok(0.0) else Err(TypeError))
      else Ok(MultiplierOf(data.value, img.value.0))
    }

    /** `cut(name)`: the stored element for a name already cut, else the
        rectangle of the name read off the canvas. */
    method Cut(name: string, given: Option<real>) returns (r: Result<Piece>)
      requires Valid()
      requires given.Some? ==> draft == SrcLibJs && given.value >= 0.0
      ensures CutFailure(draft, data, keyed, name in elements, canvas != null, name) ==
        if r.Err? then Some(r.error) else None
      ensures r.Ok? && name in elements ==> r.value == elements[name]
      ensures r.Ok? && name !in elements ==>
        Loaded() &&
        Cutout(canvas.rows, data.value, UsedMultiplier(given, MultiplierOf(data.value, img.value.0)), name) == Some(r.value)
    {
      if data.None? {
        return Err(TypeError);
      }
      var box := Lookup(data.value.elements, name);
      if box.None? {
        return Err(UnknownElementError(draft));
      }
      if !keyed {
        return Err(TypeError);
      }
      if name in elements {
        return Ok(elements[name]);
      }
      if canvas == null {
        return Err(TypeError);
      }
      var m := UsedMultiplier(given, MultiplierOf(data.value, img.value.0));
      LookupNonNegative(data.value.elements, name);
      var (x, y, w, h) := CutRegion(box.value, m);
      var d := canvas.GetImageData(x, y, w, h);
      r := Ok(Piece(w, h, d.data[..]));
    }

    /** `extract(...names)`: each name cut and stored under itself, in
        turn, until the first throw. */
    method Extract(names: seq<string>) returns (o: Outcome)
      requires Valid()
      modifies this
      ensures Valid()
      ensures (o, order) == ExtractRun(draft, data, keyed, canvas != null, old(order), names)
      ensures Kept(old(elements), elements)
      ensures canvas != null ==> CutsFrom(old(elements), elements, canvas.rows, data, img)
      ensures data == old(data) && img == old(img) && canvas == old(canvas) && keyed == old(keyed)
      ensures path == old(path) && rendered == old(rendered)
    {
      var k := 0;
      while k < |names|
        invariant 0 <= k <= |names|
        invariant Valid()
        invariant ExtractRun(draft, data, keyed, canvas != null, old(order), names) ==
          ExtractRun(draft, data, keyed, canvas != null, order, names[k..])
        invariant Kept(old(elements), elements)
        invariant canvas != null ==> CutsFrom(old(elements), elements, canvas.rows, data, img)
        invariant data == old(data) && img == old(img) && canvas == old(canvas) && keyed == old(keyed)
        invariant path == old(path) && rendered == old(rendered)
      {
        ghost var (before, ord) := (elements, order);
        ExtractRunFirst(draft, data, keyed, canvas != null, order, names[k..]);
        assert names[k..][..1] == [names[k]] && names[k..][1..] == names[k + 1..];
        o := ExtractName(names[k]);
        if o.Fail? {
          return;
        }
        CutsFromTrans(old(elements), before, elements, canvas, data, img);
        k := k + 1;
      }
      o := Pass;
    }

    /** One turn of `extract`'s loop: `this.elements[name] = this.cut(name)`. */
    method ExtractName(name: string) returns (o: Outcome)
      requires Valid()
      modifies this
      ensures Valid()
      ensures (o, order) == ExtractRun(draft, data, keyed, canvas != null, old(order), [name])
      ensures Kept(old(elements), elements)
      ensures canvas != null ==> CutsFrom(old(elements), elements, canvas.rows, data, img)
      ensures data == old(data) && img == old(img) && canvas == old(canvas) && keyed == old(keyed)
      ensures path == old(path) && rendered == old(rendered)
    {
      var r := Cut(name, None);
      if r.Err? {
        return Fail(r.error);
      }
      OrderStore(elements, order, name, r.value);
      if name !in elements {
        order := order + [name];
      }
      elements := elements[name := r.value];
      o := Pass;
    }

    /** `extractAll()`: every key of the table, in table order. */
    method ExtractAll() returns (o: Outcome)
      requires Valid()
      modifies this
      ensures Valid()
      ensures data.None? ==> o == Fail(TypeError) && order == old(order)
      ensures data.Some? ==>
        (o, order) == ExtractRun(draft, data, keyed, canvas != null, old(order), Keys(data.value.elements))
      ensures Kept(old(elements), elements)
      ensures data == old(data) && img == old(img) && canvas == old(canvas) && keyed == old(keyed)
    {
      if data.None? {
        return Fail(TypeError);
      }
      o := Extract(Keys(data.value.elements));
    }

    /** `setColor(color, standard, ...names)` of lib/asset.ts and
        src/asset.js, `setColor(color, mode, ...names)` of src/extractor.js:
        the colour text is converted before any element is looked at, then
        the names are recoloured in turn. As written, the conversion of
        lib/asset.ts and src/asset.js throws a TypeError whatever the text. */
    method SetColor(text: string, mode: string, names: seq<string>) returns (o: Outcome)
      requires Valid() && draft != SrcLibJs
      modifies this
      ensures Valid()
      ensures draft != SrcExtractorJs ==> o == Fail(TypeError) && elements == old(elements)
      ensures ColorArg(draft, text).Err? ==> o == Fail(ColorArg(draft, text).error) && elements == old(elements)
      ensures ColorArg(draft, text).Ok? ==>
        (o, Buffers(elements)) == ColourRun(draft, keyed, Buffers(old(elements)), names, mode, ColorArg(draft, text).value)
      ensures Reshaped(old(elements), elements) && order == old(order)
      ensures data == old(data) && img == old(img) && canvas == old(canvas) && keyed == old(keyed)
      ensures path == old(path) && rendered == old(rendered)
    {
      if draft != SrcExtractorJs {
        return Fail(TypeError);
      }
      var c := ColorFormats.ExtractorColorArg(text);
      if c.Err? {
        return Fail(c.error);
      }
      o := ColourNames(c.value, mode, names);
    }

    /** `setColorAll(color, ...)`: `setColor` over `Object.keys(this.elements)`,
        which throws while `elements` is not an object. */
    method SetColorAll(text: string, mode: string) returns (o: Outcome)
      requires Valid() && draft != SrcLibJs
      modifies this
      ensures Valid()
      ensures !old(keyed) ==> o == Fail(TypeError) && elements == old(elements)
      ensures old(keyed) && ColorArg(draft, text).Err? ==> o == Fail(ColorArg(draft, text).error) && elements == old(elements)
      ensures old(keyed) && ColorArg(draft, text).Ok? ==>
        (o, Buffers(elements)) == ColourRun(draft, true, Buffers(old(elements)), old(order), mode, ColorArg(draft, text).value)
      ensures old(keyed) && ColorArg(draft, text).Ok? && RecolourPasses(draft, mode) ==>
        o == Pass && Buffers(elements) ==
          map n | n in old(elements) :: Recolour(draft, n, mode, ColorArg(draft, text).value, old(elements)[n].data).1
      ensures Reshaped(old(elements), elements) && order == old(order)
    {
      if !keyed {
        return Fail(TypeError);
      }
      var c := ColorArg(draft, text);
      if c.Ok? && RecolourPasses(draft, mode) {
        ColourAll(draft, Buffers(elements), order, mode, c.value);
        BuffersRecoloured(draft, elements, mode, c.value);
      }
      o := SetColor(text, mode, order);
    }

    /** The loop of `setColor` once the colour is converted: each name in
        turn recoloured as the draft does it, until the first throw.
        src/extractor.js runs it as written; for lib/asset.ts and
        src/asset.js it is the intended loop their conversion never
        reaches. */
    method ColourNames(color: Rgba, mode: string, names: seq<string>) returns (o: Outcome)
      requires Valid() && draft != SrcLibJs
      modifies this
      ensures Valid()
      ensures (o, Buffers(elements)) == ColourRun(draft, keyed, Buffers(old(elements)), names, mode, color)
      ensures Reshaped(old(elements), elements) && order == old(order)
      ensures data == old(data) && img == old(img) && canvas == old(canvas) && keyed == old(keyed)
      ensures path == old(path) && rendered == old(rendered)
    {
      var k := 0;
      while k < |names|
        invariant 0 <= k <= |names|
        invariant Valid()
        invariant ColourRun(draft, keyed, Buffers(old(elements)), names, mode, color) ==
          ColourRun(draft, keyed, Buffers(elements), names[k..], mode, color)
        invariant Reshaped(old(elements), elements) && order == old(order)
        invariant data == old(data) && img == old(img) && canvas == old(canvas) && keyed == old(keyed)
        invariant path == old(path) && rendered == old(rendered)
      {
        ColourRunFirst(draft, keyed, Buffers(elements), names[k..], mode, color);
        assert names[k..][..1] == [names[k]] && names[k..][1..] == names[k + 1..];
        o := ColourName(color, mode, names[k]);
        if o.Fail? {
          return;
        }
        k := k + 1;
      }
      o := Pass;
    }

    /** One turn of `setColor`'s loop. */
    method ColourName(color: Rgba, mode: string, name: string) returns (o: Outcome)
      requires Valid() && draft != SrcLibJs
      modifies this
      ensures Valid()
      ensures (o, Buffers(elements)) == ColourRun(draft, keyed, Buffers(old(elements)), [name], mode, color)
      ensures Reshaped(old(elements), elements) && order == old(order)
      ensures data == old(data) && img == old(img) && canvas == old(canvas) && keyed == old(keyed)
      ensures path == old(path) && rendered == old(rendered)
    {
      if !keyed {
        return Fail(TypeError);
      }
      if name !in elements {
        return Fail(NotExtractedError(draft));
      }
      var (r, s) := Recolour(draft, name, mode, color, elements[name].data);
      if r.Fail? {
        return r;
      }
      BuffersStore(elements, name, s);
      elements := elements[name := elements[name].(data := s)];
      o := Pass;
    }

    /** `setColorAll` past the conversion: the loop over every extracted
        element, in key order, which recolours each exactly once in a mode
        that passes. */
    method ColourAllElements(color: Rgba, mode: string) returns (o: Outcome)
      requires Valid() && draft != SrcLibJs
      modifies this
      ensures Valid()
      ensures !old(keyed) ==> o == Fail(TypeError) && elements == old(elements)
      ensures old(keyed) ==> (o, Buffers(elements)) == ColourRun(draft, true, Buffers(old(elements)), old(order), mode, color)
      ensures old(keyed) && RecolourPasses(draft, mode) ==>
        o == Pass && Buffers(elements) == map n | n in old(elements) :: Recolour(draft, n, mode, color, old(elements)[n].data).1
      ensures Reshaped(old(elements), elements) && order == old(order)
    {
      if !keyed {
        return Fail(TypeError);
      }
      if RecolourPasses(draft, mode) {
        ColourAll(draft, Buffers(elements), order, mode, color);
        BuffersRecoloured(draft, elements, mode, color);
      }
      o := ColourNames(color, mode, order);
    }

    /** `render(eye)`: only a SKIN renders; the body, its shadow, the foot,
        its shadow and the eye are extracted, and the render canvas is the
        body's plus a margin. */
    method Render(eye: Option<string>) returns (o: Outcome)
      requires Valid() && draft != SrcLibJs
      modifies this
      ensures Valid()
      ensures assetType != "SKIN" ==> o == Fail(RenderError(draft)) && elements == old(elements) && rendered == old(rendered)
      ensures assetType == "SKIN" ==>
        (o, order) == ExtractRun(draft, data, keyed, canvas != null, old(order), RenderParts(draft, eye))
      ensures Kept(old(elements), elements)
      ensures o.Pass? ==>
        Loaded() && "body" in elements &&
        rendered == Some(RenderSize(elements["body"].width, elements["body"].height, MultiplierOf(data.value, img.value.0)))
      ensures o.Fail? ==> rendered == old(rendered)
    {
      if assetType != "SKIN" {
        return Fail(RenderError(draft));
      }
      var parts := RenderParts(draft, eye);
      o := Extract(parts);
      if o.Fail? {
        return;
      }
      ExtractRunGrows(draft, data, keyed, canvas != null, old(order), parts);
      assert "body" in parts;
      var body := elements["body"];
      SetRendered(RenderSize(body.width, body.height, MultiplierOf(data.value, img.value.0)));
    }

    /** Keeps the size of `rCanvas`; nothing else changes. */
    method SetRendered(size: (real, real))
      requires Valid()
      modifies this
      ensures Valid() && rendered == Some(size)
      ensures path == old(path) && data == old(data) && img == old(img) && canvas == old(canvas)
      ensures keyed == old(keyed) && elements == old(elements) && order == old(order)
    {
      rendered := Some(size);
    }

    /** `saveRender(dirname, name)`: the file `render_<name>` is written when
        there is a render; otherwise lib/asset.ts throws, src/asset.js
        returns `undefined` and src/extractor.js returns 84. */
    function SaveRender(name: Option<string>): (r: Result<SaveReturn>)
      requires draft != SrcLibJs
      reads this
      ensures r.Err? <==> rendered.None? && draft == LibAssetTs
      ensures r.Err? ==> r.error == RenderError(draft)
      ensures r.Ok? && r.value.Saved? <==> rendered.Some?
      ensures r.Ok? && r.value.Saved? ==>
        |r.value.file| >= 7 && r.value.file[..7] == "render_" && r.value.file[7..] == RenderFileName(name, path)
      ensures r.Ok? && r.value.ReturnedCode? <==> rendered.None? && draft == SrcExtractorJs
      ensures r.Ok? && r.value.ReturnedCode? ==> r.value.code == 84
    {
      if rendered.Some? then Ok(Saved("render_" + RenderFileName(name, path)))
      else
        match draft
        case LibAssetTs => Err(RenderError(draft))
        case SrcAssetJs => Ok(ReturnedUndefined)
        case SrcExtractorJs => Ok(ReturnedCode(84))
    }
  }
}

=== FILE: elements.dfy ===
// The extracted element of the older drafts of the library (lib/asset.ts,
// src/asset.js, src/extractor.js, src/lib.js): a named ImageData cut out of an
// asset, the canvas it is shown on, and the in-place loops that recolour and
// re-weight its pixel buffer.

module Elements {
  import opened Results
  import opened Numbers
  import opened Colors
  import opened Pixels
  import opened Assets
  import ColorFormats

  /** The colour operations named on a ColorRGBA pixel: lib/asset.ts asks
      for `blackAndWhite` and `basicOperation`; ColorRGBA (lib/color.ts) has
      `blackAndWhite` and `applyColor` but no `basicOperation`. */
  datatype LibOperation = BlackAndWhite | BasicOperation | ApplyColor

  /** The pixel callback of `pixel[mode](color)`: `blackAndWhite` writes the
      fields directly and cannot throw; `applyColor` goes through the range
      checking setters; `basicOperation` is `undefined`, and calling it
      throws a TypeError before the pixel is written back. */
  function LibCallback(op: LibOperation, color: Rgba): PixelCallback
  {
    match op
    case BlackAndWhite => Graying()
    case BasicOperation => v => (v, Fail(TypeError))
    case ApplyColor => v => AppliedColor(v, color)
  }

  /** The pixel callback of a `COLOR_MODE` entry: the operations of
      src/color.ts and src/color.js assign plain fields and never throw. */
  function ModeCallback(m: ColorFormats.ColorModule, op: ColorFormats.PixelOp, color: Rgba): PixelCallback
  {
    v => (ColorFormats.ApplyOp(m, op, v, color), Pass)
  }

  /** Pasting a whole buffer at the origin of a canvas of its own size shows
      the buffer: what `setCanvas` leaves. */
  lemma PasteWhole(rows: seq<seq<Pixel>>, w: nat, h: nat, data: seq<Byte>)
    requires Shaped(rows, w, h)
    ensures Paste(rows, 0, 0, w, h, data) == FromBytes(data, w, h)
  {
    var p := Paste(rows, 0, 0, w, h, data);
    var f := FromBytes(data, w, h);
    forall j | 0 <= j < h
      ensures p[j] == f[j]
    {
      assert |p[j]| == w;
      forall i | 0 <= i < w
        ensures p[j][i] == f[j][i]
      {
        assert (j - 0) * w + (i - 0) == j * w + i;
      }
    }
  }

  /** `new TwElement(name, imgData)`: a named buffer and a canvas of its
      size. */
  class TwElement {
    const name: string
    const imgData: ImageData
    const canvas: Canvas

    ghost predicate Valid()
      reads this, imgData, canvas
    {
      imgData.Valid() && canvas.Valid() && canvas.width == imgData.width && canvas.height == imgData.height
    }

    /** The canvas shows the buffer. */
    ghost predicate Synced()
      reads this, imgData.data, canvas
    {
      canvas.rows == FromBytes(imgData.data[..], imgData.width, imgData.height)
    }

    constructor (name: string, imgData: ImageData)
      requires imgData.Valid()
      ensures Valid() && this.name == name && this.imgData == imgData && fresh(canvas)
      ensures canvas.rows == Blank(imgData.width, imgData.height)
    {
      this.name := name;
      this.imgData := imgData;
      canvas := new Canvas(imgData.width, imgData.height);
    }

    /** `setCanvas()`: `putImageData(imgData, 0, 0)` on the element's own
        canvas, which then shows the buffer. */
    method SetCanvas()
      requires Valid()
      modifies canvas
      ensures Valid() && Synced()
    {
      PasteWhole(canvas.rows, imgData.width, imgData.height, imgData.data[..]);
      canvas.PutImageData(imgData, 0, 0);
    }

    /** The pixel loop of `setColor` for a callback already chosen, then
        `setCanvas`. A callback that throws leaves the canvas as it was. */
    method Rewrite(f: PixelCallback) returns (o: Outcome)
      requires Valid()
      modifies imgData.data, canvas
      ensures Valid()
      ensures o == FailureFrom(old(imgData.data[..]), f, 0)
      ensures o.Pass? ==> imgData.data[..] == Rewritten(old(imgData.data[..]), f) && Synced()
      ensures o.Fail? ==> canvas.rows == old(canvas.rows)
    {
      BufferOfRegion(imgData.width, imgData.height);
      o := RewritePixels(imgData.data, f);
      if o.Pass? {
        SetCanvas();
      }
    }

    /** `setColor(color, mode)` of lib/asset.ts (lib/asset.ts:33-56): the
        named ColorRGBA operation on every pixel. `basicOperation` throws on
        the first pixel, so only an empty buffer gets through it. */
    method SetColorLib(color: Rgba, op: LibOperation) returns (o: Outcome)
      requires Valid()
      modifies imgData.data, canvas
      ensures Valid()
      ensures o == FailureFrom(old(imgData.data[..]), LibCallback(op, color), 0)
      ensures o.Pass? ==> imgData.data[..] == Rewritten(old(imgData.data[..]), LibCallback(op, color)) && Synced()
      ensures o.Fail? ==> canvas.rows == old(canvas.rows)
      ensures op != BasicOperation && InByteRange(color) ==> o == Pass
      ensures op == BasicOperation ==> o == if imgData.data.Length >= 4 then Fail(TypeError) else Pass
    {
      BufferOfRegion(imgData.width, imgData.height);
      LibCallbackPasses(op, color, imgData.data[..]);
      o := Rewrite(LibCallback(op, color));
    }

    /** `setColor(color, mode)` of src/asset.js and src/extractor.js
        (src/asset.js:19-47, src/extractor.js:17-45): a mode missing from
        `COLOR_MODE` is refused before any pixel is touched. */
    method SetColorMode(m: ColorFormats.ColorModule, mode: string, color: Rgba) returns (o: Outcome)
      requires Valid()
      modifies imgData.data, canvas
      ensures Valid()
      ensures o == if ColorFormats.ColorMode(m, mode).None? then Fail(InvalidColor) else Pass
      ensures o.Fail? ==> imgData.data[..] == old(imgData.data[..]) && canvas.rows == old(canvas.rows)
      ensures o.Pass? ==> imgData.data[..] == Rewritten(old(imgData.data[..]), ModeCallback(m, ColorFormats.ColorMode(m, mode).value, color)) && Synced()
    {
      var op := ColorFormats.ColorMode(m, mode);
      if op.None? {
        return Fail(InvalidColor);
      }
      NeverFails(imgData.data[..], ModeCallback(m, op.value, color), 0);
      o := Rewrite(ModeCallback(m, op.value, color));
    }

    /** `reorderBody()` (lib/asset.ts:58-102, src/asset.js:49-89): the
        histogram, the mode and the remap of skin.ts, on the element's buffer;
        the canvas is not refreshed. */
    method ReorderBody()
      requires Valid()
      modifies imgData.data
      ensures Valid()
      ensures imgData.data[..] == Remapped(old(imgData.data[..]), BodyMode(old(imgData.data[..])))
    {
      BufferOfRegion(imgData.width, imgData.height);
      ReorderBuffer(imgData.data);
    }
  }

  /** With a colour in 0..255, `blackAndWhite` and `applyColor` never
      throw; `basicOperation` throws on the first pixel of any buffer that
      holds one. */
  lemma LibCallbackPasses(op: LibOperation, color: Rgba, s: seq<Byte>)
    ensures op != BasicOperation && InByteRange(color) ==> FailureFrom(s, LibCallback(op, color), 0) == Pass
    ensures op == BasicOperation ==>
      FailureFrom(s, LibCallback(op, color), 0) == if |s| >= 4 then Fail(TypeError) else Pass
  {
    if op != BasicOperation && InByteRange(color) {
      forall p | InByteRange(p)
        ensures LibCallback(op, color)(p).1 == Pass
      {
        ApplyColorInRange(p, color);
      }
      NeverFails(s, LibCallback(op, color), 0);
    }
  }
}

=== FILE: fix.dfy ===
// Resizing an asset whose canvas is not a multiple of its base size:
// `fixAssetSize` of lib/fix.ts, which replaces the asset's canvas, and the
// `TwAssetFix` class of lib/fix.js, which keeps the canvas and builds a
// fixed copy beside it.

module Fixes {
  import opened Results
  import opened Pixels
  import opened Assets
  import Utils

  // ---------------------------------------------------------------------------
  // lib/fix.ts

  /** `closestNumber(n, m)` of a natural number by a positive one is a
      natural number. */
  lemma ClosestNatural(n: nat, m: nat)
    requires m > 0
    ensures Utils.ClosestNumber(n, m).Some? && Utils.ClosestNumber(n, m).value >= 0
    ensures Utils.ClosestNumber(n, m) == Some(Utils.NearestMultiple(n, m))
  {
    Utils.ClosestNumberAgrees(n, m);
    NearestNonNeg(n, m);
  }

  /** The nearest multiple of a positive number to a natural number is a
      natural number. */
  lemma NearestNonNeg(n: nat, m: nat)
    requires m > 0
    ensures Utils.NearestMultiple(n, m) >= 0
  {
  }

  /** The width-to-height ratio of the base size times a natural number. */
  lemma RatioNonNeg(w: nat, h: nat, f: nat)
    requires h > 0
    ensures w as real / h as real * f as real >= 0.0
  {
    var x := w as real / h as real;
    assert x >= 0.0;
  }

  /** The height `fixAssetSize` aims at: `closestNumber` of the canvas
      height and the base height. */
  function FixedHeight(height: nat, base: Dimensions): (r: nat)
    requires base.h > 0
    ensures r % base.h == 0
    ensures Utils.ClosestNumber(height, base.h) == Some(r)
  {
    ClosestNatural(height, base.h);
    Utils.ClosestNumber(height, base.h).value
  }

  /** `baseSize.w / baseSize.h`. */
  function Ratio(base: Dimensions): real
    requires base.h > 0
  {
    base.w as real / base.h as real
  }

  /** The ratio times k base heights is k base widths. */
  lemma RatioTimesMultiple(base: Dimensions, k: nat)
    requires base.h > 0
    ensures Ratio(base) * (k * base.h) as real == (k * base.w) as real
  {
    var x := Ratio(base);
    assert x * base.h as real == base.w as real;
    assert (k * base.h) as real == k as real * base.h as real;
    assert (k * base.w) as real == k as real * base.w as real;
    calc {
      x * (k as real * base.h as real);
      == (x * base.h as real) * k as real;
      == base.w as real * k as real;
    }
  }

  /** The size `fixAssetSize` aims at for a canvas of the given height: the
      fixed height, and the width that keeps the base ratio. The canvas width
      plays no part: its own rounding is overwritten. */
  function FixedSize(height: nat, base: Dimensions): (r: (real, nat))
    requires base.h > 0
    ensures r.0 >= 0.0
    ensures r.1 % base.h == 0
  {
    SizeFor(FixedHeight(height, base), base)
  }

  /** A fixed height with the width that keeps the base ratio. */
  function SizeFor(fixedHeight: nat, base: Dimensions): (r: (real, nat))
    requires base.h > 0
    ensures r.0 >= 0.0 && r.1 == fixedHeight
  {
    RatioNonNeg(base.w, base.h, fixedHeight);
    (Ratio(base) * fixedHeight as real, fixedHeight)
  }

  /** For a multiple of the base height, the size is that many base sizes. */
  lemma ScaledSize(fixedHeight: nat, base: Dimensions)
    requires base.h > 0 && fixedHeight % base.h == 0
    ensures SizeFor(fixedHeight, base) == (((fixedHeight / base.h) * base.w) as real, (fixedHeight / base.h) * base.h)
  {
    var k := fixedHeight / base.h;
    ExactQuotient(fixedHeight, base.h);
    RatioTimesMultiple(base, k);
    assert SizeFor(fixedHeight, base) == (Ratio(base) * (k * base.h) as real, k * base.h);
  }

  /** The fixed size is k times the base size, for some k. */
  lemma FixedSizeScalesBase(height: nat, base: Dimensions)
    requires base.h > 0
    ensures FixedSize(height, base) == (((FixedHeight(height, base) / base.h) * base.w) as real, (FixedHeight(height, base) / base.h) * base.h)
  {
    ScaledSize(FixedHeight(height, base), base);
  }

  /** A multiple of m is its quotient by m times m. */
  lemma ExactQuotient(x: nat, m: nat)
    requires m > 0 && x % m == 0
    ensures x == (x / m) * m
  {
  }

  /** The fixed height is the multiple of the base height nearest the canvas
      height: no multiple j of it is nearer. */
  lemma FixedHeightNearest(height: nat, base: Dimensions, j: int)
    requires base.h > 0
    ensures Utils.Abs(height - FixedHeight(height, base)) <= Utils.Abs(height - j * base.h)
  {
    ClosestNatural(height, base.h);
    Utils.NearestMultipleIsNearest(height, base.h, j);
    assert base.h * j == j * base.h;
  }

  /** Below half the base height the nearest multiple is 0. */
  lemma NearestOfSmall(n: nat, m: nat)
    requires m > 0 && 2 * n < m
    ensures Utils.NearestMultiple(n, m) == 0
  {
    var lo := Utils.FloorMultiple(n, m);
    assert lo == m * (lo / m);
    Utils.MultipleGap(m, lo / m, 0);
    Utils.MultipleGap(m, 0, lo / m);
  }

  /** A multiple is its own nearest multiple. */
  lemma NearestOfMultiple(k: nat, m: nat)
    requires m > 0
    ensures Utils.NearestMultiple(k * m, m) == k * m
  {
    Utils.MultipleMod(m, k);
    assert k * m == m * k;
    Utils.FloorOfMultiple(k * m, m);
  }

  /** A canvas less than half the base height tall is fixed to 0 by 0. */
  lemma FixedSizeVanishes(height: nat, base: Dimensions)
    requires base.h > 0 && 2 * height < base.h
    ensures FixedSize(height, base) == (0.0, 0)
  {
    ClosestNatural(height, base.h);
    NearestOfSmall(height, base.h);
    assert FixedHeight(height, base) == 0;
  }

  /** A canvas of k times the base size already has a good size. */
  lemma FixedSizeOfMultiple(base: Dimensions, k: nat)
    requires base.h > 0
    ensures FixedSize(k * base.h, base) == ((k * base.w) as real, k * base.h)
  {
    var n := k * base.h;
    assert FixedHeight(n, base) == n by {
      ClosestNatural(n, base.h);
      NearestOfMultiple(k, base.h);
    }
    assert FixedSize(n, base) == SizeFor(n, base);
    SizeForMultiple(base, k);
  }

  /** k base heights get k base widths. */
  lemma SizeForMultiple(base: Dimensions, k: nat)
    requires base.h > 0
    ensures SizeFor(k * base.h, base) == ((k * base.w) as real, k * base.h)
  {
    RatioTimesMultiple(base, k);
  }

  /** A height off the base height's multiples always gets a new canvas. */
  lemma FixedSizeMovesHeight(height: nat, base: Dimensions)
    requires base.h > 0 && height % base.h != 0
    ensures FixedSize(height, base).1 != height
  {
  }

  /** `fixAssetSize(asset)`: false, with the canvas kept, when the fixed
      size is the canvas's own; otherwise the canvas is replaced by a fixed
      size one holding the old canvas drawn at that size (`resample` stands
      for that `drawImage`; a fractional width is truncated by
      `createCanvas`), and true. */
  method FixAssetSize(asset: Asset, resample: (Image, nat, nat) -> seq<seq<Pixel>>) returns (changed: bool)
    requires asset.Valid() && asset.canvas != null && asset.metadata.baseSize.h > 0
    requires forall img, w, h :: Shaped(resample(img, w, h), w, h)
    modifies asset
    ensures asset.Valid() && asset.canvas != null
    ensures asset.metadata == old(asset.metadata) && asset.original == old(asset.original)
    ensures asset.verification == old(asset.verification)
    ensures var size := FixedSize(old(asset.canvas.height), asset.metadata.baseSize);
      changed <==> !(size.0 == old(asset.canvas.width) as real && size.1 == old(asset.canvas.height))
    ensures !changed ==> asset.canvas == old(asset.canvas)
    ensures changed ==> fresh(asset.canvas)
    ensures changed ==>
      var size := FixedSize(old(asset.canvas.height), asset.metadata.baseSize);
      asset.canvas.Snapshot() == Image(size.0.Floor, size.1, resample(old(asset.canvas.Snapshot()), size.0.Floor, size.1))
  {
    var canvas := asset.canvas;
    var size := FixedSize(canvas.height, asset.metadata.baseSize);
    var fixedWidth, fixedHeight := size.0, size.1;
    if fixedWidth == canvas.width as real && fixedHeight == canvas.height {
      return false;
    }
    var w: nat := fixedWidth.Floor;
    var fixedCanvas := new Canvas.Clone(Image(w, fixedHeight, resample(canvas.Snapshot(), w, fixedHeight)));
    asset.canvas := fixedCanvas;
    changed := true;
  }

  /** A canvas of k times the base size is kept, whatever k. */
  lemma GoodSizeKept(base: Dimensions, k: nat)
    requires base.h > 0
    ensures var size := FixedSize(k * base.h, base);
      size.0 == (k * base.w) as real && size.1 == k * base.h
  {
    FixedSizeOfMultiple(base, k);
  }

  // ---------------------------------------------------------------------------
  // lib/fix.js

  /** The JavaScript values `_getFixedSize` can return and `fix` compares. */
  datatype JsValue = JsBool(b: bool) | JsNumber(n: int)

  /** `v === true`. */
  predicate StrictlyTrue(v: JsValue) { v == JsBool(true) }

  /** `var ret = true; ret &= a; ret &= b`: `&=` makes a number of the
      boolean, 1 when both hold and 0 otherwise. */
  function AndAssign(a: bool, b: bool): (r: JsValue)
    ensures r.JsNumber? && (r.n == 1 <==> a && b) && (r.n == 0 <==> !(a && b))
  {
    var ret := if a then 1 else 0;
    JsNumber(if b then ret else 0)
  }

  /** The size `_getFixedSize` computes for one side: the nearest multiple
      of the divisor. */
  function FixedSide(n: nat, divisor: nat): (r: nat)
    requires divisor > 0
    ensures r % divisor == 0
  {
    ClosestNatural(n, divisor);
    Utils.ClosestNumber(n, divisor).value
  }

  /** A side is kept exactly when it is already a multiple of the divisor. */
  lemma FixedSideKeeps(n: nat, divisor: nat)
    requires divisor > 0
    ensures FixedSide(n, divisor) == n <==> n % divisor == 0
  {
    Utils.ClosestNumberAgrees(n, divisor);
    if n % divisor == 0 {
      if n > 0 {
        Utils.ClosestNumberOfMultiple(n, divisor);
      } else {
        assert n / divisor == 0;
      }
    }
  }

  /** What `_getFixedSize` returns for an image and a divisor. */
  function FixedFlag(img: Dimensions, divisor: Dimensions): JsValue
    requires divisor.w > 0 && divisor.h > 0
  {
    AndAssign(FixedSide(img.w, divisor.w) == img.w, FixedSide(img.h, divisor.h) == img.h)
  }

  /** The flag is the number 1 exactly for an image whose sides are
      multiples of the divisor, and never the boolean `true`. */
  lemma FixedFlagMeaning(img: Dimensions, divisor: Dimensions)
    requires divisor.w > 0 && divisor.h > 0
    ensures FixedFlag(img, divisor) == JsNumber(if img.w % divisor.w == 0 && img.h % divisor.h == 0 then 1 else 0)
    ensures !StrictlyTrue(FixedFlag(img, divisor))
  {
    FixedSideKeeps(img.w, divisor.w);
    FixedSideKeeps(img.h, divisor.h);
  }

  /** `TwAssetFix`: the loaded image's size, the divisor of its kind (read
      from `this.data.divisor`), the canvas, and the fixed size and fixed
      canvas `fix` fills in. */
  class TwAssetFix {
    const path: string
    const divisor: Dimensions
    const img: Dimensions
    const canvas: Image
    /** None while `undefined`, before `_getFixedSize`. */
    var fixedWidth: Option<nat>
    var fixedHeight: Option<nat>
    var fixedCanvas: Option<Image>

    constructor (path: string, divisor: Dimensions, canvas: Image)
      requires divisor.w > 0 && divisor.h > 0
      ensures this.path == path && this.divisor == divisor && this.canvas == canvas
      ensures img == Dimensions(canvas.width, canvas.height)
      ensures fixedWidth.None? && fixedHeight.None? && fixedCanvas.None?
    {
      this.path := path;
      this.divisor := divisor;
      this.canvas := canvas;
      img := Dimensions(canvas.width, canvas.height);
      fixedWidth, fixedHeight, fixedCanvas := None, None, None;
    }

    /** `_getFixedSize()`: each side rounded to the nearest multiple of the
      divisor, and the `&=` flag of both sides being unchanged. */
    method GetFixedSize() returns (r: JsValue)
      requires divisor.w > 0 && divisor.h > 0
      modifies this
      ensures fixedWidth == Some(FixedSide(img.w, divisor.w)) && fixedHeight == Some(FixedSide(img.h, divisor.h))
      ensures fixedCanvas == old(fixedCanvas)
      ensures r == FixedFlag(img, divisor)
    {
      fixedWidth := Some(FixedSide(img.w, divisor.w));
      fixedHeight := Some(FixedSide(img.h, divisor.h));
      r := AndAssign(fixedWidth.value == img.w, fixedHeight.value == img.h);
    }

    /** `fix()` as written: InvalidAsset when the flag is `=== true`, which a
      number never is (FixedFlagMeaning), so the fixed canvas is built even
      for an image of a good size; the canvas itself is kept. */
    method Fix(resample: (Image, nat, nat) -> seq<seq<Pixel>>) returns (o: Outcome)
      requires divisor.w > 0 && divisor.h > 0
      modifies this
      ensures o == if StrictlyTrue(FixedFlag(img, divisor)) then Fail(InvalidAsset) else Pass
      ensures fixedWidth == Some(FixedSide(img.w, divisor.w)) && fixedHeight == Some(FixedSide(img.h, divisor.h))
      ensures o.Pass? ==> fixedCanvas == Some(Image(FixedSide(img.w, divisor.w), FixedSide(img.h, divisor.h), resample(canvas, FixedSide(img.w, divisor.w), FixedSide(img.h, divisor.h))))
    {
      var flag := GetFixedSize();
      if StrictlyTrue(flag) {
        return Fail(InvalidAsset);
      }
      var w, h := fixedWidth.value, fixedHeight.value;
      fixedCanvas := Some(Image(w, h, resample(canvas, w, h)));
      o := Pass;
    }

    /** `fix()` as its message intends: an image already of a good format is
      refused with InvalidAsset and nothing is built. */
    method FixIntended(resample: (Image, nat, nat) -> seq<seq<Pixel>>) returns (o: Outcome)
      requires divisor.w > 0 && divisor.h > 0
      modifies this
      ensures o == Fail(InvalidAsset) <==> img.w % divisor.w == 0 && img.h % divisor.h == 0
      ensures o.Pass? <==> o != Fail(InvalidAsset)
      ensures o.Fail? ==> fixedCanvas == old(fixedCanvas)
      ensures fixedWidth == Some(FixedSide(img.w, divisor.w)) && fixedHeight == Some(FixedSide(img.h, divisor.h))
      ensures o.Pass? ==> fixedCanvas == Some(Image(FixedSide(img.w, divisor.w), FixedSide(img.h, divisor.h), resample(canvas, FixedSide(img.w, divisor.w), FixedSide(img.h, divisor.h))))
    {
      var flag := GetFixedSize();
      FixedFlagMeaning(img, divisor);
      if flag == JsNumber(1) {
        return Fail(InvalidAsset);
      }
      var w, h := fixedWidth.value, fixedHeight.value;
      fixedCanvas := Some(Image(w, h, resample(canvas, w, h)));
      o := Pass;
    }
  }

  /** A 256 by 128 skin with divisor 8 by 4 has a good format: `fix` as
      written still passes, the intended check refuses it. */
  lemma GoodFormatNotRefused()
    ensures FixedFlag(Dimensions(256, 128), Dimensions(8, 4)) == JsNumber(1)
    ensures !StrictlyTrue(FixedFlag(Dimensions(256, 128), Dimensions(8, 4)))
  {
    FixedFlagMeaning(Dimensions(256, 128), Dimensions(8, 4));
  }
}

=== FILE: formats.dfy ===
// The colour arguments of src/color.ts, src/color.js and src/extractor.js:
// the "r, g, b[, a]" and "h, s, l[, a]" field parsers, the decimal colour
// code parser, the Color pixel with its two operations, and the tables of
// operations by name.

module ColorFormats {
  import opened Results
  import opened Utils
  import opened Colors
  import opened Numbers

  // ---------------------------------------------------------------------------
  // The first run of digits of a field, `field.match(/\d+/)`

  predicate NoDigit(s: string)
  {
    forall j :: 0 <= j < |s| ==> !IsDecimalDigit(s[j])
  }

  /** Where the first digit of `s` sits, or |s| when there is none. */
  function FirstDigit(s: string): (i: nat)
    ensures i <= |s| && NoDigit(s[..i])
    ensures i < |s| ==> IsDecimalDigit(s[i])
  {
    if s == [] then 0
    else if IsDecimalDigit(s[0]) then 0
    else
      var i := 1 + FirstDigit(s[1..]);
      assert s[..i] == [s[0]] + s[1..][..i - 1];
      i
  }

  /** The longest prefix of `s` made of digits. */
  function DigitPrefix(s: string): (d: string)
    ensures |d| <= |s| && s[..|d|] == d && AllDigits(d)
    ensures |d| < |s| ==> !IsDecimalDigit(s[|d|])
  {
    if s == [] || !IsDecimalDigit(s[0]) then []
    else [s[0]] + DigitPrefix(s[1..])
  }

  /** The text `/\d+/` matches: the maximal run of digits that starts at the
      first digit, or nothing when the field holds no digit. */
  function FirstDigitRun(s: string): (r: Option<string>)
    ensures r.None? <==> NoDigit(s)
    ensures r.Some? ==> r.value != [] && AllDigits(r.value)
  {
    var i := FirstDigit(s);
    if i == |s| then
      assert s[..i] == s;
      None
    else
      var d := DigitPrefix(s[i..]);
      assert s[i..][0] == s[i];
      Some(d)
  }

  /** A field's number: `parseInt` of its first digit run. */
  function FieldValue(piece: string): Option<nat>
  {
    match FirstDigitRun(piece)
    case None => None
    case Some(d) => Some(DecimalValue(d))
  }

  predicate FieldOk(piece: string, limit: nat)
  {
    FieldValue(piece).Some? && FieldValue(piece).value <= limit
  }

  /** The fields from the first on, each against its limit; the first bad
      field stops the scan with an InvalidColor. */
  function CheckFields(pieces: seq<string>, limits: seq<nat>): Result<seq<nat>>
    requires |pieces| <= |limits|
  {
    if pieces == [] then Ok([])
    else if !FieldOk(pieces[0], limits[0]) then Err(InvalidColor)
    else
      match CheckFields(pieces[1..], limits[1..])
      case Err(e) => Err(e)
      case Ok(rest) => Ok([FieldValue(pieces[0]).value] + rest)
  }

  /** The fields are accepted exactly when each has a digit run within its
      limit, and then the values are those runs read as numbers. */
  lemma {:induction false} CheckFieldsMeaning(pieces: seq<string>, limits: seq<nat>)
    requires |pieces| <= |limits|
    ensures CheckFields(pieces, limits).Ok? <==> forall k :: 0 <= k < |pieces| ==> FieldOk(pieces[k], limits[k])
    ensures CheckFields(pieces, limits).Ok? ==>
              |CheckFields(pieces, limits).value| == |pieces| &&
              forall k :: 0 <= k < |pieces| ==> CheckFields(pieces, limits).value[k] == FieldValue(pieces[k]).value
    ensures CheckFields(pieces, limits).Err? ==> CheckFields(pieces, limits).error == InvalidColor
  {
    if pieces != [] {
      CheckFieldsMeaning(pieces[1..], limits[1..]);
      if FieldOk(pieces[0], limits[0]) {
        forall k | 1 <= k < |pieces|
          ensures FieldOk(pieces[k], limits[k]) <==> FieldOk(pieces[1..][k - 1], limits[1..][k - 1])
        {
        }
      }
    }
  }

  /** What `rgbFormat`, `hslFormat` and `_getColorArg` accept: three or four
      comma-separated fields, each within its limit. */
  function ParsedFields(color: string, limits: seq<nat>): (r: Result<seq<nat>>)
    requires |limits| == 4
    ensures r.Ok? ==> 3 <= |r.value| <= 4 && forall k :: 0 <= k < |r.value| ==> r.value[k] <= limits[k]
    ensures r.Err? ==> r.error == InvalidColor
  {
    var pieces := Split(color, ',');
    if |pieces| < 3 || |pieces| > 4 then Err(InvalidColor)
    else
      CheckFieldsMeaning(pieces, limits[..|pieces|]);
      CheckFields(pieces, limits[..|pieces|])
  }

  /** The loop shared by the three field parsers: split on ',', refuse a
      count other than 3 or 4, then replace each field by its number. */
  method ParseFields(color: string, limits: seq<nat>) returns (r: Result<seq<nat>>)
    requires |limits| == 4
    ensures r == ParsedFields(color, limits)
  {
    var pieces := Split(color, ',');
    if |pieces| < 3 || |pieces| > 4 {
      return Err(InvalidColor);
    }
    r := ReadFields(pieces, limits[..|pieces|]);
  }

  /** The loop of `ParseFields` over the split pieces. */
  method ReadFields(pieces: seq<string>, lims: seq<nat>) returns (r: Result<seq<nat>>)
    requires |pieces| == |lims|
    ensures r == CheckFields(pieces, lims)
  {
    var values: seq<nat> := [];
    var i := 0;
    assert pieces[i..] == pieces && lims[i..] == lims;
    assert CheckFields(pieces, lims) == Prefixed(values, CheckFields(pieces, lims)) by {
      if CheckFields(pieces, lims).Ok? {
        assert [] + CheckFields(pieces, lims).value == CheckFields(pieces, lims).value;
      }
    }
    while i < |pieces|
      invariant 0 <= i <= |pieces|
      invariant CheckFields(pieces, lims) == Prefixed(values, CheckFields(pieces[i..], lims[i..]))
    {
      assert pieces[i..][0] == pieces[i] && lims[i..][0] == lims[i];
      assert pieces[i..][1..] == pieces[i + 1..] && lims[i..][1..] == lims[i + 1..];
      var value := FieldValue(pieces[i]);
      if value.None? || value.value > lims[i] {
        assert CheckFields(pieces[i..], lims[i..]) == Err(InvalidColor);
        return Err(InvalidColor);
      }
      assert CheckFields(pieces[i..], lims[i..]) == Prefixed([value.value], CheckFields(pieces[i + 1..], lims[i + 1..]));
      PrefixedTwice(values, [value.value], CheckFields(pieces[i + 1..], lims[i + 1..]));
      values := values + [value.value];
      i := i + 1;
    }
    assert values + [] == values;
    r := Ok(values);
  }

  lemma PrefixedTwice(a: seq<nat>, b: seq<nat>, rest: Result<seq<nat>>)
    ensures Prefixed(a + b, rest) == Prefixed(a, Prefixed(b, rest))
  {
    if rest.Ok? {
      assert (a + b) + rest.value == a + (b + rest.value);
    }
  }

  /** Values read so far in front of the validation of the remaining fields. */
  function Prefixed(values: seq<nat>, rest: Result<seq<nat>>): Result<seq<nat>>
  {
    match rest
    case Err(e) => Err(e)
    case Ok(more) => Ok(values + more)
  }

  const RgbLimits: seq<nat> := [255, 255, 255, 255]
  const HslLimits: seq<nat> := [360, 100, 100, 255]

  /** `rgbFormat` (src/color.ts). */
  method RgbFormat(color: string) returns (r: Result<seq<nat>>)
    ensures r == ParsedFields(color, RgbLimits)
  {
    r := ParseFields(color, RgbLimits);
  }

  /** `hslFormat` (src/color.ts). */
  method HslFormat(color: string) returns (r: Result<seq<nat>>)
    ensures r == ParsedFields(color, HslLimits)
  {
    r := ParseFields(color, HslLimits);
  }

  /** The text "v0, v1, v2[, v3]" the error messages give as the valid
      format. */
  function Render(values: seq<nat>): string
    requires |values| >= 1
  {
    Join(RenderedFields(values), ',')
  }

  function RenderedFields(values: seq<nat>): (pieces: seq<string>)
    ensures |pieces| == |values|
  {
    seq(|values|, k requires 0 <= k < |values| => (if k == 0 then "" else " ") + Decimal(values[k]))
  }

  /** Every value list within the limits, written out, parses back to
      itself. */
  lemma RenderParses(values: seq<nat>, limits: seq<nat>)
    requires |limits| == 4 && 3 <= |values| <= 4
    requires forall k :: 0 <= k < |values| ==> values[k] <= limits[k]
    ensures ParsedFields(Render(values), limits) == Ok(values)
  {
    var pieces := RenderedFields(values);
    RenderedFieldsRead(values);
    JoinSplit(pieces, ',');
    assert Split(Render(values), ',') == pieces;
    var lims := limits[..|pieces|];
    CheckFieldsMeaning(pieces, lims);
    assert CheckFields(pieces, lims).value == values;
  }

  /** Each written field is comma-free and reads back as its value. */
  lemma RenderedFieldsRead(values: seq<nat>)
    ensures forall k :: 0 <= k < |values| ==>
      ',' !in RenderedFields(values)[k] && FieldValue(RenderedFields(values)[k]) == Some(values[k])
  {
    var pieces := RenderedFields(values);
    forall k | 0 <= k < |pieces|
      ensures ',' !in pieces[k] && FieldValue(pieces[k]) == Some(values[k])
    {
      PaddedField(if k == 0 then "" else " ", values[k]);
    }
  }

  /** A number after a digit-free, comma-free prefix reads back as itself. */
  lemma PaddedField(pad: string, v: nat)
    requires NoDigit(pad) && ',' !in pad
    ensures ',' !in pad + Decimal(v)
    ensures FieldValue(pad + Decimal(v)) == Some(v)
  {
    DecimalRoundTrip(v);
    var s := pad + Decimal(v);
    assert s[..|pad|] == pad;
    assert s[|pad|..] == Decimal(v);
    if |pad| < |s| {
      assert IsDecimalDigit(s[|pad|]);
    }
    FirstDigitAt(s, |pad|);
    AllDigitsPrefix(Decimal(v));
  }

  lemma FirstDigitAt(s: string, i: nat)
    requires i < |s| && NoDigit(s[..i]) && IsDecimalDigit(s[i])
    ensures FirstDigit(s) == i
  {
  }

  /** A string of digits is its own longest digit prefix. */
  lemma {:induction false} AllDigitsPrefix(s: string)
    requires AllDigits(s)
    ensures DigitPrefix(s) == s
  {
    if s != [] {
      AllDigitsPrefix(s[1..]);
    }
  }

  /** The parser skips what surrounds the number and stops at the first run:
      "x12y34" reads as 12. */
  lemma FieldExample()
    ensures FieldValue("x12y34") == Some(12)
    ensures FieldValue(" - ") == None
  {
    assert "x12y34"[1..] == "12y34";
    assert FirstDigit("x12y34") == 1;
    assert "12y34"[1..] == "2y34" && "2y34"[1..] == "y34";
    assert DigitPrefix("12y34") == "12";
    assert "12"[..1] == "1";
    assert DecimalValue("1") == 1;
  }

  // ---------------------------------------------------------------------------
  // codeFormat: a decimal colour code to HSL

  function Pow16(k: nat): (p: nat)
    ensures p >= 1
  {
    if k == 0 then 1 else 16 * Pow16(k - 1)
  }

  function HexDigit(d: nat): char
    requires d < 16
  {
    ['0', '1', '2', '3', '4', '5', '6', '7', '8', '9', 'a', 'b', 'c', 'd', 'e', 'f'][d]
  }

  /** The digit value `parseInt(_, 16)` gives a character, if it is one. */
  function HexDigitValue(c: char): Option<nat>
  {
    if '0' <= c <= '9' then Some((c as int) - ('0' as int))
    else if 'a' <= c <= 'f' then Some((c as int) - ('a' as int) + 10)
    else if 'A' <= c <= 'F' then Some((c as int) - ('A' as int) + 10)
    else None
  }

  lemma HexDigitReads(d: nat)
    requires d < 16
    ensures HexDigitValue(HexDigit(d)) == Some(d)
  {
  }

  /** `n.toString(16)`: the shortest lower-case hexadecimal notation. */
  function ToHex(n: nat): (s: string)
    ensures |s| >= 1
  {
    if n < 16 then [HexDigit(n)] else ToHex(n / 16) + [HexDigit(n % 16)]
  }

  /** The notation of NaN, which `parseInt("")` yields. */
  const NaNText: string := "NaN"

  /** `'0'.repeat(k - |s|) + s` when `s` is shorter than `k`. */
  function PadZeros(s: string, k: nat): (p: string)
    ensures |p| == if |s| < k then k else |s|
  {
    if |s| < k then seq(k - |s|, _ => '0') + s else s
  }

  /** The last k hexadecimal digits of n. */
  function FixedHex(n: nat, k: nat): (s: string)
    ensures |s| == k
    ensures forall j :: 0 <= j < k ==> HexDigitValue(s[j]).Some?
  {
    if k == 0 then []
    else
      HexDigitReads(n % 16);
      FixedHex(n / 16, k - 1) + [HexDigit(n % 16)]
  }

  /** `parseInt(s, 16)`: the value of the longest prefix of hexadecimal
      digits, or NaN (None) when there is none. */
  function ParseHex(s: string): Option<nat>
  {
    var n := HexPrefixLength(s);
    if n == 0 then None else Some(HexValue(s[..n]))
  }

  function HexPrefixLength(s: string): (n: nat)
    ensures n <= |s|
  {
    if s == [] || HexDigitValue(s[0]).None? then 0 else 1 + HexPrefixLength(s[1..])
  }

  function HexValue(s: string): nat
  {
    if s == [] then 0
    else HexValue(s[..|s| - 1]) * 16 + (match HexDigitValue(s[|s| - 1]) case Some(d) => d case None => 0)
  }

  /** The shortest notation padded with zeros is the fixed-width one. */
  lemma {:induction false} PadToHex(n: nat, k: nat)
    requires 1 <= k && n < Pow16(k)
    ensures PadZeros(ToHex(n), k) == FixedHex(n, k)
  {
    if n < 16 {
      ZerosFixed(k - 1);
      assert FixedHex(n, k) == FixedHex(0, k - 1) + [HexDigit(n)];
    } else {
      assert n / 16 < Pow16(k - 1);
      PadToHex(n / 16, k - 1);
      var h := ToHex(n / 16);
      HexLength(n / 16, k - 1);
      assert PadZeros(h + [HexDigit(n % 16)], k) == PadZeros(h, k - 1) + [HexDigit(n % 16)];
    }
  }

  lemma {:induction false} ZerosFixed(k: nat)
    ensures FixedHex(0, k) == seq(k, _ => '0')
  {
    if k > 0 {
      ZerosFixed(k - 1);
    }
  }

  lemma {:induction false} HexLength(n: nat, k: nat)
    requires n < Pow16(k)
    ensures |ToHex(n)| <= k || (n == 0 && k == 0)
  {
    if n >= 16 {
      HexLength(n / 16, k - 1);
    } else if k == 0 {
      assert n == 0;
    }
  }

  /** A fixed-width notation reads back as the number modulo 16^k. */
  lemma {:induction false} FixedHexValue(n: nat, k: nat)
    ensures HexPrefixLength(FixedHex(n, k)) == k
    ensures HexValue(FixedHex(n, k)) == n % Pow16(k)
  {
    if k > 0 {
      FixedHexValue(n / 16, k - 1);
      var s := FixedHex(n, k);
      assert s[..k - 1] == FixedHex(n / 16, k - 1);
      HexDigitReads(n % 16);
      AllHexPrefix(s);
      ModPow16(n, k);
    }
  }

  lemma {:induction false} AllHexPrefix(s: string)
    requires forall j :: 0 <= j < |s| ==> HexDigitValue(s[j]).Some?
    ensures HexPrefixLength(s) == |s|
  {
    if s != [] {
      AllHexPrefix(s[1..]);
    }
  }

  lemma ModPow16(n: nat, k: nat)
    requires k > 0
    ensures n % Pow16(k) == (n / 16) % Pow16(k - 1) * 16 + n % 16
  {
    DivMod16(n, Pow16(k - 1));
  }

  /** Dividing by 16 and then by p is dividing by 16p; the remainder by 16p
      is made of the two remainders. */
  lemma DivMod16(n: nat, p: nat)
    requires p >= 1
    ensures n / 16 / p == n / (16 * p)
    ensures n % (16 * p) == (n / 16) % p * 16 + n % 16
  {
    var a, b := n / 16, n % 16;
    var q, r := a / p, a % p;
    assert n == 16 * a + b;
    assert a == p * q + r;
    assert n == (16 * p) * q + (16 * r + b);
    assert 16 * r + b < 16 * p;
    DivModUnique(n, 16 * p, q, 16 * r + b);
  }

  /** Six digits cut after four and after two. */
  lemma {:induction false} FixedHexSplit(n: nat, a: nat, b: nat)
    ensures FixedHex(n, a + b) == FixedHex(HexHigh(n, b), a) + FixedHex(n, b)
  {
    if b > 0 {
      FixedHexSplit(n / 16, a, b - 1);
    }
  }

  /** The digits of n above its lowest b hexadecimal digits. */
  function HexHigh(n: nat, b: nat): nat
  {
    if b == 0 then n else HexHigh(n / 16, b - 1)
  }

  lemma DivTwice(n: nat, d: nat)
    requires d > 0
    ensures n / d / d == n / (d * d)
  {
    var a := n / d;
    var q := a / d;
    assert n == a * d + n % d;
    assert a == q * d + a % d;
    assert n == q * (d * d) + (a % d * d + n % d);
    assert a % d * d + n % d < d * d by {
      assert a % d <= d - 1;
      MulMonotoneNat(a % d, d - 1, d);
    }
    DivModUnique(n, d * d, q, a % d * d + n % d);
  }

  lemma MulMonotoneNat(x: nat, y: nat, d: nat)
    requires x <= y
    ensures x * d <= y * d
  {
  }

  /** `genChunks` of six characters by two gives the three pairs. */
  lemma SixInPairs(s: string, chunks: seq<string>)
    requires |s| == 6 && Concat(chunks) == s
    requires forall k :: 0 <= k < |chunks| ==> 0 < |chunks[k]| <= 2
    requires forall k :: 0 <= k < |chunks| - 1 ==> |chunks[k]| == 2
    requires |chunks| * 2 >= 6 && (|chunks| - 1) * 2 < 6
    ensures chunks == [s[..2], s[2..4], s[4..]]
  {
    assert |chunks| == 3;
    assert chunks[..2][..1] == chunks[..1] && chunks[..1][..0] == [];
    assert Concat(chunks) == Concat(chunks[..2]) + chunks[2];
    assert Concat(chunks[..2]) == Concat(chunks[..1]) + chunks[1];
    assert Concat(chunks[..1]) == chunks[0];
    assert s == chunks[0] + chunks[1] + chunks[2];
    assert |chunks[0]| == 2 && |chunks[1]| == 2 && |chunks[2]| == 2;
    assert s[..2] == chunks[0] && s[2..4] == chunks[1] && s[4..] == chunks[2];
  }

  /** What `codeFormat` promises: the code must be digits only and at most
      0xFFFFFF, and it then reads as the HSL triple of its three bytes, the
      same numbers `ColorCode.hsl` of lib/color.ts computes. The empty string
      passes `isDigit` and `parseInt` makes it NaN, which passes the range
      test and writes as "000NaN". */
  function CodeFormatSpec(color: string): Result<seq<real>>
  {
    if !AllDigits(color) then Err(InvalidColor)
    else if color == "" then Ok([0.0, 0.0, 13300.0 / 255.0])
    else if DecimalValue(color) > 0xffffff then Err(InvalidColor)
    else Ok(CodeTriple(CodeBytes(ColorCode(DecimalValue(color) as real))))
  }

  /** `codeFormat(color)`. */
  method CodeFormat(color: string) returns (r: Result<seq<real>>)
    ensures r == CodeFormatSpec(color)
  {
    var digits := IsDigit(color);
    if !digits {
      return Err(InvalidColor);
    }
    // parseInt(color): NaN (None) for the empty string
    var colorLong: Option<nat> := if color == "" then None else Some(DecimalValue(color));
    if colorLong.Some? && colorLong.value > 0xffffff {
      return Err(InvalidColor);
    }
    var b0, b1, b2 := CodeHexPairs(colorLong);
    r := Ok([b0 as real * 360.0 / 255.0, b1 as real * 100.0 / 255.0, (b2 as real / 2.0 + 128.0) * 100.0 / 255.0]);
  }

  /** The middle of `codeFormat`: the number written in hexadecimal ("NaN"
      for NaN), padded to six characters with '0', cut into pairs by
      `genChunks`, each pair read back by `parseInt(_, 16)`. */
  method CodeHexPairs(colorLong: Option<nat>) returns (b0: nat, b1: nat, b2: nat)
    requires colorLong.Some? ==> colorLong.value <= 0xffffff
    ensures colorLong.None? ==> [b0, b1, b2] == [0, 0, 10]
    ensures colorLong.Some? ==> [b0, b1, b2] == CodeBytes(ColorCode(colorLong.value as real))
  {
    var text := if colorLong.None? then NaNText else ToHex(colorLong.value);
    if colorLong.Some? {
      assert Pow16(6) == 0x1000000;
      HexLength(colorLong.value, 6);
    }
    text := PadZeros(text, 6);
    var chunks := GenChunks(text, 2);
    SixInPairs(text, chunks);
    var values := seq(|chunks|, k requires 0 <= k < |chunks| => ParseHex(chunks[k]));
    if colorLong.None? {
      NaNChunks(text, chunks);
    } else {
      CodeChunks(colorLong.value, text, chunks);
    }
    b0 := values[0].value;
    b1 := values[1].value;
    b2 := values[2].value;
  }

  /** "NaN" padded to six characters reads in pairs as 0, 0 and 10. */
  lemma NaNChunks(text: string, chunks: seq<string>)
    requires text == PadZeros(NaNText, 6) && chunks == [text[..2], text[2..4], text[4..]]
    ensures ParseHex(chunks[0]) == Some(0) && ParseHex(chunks[1]) == Some(0) && ParseHex(chunks[2]) == Some(10)
  {
    assert text == "000NaN";
    assert text[..2] == "00" && text[2..4] == "0N" && text[4..] == "aN";
    assert "00"[1..] == "0" && "0"[1..] == [];
    assert HexPrefixLength("00") == 2 && "00"[..2] == "00" && "00"[..1] == "0";
    assert "0N"[1..] == "N";
    assert HexPrefixLength("0N") == 1 && "0N"[..1] == "0";
    assert "aN"[1..] == "N";
    assert HexPrefixLength("aN") == 1 && "aN"[..1] == "a";
    assert "0"[..0] == [] && "a"[..0] == [];
  }

  /** The pairs of the padded notation of a code read as its three bytes. */
  lemma CodeChunks(n: nat, text: string, chunks: seq<string>)
    requires n <= 0xffffff && text == PadZeros(ToHex(n), 6)
    requires chunks == [text[..2], text[2..4], text[4..]]
    ensures ParseHex(chunks[0]) == Some(CodeBytes(ColorCode(n as real))[0])
    ensures ParseHex(chunks[1]) == Some(CodeBytes(ColorCode(n as real))[1])
    ensures ParseHex(chunks[2]) == Some(CodeBytes(ColorCode(n as real))[2])
  {
    assert Pow16(6) == 0x1000000;
    PadToHex(n, 6);
    SixHexPairs(n);
    PairValue(n / 65536);
    PairValue(n / 256);
    PairValue(n);
    assert (n as real).Floor == n;
  }

  /** Six fixed digits are the three fixed pairs of the three bytes. */
  lemma SixHexPairs(n: nat)
    ensures var s := FixedHex(n, 6);
      s[..2] == FixedHex(n / 65536, 2) && s[2..4] == FixedHex(n / 256, 2) && s[4..] == FixedHex(n, 2)
  {
    FixedHexSplit(n, 4, 2);
    FixedHexSplit(n / 256, 2, 2);
    HexHighTwo(n);
    HexHighTwo(n / 256);
    DivTwice(n, 256);
  }

  /** Dropping two hexadecimal digits divides by 256. */
  lemma HexHighTwo(n: nat)
    ensures HexHigh(n, 2) == n / 256
  {
    assert HexHigh(n, 2) == HexHigh(n / 16, 1) == HexHigh(n / 16 / 16, 0);
    DivTwice(n, 16);
  }

  /** A fixed pair reads back as the number modulo 256. */
  lemma PairValue(m: nat)
    ensures ParseHex(FixedHex(m, 2)) == Some(m % 256)
  {
    FixedHexValue(m, 2);
    assert Pow16(2) == 256;
    var s := FixedHex(m, 2);
    assert s[..2] == s;
  }

  /** A code written in decimal is accepted exactly when it is at most
      0xFFFFFF, and then reads as the triple of its bytes. */
  lemma CodeFormatOfDecimal(n: nat)
    ensures CodeFormatSpec(Decimal(n)).Ok? <==> n <= 0xffffff
    ensures n <= 0xffffff ==> CodeFormatSpec(Decimal(n)) == Ok(CodeTriple(CodeBytes(ColorCode(n as real))))
    ensures n > 0xffffff ==> CodeFormatSpec(Decimal(n)) == Err(InvalidColor)
  {
    DecimalRoundTrip(n);
  }

  /** The code 7929728 (0x78FF80) reads as (120·360/255, 100, 192·100/255),
      the numbers color.test.ts expects of `ColorCode.hsl`. */
  lemma CodeFormatExamples()
    ensures CodeFormatSpec(Decimal(7929728)) == Ok([120.0 * 360.0 / 255.0, 100.0, 19200.0 / 255.0])
  {
    CodeFormatOfDecimal(7929728);
    var n := ColorCode(7929728.0).code.Floor;
    assert n == 7929728;
    assert n / 65536 == 120 && n / 256 == 30975 && n % 256 == 128;
    assert 120 % 256 == 120 && 30975 % 256 == 255;
    assert CodeBytes(ColorCode(7929728.0)) == [120, 255, 128];
    assert CodeTriple([120, 255, 128]) == [120.0 * 360.0 / 255.0, 100.0, 19200.0 / 255.0];
  }

  /** The empty code reads as (0, 0, 133·100/255). */
  lemma CodeFormatEmpty()
    ensures CodeFormatSpec("") == Ok([0.0, 0.0, 13300.0 / 255.0])
  {
  }

  /** A code holding a letter is refused. */
  lemma CodeFormatRefusesLetters()
    ensures CodeFormatSpec("12ab") == Err(InvalidColor)
  {
    assert !IsDecimalDigit("12ab"[2]);
  }

  /** A code accepted by `codeFormat` and the ColorCode of the same number
      agree: the HSL setters accept the triple exactly when `ColorCode.hsl`
      does, and hold the same numbers. */
  lemma CodeFormatMatchesColorCode(color: string)
    requires AllDigits(color) && color != "" && DecimalValue(color) <= 0xffffff
    ensures var t := CodeFormatSpec(color).value;
            MakeHsl(t[0], t[1], t[2]) == CodeHsl(ColorCode(DecimalValue(color) as real))
  {
  }

  // ---------------------------------------------------------------------------
  // The Color pixel and the per-pixel operations

  /** `Color(r, g, b, a = 255)`: a pixel or a tint. */
  class Color {
    var r: real
    var g: real
    var b: real
    var a: real

    function Value(): Rgba
      reads this
    {
      Rgba(r, g, b, a)
    }

    constructor (r: real, g: real, b: real, a: real)
      ensures Value() == Rgba(r, g, b, a)
    {
      this.r, this.g, this.b, this.a := r, g, b, a;
    }
  }

  /** `new Color(...values)` on three or four parsed values: alpha is 255
      unless a fourth value is given. */
  function ColorOf(values: seq<nat>): (c: Rgba)
    requires 3 <= |values| <= 4
    ensures c.r == values[0] as real && c.g == values[1] as real && c.b == values[2] as real
    ensures c.a == if |values| == 4 then values[3] as real else 255.0
  {
    Rgba(values[0] as real, values[1] as real, values[2] as real,
         if |values| == 4 then values[3] as real else 255.0)
  }

  /** `_getColorArg(color)` of src/extractor.js: the RGB parser, then a Color.
      Every channel of the result is a byte. */
  method ExtractorColorArg(color: string) returns (r: Result<Rgba>)
    ensures r.Ok? <==> ParsedFields(color, RgbLimits).Ok?
    ensures r.Ok? ==> r.value == ColorOf(ParsedFields(color, RgbLimits).value) && InByteRange(r.value)
    ensures r.Err? ==> r.error == InvalidColor
  {
    var fields := ParseFields(color, RgbLimits);
    if fields.Err? {
      return Err(fields.error);
    }
    r := Ok(ColorOf(fields.value));
  }

  /** `blackAndWhite(pixel, _)`: the colour channels become their mean. */
  method BlackAndWhite(pixel: Color)
    modifies pixel
    ensures pixel.Value() == Gray(old(pixel.Value()))
  {
    var newValue := (pixel.r + pixel.g + pixel.b) / 3.0;
    pixel.r := newValue;
    pixel.g := newValue;
    pixel.b := newValue;
  }

  /** `defaultOp` of src/color.ts: every channel tinted. */
  method DefaultOpTs(pixel: Color, color: Color)
    modifies pixel
    ensures pixel.Value() == Tint(old(pixel.Value()), old(color.Value()))
  {
    pixel.r := pixel.r * color.r / 255.0;
    pixel.g := pixel.g * color.g / 255.0;
    pixel.b := pixel.b * color.b / 255.0;
    pixel.a := pixel.a * color.a / 255.0;
  }

  /** `defaultOp` of src/color.js: grayscale first, then every channel
      tinted. A pixel tinted by itself is tinted by its own grayscale. */
  method DefaultOpJs(pixel: Color, color: Color)
    modifies pixel
    ensures pixel.Value() == Tint(Gray(old(pixel.Value())),
                                  if pixel == color then Gray(old(color.Value())) else old(color.Value()))
  {
    BlackAndWhite(pixel);
    DefaultOpTs(pixel, color);
  }

  /** The per-pixel operations a COLOR_MODE table can name. */
  datatype PixelOp = DefaultOp | GrayscaleOp

  /** Which of the two colour modules a caller loads. */
  datatype ColorModule = ColorTs | ColorJs

  /** `COLOR_MODE[mode]`: src/color.ts knows "default" and "grayscale",
      src/color.js only "default". */
  function ColorMode(m: ColorModule, mode: string): (op: Option<PixelOp>)
    ensures op == Some(DefaultOp) <==> mode == "default"
    ensures op == Some(GrayscaleOp) <==> m == ColorTs && mode == "grayscale"
  {
    if mode == "default" then Some(DefaultOp)
    else if m == ColorTs && mode == "grayscale" then Some(GrayscaleOp)
    else None
  }

  /** A pixel value under an operation, as the two modules define it. */
  function ApplyOp(m: ColorModule, op: PixelOp, p: Rgba, c: Rgba): Rgba
  {
    match op
    case GrayscaleOp => Gray(p)
    case DefaultOp => if m == ColorTs then Tint(p, c) else Tint(Gray(p), c)
  }

  /** Pixels and tints in 0..255 stay in 0..255 under either operation. */
  lemma ApplyOpInRange(m: ColorModule, op: PixelOp, p: Rgba, c: Rgba)
    requires InByteRange(p) && InByteRange(c)
    ensures InByteRange(ApplyOp(m, op, p, c))
  {
    GrayLaws(p);
    ApplyColorInRange(p, c);
    ApplyColorInRange(Gray(p), c);
  }

  /** Grayscale then default in src/color.ts is what default alone does in
      src/color.js: the recolouring src/asset.js intends, both modes of
      src/color.ts in turn, matches what src/extractor.js does with the one
      mode of src/color.js. (As written, src/asset.js loads src/color.js,
      which has no "grayscale" mode.) */
  lemma GrayThenTintAgree(p: Rgba, c: Rgba)
    ensures ApplyOp(ColorTs, DefaultOp, ApplyOp(ColorTs, GrayscaleOp, p, c), c) == ApplyOp(ColorJs, DefaultOp, p, c)
  {
  }
}

=== FILE: numbers.dfy ===
// The conversions ECMAScript applies to numbers in the code being modelled:
// `Math.trunc`, the 32-bit conversion ToInt32 behind `<<` and `|`, the
// bitwise OR itself, and ToUint8Clamp, which a write into the byte buffer
// of an ImageData performs.

module Numbers {

  /** A byte of a clamped pixel buffer. */
  type Byte = x: int | 0 <= x < 256

  /** `Math.trunc`: rounding toward zero. */
  function Trunc(x: real): (t: int)
    ensures x >= 0.0 ==> t as real <= x < t as real + 1.0
    ensures x < 0.0 ==> t as real - 1.0 < x <= t as real
  {
    if x >= 0.0 then x.Floor else -((-x).Floor)
  }

  function Pow2(k: nat): (p: nat)
    ensures p >= 1
  {
    if k == 0 then 1 else 2 * Pow2(k - 1)
  }

  const TWO32: int := 0x1_0000_0000
  const TWO31: int := 0x8000_0000

  /** The unsigned 32-bit pattern of an integer. */
  function Unsigned32(n: int): (u: nat)
    ensures u < TWO32
  {
    n % TWO32
  }

  /** Reading a 32-bit pattern as a signed integer. */
  function Signed32(u: nat): (s: int)
    requires u < TWO32
    ensures -TWO31 <= s < TWO31
    ensures Unsigned32(s) == u
  {
    if u >= TWO31 then u - TWO32 else u
  }

  /** ToInt32 of a finite number: truncation, then wrap-around. */
  function ToInt32(x: real): (n: int)
    ensures -TWO31 <= n < TWO31
  {
    Signed32(Unsigned32(Trunc(x)))
  }

  /** `x << 8` on a number. */
  function ShiftLeft8(x: real): (n: int)
    ensures -TWO31 <= n < TWO31
  {
    Signed32(Unsigned32(ToInt32(x) * 256))
  }

  /** Bitwise OR of two naturals, bit by bit from the lowest. */
  function BitOr(a: nat, b: nat): nat
    decreases a + b
  {
    if a == 0 then b
    else if b == 0 then a
    else 2 * BitOr(a / 2, b / 2) + (if a % 2 == 1 || b % 2 == 1 then 1 else 0)
  }

  /** `x | y` on numbers: both sides go through ToInt32. */
  function Or32(x: real, y: real): (n: int)
    ensures -TWO31 <= n < TWO31
  {
    Pow2Values();
    BitOrBound(Unsigned32(ToInt32(x)), Unsigned32(ToInt32(y)), 32);
    Signed32(BitOr(Unsigned32(ToInt32(x)), Unsigned32(ToInt32(y))))
  }

  /** ToInt32 leaves a number in 0..2^31 at its integer part. */
  lemma ToInt32Small(x: real)
    requires 0.0 <= x < TWO31 as real
    ensures ToInt32(x) == Trunc(x)
  {
    assert 0 <= Trunc(x) < TWO31;
    assert Unsigned32(Trunc(x)) == Trunc(x);
  }

  /** OR-ing a value below 2^k into a multiple of 2^k adds it. */
  lemma {:induction false} BitOrLowBits(x: nat, y: nat, k: nat)
    requires y < Pow2(k)
    ensures BitOr(x * Pow2(k), y) == x * Pow2(k) + y
  {
    if k == 0 {
      assert y == 0;
    } else if x == 0 || y == 0 {
    } else {
      var hi := x * Pow2(k - 1);
      assert x * Pow2(k) == 2 * hi by {
        assert Pow2(k) == 2 * Pow2(k - 1);
      }
      BitOrLowBits(x, y / 2, k - 1);
      BitOrEven(hi, y);
    }
  }

  /** OR-ing into an even number: the low bit is the other side's. */
  lemma BitOrEven(a: nat, b: nat)
    requires a > 0 && b > 0
    ensures BitOr(2 * a, b) == 2 * BitOr(a, b / 2) + b % 2
  {
    assert (2 * a) / 2 == a && (2 * a) % 2 == 0;
  }

  /** OR keeps within k bits. */
  lemma {:induction false} BitOrBound(a: nat, b: nat, k: nat)
    requires a < Pow2(k) && b < Pow2(k)
    ensures BitOr(a, b) < Pow2(k)
    decreases a + b
  {
    if a == 0 || b == 0 {
    } else {
      assert k > 0;
      BitOrBound(a / 2, b / 2, k - 1);
    }
  }

  /** OR never clears a bit, so it is at least its right operand. */
  lemma {:induction false} BitOrAtLeast(a: nat, b: nat)
    ensures BitOr(a, b) >= b
    decreases a + b
  {
    if a == 0 || b == 0 {
    } else {
      BitOrAtLeast(a / 2, b / 2);
    }
  }

  lemma {:induction false} Pow2Add(a: nat, b: nat)
    ensures Pow2(a + b) == Pow2(a) * Pow2(b)
  {
    if a > 0 {
      Pow2Add(a - 1, b);
    }
  }

  lemma Pow2Values()
    ensures Pow2(8) == 256 && Pow2(32) == TWO32
  {
    assert Pow2(4) == 16;
    Pow2Add(4, 4);
    Pow2Add(8, 8);
    Pow2Add(16, 16);
  }

  lemma MulNonNeg(a: real, b: real)
    requires a >= 0.0 && b >= 0.0
    ensures a * b >= 0.0
  {
  }

  lemma DivNonNeg(a: real, b: real)
    requires a >= 0.0 && b > 0.0
    ensures a / b >= 0.0
  {
  }

  /** The product of two numbers in 0..255, over 255, is in 0..255. */
  lemma ProductInByteRange(x: real, y: real)
    requires 0.0 <= x <= 255.0 && 0.0 <= y <= 255.0
    ensures 0.0 <= x * y / 255.0 <= 255.0
  {
    MulNonNeg(x, y);
    MulNonNeg(255.0 - x, y);
    MulNonNeg(255.0 - y, 255.0);
  }

  /** Shifting a number below 2^23 left by 8 multiplies its integer part by
      256. */
  lemma ShiftSmall(x: real)
    requires 0.0 <= x < 8388608.0
    ensures ShiftLeft8(x) == Trunc(x) * 256
  {
  }

  /** OR-ing a number in 0..255 into a multiple of 256 below 2^31 adds its
      integer part. */
  lemma {:induction false} OrLowByte(high: nat, y: real)
    requires high < 8388608 && 0.0 <= y < 256.0
    ensures Or32((high * 256) as real, y) == high * 256 + Trunc(y)
  {
    Pow2Values();
    ToInt32Small((high * 256) as real);
    assert Trunc((high * 256) as real) == high * 256;
    ToInt32Small(y);
    BitOrLowBits(high, Trunc(y), 8);
  }

  /** ECMAScript ToUint8Clamp of a finite number: clamp to 0..255, then round
      to the nearest integer, ties to even. */
  function ToUint8Clamp(x: real): (b: Byte)
    ensures 0.0 <= x <= 255.0 ==> x - 0.5 <= b as real <= x + 0.5
    ensures x <= 0.0 ==> b == 0
    ensures x >= 255.0 ==> b == 255
  {
    if x <= 0.0 then 0
    else if x >= 255.0 then 255
    else
      var f := x.Floor;
      if f as real + 0.5 < x then f + 1
      else if x < f as real + 0.5 then f
      else if f % 2 == 0 then f
      else f + 1
  }

  /** A byte written back is read back unchanged. */
  lemma ClampOfByte(n: Byte)
    ensures ToUint8Clamp(n as real) == n
  {
  }

  /** ToUint8Clamp is monotone. */
  lemma ClampMonotone(x: real, y: real)
    requires x <= y
    ensures ToUint8Clamp(x) <= ToUint8Clamp(y)
  {
  }

  /** Euclidean division is determined by any quotient and remainder that
      fit. */
  lemma DivModUnique(n: int, d: int, q: int, r: int)
    requires d > 0 && 0 <= r < d && n == q * d + r
    ensures n / d == q && n % d == r
  {
    var q', r' := n / d, n % d;
    assert (q - q') * d == r' - r;
    if q > q' {
      MulAtLeast(q - q', d);
    } else if q < q' {
      MulAtLeast(q' - q, d);
    }
  }

  lemma MulAtLeast(x: int, d: int)
    requires x >= 1 && d > 0
    ensures x * d >= d
  {
  }
}

=== FILE: parts.dfy ===
// The part tables of lib/asset/part.ts: for each asset kind, the rectangle
// every named part occupies on a sheet at base resolution, and the lookup
// that the asset classes go through.

module Parts {
  import opened Results

  /** `IAssetPartMetadata`: a rectangle. Fields are real because scaling by a
      multiplier `canvas.width / baseSize.w` may leave the integers. */
  datatype Rect = Rect(x: real, y: real, w: real, h: real)

  function Rt(x: int, y: int, w: int, h: int): Rect
  {
    Rect(x as real, y as real, w as real, h as real)
  }

  /** `scaleMetadata(metadata, multiplier)`. */
  function ScaleMetadata(r: Rect, m: real): Rect
  {
    Rect(r.x * m, r.y * m, r.w * m, r.h * m)
  }

  /** Scaling by one changes nothing. */
  lemma ScaleByOne(r: Rect)
    ensures ScaleMetadata(r, 1.0) == r
  {
  }

  /** Scaling twice is scaling once by the product. */
  lemma ScaleCompose(r: Rect, a: real, b: real)
    ensures ScaleMetadata(ScaleMetadata(r, a), b) == ScaleMetadata(r, a * b)
  {
    assert r.x * a * b == r.x * (a * b);
    assert r.y * a * b == r.y * (a * b);
    assert r.w * a * b == r.w * (a * b);
    assert r.h * a * b == r.h * (a * b);
  }

  /** A rectangle lying inside a `width` by `height` sheet. */
  predicate FitsIn(r: Rect, width: real, height: real)
  {
    0.0 <= r.x && 0.0 <= r.y && 0.0 <= r.w && 0.0 <= r.h &&
    r.x + r.w <= width && r.y + r.h <= height
  }

  /** A rectangle that fits a sheet, scaled by a non-negative multiplier,
      fits the sheet scaled by the same multiplier. */
  lemma ScaleKeepsFit(r: Rect, width: real, height: real, m: real)
    requires FitsIn(r, width, height) && m >= 0.0
    ensures FitsIn(ScaleMetadata(r, m), width * m, height * m)
  {
    assert (r.x + r.w) * m <= width * m;
    assert (r.y + r.h) * m <= height * m;
  }

  /** `AssetKind`. */
  datatype AssetKind = Skin | Gameskin | Emoticon | Particule | Unknown

  /** `SkinPart`. */
  datatype SkinPart =
    | Body | BodyShadow | Hand | HandShadow | Foot | FootShadow | DefaultEye | AngryEye | BlinkEye
    | HappyEye | CrossEye | ScaryEye

  /** `GameskinPart`. */
  datatype GameskinPart =
    | Hook | HammerCursor | GunCursor | ShotgunCursor | GrenadeCursor | NinjaCursor | LaserCursor
    | Hammer | Gun | Shotgun | Grenade | Ninja | Laser | GunAmmo | ShotgunAmmo | GrenadeAmmo
    | LaserAmmo | GunParticle1 | GunParticle2 | GunParticle3 | ShotgunParticle1 | ShotgunParticle2
    | ShotgunParticle3 | Particle1 | Particle2 | Particle3 | Particle4 | Particle5 | Particle6
    | Particle7 | Particle8 | Particle9 | Star1 | Star2 | Star3 | HealthFull | HealthEmpty
    | ArmorFull | ArmorEmpty | Heart | Shield | Minus | NinjaTimer | NinjaParticle1 | NinjaParticle2
    | NinjaParticle3 | FlagBlue | FlagRed

  /** `EmoticonPart`. */
  datatype EmoticonPart =
    | Part_1_1 | Part_1_2 | Part_1_3 | Part_1_4 | Part_2_1 | Part_2_2 | Part_2_3 | Part_2_4
    | Part_3_1 | Part_3_2 | Part_3_3 | Part_3_4 | Part_4_1 | Part_4_2 | Part_4_3 | Part_4_4

  /** `ParticulePart`. */
  datatype ParticulePart =
    | Small1 | Small2 | Small3 | Small4 | Small5 | Small6 | Small7 | Small8 | Small9 | Mid1 | Mid2
    | Mid3 | Big

  /** `AssetPart`: the union of the four part enums. */
  datatype AssetPart =
    | SkinP(skin: SkinPart)
    | GameskinP(gameskin: GameskinPart)
    | EmoticonP(emoticon: EmoticonPart)
    | ParticuleP(particule: ParticulePart)

  /** The string value of each part (the enum initialisers, part.ts:36-142). */
  function PartName(p: AssetPart): string
  {
    match p
    case SkinP(q) => SkinPartName(q)
    case GameskinP(q) => GameskinPartName(q)
    case EmoticonP(q) => EmoticonPartName(q)
    case ParticuleP(q) => ParticulePartName(q)
  }

  function SkinPartName(p: SkinPart): string
  {
    match p
    case Body => "body"
    case BodyShadow => "body_shadow"
    case Hand => "hand"
    case HandShadow => "hand_shadow"
    case Foot => "foot"
    case FootShadow => "foot_shadow"
    case DefaultEye => "default_eye"
    case AngryEye => "angry_eye"
    case BlinkEye => "blink_eye"
    case HappyEye => "happy_eye"
    case CrossEye => "cross_eye"
    case ScaryEye => "scary_eye"
  }

  function GameskinPartName(p: GameskinPart): string
  {
    match p
    case Hook => "hook"
    case HammerCursor => "hammer_cursor"
    case GunCursor => "gun_cursor"
    case ShotgunCursor => "shotgun_cursor"
    case GrenadeCursor => "grenade_cursor"
    case NinjaCursor => "ninja_cursor"
    case LaserCursor => "laser_cursor"
    case Hammer => "hammer"
    case Gun => "gun"
    case Shotgun => "shotgun"
    case Grenade => "grenade"
    case Ninja => "ninja"
    case Laser => "laser"
    case GunAmmo => "gun_ammo"
    case ShotgunAmmo => "shotgun_ammo"
    case GrenadeAmmo => "grenade_ammo"
    case LaserAmmo => "laser_ammo"
    case GunParticle1 => "gun_particle_1"
    case GunParticle2 => "gun_particle_2"
    case GunParticle3 => "gun_particle_3"
    case ShotgunParticle1 => "shotgun_particle_1"
    case ShotgunParticle2 => "shotgun_particle_2"
    case ShotgunParticle3 => "shotgun_particle_3"
    case Particle1 => "particle_1"
    case Particle2 => "particle_2"
    case Particle3 => "particle_3"
    case Particle4 => "particle_4"
    case Particle5 => "particle_5"
    case Particle6 => "particle_6"
    case Particle7 => "particle_7"
    case Particle8 => "particle_8"
    case Particle9 => "particle_9"
    case Star1 => "star_1"
    case Star2 => "star_2"
    case Star3 => "star_3"
    case HealthFull => "health_full"
    case HealthEmpty => "health_empty"
    case ArmorFull => "armor_full"
    case ArmorEmpty => "armor_empty"
    case Heart => "heart"
    case Shield => "shield"
    case Minus => "minus"
    case NinjaTimer => "ninja_timer"
    case NinjaParticle1 => "ninja_particle_1"
    case NinjaParticle2 => "ninja_particle_2"
    case NinjaParticle3 => "ninja_particle_3"
    case FlagBlue => "flag_blue"
    case FlagRed => "flag_red"
  }

  function EmoticonPartName(p: EmoticonPart): string
  {
    match p
    case Part_1_1 => "part_1_1"
    case Part_1_2 => "part_1_2"
    case Part_1_3 => "part_1_3"
    case Part_1_4 => "part_1_4"
    case Part_2_1 => "part_2_1"
    case Part_2_2 => "part_2_2"
    case Part_2_3 => "part_2_3"
    case Part_2_4 => "part_2_4"
    case Part_3_1 => "part_3_1"
    case Part_3_2 => "part_3_2"
    case Part_3_3 => "part_3_3"
    case Part_3_4 => "part_3_4"
    case Part_4_1 => "part_4_1"
    case Part_4_2 => "part_4_2"
    case Part_4_3 => "part_4_3"
    case Part_4_4 => "part_4_4"
  }

  function ParticulePartName(p: ParticulePart): string
  {
    match p
    case Small1 => "small_1"
    case Small2 => "small_2"
    case Small3 => "small_3"
    case Small4 => "small_4"
    case Small5 => "small_5"
    case Small6 => "small_6"
    case Small7 => "small_7"
    case Small8 => "small_8"
    case Small9 => "small_9"
    case Mid1 => "mid_1"
    case Mid2 => "mid_2"
    case Mid3 => "mid_3"
    case Big => "big"
  }

  /** The SKIN rows of `AssetParts` (part.ts:154-165), in declaration order. */
  function SkinParts(): seq<(AssetPart, Rect)>
  {
    seq(12, i => (SkinP(SkinRow(i).0), SkinRow(i).1))
  }

  function SkinRow(i: int): (SkinPart, Rect)
  {
    match i
    case 0 => (Body, Rt(0, 0, 96, 96))
    case 1 => (BodyShadow, Rt(96, 0, 96, 96))
    case 2 => (Hand, Rt(192, 0, 32, 32))
    case 3 => (HandShadow, Rt(224, 0, 32, 32))
    case 4 => (Foot, Rt(192, 32, 64, 32))
    case 5 => (FootShadow, Rt(192, 64, 64, 32))
    case 6 => (DefaultEye, Rt(64, 96, 32, 32))
    case 7 => (AngryEye, Rt(96, 96, 32, 32))
    case 8 => (BlinkEye, Rt(128, 96, 32, 32))
    case 9 => (HappyEye, Rt(160, 96, 32, 32))
    case 10 => (CrossEye, Rt(192, 96, 32, 32))
    case _ => (ScaryEye, Rt(224, 96, 32, 32))
  }

  /** The row of each SkinPart. */
  function SkinIndex(p: SkinPart): (i: nat)
    ensures i < 12 && SkinRow(i).0 == p
  {
    match p
    case Body => 0
    case BodyShadow => 1
    case Hand => 2
    case HandShadow => 3
    case Foot => 4
    case FootShadow => 5
    case DefaultEye => 6
    case AngryEye => 7
    case BlinkEye => 8
    case HappyEye => 9
    case CrossEye => 10
    case ScaryEye => 11
  }

  /** The GAMESKIN rows of `AssetParts` (part.ts:168-215), in declaration order. */
  function GameskinParts(): seq<(AssetPart, Rect)>
  {
    seq(48, i => (GameskinP(GameskinRow(i).0), GameskinRow(i).1))
  }

  /** Row i of the table, looked up in the quarter that holds it. */
  function GameskinRow(i: int): (GameskinPart, Rect)
  {
    if i < 12 then GameskinRows0(i)
    else if i < 24 then GameskinRows12(i)
    else if i < 36 then GameskinRows24(i)
    else GameskinRows36(i)
  }

  function GameskinRows0(i: int): (GameskinPart, Rect)
  {
    match i
    case 0 => (Hook, Rt(64, 0, 128, 32))
    case 1 => (HammerCursor, Rt(0, 0, 64, 64))
    case 2 => (GunCursor, Rt(0, 128, 64, 64))
    case 3 => (ShotgunCursor, Rt(0, 192, 64, 64))
    case 4 => (GrenadeCursor, Rt(0, 256, 64, 64))
    case 5 => (NinjaCursor, Rt(0, 320, 64, 64))
    case 6 => (LaserCursor, Rt(0, 384, 64, 64))
    case 7 => (Hammer, Rt(64, 32, 128, 96))
    case 8 => (Gun, Rt(64, 128, 128, 64))
    case 9 => (Shotgun, Rt(64, 192, 256, 64))
    case 10 => (Grenade, Rt(64, 256, 256, 64))
    case _ => (Ninja, Rt(64, 320, 256, 64))
  }

  function GameskinRows12(i: int): (GameskinPart, Rect)
  {
    match i
    case 12 => (Laser, Rt(64, 384, 224, 96))
    case 13 => (GunAmmo, Rt(192, 128, 64, 64))
    case 14 => (ShotgunAmmo, Rt(320, 192, 64, 64))
    case 15 => (GrenadeAmmo, Rt(320, 256, 64, 64))
    case 16 => (LaserAmmo, Rt(320, 384, 64, 64))
    case 17 => (GunParticle1, Rt(256, 128, 128, 64))
    case 18 => (GunParticle2, Rt(384, 128, 128, 64))
    case 19 => (GunParticle3, Rt(512, 128, 128, 64))
    case 20 => (ShotgunParticle1, Rt(384, 192, 128, 64))
    case 21 => (ShotgunParticle2, Rt(512, 192, 128, 64))
    case 22 => (ShotgunParticle3, Rt(640, 192, 128, 64))
    case _ => (Particle1, Rt(192, 0, 32, 32))
  }

  function GameskinRows24(i: int): (GameskinPart, Rect)
  {
    match i
    case 24 => (Particle2, Rt(224, 0, 32, 32))
    case 25 => (Particle3, Rt(256, 0, 32, 32))
    case 26 => (Particle4, Rt(192, 32, 32, 32))
    case 27 => (Particle5, Rt(224, 32, 32, 32))
    case 28 => (Particle6, Rt(256, 32, 32, 32))
    case 29 => (Particle7, Rt(288, 0, 64, 64))
    case 30 => (Particle8, Rt(352, 0, 64, 64))
    case 31 => (Particle9, Rt(416, 0, 64, 64))
    case 32 => (Star1, Rt(480, 0, 64, 64))
    case 33 => (Star2, Rt(544, 0, 64, 64))
    case 34 => (Star3, Rt(608, 0, 64, 64))
    case _ => (HealthFull, Rt(672, 0, 64, 64))
  }

  function GameskinRows36(i: int): (GameskinPart, Rect)
  {
    match i
    case 36 => (HealthEmpty, Rt(736, 0, 64, 64))
    case 37 => (ArmorFull, Rt(672, 64, 64, 64))
    case 38 => (ArmorEmpty, Rt(736, 64, 64, 64))
    case 39 => (Heart, Rt(320, 64, 64, 64))
    case 40 => (Shield, Rt(384, 64, 64, 64))
    case 41 => (Minus, Rt(256, 64, 64, 64))
    case 42 => (NinjaTimer, Rt(672, 128, 128, 64))
    case 43 => (NinjaParticle1, Rt(800, 0, 224, 128))
    case 44 => (NinjaParticle2, Rt(800, 128, 224, 128))
    case 45 => (NinjaParticle3, Rt(800, 256, 224, 128))
    case 46 => (FlagBlue, Rt(384, 256, 128, 256))
    case _ => (FlagRed, Rt(512, 256, 128, 256))
  }

  /** The row of each GameskinPart. */
  function GameskinIndex(p: GameskinPart): (i: nat)
    ensures i < 48 && GameskinRow(i).0 == p
  {
    match p
    case Hook => 0
    case HammerCursor => 1
    case GunCursor => 2
    case ShotgunCursor => 3
    case GrenadeCursor => 4
    case NinjaCursor => 5
    case LaserCursor => 6
    case Hammer => 7
    case Gun => 8
    case Shotgun => 9
    case Grenade => 10
    case Ninja => 11
    case Laser => 12
    case GunAmmo => 13
    case ShotgunAmmo => 14
    case GrenadeAmmo => 15
    case LaserAmmo => 16
    case GunParticle1 => 17
    case GunParticle2 => 18
    case GunParticle3 => 19
    case ShotgunParticle1 => 20
    case ShotgunParticle2 => 21
    case ShotgunParticle3 => 22
    case Particle1 => 23
    case Particle2 => 24
    case Particle3 => 25
    case Particle4 => 26
    case Particle5 => 27
    case Particle6 => 28
    case Particle7 => 29
    case Particle8 => 30
    case Particle9 => 31
    case Star1 => 32
    case Star2 => 33
    case Star3 => 34
    case HealthFull => 35
    case HealthEmpty => 36
    case ArmorFull => 37
    case ArmorEmpty => 38
    case Heart => 39
    case Shield => 40
    case Minus => 41
    case NinjaTimer => 42
    case NinjaParticle1 => 43
    case NinjaParticle2 => 44
    case NinjaParticle3 => 45
    case FlagBlue => 46
    case FlagRed => 47
  }

  /** The EMOTICON rows of `AssetParts` (part.ts:218-233), in declaration order. */
  function EmoticonParts(): seq<(AssetPart, Rect)>
  {
    seq(16, i => (EmoticonP(EmoticonRow(i).0), EmoticonRow(i).1))
  }

  function EmoticonRow(i: int): (EmoticonPart, Rect)
  {
    match i
    case 0 => (Part_1_1, Rt(0, 0, 128, 128))
    case 1 => (Part_1_2, Rt(128, 0, 128, 128))
    case 2 => (Part_1_3, Rt(256, 0, 128, 128))
    case 3 => (Part_1_4, Rt(384, 0, 128, 128))
    case 4 => (Part_2_1, Rt(0, 128, 128, 128))
    case 5 => (Part_2_2, Rt(128, 128, 128, 128))
    case 6 => (Part_2_3, Rt(256, 128, 128, 128))
    case 7 => (Part_2_4, Rt(384, 128, 128, 128))
    case 8 => (Part_3_1, Rt(0, 256, 128, 128))
    case 9 => (Part_3_2, Rt(128, 256, 128, 128))
    case 10 => (Part_3_3, Rt(256, 256, 128, 128))
    case 11 => (Part_3_4, Rt(384, 256, 128, 128))
    case 12 => (Part_4_1, Rt(0, 384, 128, 128))
    case 13 => (Part_4_2, Rt(128, 384, 128, 128))
    case 14 => (Part_4_3, Rt(256, 384, 128, 128))
    case _ => (Part_4_4, Rt(384, 384, 128, 128))
  }

  /** The row of each EmoticonPart. */
  function EmoticonIndex(p: EmoticonPart): (i: nat)
    ensures i < 16 && EmoticonRow(i).0 == p
  {
    match p
    case Part_1_1 => 0
    case Part_1_2 => 1
    case Part_1_3 => 2
    case Part_1_4 => 3
    case Part_2_1 => 4
    case Part_2_2 => 5
    case Part_2_3 => 6
    case Part_2_4 => 7
    case Part_3_1 => 8
    case Part_3_2 => 9
    case Part_3_3 => 10
    case Part_3_4 => 11
    case Part_4_1 => 12
    case Part_4_2 => 13
    case Part_4_3 => 14
    case Part_4_4 => 15
  }

  /** The PARTICULE rows of `AssetParts` (part.ts:236-248), in declaration order. */
  function ParticuleParts(): seq<(AssetPart, Rect)>
  {
    seq(13, i => (ParticuleP(ParticuleRow(i).0), ParticuleRow(i).1))
  }

  function ParticuleRow(i: int): (ParticulePart, Rect)
  {
    match i
    case 0 => (Small1, Rt(0, 0, 64, 64))
    case 1 => (Small2, Rt(64, 0, 64, 64))
    case 2 => (Small3, Rt(128, 0, 64, 64))
    case 3 => (Small4, Rt(192, 0, 64, 64))
    case 4 => (Small5, Rt(256, 0, 64, 64))
    case 5 => (Small6, Rt(0, 64, 64, 64))
    case 6 => (Small7, Rt(64, 64, 64, 64))
    case 7 => (Small8, Rt(128, 64, 64, 64))
    case 8 => (Small9, Rt(192, 64, 64, 64))
    case 9 => (Mid1, Rt(256, 64, 128, 128))
    case 10 => (Mid2, Rt(0, 128, 128, 128))
    case 11 => (Mid3, Rt(128, 128, 128, 128))
    case _ => (Big, Rt(0, 256, 256, 256))
  }

  /** The row of each ParticulePart. */
  function ParticuleIndex(p: ParticulePart): (i: nat)
    ensures i < 13 && ParticuleRow(i).0 == p
  {
    match p
    case Small1 => 0
    case Small2 => 1
    case Small3 => 2
    case Small4 => 3
    case Small5 => 4
    case Small6 => 5
    case Small7 => 6
    case Small8 => 7
    case Small9 => 8
    case Mid1 => 9
    case Mid2 => 10
    case Mid3 => 11
    case Big => 12
  }
  /** `AssetParts[kind]`: the table of a kind; `undefined` for UNKNOWN
      (part.ts:250). */
  function PartsTable(kind: AssetKind): Option<seq<(AssetPart, Rect)>>
  {
    match kind
    case Skin => Some(SkinParts())
    case Gameskin => Some(GameskinParts())
    case Emoticon => Some(EmoticonParts())
    case Particule => Some(ParticuleParts())
    case Unknown => None
  }

  /** The kind whose enum a part belongs to. */
  function PartKind(p: AssetPart): AssetKind
  {
    match p
    case SkinP(_) => Skin
    case GameskinP(_) => Gameskin
    case EmoticonP(_) => Emoticon
    case ParticuleP(_) => Particule
  }

  /** `getAssetPartsMetadata(kind)`: the whole table, holding parts of that
      kind only; nothing for UNKNOWN. */
  function GetAssetPartsMetadata(kind: AssetKind): (t: Option<seq<(AssetPart, Rect)>>)
    ensures t.None? <==> kind == Unknown
    ensures t.Some? ==> |t.value| > 0 && forall i :: 0 <= i < |t.value| ==> PartKind(t.value[i].0) == kind
  {
    PartsTable(kind)
  }

  predicate HasPart(t: seq<(AssetPart, Rect)>, p: AssetPart)
  {
    exists i :: 0 <= i < |t| && t[i].0 == p
  }

  /** The first rectangle listed under `p`. */
  function Find(t: seq<(AssetPart, Rect)>, p: AssetPart): (r: Option<Rect>)
    ensures r.Some? <==> HasPart(t, p)
    ensures r.Some? ==> exists i :: 0 <= i < |t| && t[i] == (p, r.value)
  {
    if t == [] then None
    else if t[0].0 == p then Some(t[0].1)
    else
      FindTail(t, p);
      Find(t[1..], p)
  }

  lemma FindTail(t: seq<(AssetPart, Rect)>, p: AssetPart)
    requires t != [] && t[0].0 != p
    ensures HasPart(t, p) <==> HasPart(t[1..], p)
    ensures forall v :: (exists i :: 0 <= i < |t[1..]| && t[1..][i] == (p, v)) ==> (exists i :: 0 <= i < |t| && t[i] == (p, v))
  {
    if HasPart(t, p) {
      var i :| 0 <= i < |t| && t[i].0 == p;
      assert t[1..][i - 1].0 == p;
    }
    forall v | (exists i :: 0 <= i < |t[1..]| && t[1..][i] == (p, v))
      ensures exists i :: 0 <= i < |t| && t[i] == (p, v)
    {
      var i :| 0 <= i < |t[1..]| && t[1..][i] == (p, v);
      assert t[i + 1] == (p, v);
    }
  }

  /** The rectangle a part has in its own kind's table, read off the row
      its enum value is declared on. */
  function PartRow(p: AssetPart): Rect
  {
    match p
    case SkinP(s) => SkinRow(SkinIndex(s)).1
    case GameskinP(g) => GameskinRow(GameskinIndex(g)).1
    case EmoticonP(e) => EmoticonRow(EmoticonIndex(e)).1
    case ParticuleP(q) => ParticuleRow(ParticuleIndex(q)).1
  }

  /** `getAssetPartMetadata(kind, part)`: UNKNOWN is refused, and so is a part
      that is not a key of the kind's table (a gameskin part asked of a skin);
      otherwise the entry on the part's own row. */
  function GetAssetPartMetadata(kind: AssetKind, part: AssetPart): (r: Result<Rect>)
    ensures r == if kind != Unknown && PartKind(part) == kind then Ok(PartRow(part)) else Err(AssetPartError)
  {
    if kind == Unknown then Err(AssetPartError)
    else
      FindOwnRow(kind, part);
      match Find(PartsTable(kind).value, part)
      case None => Err(AssetPartError)
      case Some(rect) => Ok(rect)
  }

  /** The row each part is declared on in its own kind's table. */
  function RowIndex(p: AssetPart): (i: nat)
    ensures i < |PartsTable(PartKind(p)).value| && PartsTable(PartKind(p)).value[i] == (p, PartRow(p))
  {
    match p
    case SkinP(s) => SkinIndex(s)
    case GameskinP(g) => GameskinIndex(g)
    case EmoticonP(e) => EmoticonIndex(e)
    case ParticuleP(q) => ParticuleIndex(q)
  }

  /** A known kind's table lists the parts of its own enum and no other, each
      on its own row: the search finds exactly those, with their row. */
  lemma FindOwnRow(kind: AssetKind, p: AssetPart)
    requires kind != Unknown
    ensures Find(PartsTable(kind).value, p) == if PartKind(p) == kind then Some(PartRow(p)) else None
  {
    var t := GetAssetPartsMetadata(kind).value;
    if PartKind(p) == kind {
      var k := RowIndex(p);
      forall i | 0 <= i < |t| && t[i].0 == p
        ensures t[i].1 == PartRow(p)
      {
        RowIsOwn(kind, p, i);
      }
      FindListed(t, p, k);
    } else {
      FindAbsent(t, p);
    }
  }

  /** A part listed on row k, and on other rows only with the same rectangle,
      is found with that rectangle. */
  lemma FindListed(t: seq<(AssetPart, Rect)>, p: AssetPart, k: int)
    requires 0 <= k < |t| && t[k].0 == p
    requires forall i :: 0 <= i < |t| && t[i].0 == p ==> t[i].1 == t[k].1
    ensures Find(t, p) == Some(t[k].1)
  {
    assert HasPart(t, p);
  }

  /** A part on no row is not found. */
  lemma FindAbsent(t: seq<(AssetPart, Rect)>, p: AssetPart)
    requires forall i :: 0 <= i < |t| ==> t[i].0 != p
    ensures Find(t, p) == None
  {
  }

  /** No part is listed twice: a row naming a part is that part's own row. */
  lemma RowIsOwn(kind: AssetKind, p: AssetPart, i: int)
    requires kind != Unknown && 0 <= i < |PartsTable(kind).value| && PartsTable(kind).value[i].0 == p
    ensures PartsTable(kind).value[i].1 == PartRow(p)
  {
    match kind
    case Skin => assert SkinIndex(SkinRow(i).0) == i;
    case Gameskin => GameskinIndexOfRow(i);
    case Emoticon => assert EmoticonIndex(EmoticonRow(i).0) == i;
    case Particule => assert ParticuleIndex(ParticuleRow(i).0) == i;
  }

  /** The row of a gameskin part is the row it is listed on; proved four
      rows at a time. */
  lemma GameskinIndexOfRow(i: int)
    requires 0 <= i < 48
    ensures GameskinIndex(GameskinRow(i).0) == i
  {
    if i < 4 {
      GameskinRowsFrom0(i);
    } else if i < 8 {
      GameskinRowsFrom4(i);
    } else if i < 12 {
      GameskinRowsFrom8(i);
    } else if i < 16 {
      GameskinRowsFrom12(i);
    } else if i < 20 {
      GameskinRowsFrom16(i);
    } else if i < 24 {
      GameskinRowsFrom20(i);
    } else if i < 28 {
      GameskinRowsFrom24(i);
    } else if i < 32 {
      GameskinRowsFrom28(i);
    } else if i < 36 {
      GameskinRowsFrom32(i);
    } else if i < 40 {
      GameskinRowsFrom36(i);
    } else if i < 44 {
      GameskinRowsFrom40(i);
    } else {
      GameskinRowsFrom44(i);
    }
  }

  lemma GameskinRowsFrom0(i: int)
    requires 0 <= i < 4
    ensures GameskinIndex(GameskinRow(i).0) == i
  {
    match i
    case 0 =>
    case 1 =>
    case 2 =>
    case _ =>
  }

  lemma GameskinRowsFrom4(i: int)
    requires 4 <= i < 8
    ensures GameskinIndex(GameskinRow(i).0) == i
  {
    match i
    case 4 =>
    case 5 =>
    case 6 =>
    case _ =>
  }

  lemma GameskinRowsFrom8(i: int)
    requires 8 <= i < 12
    ensures GameskinIndex(GameskinRow(i).0) == i
  {
    match i
    case 8 =>
    case 9 =>
    case 10 =>
    case _ =>
  }

  lemma GameskinRowsFrom12(i: int)
    requires 12 <= i < 16
    ensures GameskinIndex(GameskinRow(i).0) == i
  {
    match i
    case 12 =>
    case 13 =>
    case 14 =>
    case _ =>
  }

  lemma GameskinRowsFrom16(i: int)
    requires 16 <= i < 20
    ensures GameskinIndex(GameskinRow(i).0) == i
  {
    match i
    case 16 =>
    case 17 =>
    case 18 =>
    case _ =>
  }

  lemma GameskinRowsFrom20(i: int)
    requires 20 <= i < 24
    ensures GameskinIndex(GameskinRow(i).0) == i
  {
    match i
    case 20 =>
    case 21 =>
    case 22 =>
    case _ =>
  }

  lemma GameskinRowsFrom24(i: int)
    requires 24 <= i < 28
    ensures GameskinIndex(GameskinRow(i).0) == i
  {
    match i
    case 24 =>
    case 25 =>
    case 26 =>
    case _ =>
  }

  lemma GameskinRowsFrom28(i: int)
    requires 28 <= i < 32
    ensures GameskinIndex(GameskinRow(i).0) == i
  {
    match i
    case 28 =>
    case 29 =>
    case 30 =>
    case _ =>
  }

  lemma GameskinRowsFrom32(i: int)
    requires 32 <= i < 36
    ensures GameskinIndex(GameskinRow(i).0) == i
  {
    match i
    case 32 =>
    case 33 =>
    case 34 =>
    case _ =>
  }

  lemma GameskinRowsFrom36(i: int)
    requires 36 <= i < 40
    ensures GameskinIndex(GameskinRow(i).0) == i
  {
    match i
    case 36 =>
    case 37 =>
    case 38 =>
    case _ =>
  }

  lemma GameskinRowsFrom40(i: int)
    requires 40 <= i < 44
    ensures GameskinIndex(GameskinRow(i).0) == i
  {
    match i
    case 40 =>
    case 41 =>
    case 42 =>
    case _ =>
  }

  lemma GameskinRowsFrom44(i: int)
    requires 44 <= i < 48
    ensures GameskinIndex(GameskinRow(i).0) == i
  {
    match i
    case 44 =>
    case 45 =>
    case 46 =>
    case _ =>
  }

  /** A part's own rectangle lies inside its kind's base sheet. */
  lemma RowFits(p: AssetPart)
    ensures FitsIn(PartRow(p), BaseWidth(PartKind(p)) as real, BaseHeight(PartKind(p)) as real)
  {
    var t := PartsTable(PartKind(p)).value;
    PartsFitSheet(PartKind(p));
    match p
    case SkinP(s) => assert t[SkinIndex(s)].1 == PartRow(p);
    case GameskinP(g) => assert t[GameskinIndex(g)].1 == PartRow(p);
    case EmoticonP(e) => assert t[EmoticonIndex(e)].1 == PartRow(p);
    case ParticuleP(q) => assert t[ParticuleIndex(q)].1 == PartRow(p);
  }

  /** A part's row, scaled by m >= 0, still fits the sheet scaled by m. */
  lemma ScaledRowFits(p: AssetPart, m: real)
    requires m >= 0.0
    ensures FitsIn(ScaleMetadata(PartRow(p), m), BaseWidth(PartKind(p)) as real * m, BaseHeight(PartKind(p)) as real * m)
  {
    RowFits(p);
    ScaleKeepsFit(PartRow(p), BaseWidth(PartKind(p)) as real, BaseHeight(PartKind(p)) as real, m);
  }

  /** The base sheet size of each kind: skin.ts:55, gameskin.ts:5, emoticon.ts:7,
      particule.ts:7, and DEFAULT_METADATA (base.ts:42-46) for UNKNOWN. */
  function BaseWidth(kind: AssetKind): nat
  {
    match kind
    case Skin => 256
    case Gameskin => 1024
    case Emoticon => 512
    case Particule => 512
    case Unknown => 1
  }

  function BaseHeight(kind: AssetKind): nat
  {
    match kind
    case Skin => 128
    case Gameskin => 512
    case Emoticon => 512
    case Particule => 512
    case Unknown => 1
  }

  /** The divisor each kind checks the canvas size against: skin.ts:56,
      gameskin.ts:6, emoticon.ts:8, particule.ts:8, DEFAULT_METADATA. */
  function DivisorWidth(kind: AssetKind): nat
  {
    match kind
    case Skin => 8
    case Gameskin => 32
    case Emoticon => 4
    case Particule => 8
    case Unknown => 1
  }

  function DivisorHeight(kind: AssetKind): nat
  {
    match kind
    case Skin => 4
    case Gameskin => 16
    case Emoticon => 4
    case Particule => 8
    case Unknown => 1
  }

  predicate TableFits(t: seq<(AssetPart, Rect)>, kind: AssetKind)
  {
    forall i :: 0 <= i < |t| ==> FitsIn(t[i].1, BaseWidth(kind) as real, BaseHeight(kind) as real)
  }

  /** Every part rectangle lies inside its kind's base sheet. */
  lemma PartsFitSheet(kind: AssetKind)
    requires kind != Unknown
    ensures TableFits(PartsTable(kind).value, kind)
  {
    match kind
    case Skin =>
    case Gameskin =>
      forall i | 0 <= i < 48
        ensures FitsIn(GameskinParts()[i].1, 1024.0, 512.0)
      {
        GameskinRowFits(i);
      }
    case Emoticon =>
    case Particule =>
  }

  lemma GameskinRowFits(i: int)
    requires 0 <= i < 48
    ensures FitsIn(GameskinRow(i).1, 1024.0, 512.0)
  {
    if i < 24 {
    } else {
    }
  }

  /** Every base sheet is a whole number of divisor cells. */
  lemma BaseSizeDivisible(kind: AssetKind)
    ensures BaseWidth(kind) % DivisorWidth(kind) == 0 && BaseHeight(kind) % DivisorHeight(kind) == 0
  {
  }

  /** The sixteen emoticons tile the 512x512 sheet as a 4x4 grid of 128x128
      squares: entry i sits in column i % 4 and row i / 4. */
  lemma EmoticonGrid(i: nat)
    requires i < |EmoticonParts()|
    ensures EmoticonParts()[i].1 == Rt(128 * (i % 4), 128 * (i / 4), 128, 128)
  {
  }

  /** Every square of the grid holds exactly one emoticon. */
  lemma EmoticonSquareOnce(row: nat, col: nat)
    requires row < 4 && col < 4
    ensures EmoticonParts()[4 * row + col].1 == Rt(128 * col, 128 * row, 128, 128)
    ensures forall i :: 0 <= i < |EmoticonParts()| && EmoticonParts()[i].1 == Rt(128 * col, 128 * row, 128, 128) ==> i == 4 * row + col
  {
    forall i | 0 <= i < |EmoticonParts()| && EmoticonParts()[i].1 == Rt(128 * col, 128 * row, 128, 128)
      ensures i == 4 * row + col
    {
      EmoticonGrid(i);
      assert i % 4 == col && i / 4 == row;
    }
    EmoticonGrid(4 * row + col);
  }
}

=== FILE: pixels.dfy ===
// Canvases and their pixel buffers: a canvas as rows of RGBA byte pixels,
// the ImageData that `getImageData` copies out of a rectangle and
// `putImageData` pastes back, the in-place per-pixel rewrite loop shared by
// `_colorPart` (lib/asset/base.ts) and `TwElement.setColor` (lib/asset.ts,
// src/asset.js, src/extractor.js), and the tee-body re-weighting
// `reorderBody` (lib/asset/skin.ts, lib/asset.ts, src/asset.js).

module Pixels {
  import opened Results
  import opened Numbers
  import opened Colors

  /** One RGBA pixel of a canvas. */
  datatype Pixel = Pixel(r: Byte, g: Byte, b: Byte, a: Byte)

  const Transparent: Pixel := Pixel(0, 0, 0, 0)

  /** Channel c (0 red, 1 green, 2 blue, 3 alpha) of a pixel. */
  function Chan(p: Pixel, c: int): Byte
  {
    if c == 0 then p.r else if c == 1 then p.g else if c == 2 then p.b else p.a
  }

  /** A pixel as the ColorRGBA (or Color) the loops build from its bytes. */
  function Real(p: Pixel): Rgba
  {
    Rgba(p.r as real, p.g as real, p.b as real, p.a as real)
  }

  /** Channel values written into a Uint8ClampedArray. */
  function Written(v: Rgba): Pixel
  {
    Pixel(ToUint8Clamp(v.r), ToUint8Clamp(v.g), ToUint8Clamp(v.b), ToUint8Clamp(v.a))
  }

  /** A byte pixel read and written back unchanged. */
  lemma WrittenReal(p: Pixel)
    ensures Written(Real(p)) == p
  {
    ClampOfByte(p.r);
    ClampOfByte(p.g);
    ClampOfByte(p.b);
    ClampOfByte(p.a);
  }

  // ---------------------------------------------------------------------------
  // Flat byte buffers

  /** The bytes of a run of pixels, four per pixel. */
  function Bytes(ps: seq<Pixel>): (s: seq<Byte>)
    ensures |s| == 4 * |ps|
  {
    if ps == [] then []
    else
      var p := ps[|ps| - 1];
      Bytes(ps[..|ps| - 1]) + [p.r, p.g, p.b, p.a]
  }

  /** Pixel k of a flat buffer: bytes 4k to 4k+3 (transparent past the
      end). */
  function PixelAt(s: seq<Byte>, k: int): Pixel
  {
    if 0 <= k && 4 * k + 3 < |s| then Pixel(s[4 * k], s[4 * k + 1], s[4 * k + 2], s[4 * k + 3])
    else Transparent
  }

  lemma BytesAppend(ps: seq<Pixel>, p: Pixel)
    ensures Bytes(ps + [p]) == Bytes(ps) + [p.r, p.g, p.b, p.a]
  {
    assert (ps + [p])[..|ps|] == ps;
  }

  /** Reading pixel k of the bytes of a run of pixels gives pixel k. */
  lemma {:induction false} PixelAtBytes(ps: seq<Pixel>, k: int)
    requires 0 <= k < |ps|
    ensures PixelAt(Bytes(ps), k) == ps[k]
  {
    var init := ps[..|ps| - 1];
    if k < |ps| - 1 {
      PixelAtBytes(init, k);
      assert Bytes(ps)[..4 * |init|] == Bytes(init);
    }
  }

  /** In a buffer of whole pixels, a pixel that starts inside it ends inside
      it. */
  lemma WholePixel(k: int, n: int)
    requires n % 4 == 0 && 0 <= 4 * k < n
    ensures 4 * k + 4 <= n
  {
    DivModUnique(n, 4, n / 4, 0);
  }

  /** A buffer with pixel k replaced. */
  function Splice(s: seq<Byte>, k: int, p: Pixel): (t: seq<Byte>)
    requires 0 <= k && 4 * k + 4 <= |s|
    ensures |t| == |s|
  {
    s[..4 * k] + [p.r, p.g, p.b, p.a] + s[4 * k + 4..]
  }

  /** Writes the four bytes of pixel k. */
  method PutPixel(buf: array<Byte>, k: int, p: Pixel)
    requires 0 <= k && 4 * k + 4 <= buf.Length
    modifies buf
    ensures buf[..] == Splice(old(buf[..]), k, p)
  {
    var byte := 4 * k;
    buf[byte] := p.r;
    buf[byte + 1] := p.g;
    buf[byte + 2] := p.b;
    buf[byte + 3] := p.a;
    assert buf[..] == Splice(old(buf[..]), k, p);
  }

  /** The first k pixels written back, the rest of the buffer untouched: the
      state of an in-place pixel loop after k turns. */
  function Progress(done: seq<Pixel>, s: seq<Byte>): seq<Byte>
    requires 4 * |done| <= |s|
  {
    Bytes(done) + s[4 * |done|..]
  }

  /** One more turn of the loop writes the next pixel. */
  lemma ProgressStep(done: seq<Pixel>, s: seq<Byte>, p: Pixel)
    requires 4 * |done| + 4 <= |s|
    ensures Splice(Progress(done, s), |done|, p) == Progress(done + [p], s)
  {
    BytesAppend(done, p);
  }

  /** The pixel the loop reads next has not been written yet. */
  lemma ProgressNext(done: seq<Pixel>, s: seq<Byte>)
    requires 4 * |done| + 4 <= |s|
    ensures PixelAt(Progress(done, s), |done|) == PixelAt(s, |done|)
  {
  }

  // ---------------------------------------------------------------------------
  // The per-pixel rewrite loop

  /** A pixel callback: the new channel values, or the error it throws. */
  type PixelCallback = Rgba -> (Rgba, Outcome)

  /** A pixel as the loop writes it back when the callback passes. */
  function Recoloured(p: Pixel, f: PixelCallback): Pixel
  {
    Written(f(Real(p)).0)
  }

  /** The first n pixels of a buffer, recoloured. */
  function RecolouredPixels(s: seq<Byte>, f: PixelCallback, n: nat): (ps: seq<Pixel>)
    ensures |ps| == n
  {
    if n == 0 then [] else RecolouredPixels(s, f, n - 1) + [Recoloured(PixelAt(s, n - 1), f)]
  }

  lemma {:induction false} RecolouredPixelsAt(s: seq<Byte>, f: PixelCallback, n: nat, k: int)
    requires 0 <= k < n
    ensures RecolouredPixels(s, f, n)[k] == Recoloured(PixelAt(s, k), f)
  {
    if k < n - 1 {
      RecolouredPixelsAt(s, f, n - 1, k);
    }
  }

  /** The buffer the loop leaves when no pixel fails: each pixel replaced by
      the callback's colour, written back through ToUint8Clamp. */
  function Rewritten(s: seq<Byte>, f: PixelCallback): (t: seq<Byte>)
  {
    Bytes(RecolouredPixels(s, f, |s| / 4))
  }

  /** Pixel k of the rewritten buffer is the callback's image of pixel k, and
      a buffer of whole pixels keeps its length. */
  lemma RewrittenAt(s: seq<Byte>, f: PixelCallback, k: int)
    requires |s| % 4 == 0 && 0 <= k < |s| / 4
    ensures |Rewritten(s, f)| == |s|
    ensures PixelAt(Rewritten(s, f), k) == Recoloured(PixelAt(s, k), f)
  {
    DivModUnique(|s|, 4, |s| / 4, 0);
    PixelAtBytes(RecolouredPixels(s, f, |s| / 4), k);
    RecolouredPixelsAt(s, f, |s| / 4, k);
  }

  /** The outcome of running the callback over pixels k, k+1, … in order:
      the first failure, or Pass. */
  function FailureFrom(s: seq<Byte>, f: PixelCallback, k: nat): Outcome
    decreases |s| - 4 * k
  {
    if 4 * k + 3 >= |s| then Pass
    else if f(Real(PixelAt(s, k))).1.Fail? then f(Real(PixelAt(s, k))).1
    else FailureFrom(s, f, k + 1)
  }

  /** The outcome of the callback on pixel k, and what it leaves. */
  lemma FailureStep(s: seq<Byte>, f: PixelCallback, k: nat)
    requires 4 * k + 4 <= |s|
    ensures f(Real(PixelAt(s, k))).1.Fail? ==> FailureFrom(s, f, k) == f(Real(PixelAt(s, k))).1
    ensures f(Real(PixelAt(s, k))).1.Pass? ==> FailureFrom(s, f, k) == FailureFrom(s, f, k + 1)
  {
  }

  /** One turn of the loop: pixel k is read, passed to the callback and, when
      the callback does not throw, written back. */
  method RewriteOne(buf: array<Byte>, f: PixelCallback, k: nat, ghost s: seq<Byte>) returns (o: Outcome)
    requires |s| == buf.Length && 4 * k + 4 <= buf.Length
    requires buf[..] == Progress(RecolouredPixels(s, f, k), s)
    modifies buf
    ensures o == f(Real(PixelAt(s, k))).1
    ensures o.Pass? ==> buf[..] == Progress(RecolouredPixels(s, f, k + 1), s)
  {
    var byte := 4 * k;
    ProgressNext(RecolouredPixels(s, f, k), s);
    var pixel := Rgba(buf[byte] as real, buf[byte + 1] as real, buf[byte + 2] as real, buf[byte + 3] as real);
    assert pixel == Real(PixelAt(s, k));
    var result := f(pixel);
    o := result.1;
    if o.Pass? {
      PutPixel(buf, k, Written(result.0));
      ProgressStep(RecolouredPixels(s, f, k), s, Recoloured(PixelAt(s, k), f));
    }
  }

  /** The loop of `_colorPart` and `TwElement.setColor`: for each 4-byte
      pixel, a colour is built from its bytes, the callback runs on it, and
      its channels are written back through ToUint8Clamp. A callback that
      throws stops the loop, and the pixels before the one it threw on stay
      rewritten in the buffer. */
  method RewritePixels(buf: array<Byte>, f: PixelCallback) returns (o: Outcome)
    requires buf.Length % 4 == 0
    modifies buf
    ensures o == FailureFrom(old(buf[..]), f, 0)
    ensures o.Pass? ==> buf[..] == Rewritten(old(buf[..]), f)
  {
    ghost var s := buf[..];
    var k := 0;
    while 4 * k < buf.Length
      invariant 0 <= 4 * k <= buf.Length && |s| == buf.Length
      invariant buf[..] == Progress(RecolouredPixels(s, f, k), s)
      invariant FailureFrom(s, f, 0) == FailureFrom(s, f, k)
    {
      WholePixel(k, buf.Length);
      FailureStep(s, f, k);
      o := RewriteOne(buf, f, k, s);
      if o.Fail? {
        return;
      }
      k := k + 1;
    }
    DivModUnique(|s|, 4, k, 0);
    o := Pass;
  }

  /** A callback that never fails lets the loop run to the end. */
  lemma NeverFails(s: seq<Byte>, f: PixelCallback, k: nat)
    requires forall p :: InByteRange(p) ==> f(p).1 == Pass
    ensures FailureFrom(s, f, k) == Pass
    decreases |s| - 4 * k
  {
    if 4 * k + 3 < |s| {
      NeverFails(s, f, k + 1);
    }
  }

  lemma RealInRange(p: Pixel)
    ensures InByteRange(Real(p))
  {
  }

  // ---------------------------------------------------------------------------
  // Body re-weighting

  const NewWeight: int := 192
  /** `invOrgWeight` is computed from `orgWeight` before the mode search, while
      `orgWeight` is still 0, so it is 255 for good. */
  const InvOrgWeight: int := 255
  const InvNewWeight: int := 255 - 192

  /** The number of pixels among the first n whose alpha exceeds 128 and
      whose red byte is v. */
  function Count(s: seq<Byte>, v: int, n: nat): nat
  {
    if n == 0 then 0
    else Count(s, v, n - 1) + (if PixelAt(s, n - 1).a > 128 && PixelAt(s, n - 1).r == v then 1 else 0)
  }

  function Histogram(s: seq<Byte>): (h: seq<nat>)
    ensures |h| == 256
  {
    seq(256, v => Count(s, v, |s| / 4))
  }

  /** The first loop: the red byte of every pixel with alpha above 128 is
      counted. */
  method Frequencies(buf: array<Byte>) returns (freq: array<nat>)
    requires buf.Length % 4 == 0
    ensures fresh(freq) && freq[..] == Histogram(buf[..])
  {
    freq := new nat[256](_ => 0);
    var byte := 0;
    ghost var k := 0;
    while byte < buf.Length
      invariant 0 <= byte <= buf.Length && byte == 4 * k
      invariant freq.Length == 256
      invariant forall v :: 0 <= v < 256 ==> freq[v] == Count(buf[..], v, k)
    {
      WholePixel(k, buf.Length);
      assert PixelAt(buf[..], k) == Pixel(buf[byte], buf[byte + 1], buf[byte + 2], buf[byte + 3]);
      if buf[byte + 3] > 128 {
        freq[buf[byte]] := freq[buf[byte]] + 1;
      }
      byte, k := byte + 4, k + 1;
    }
    DivModUnique(buf.Length, 4, k, 0);
  }

  /** The mode search over the first n counts: the smallest index holding the
      highest count. */
  function ArgmaxUpTo(h: seq<nat>, n: nat): (m: nat)
    requires 1 <= n <= |h|
    ensures m < n
  {
    if n == 1 then 0
    else
      var m := ArgmaxUpTo(h, n - 1);
      if h[m] < h[n - 1] then n - 1 else m
  }

  /** The search finds a highest count, and no earlier index has it. */
  lemma {:induction false} ArgmaxIsMode(h: seq<nat>, n: nat)
    requires 1 <= n <= |h|
    ensures forall i :: 0 <= i < n ==> h[i] <= h[ArgmaxUpTo(h, n)]
    ensures forall i :: 0 <= i < ArgmaxUpTo(h, n) ==> h[i] < h[ArgmaxUpTo(h, n)]
  {
    if n > 1 {
      ArgmaxIsMode(h, n - 1);
    }
  }

  /** The weight the body is re-weighted around. */
  function BodyMode(s: seq<Byte>): Byte
  {
    ArgmaxUpTo(Histogram(s), 256)
  }

  /** The second loop: `orgWeight` moves to a later index only when its count
      is strictly higher. */
  method Mode(freq: array<nat>) returns (orgWeight: Byte)
    requires freq.Length == 256
    ensures orgWeight == ArgmaxUpTo(freq[..], 256)
  {
    orgWeight := 0;
    var i := 1;
    while i < 256
      invariant 1 <= i <= 256
      invariant orgWeight == ArgmaxUpTo(freq[..], i)
    {
      if freq[orgWeight] < freq[i] {
        orgWeight := i;
      }
      i := i + 1;
    }
  }

  /** The new red, green and blue value of a pixel whose red byte is v, or
      None when the pixel is skipped (v = 0 with a mode of 0). At or below
      the mode the value is scaled onto 0..192; above it, onto 192..255, with
      the divisor fixed at 255. */
  function Remap(v: Byte, m: Byte): (r: Option<Byte>)
    ensures r.None? <==> m == 0 && v == 0
  {
    if v <= m && m == 0 then None
    else if v <= m then
      LowBand(v, m);
      Some(Trunc(v as real / m as real * NewWeight as real))
    else
      HighBand(v, m);
      Some(Trunc((v - m) as real / InvOrgWeight as real * InvNewWeight as real + NewWeight as real))
  }

  lemma LowBand(v: Byte, m: Byte)
    requires 0 <= v <= m && m > 0
    ensures 0 <= Trunc(v as real / m as real * 192.0) <= 192
  {
    var q := v as real / m as real;
    assert 0.0 <= q <= 1.0;
    MulNonNeg(q, 192.0);
    MulNonNeg(1.0 - q, 192.0);
  }

  lemma HighBand(v: Byte, m: Byte)
    requires m < v
    ensures 192 <= Trunc((v - m) as real / 255.0 * 63.0 + 192.0) <= 255
  {
    var q := (v - m) as real / 255.0;
    assert 0.0 < q <= 1.0;
    MulNonNeg(q, 63.0);
    MulNonNeg(1.0 - q, 63.0);
  }

  /** The value a pixel's red channel ends with. */
  function Reweighted(v: Byte, m: Byte): Byte
  {
    match Remap(v, m)
    case None => v
    case Some(t) => t
  }

  /** The pixel after the third loop: red, green and blue all set to the
      remapped red value; alpha never written. */
  function RemapPixel(p: Pixel, m: Byte): Pixel
  {
    match Remap(p.r, m)
    case None => p
    case Some(t) => Pixel(t, t, t, p.a)
  }

  /** The first n pixels of a buffer, remapped. */
  function RemappedPixels(s: seq<Byte>, m: Byte, n: nat): (ps: seq<Pixel>)
    ensures |ps| == n
  {
    if n == 0 then [] else RemappedPixels(s, m, n - 1) + [RemapPixel(PixelAt(s, n - 1), m)]
  }

  lemma {:induction false} RemappedPixelsAt(s: seq<Byte>, m: Byte, n: nat, k: int)
    requires 0 <= k < n
    ensures RemappedPixels(s, m, n)[k] == RemapPixel(PixelAt(s, k), m)
  {
    if k < n - 1 {
      RemappedPixelsAt(s, m, n - 1, k);
    }
  }

  /** The buffer after the third loop. */
  function Remapped(s: seq<Byte>, m: Byte): seq<Byte>
  {
    Bytes(RemappedPixels(s, m, |s| / 4))
  }

  /** Pixel k of the re-weighted buffer is pixel k remapped, and a buffer of
      whole pixels keeps its length. */
  lemma RemappedAt(s: seq<Byte>, m: Byte, k: int)
    requires |s| % 4 == 0 && 0 <= k < |s| / 4
    ensures |Remapped(s, m)| == |s|
    ensures PixelAt(Remapped(s, m), k) == RemapPixel(PixelAt(s, k), m)
  {
    DivModUnique(|s|, 4, |s| / 4, 0);
    PixelAtBytes(RemappedPixels(s, m, |s| / 4), k);
    RemappedPixelsAt(s, m, |s| / 4, k);
  }

  /** One turn of the third loop on pixel k. */
  method ReweightOne(buf: array<Byte>, m: Byte, k: nat, ghost s: seq<Byte>)
    requires |s| == buf.Length && 4 * k + 4 <= buf.Length
    requires buf[..] == Progress(RemappedPixels(s, m, k), s)
    modifies buf
    ensures buf[..] == Progress(RemappedPixels(s, m, k + 1), s)
  {
    var byte := 4 * k;
    ProgressNext(RemappedPixels(s, m, k), s);
    assert PixelAt(s, k) == Pixel(buf[byte], buf[byte + 1], buf[byte + 2], buf[byte + 3]);
    var value := buf[byte];
    var remapped := Remap(value, m);
    if remapped.Some? {
      PutPixel(buf, k, Pixel(remapped.value, remapped.value, remapped.value, buf[byte + 3]));
    } else {
      assert buf[..] == Splice(buf[..], k, PixelAt(s, k));
    }
    ProgressStep(RemappedPixels(s, m, k), s, RemapPixel(PixelAt(s, k), m));
  }

  /** The third loop: every pixel remapped, whatever its alpha. */
  method Reweight(buf: array<Byte>, m: Byte)
    requires buf.Length % 4 == 0
    modifies buf
    ensures buf[..] == Remapped(old(buf[..]), m)
  {
    ghost var s := buf[..];
    var k := 0;
    while 4 * k < buf.Length
      invariant 0 <= 4 * k <= buf.Length && |s| == buf.Length
      invariant buf[..] == Progress(RemappedPixels(s, m, k), s)
    {
      WholePixel(k, buf.Length);
      ReweightOne(buf, m, k, s);
      k := k + 1;
    }
    DivModUnique(|s|, 4, k, 0);
  }

  /** `reorderBody` on a buffer: histogram, mode, remap. */
  method ReorderBuffer(buf: array<Byte>)
    requires buf.Length % 4 == 0
    modifies buf
    ensures buf[..] == Remapped(old(buf[..]), BodyMode(old(buf[..])))
  {
    var freq := Frequencies(buf);
    var m := Mode(freq);
    Reweight(buf, m);
  }

  /** Remapping keeps the order of values. */
  lemma ReweightedMonotone(v1: Byte, v2: Byte, m: Byte)
    requires v1 <= v2
    ensures Reweighted(v1, m) <= Reweighted(v2, m)
  {
    if v1 <= m && v2 <= m && m > 0 {
      LowMonotone(v1, v2, m);
    } else if v1 > m {
      HighMonotone(v1, v2, m);
    } else if m > 0 {
      LowBand(v1, m);
      HighBand(v2, m);
    } else if v2 > m {
      HighBand(v2, m);
    }
  }

  lemma LowMonotone(v1: Byte, v2: Byte, m: Byte)
    requires v1 <= v2 <= m && m > 0
    ensures Trunc(v1 as real / m as real * 192.0) <= Trunc(v2 as real / m as real * 192.0)
  {
    var a, b := v1 as real / m as real, v2 as real / m as real;
    MulNonNeg(a, 192.0);
    assert b - a == (v2 - v1) as real / m as real;
    DivNonNeg((v2 - v1) as real, m as real);
    MulNonNeg(b - a, 192.0);
    TruncMonotone(a * 192.0, b * 192.0);
  }

  lemma HighMonotone(v1: Byte, v2: Byte, m: Byte)
    requires m < v1 <= v2
    ensures Trunc((v1 - m) as real / 255.0 * 63.0 + 192.0) <= Trunc((v2 - m) as real / 255.0 * 63.0 + 192.0)
  {
    TruncMonotone((v1 - m) as real / 255.0 * 63.0 + 192.0, (v2 - m) as real / 255.0 * 63.0 + 192.0);
  }

  lemma TruncMonotone(x: real, y: real)
    requires 0.0 <= x <= y
    ensures Trunc(x) <= Trunc(y)
  {
  }

  /** A positive mode is mapped onto 192 exactly. */
  lemma ModeMapsTo192(m: Byte)
    requires m > 0
    ensures Reweighted(m, m) == 192
  {
    assert m as real / m as real == 1.0;
  }

  /** Re-weighting is not idempotent: on a body whose mode is already 192,
      255 becomes 207 while 192 stays. */
  lemma ReweightNotIdempotent()
    ensures Reweighted(192, 192) == 192 && Reweighted(255, 192) == 207
  {
    assert 192.0 / 192.0 == 1.0;
    var x := (255 - 192) as real / 255.0 * 63.0 + 192.0;
    assert x == 3969.0 / 255.0 + 192.0;
    assert 207.0 <= x < 208.0;
  }

  /** The third loop writes red, green and blue alike and leaves alpha; it
      does not look at alpha. */
  lemma RemapPixelShape(p: Pixel, m: Byte)
    ensures RemapPixel(p, m).a == p.a
    ensures Remap(p.r, m).Some? ==> RemapPixel(p, m).r == RemapPixel(p, m).g == RemapPixel(p, m).b == Reweighted(p.r, m)
    ensures Remap(p.r, m).None? ==> RemapPixel(p, m) == p
  {
  }

  // ---------------------------------------------------------------------------
  // Canvases and rectangles

  /** A canvas's pixels: `height` rows of `width` pixels. */
  predicate Shaped(rows: seq<seq<Pixel>>, width: nat, height: nat)
  {
    |rows| == height && forall j :: 0 <= j < |rows| ==> |rows[j]| == width
  }

  /** `after` has the shape of `before` where row j and column i are, and
      the same pixel there. */
  predicate PixelKept(before: seq<seq<Pixel>>, after: seq<seq<Pixel>>, i: int, j: int)
  {
    0 <= j < |before| && 0 <= i < |before[j]| &&
    |after| == |before| && |after[j]| == |before[j]| && after[j][i] == before[j][i]
  }

  /** The pixel at column i, row j; outside the canvas, transparent black,
      as `getImageData` reads it. */
  function PixelIn(rows: seq<seq<Pixel>>, i: int, j: int): Pixel
  {
    if 0 <= j < |rows| && 0 <= i < |rows[j]| then rows[j][i] else Transparent
  }

  function Blank(width: nat, height: nat): (rows: seq<seq<Pixel>>)
    ensures Shaped(rows, width, height)
  {
    seq(height, _ => seq(width, _ => Transparent))
  }

  /** The pixels of a w×h rectangle at (x, y), row by row. */
  function Cut(rows: seq<seq<Pixel>>, x: int, y: int, w: nat, h: nat): (ps: seq<Pixel>)
    ensures |ps| == w * h
  {
    if w == 0 then [] else seq(w * h, k requires 0 <= k < w * h => PixelIn(rows, x + k % w, y + k / w))
  }

  /** `putImageData(data, x, y)`: the rectangle's pixels replaced by the
      buffer's, row by row; what falls outside the canvas is dropped. */
  function Paste(rows: seq<seq<Pixel>>, x: int, y: int, w: nat, h: nat, data: seq<Byte>): (r: seq<seq<Pixel>>)
    ensures |r| == |rows| && forall j :: 0 <= j < |rows| ==> |r[j]| == |rows[j]|
  {
    seq(|rows|, j requires 0 <= j < |rows| =>
      seq(|rows[j]|, i requires 0 <= i < |rows[j]| =>
        if x <= i < x + w && y <= j < y + h then PixelAt(data, (j - y) * w + (i - x)) else rows[j][i]))
  }

  /** `clearRect(x, y, w, h)`: the rectangle becomes transparent black. */
  function Clear(rows: seq<seq<Pixel>>, x: int, y: int, w: nat, h: nat): (r: seq<seq<Pixel>>)
    ensures |r| == |rows| && forall j :: 0 <= j < |rows| ==> |r[j]| == |rows[j]|
  {
    seq(|rows|, j requires 0 <= j < |rows| =>
      seq(|rows[j]|, i requires 0 <= i < |rows[j]| =>
        if x <= i < x + w && y <= j < y + h then Transparent else rows[j][i]))
  }

  /** Pasting back a buffer whose every pixel is the image under g of the
      cut rectangle's pixel maps the pixels inside the rectangle and leaves
      every other pixel as it was. */
  lemma PasteOfCut(rows: seq<seq<Pixel>>, x: int, y: int, w: nat, h: nat, t: seq<Byte>, g: Pixel -> Pixel, i: int, j: int)
    requires 0 <= j < |rows| && 0 <= i < |rows[j]|
    requires forall k :: 0 <= k < w * h ==> PixelAt(t, k) == g(Cut(rows, x, y, w, h)[k])
    ensures Paste(rows, x, y, w, h, t)[j][i] == if x <= i < x + w && y <= j < y + h then g(rows[j][i]) else rows[j][i]
  {
    if x <= i < x + w && y <= j < y + h {
      var k := (j - y) * w + (i - x);
      IndexInRect(i - x, j - y, w, h);
      DivModUnique(k, w, j - y, i - x);
      assert Cut(rows, x, y, w, h)[k] == rows[j][i];
    }
  }

  /** Rewriting the pixels of a rectangle with a callback that does not fail
      and pasting them back recolours exactly that rectangle. */
  lemma RewriteRect(rows: seq<seq<Pixel>>, x: int, y: int, w: nat, h: nat, f: PixelCallback, i: int, j: int)
    requires 0 <= j < |rows| && 0 <= i < |rows[j]|
    ensures Paste(rows, x, y, w, h, Rewritten(Bytes(Cut(rows, x, y, w, h)), f))[j][i]
            == if x <= i < x + w && y <= j < y + h then Recoloured(rows[j][i], f) else rows[j][i]
  {
    var cut := Cut(rows, x, y, w, h);
    forall k | 0 <= k < w * h
      ensures PixelAt(Rewritten(Bytes(cut), f), k) == Recoloured(cut[k], f)
    {
      RewrittenAt(Bytes(cut), f, k);
      PixelAtBytes(cut, k);
    }
    PasteOfCut(rows, x, y, w, h, Rewritten(Bytes(cut), f), p => Recoloured(p, f), i, j);
  }

  /** Re-weighting the pixels of a rectangle and pasting them back remaps
      exactly that rectangle. */
  lemma ReweightRect(rows: seq<seq<Pixel>>, x: int, y: int, w: nat, h: nat, m: Byte, i: int, j: int)
    requires 0 <= j < |rows| && 0 <= i < |rows[j]|
    ensures Paste(rows, x, y, w, h, Remapped(Bytes(Cut(rows, x, y, w, h)), m))[j][i]
            == if x <= i < x + w && y <= j < y + h then RemapPixel(rows[j][i], m) else rows[j][i]
  {
    var cut := Cut(rows, x, y, w, h);
    forall k | 0 <= k < w * h
      ensures PixelAt(Remapped(Bytes(cut), m), k) == RemapPixel(cut[k], m)
    {
      RemappedAt(Bytes(cut), m, k);
      PixelAtBytes(cut, k);
    }
    PasteOfCut(rows, x, y, w, h, Remapped(Bytes(cut), m), p => RemapPixel(p, m), i, j);
  }

  /** The row-major index of a point of a w×h rectangle lies within it. */
  lemma IndexInRect(c: int, r: int, w: nat, h: nat)
    requires 0 <= c < w && 0 <= r < h
    ensures 0 <= r * w + c < w * h
  {
    MulNonNegInt(r, w);
    assert r * w + c < r * w + w == (r + 1) * w;
    MulMonotone(r + 1, h, w);
  }

  lemma MulNonNegInt(a: int, b: int)
    requires a >= 0 && b >= 0
    ensures a * b >= 0
  {
  }

  lemma MulMonotone(a: int, b: int, c: int)
    requires 0 <= a <= b && c >= 0
    ensures a * c <= b * c
  {
  }

  /** Clearing a rectangle before pasting into it changes nothing the paste
      does not overwrite. */
  lemma ClearThenPaste(rows: seq<seq<Pixel>>, x: int, y: int, w: nat, h: nat, data: seq<Byte>)
    ensures Paste(Clear(rows, x, y, w, h), x, y, w, h, data) == Paste(rows, x, y, w, h, data)
  {
    var c := Clear(rows, x, y, w, h);
    forall j | 0 <= j < |rows|
      ensures Paste(c, x, y, w, h, data)[j] == Paste(rows, x, y, w, h, data)[j]
    {
    }
  }

  /** The canvas `canvasFromImageData` builds: pixel k of the buffer at
      column k % w, row k / w. */
  function FromBytes(data: seq<Byte>, w: nat, h: nat): (rows: seq<seq<Pixel>>)
    ensures Shaped(rows, w, h)
  {
    seq(h, j => seq(w, i => PixelAt(data, j * w + i)))
  }

  /** A rectangle cut out and rebuilt into a canvas of its own shows the
      rectangle's pixels at their offsets, transparent where it overhangs
      the source canvas. */
  lemma CutRebuilt(rows: seq<seq<Pixel>>, x: int, y: int, w: nat, h: nat, i: int, j: int)
    requires 0 <= i < w && 0 <= j < h
    ensures FromBytes(Bytes(Cut(rows, x, y, w, h)), w, h)[j][i] == PixelIn(rows, x + i, y + j)
  {
    IndexInRect(i, j, w, h);
    PixelAtBytes(Cut(rows, x, y, w, h), j * w + i);
    DivModUnique(j * w + i, w, j, i);
  }

  /** A canvas's size and pixels as a value: what `cloneCanvas` copies. */
  datatype Image = Image(width: nat, height: nat, rows: seq<seq<Pixel>>)

  /** The ImageData of a rectangle: its size and its bytes. */
  class ImageData {
    const width: nat
    const height: nat
    const data: array<Byte>

    ghost predicate Valid()
      reads this
    {
      data.Length == 4 * width * height
    }

    constructor (w: nat, h: nat, bytes: seq<Byte>)
      requires |bytes| == 4 * w * h
      ensures Valid() && width == w && height == h && data[..] == bytes && fresh(data)
    {
      width, height := w, h;
      data := new Byte[|bytes|](k requires 0 <= k < |bytes| => bytes[k]);
    }
  }

  /** A canvas and its 2D context, as far as the model reads and writes
      pixels. */
  class Canvas {
    const width: nat
    const height: nat
    var rows: seq<seq<Pixel>>

    ghost predicate Valid()
      reads this
    {
      Shaped(rows, width, height)
    }

    /** `createCanvas(w, h)`: a transparent canvas. */
    constructor (w: nat, h: nat)
      ensures Valid() && width == w && height == h && rows == Blank(w, h)
    {
      width, height := w, h;
      rows := Blank(w, h);
    }

    /** A canvas holding a copy of an image: `cloneCanvas`, and
        `canvasFromImageData` applied to `FromBytes`. */
    constructor Clone(image: Image)
      requires Shaped(image.rows, image.width, image.height)
      ensures Valid() && Snapshot() == image
    {
      width, height := image.width, image.height;
      rows := image.rows;
    }

    function Snapshot(): Image
      reads this
    {
      Image(width, height, rows)
    }

    /** `getImageData(x, y, w, h)`: a fresh copy of the rectangle. */
    method GetImageData(x: int, y: int, w: nat, h: nat) returns (d: ImageData)
      ensures fresh(d) && fresh(d.data) && d.Valid()
      ensures d.width == w && d.height == h && d.data[..] == Bytes(Cut(rows, x, y, w, h))
    {
      var bytes := Bytes(Cut(rows, x, y, w, h));
      assert |bytes| == 4 * (w * h);
      d := new ImageData(w, h, bytes);
    }

    /** `putImageData(d, x, y)`. */
    method PutImageData(d: ImageData, x: int, y: int)
      requires Valid()
      modifies this
      ensures Valid() && rows == Paste(old(rows), x, y, d.width, d.height, d.data[..])
    {
      rows := Paste(rows, x, y, d.width, d.height, d.data[..]);
    }

    /** `clearRect(x, y, w, h)`. */
    method ClearRect(x: int, y: int, w: nat, h: nat)
      requires Valid()
      modifies this
      ensures Valid() && rows == Clear(old(rows), x, y, w, h)
    {
      rows := Clear(rows, x, y, w, h);
    }
  }
}

=== FILE: results.dfy ===
// Shared result types: the exceptions of every draft of the library become
// values, so that each operation's error path is part of its contract.

module Results {

  /** The error classes exported by lib/error.ts, lib/error.js and
      src/error.js. `TypeError` stands for the crashes the JavaScript drafts
      run into: reading a property of `undefined`, `Object.keys(undefined)`,
      calling a method an object lacks, and `new` on a name its module never
      exports (`ElementError` and `InvalidElement` in lib/asset.ts and
      lib/changer.ts, `InvalidScene` in src/scene.js). */
  datatype Error =
    | FileError | AssetError | AssetPartError | SceneError | ColorError | BoardError
    | InvalidFile | InvalidAsset | InvalidElement | InvalidColor | InvalidScene
    | TypeError

  datatype Option<T> = None | Some(value: T)

  datatype Result<T> = Ok(value: T) | Err(error: Error)

  /** The outcome of an operation that returns nothing but may throw. */
  datatype Outcome = Pass | Fail(error: Error)
}

=== FILE: scene_blocks.dfy ===
// The older scene maker of src/scene.js: blocks cut from mapres images are
// queued on a list, drawn onto the scene canvas through a path-keyed canvas
// cache, and the list is emptied; a JSON scheme's callbacks are dispatched to
// the block list or to the maker.

module SceneBlocks {
  import opened Results
  import Caches
  import Scenes

  /** A JavaScript number as the blocks hold it: a value, `undefined` (a
      parameter no argument was passed for) or NaN (arithmetic on
      `undefined`). */
  datatype JsNum = Num(v: int) | Undefined | NaN

  /** `a + b`. */
  function Plus(a: JsNum, b: JsNum): (r: JsNum)
    ensures r.Num? <==> a.Num? && b.Num?
    ensures r.Num? ==> r.v == a.v + b.v
  {
    if a.Num? && b.Num? then Num(a.v + b.v) else NaN
  }

  /** `a < b` and `a <= b`: false as soon as one side is not a number. */
  predicate Less(a: JsNum, b: JsNum) { a.Num? && b.Num? && a.v < b.v }

  predicate AtMost(a: JsNum, b: JsNum) { a.Num? && b.Num? && a.v <= b.v }

  /** `a == b`: `undefined` equals itself, NaN equals nothing. */
  predicate Loose(a: JsNum, b: JsNum)
  {
    (a.Num? && b.Num? && a.v == b.v) || (a.Undefined? && b.Undefined?)
  }

  /** A parameter default: `undefined` takes it. */
  function Default(x: JsNum, d: int): (r: JsNum)
    ensures r == (if x.Undefined? then Num(d) else x)
  {
    if x.Undefined? then Num(d) else x
  }

  const DEFAULT_W := 640
  const DEFAULT_H := 384

  // ---------------------------------------------------------------------------
  // TwSceneBlock

  /** A `TwSceneBlock`: the mapres path, the source rectangle cut from it
      and the destination rectangle on the scene. */
  datatype Block = Block(path: string, sx: JsNum, sy: JsNum, sw: JsNum, sh: JsNum,
                         dx: JsNum, dy: JsNum, dw: JsNum, dh: JsNum)

  /** The value of an own property of a block. */
  datatype Field = PathField(p: string) | NumField(n: JsNum)

  /** `Object.getOwnPropertyNames(block)` with the values, in the order the
      properties were created: the constructor sets `path`, then `setSource`
      and `setDest` their four fields. */
  function OwnProperties(b: Block): (r: seq<(string, Field)>)
    ensures |r| == 9 && r[0] == ("path", PathField(b.path))
  {
    [("path", PathField(b.path)),
     ("sx", NumField(b.sx)), ("sy", NumField(b.sy)), ("sw", NumField(b.sw)), ("sh", NumField(b.sh)),
     ("dx", NumField(b.dx)), ("dy", NumField(b.dy)), ("dw", NumField(b.dw)), ("dh", NumField(b.dh))]
  }

  /** `properties.filter(prop => prop != "path")`. */
  function WithoutPath(props: seq<(string, Field)>): (r: seq<(string, Field)>)
    ensures forall i :: 0 <= i < |r| ==> r[i].0 != "path"
    decreases |props|
  {
    if props == [] then []
    else if props[0].0 == "path" then WithoutPath(props[1..])
    else [props[0]] + WithoutPath(props[1..])
  }

  /** `properties.map(prop => this[prop])`. */
  function ValuesOf(props: seq<(string, Field)>): (r: seq<Field>)
    ensures |r| == |props|
    decreases |props|
  {
    if props == [] then [] else [props[0].1] + ValuesOf(props[1..])
  }

  /** `drawImageParameters()`. */
  function DrawImageParameters(b: Block): seq<Field>
  {
    ValuesOf(WithoutPath(OwnProperties(b)))
  }

  /** Filtering keeps the properties other than `path`, in order. */
  lemma {:induction false} WithoutPathKeeps(props: seq<(string, Field)>)
    requires forall i :: 0 <= i < |props| ==> props[i].0 != "path"
    ensures WithoutPath(props) == props
    decreases |props|
  {
    if props != [] {
      WithoutPathKeeps(props[1..]);
    }
  }

  /** The values of a list of properties, in its order. */
  lemma {:induction false} ValuesOfIndex(props: seq<(string, Field)>)
    ensures forall i :: 0 <= i < |props| ==> ValuesOf(props)[i] == props[i].1
    decreases |props|
  {
    if props != [] {
      ValuesOfIndex(props[1..]);
    }
  }

  /** The parameters are the source then the destination rectangle, in the
      order `drawImage` takes them. */
  lemma ParametersOrder(b: Block)
    ensures DrawImageParameters(b) == [NumField(b.sx), NumField(b.sy), NumField(b.sw), NumField(b.sh),
                                       NumField(b.dx), NumField(b.dy), NumField(b.dw), NumField(b.dh)]
  {
    var ps := OwnProperties(b);
    var t := ps[1..];
    assert WithoutPath(ps) == WithoutPath(t);
    WithoutPathKeeps(t);
    ValuesOfIndex(t);
  }

  /** The block a `drawImage(canvas, ...params)` call describes. */
  function FromParameters(path: string, ps: seq<Field>): (r: Option<Block>)
    ensures r.Some? ==> r.value.path == path
  {
    if |ps| == 8 && forall i :: 0 <= i < 8 ==> ps[i].NumField? then
      Some(Block(path, ps[0].n, ps[1].n, ps[2].n, ps[3].n, ps[4].n, ps[5].n, ps[6].n, ps[7].n))
    else None
  }

  /** Drawing a block's parameters draws exactly that block. */
  lemma ParametersRoundTrip(b: Block)
    ensures FromParameters(b.path, DrawImageParameters(b)) == Some(b)
  {
    ParametersOrder(b);
  }

  // ---------------------------------------------------------------------------
  // addLine

  /** A step `addLine` can take: a positive number, or `undefined`. */
  predicate Step(x: JsNum) { x.Undefined? || (x.Num? && x.v > 0) }

  function Measure(sx: JsNum, sy: JsNum, dx: JsNum, dy: JsNum): nat
  {
    if AtMost(sx, dx) && AtMost(sy, dy) then (dx.v - sx.v) + (dy.v - sy.v) + 1 else 0
  }

  /** The points the while loop of `addLine` visits from (sx, sy): x moves
      by `w` while below dx, y by `h` while below dy, until both ends are met
      or a coordinate passes its end or stops being a number. */
  function StepsJs(sx: JsNum, sy: JsNum, dx: JsNum, dy: JsNum, w: JsNum, h: JsNum): (r: seq<(JsNum, JsNum)>)
    requires Step(w) && Step(h)
    ensures r != [] <==> AtMost(sx, dx) && AtMost(sy, dy)
    decreases Measure(sx, sy, dx, dy)
  {
    if !(AtMost(sx, dx) && AtMost(sy, dy)) then []
    else if Loose(sx, dx) && Loose(sy, dy) then [(sx, sy)]
    else [(sx, sy)] + StepsJs(if Less(sx, dx) then Plus(sx, w) else sx, if Less(sy, dy) then Plus(sy, h) else sy, dx, dy, w, h)
  }

  /** The blocks the loop adds at points: cut at (ssx, ssy) with size
      (w, h), drawn at the point with size (w, h). */
  function StepBlocks(path: string, ssx: JsNum, ssy: JsNum, w: JsNum, h: JsNum, pts: seq<(JsNum, JsNum)>): (r: seq<Block>)
    ensures |r| == |pts|
    decreases |pts|
  {
    if pts == [] then []
    else [Block(path, ssx, ssy, w, h, pts[0].0, pts[0].1, w, h)] + StepBlocks(path, ssx, ssy, w, h, pts[1..])
  }

  function Defined(x: JsNum): nat { if x.Num? then 1 else 0 }

  /** `addLine(path, ssx, ssy, sx, sy, dx, dy, w, h)` as written: the same
      start and end throw (`new InvalidScene`, which src/error.js does not
      export, so a TypeError); with both start coordinates past the end, the
      recursive call passes seven arguments, so that call's dx and dy are
      this call's w and h and its w and h are `undefined`. */
  function LineJs(path: string, ssx: JsNum, ssy: JsNum, sx: JsNum, sy: JsNum, dx: JsNum, dy: JsNum, w: JsNum, h: JsNum): Result<seq<Block>>
    requires Step(w) && Step(h)
    decreases Defined(dx) + Defined(dy) + Defined(w) + Defined(h)
  {
    if Loose(sx, dx) && Loose(sy, dy) then Err(TypeError)
    else
      var before := if Less(dx, sx) && Less(dy, sy) then LineJs(path, dx, dy, sx, sy, w, h, Undefined, Undefined) else Ok([]);
      match before
      case Err(e) => Err(e)
      case Ok(bs) => Ok(bs + StepBlocks(path, ssx, ssy, w, h, StepsJs(sx, sy, dx, dy, w, h)))
  }

  /** The points of an integer line as JavaScript numbers. */
  function NumPoints(pts: seq<(int, int)>): (r: seq<(JsNum, JsNum)>)
    ensures |r| == |pts|
    decreases |pts|
  {
    if pts == [] then [] else [(Num(pts[0].0), Num(pts[0].1))] + NumPoints(pts[1..])
  }

  /** On numbers and positive steps the loop visits the points of the line
      of lib/scene.js. */
  lemma {:induction false} StepsJsNum(sx: int, sy: int, dx: int, dy: int, w: int, h: int)
    requires w > 0 && h > 0
    ensures StepsJs(Num(sx), Num(sy), Num(dx), Num(dy), Num(w), Num(h)) == NumPoints(Scenes.LineSteps(sx, sy, dx, dy, w, h))
    decreases if sx <= dx && sy <= dy then (dx - sx) + (dy - sy) + 1 else 0
  {
    if sx <= dx && sy <= dy && !(sx == dx && sy == dy) {
      var nx := if sx < dx then sx + w else sx;
      var ny := if sy < dy then sy + h else sy;
      StepsJsNum(nx, ny, dx, dy, w, h);
      assert Scenes.LineSteps(sx, sy, dx, dy, w, h) == [(sx, sy)] + Scenes.LineSteps(nx, ny, dx, dy, w, h);
      assert NumPoints([(sx, sy)] + Scenes.LineSteps(nx, ny, dx, dy, w, h))
        == [(Num(sx), Num(sy))] + NumPoints(Scenes.LineSteps(nx, ny, dx, dy, w, h));
    }
  }

  /** The blocks of a line of points on numbers. */
  function Tiles(path: string, ssx: int, ssy: int, w: int, h: int, pts: seq<(int, int)>): seq<Block>
  {
    StepBlocks(path, Num(ssx), Num(ssy), Num(w), Num(h), NumPoints(pts))
  }

  /** What `addLine` is meant to add: the line from the start to the end,
      or from the end to the start when both start coordinates are past the
      end (the recursive call with all nine arguments); the same start and
      end throw. */
  function IntendedLine(path: string, ssx: int, ssy: int, sx: int, sy: int, dx: int, dy: int, w: int, h: int): (r: Result<seq<Block>>)
    requires w > 0 && h > 0
  {
    match Scenes.LinePoints(Scenes.SceneJs, sx, sy, dx, dy, w, h)
    case Err(e) => Err(e)
    case Ok(pts) => Ok(Tiles(path, ssx, ssy, w, h, pts))
  }

  /** Block i of a tiling is cut at (ssx, ssy) with size (w, h) and drawn
      at point i with that size. */
  lemma {:induction false} TilesIndex(path: string, ssx: int, ssy: int, w: int, h: int, pts: seq<(int, int)>)
    ensures |Tiles(path, ssx, ssy, w, h, pts)| == |pts|
    ensures forall i :: 0 <= i < |pts| ==>
      Tiles(path, ssx, ssy, w, h, pts)[i] == Block(path, Num(ssx), Num(ssy), Num(w), Num(h), Num(pts[i].0), Num(pts[i].1), Num(w), Num(h))
    decreases |pts|
  {
    if pts != [] {
      TilesIndex(path, ssx, ssy, w, h, pts[1..]);
      assert NumPoints(pts)[1..] == NumPoints(pts[1..]);
    }
  }

  /** The intended line throws exactly for the same start and end, and
      every block it adds is cut at (ssx, ssy) and drawn, with the same
      size, at a point between the two corners. */
  lemma IntendedLineShape(path: string, ssx: int, ssy: int, sx: int, sy: int, dx: int, dy: int, w: int, h: int)
    requires w > 0 && h > 0
    ensures IntendedLine(path, ssx, ssy, sx, sy, dx, dy, w, h).Err? <==> sx == dx && sy == dy
    ensures IntendedLine(path, ssx, ssy, sx, sy, dx, dy, w, h).Err? ==>
      IntendedLine(path, ssx, ssy, sx, sy, dx, dy, w, h).error == InvalidScene
    ensures IntendedLine(path, ssx, ssy, sx, sy, dx, dy, w, h).Ok? ==>
      forall b :: b in IntendedLine(path, ssx, ssy, sx, sy, dx, dy, w, h).value ==>
        b.path == path && b.sx == Num(ssx) && b.sy == Num(ssy) && b.sw == b.dw == Num(w) && b.sh == b.dh == Num(h) &&
        b.dx.Num? && Scenes.Min(sx, dx) <= b.dx.v <= Scenes.Max(sx, dx) &&
        b.dy.Num? && Scenes.Min(sy, dy) <= b.dy.v <= Scenes.Max(sy, dy)
  {
    var pts := Scenes.LinePoints(Scenes.SceneJs, sx, sy, dx, dy, w, h);
    if pts.Ok? {
      TilesIndex(path, ssx, ssy, w, h, pts.value);
      var r := Tiles(path, ssx, ssy, w, h, pts.value);
      forall b | b in r
        ensures b.path == path && b.sx == Num(ssx) && b.sy == Num(ssy) && b.sw == b.dw == Num(w) && b.sh == b.dh == Num(h) &&
          b.dx.Num? && Scenes.Min(sx, dx) <= b.dx.v <= Scenes.Max(sx, dx) &&
          b.dy.Num? && Scenes.Min(sy, dy) <= b.dy.v <= Scenes.Max(sy, dy)
      {
        var i :| 0 <= i < |r| && r[i] == b;
        assert b == Block(path, Num(ssx), Num(ssy), Num(w), Num(h), Num(pts.value[i].0), Num(pts.value[i].1), Num(w), Num(h));
      }
    }
  }

  /** Unless both start coordinates are past the end, the line as written
      adds the blocks of the intended one and throws where it throws, with a
      TypeError for the intended InvalidScene. */
  lemma LineAsIntended(path: string, ssx: int, ssy: int, sx: int, sy: int, dx: int, dy: int, w: int, h: int)
    requires w > 0 && h > 0
    requires !(sx > dx && sy > dy)
    ensures IntendedLine(path, ssx, ssy, sx, sy, dx, dy, w, h).Ok? ==>
      LineJs(path, Num(ssx), Num(ssy), Num(sx), Num(sy), Num(dx), Num(dy), Num(w), Num(h))
        == IntendedLine(path, ssx, ssy, sx, sy, dx, dy, w, h)
    ensures IntendedLine(path, ssx, ssy, sx, sy, dx, dy, w, h).Err? ==>
      LineJs(path, Num(ssx), Num(ssy), Num(sx), Num(sy), Num(dx), Num(dy), Num(w), Num(h)) == Err(TypeError) &&
      IntendedLine(path, ssx, ssy, sx, sy, dx, dy, w, h) == Err(InvalidScene)
  {
    StepsJsNum(sx, sy, dx, dy, w, h);
    if !(sx == dx && sy == dy) {
      var tail := StepBlocks(path, Num(ssx), Num(ssy), Num(w), Num(h), StepsJs(Num(sx), Num(sy), Num(dx), Num(dy), Num(w), Num(h)));
      assert [] + tail == tail;
      if sx > dx || sy > dy {
        assert Scenes.LineSteps(sx, sy, dx, dy, w, h) == [];
      }
    }
  }

  /** With both start coordinates past the end, the line as written adds
      at most one block, with an undefined size, and throws a TypeError when
      the start equals (w, h). */
  lemma LineSwappedAsWritten(path: string, ssx: int, ssy: int, sx: int, sy: int, dx: int, dy: int, w: int, h: int)
    requires w > 0 && h > 0
    requires sx > dx && sy > dy
    ensures LineJs(path, Num(ssx), Num(ssy), Num(sx), Num(sy), Num(dx), Num(dy), Num(w), Num(h)) ==
      if sx == w && sy == h then Err(TypeError)
      else if sx <= w && sy <= h then Ok([Block(path, Num(dx), Num(dy), Undefined, Undefined, Num(sx), Num(sy), Undefined, Undefined)])
      else Ok([])
  {
    var e: seq<Block> := [];
    assert StepsJs(Num(sx), Num(sy), Undefined, Undefined, Undefined, Undefined) == [];
    assert e + e == e;
    assert LineJs(path, Num(w), Num(h), Num(sx), Num(sy), Undefined, Undefined, Undefined, Undefined) == Ok([]);
    var inner := StepsJs(Num(sx), Num(sy), Num(w), Num(h), Undefined, Undefined);
    var outer := StepsJs(Num(sx), Num(sy), Num(dx), Num(dy), Num(w), Num(h));
    assert outer == [];
    if !(sx == w && sy == h) {
      var bs := StepBlocks(path, Num(dx), Num(dy), Undefined, Undefined, inner);
      if sx <= w && sy <= h {
        var nx, ny := if sx < w then NaN else Num(sx), if sy < h then NaN else Num(sy);
        assert StepsJs(nx, ny, Num(w), Num(h), Undefined, Undefined) == [];
        assert inner == [(Num(sx), Num(sy))];
        assert bs == [Block(path, Num(dx), Num(dy), Undefined, Undefined, Num(sx), Num(sy), Undefined, Undefined)];
      } else {
        assert inner == [];
        assert bs == [];
      }
      assert e + bs == bs && bs + e == bs;
    }
  }

  /** The line from (5, 5) back to (0, 0) in steps of 1 adds nothing as
      written, though the intended line has six blocks. */
  lemma SwappedLineLost()
    ensures LineJs("p", Num(0), Num(0), Num(5), Num(5), Num(0), Num(0), Num(1), Num(1)) == Ok([])
    ensures IntendedLine("p", 0, 0, 5, 5, 0, 0, 1, 1).Ok?
    ensures |IntendedLine("p", 0, 0, 5, 5, 0, 0, 1, 1).value| == 6
  {
    LineSwappedAsWritten("p", 0, 0, 5, 5, 0, 0, 1, 1);
    var s := Scenes.LineSteps(0, 0, 5, 5, 1, 1);
    assert s == [(0, 0)] + Scenes.LineSteps(1, 1, 5, 5, 1, 1);
    assert Scenes.LineSteps(1, 1, 5, 5, 1, 1) == [(1, 1)] + Scenes.LineSteps(2, 2, 5, 5, 1, 1);
    assert Scenes.LineSteps(2, 2, 5, 5, 1, 1) == [(2, 2)] + Scenes.LineSteps(3, 3, 5, 5, 1, 1);
    assert Scenes.LineSteps(3, 3, 5, 5, 1, 1) == [(3, 3)] + Scenes.LineSteps(4, 4, 5, 5, 1, 1);
    assert Scenes.LineSteps(4, 4, 5, 5, 1, 1) == [(4, 4)] + Scenes.LineSteps(5, 5, 5, 5, 1, 1);
    assert Scenes.LineSteps(5, 5, 5, 5, 1, 1) == [(5, 5)];
  }

  /** The line from (5, 5) back to (0, 0) in steps of 5 throws a TypeError
      as written, though the intended line has two blocks. */
  lemma SwappedLineThrows()
    ensures LineJs("p", Num(0), Num(0), Num(5), Num(5), Num(0), Num(0), Num(5), Num(5)) == Err(TypeError)
    ensures IntendedLine("p", 0, 0, 5, 5, 0, 0, 5, 5).Ok?
    ensures |IntendedLine("p", 0, 0, 5, 5, 0, 0, 5, 5).value| == 2
  {
    LineSwappedAsWritten("p", 0, 0, 5, 5, 0, 0, 5, 5);
    assert Scenes.LineSteps(0, 0, 5, 5, 5, 5) == [(0, 0)] + Scenes.LineSteps(5, 5, 5, 5, 5, 5);
  }

  // ---------------------------------------------------------------------------
  // the block list

  /** `TwSceneBlocks`: the blocks queued for the next `drawBlocks`. */
  class TwSceneBlocks {
    /** `this.array`. */
    var queue: seq<Block>

    constructor ()
      ensures queue == []
    {
      queue := [];
    }

    /** `addBlock(mapresPath, sx, sy, sw, sh, dx, dy, dw, dh)`. */
    method AddBlock(path: string, sx: JsNum, sy: JsNum, sw: JsNum, sh: JsNum, dx: JsNum, dy: JsNum, dw: JsNum, dh: JsNum)
      modifies this
      ensures queue == old(queue) + [Block(path, sx, sy, sw, sh, dx, dy, dw, dh)]
    {
      queue := queue + [Block(path, sx, sy, sw, sh, dx, dy, dw, dh)];
    }

    /** `reset()`. */
    method Reset()
      modifies this
      ensures queue == []
    {
      queue := [];
    }

    /** The while loop of `addLine`. */
    method Walk(path: string, ssx: JsNum, ssy: JsNum, sx0: JsNum, sy0: JsNum, dx: JsNum, dy: JsNum, w: JsNum, h: JsNum)
      requires Step(w) && Step(h)
      modifies this
      ensures queue == old(queue) + StepBlocks(path, ssx, ssy, w, h, StepsJs(sx0, sy0, dx, dy, w, h))
    {
      var sx, sy := sx0, sy0;
      while AtMost(sx, dx) && AtMost(sy, dy)
        invariant old(queue) + StepBlocks(path, ssx, ssy, w, h, StepsJs(sx0, sy0, dx, dy, w, h))
          == queue + StepBlocks(path, ssx, ssy, w, h, StepsJs(sx, sy, dx, dy, w, h))
        decreases Measure(sx, sy, dx, dy)
      {
        ghost var pts := StepsJs(sx, sy, dx, dy, w, h);
        AddBlock(path, ssx, ssy, w, h, sx, sy, w, h);
        if Loose(sx, dx) && Loose(sy, dy) {
          assert pts == [(sx, sy)];
          break;
        }
        if Less(sx, dx) {
          sx := Plus(sx, w);
        }
        if Less(sy, dy) {
          sy := Plus(sy, h);
        }
        assert pts == [(pts[0].0, pts[0].1)] + StepsJs(sx, sy, dx, dy, w, h);
      }
    }

    /** `addLine(path, ssx, ssy, sx, sy, dx, dy, w, h)` as written, with its
      seven-argument recursive call and the TypeError of `new InvalidScene`.
      A throw adds nothing. */
    method AddLine(path: string, ssx: JsNum, ssy: JsNum, sx: JsNum, sy: JsNum, dx: JsNum, dy: JsNum, w: JsNum, h: JsNum)
      returns (o: Outcome)
      requires Step(w) && Step(h)
      modifies this
      ensures LineJs(path, ssx, ssy, sx, sy, dx, dy, w, h).Err? ==>
        o == Fail(LineJs(path, ssx, ssy, sx, sy, dx, dy, w, h).error) && queue == old(queue)
      ensures LineJs(path, ssx, ssy, sx, sy, dx, dy, w, h).Ok? ==>
        o == Pass && queue == old(queue) + LineJs(path, ssx, ssy, sx, sy, dx, dy, w, h).value
      decreases Defined(dx) + Defined(dy) + Defined(w) + Defined(h)
    {
      if Loose(sx, dx) && Loose(sy, dy) {
        return Fail(TypeError);
      }
      ghost var start := queue;
      ghost var tail := StepBlocks(path, ssx, ssy, w, h, StepsJs(sx, sy, dx, dy, w, h));
      if Less(dx, sx) && Less(dy, sy) {
        ghost var inner := LineJs(path, dx, dy, sx, sy, w, h, Undefined, Undefined);
        assert inner.Err? ==> LineJs(path, ssx, ssy, sx, sy, dx, dy, w, h) == Err(inner.error);
        assert inner.Ok? ==> LineJs(path, ssx, ssy, sx, sy, dx, dy, w, h) == Ok(inner.value + tail);
        o := AddLine(path, dx, dy, sx, sy, w, h, Undefined, Undefined);
        if o.Fail? {
          return;
        }
      } else {
        assert LineJs(path, ssx, ssy, sx, sy, dx, dy, w, h) == Ok([] + tail);
        assert [] + tail == tail;
      }
      Walk(path, ssx, ssy, sx, sy, dx, dy, w, h);
      o := Pass;
    }

    /** `addLine` with the recursive call given all nine arguments and the
      same start and end refused with InvalidScene. */
    method AddLineIntended(path: string, ssx: int, ssy: int, sx: int, sy: int, dx: int, dy: int, w: int, h: int)
      returns (o: Outcome)
      requires w > 0 && h > 0
      modifies this
      ensures IntendedLine(path, ssx, ssy, sx, sy, dx, dy, w, h).Err? ==> o == Fail(InvalidScene) && queue == old(queue)
      ensures IntendedLine(path, ssx, ssy, sx, sy, dx, dy, w, h).Ok? ==>
        o == Pass && queue == old(queue) + IntendedLine(path, ssx, ssy, sx, sy, dx, dy, w, h).value
      decreases if sx > dx && sy > dy then 1 else 0
    {
      if sx == dx && sy == dy {
        return Fail(InvalidScene);
      }
      if sx > dx && sy > dy {
        o := AddLineIntended(path, ssx, ssy, dx, dy, sx, sy, w, h);
        StepsJsNum(sx, sy, dx, dy, w, h);
        return;
      }
      Walk(path, Num(ssx), Num(ssy), Num(sx), Num(sy), Num(dx), Num(dy), Num(w), Num(h));
      LineAsIntended(path, ssx, ssy, sx, sy, dx, dy, w, h);
      o := Pass;
    }

    /** `setBackground(path, w, h, sceneW, sceneH)`: the whole image, drawn
      over the scene (640 by 384 unless given). */
    method SetBackground(path: string, w: JsNum, h: JsNum, sceneW: JsNum, sceneH: JsNum)
      modifies this
      ensures queue == old(queue) +
        [Block(path, Num(0), Num(0), w, h, Num(0), Num(0), Default(sceneW, DEFAULT_W), Default(sceneH, DEFAULT_H))]
    {
      AddBlock(path, Num(0), Num(0), w, h, Num(0), Num(0), Default(sceneW, DEFAULT_W), Default(sceneH, DEFAULT_H));
    }

    /** `setRandomBackground(sceneW, sceneH)`: the listing function it calls
      is destructured from a module that does not export it, so the call
      throws a TypeError before any index is drawn or block queued. */
    method SetRandomBackground(sceneW: JsNum, sceneH: JsNum) returns (o: Outcome)
      modifies this
      ensures o == Fail(TypeError) && queue == old(queue)
    {
      o := Fail(TypeError);
    }
  }

  // ---------------------------------------------------------------------------
  // the canvas cache

  /** A canvas made from a loaded mapres image. */
  datatype Image = Image(width: nat, height: nat)

  /** `CanvasCache` of src/scene.js, keyed by path. */
  class CanvasCache {
    var cache: map<string, Image>

    constructor ()
      ensures cache == map[]
    {
      cache := map[];
    }

    /** `getCanvas(key, w, h)`: null for a missing key, or when the width is
      not w and h is defined: the stored canvas has no `heigth`, so that test
      compares `undefined` with h. */
    function GetCanvas(key: string, w: JsNum, h: JsNum): (r: Option<Image>)
      reads this
      ensures r.None? <==> key !in cache || (!Loose(Num(cache[key].width), w) && !h.Undefined?)
      ensures r.Some? ==> r.value == cache[key]
    {
      if key !in cache then None
      else if !Loose(Num(cache[key].width), w) && !Loose(Undefined, h) then None
      else Some(cache[key])
    }

    /** `addCanvas(key, canvas)`: a key already there keeps its canvas. */
    method AddCanvas(key: string, canvas: Image)
      modifies this
      ensures cache == Caches.Put(old(cache), key, canvas).0
    {
      if GetCanvas(key, Num(canvas.width), Undefined).Some? {
        return;
      }
      cache := cache[key := canvas];
    }
  }

  /** Whatever the width, a lookup without a height finds every stored key:
      what `addCanvas` and `getFromCache` (which reads the block's missing
      `w` and `h`) rely on. */
  lemma GetCanvasWithoutHeight(c: CanvasCache, key: string, w: JsNum)
    ensures c.GetCanvas(key, w, Undefined).Some? <==> key in c.cache
  {
  }

  // ---------------------------------------------------------------------------
  // the maker

  /** A `drawImage` call on the scene canvas. */
  datatype Drawing = Drawing(image: Image, params: seq<Field>)

  /** The loop of `drawBlocks` from `drawn` on: each block is drawn from
      the cached canvas of its path, the first load of a path stores it, and
      a path that cannot be loaded throws InvalidFile. */
  function DrawRun(store: map<string, Image>, load: string -> Option<Image>, drawn: seq<Drawing>, bs: seq<Block>)
    : (Outcome, map<string, Image>, seq<Drawing>)
    decreases |bs|
  {
    if bs == [] then (Pass, store, drawn)
    else
      var b := bs[0];
      if b.path in store then DrawRun(store, load, drawn + [Drawing(store[b.path], DrawImageParameters(b))], bs[1..])
      else match load(b.path)
        case None => (Fail(InvalidFile), store, drawn)
        case Some(img) => DrawRun(store[b.path := img], load, drawn + [Drawing(img, DrawImageParameters(b))], bs[1..])
  }

  /** The stored canvas of a path, or the one its load gives. */
  function CanvasFor(store: map<string, Image>, load: string -> Option<Image>, path: string): Option<Image>
  {
    if path in store then Some(store[path]) else load(path)
  }

  /** A run that passes draws one call per block, in order, with the
      block's parameters; the cache keeps every stored canvas and ends up
      holding every drawn path. A failed run is an InvalidFile. */
  lemma {:induction false} DrawRunDraws(store: map<string, Image>, load: string -> Option<Image>, drawn: seq<Drawing>, bs: seq<Block>)
    ensures DrawRun(store, load, drawn, bs).0.Fail? ==> DrawRun(store, load, drawn, bs).0 == Fail(InvalidFile)
    ensures forall k :: k in store ==> k in DrawRun(store, load, drawn, bs).1 && DrawRun(store, load, drawn, bs).1[k] == store[k]
    ensures DrawRun(store, load, drawn, bs).0.Pass? ==>
      |DrawRun(store, load, drawn, bs).2| == |drawn| + |bs| &&
      DrawRun(store, load, drawn, bs).2[..|drawn|] == drawn &&
      forall i :: 0 <= i < |bs| ==>
        bs[i].path in DrawRun(store, load, drawn, bs).1 &&
        DrawRun(store, load, drawn, bs).2[|drawn| + i] == Drawing(DrawRun(store, load, drawn, bs).1[bs[i].path], DrawImageParameters(bs[i]))
    decreases |bs|
  {
    if bs != [] {
      var b := bs[0];
      var next := CanvasFor(store, load, b.path);
      if next.Some? {
        var store' := if b.path in store then store else store[b.path := next.value];
        var drawn' := drawn + [Drawing(next.value, DrawImageParameters(b))];
        assert DrawRun(store, load, drawn, bs) == DrawRun(store', load, drawn', bs[1..]);
        DrawRunDraws(store', load, drawn', bs[1..]);
        var r := DrawRun(store', load, drawn', bs[1..]);
        if r.0.Pass? {
          assert r.2[..|drawn|] == drawn'[..|drawn|];
          forall i | 0 <= i < |bs|
            ensures bs[i].path in r.1 && r.2[|drawn| + i] == Drawing(r.1[bs[i].path], DrawImageParameters(bs[i]))
          {
            if i == 0 {
              assert r.2[|drawn|] == drawn'[|drawn|];
            } else {
              assert bs[i] == bs[1..][i - 1];
              assert |drawn| + i == |drawn'| + (i - 1);
            }
          }
        }
      }
    }
  }

  /** When every path is cached or loadable, the run passes. */
  lemma {:induction false} DrawRunPasses(store: map<string, Image>, load: string -> Option<Image>, drawn: seq<Drawing>, bs: seq<Block>)
    requires forall i :: 0 <= i < |bs| ==> bs[i].path in store || load(bs[i].path).Some?
    ensures DrawRun(store, load, drawn, bs).0 == Pass
    decreases |bs|
  {
    if bs != [] {
      var b := bs[0];
      var next := CanvasFor(store, load, b.path);
      var store' := if b.path in store then store else store[b.path := next.value];
      var drawn' := drawn + [Drawing(next.value, DrawImageParameters(b))];
      assert DrawRun(store, load, drawn, bs) == DrawRun(store', load, drawn', bs[1..]);
      forall i | 0 <= i < |bs[1..]|
        ensures bs[1..][i].path in store' || load(bs[1..][i].path).Some?
      {
        assert bs[1..][i] == bs[i + 1];
      }
      DrawRunPasses(store', load, drawn', bs[1..]);
    }
  }

  /** A step of `renderFromScheme`: a `drawBlocks()`, or a callback called
      with the action's `args`. */
  datatype RenderStep = Flush | Invoke(callback: string, args: Scenes.Json)

  /** The keys of `resolveCallback`; only `addTee` is asynchronous. */
  const CALLBACKS: seq<string> := ["setRandomBackground", "setBackground", "addBlock", "addLine", "addTee"]

  /** Whether `...args` can spread a value: only iterables can, and among
      JSON values those are arrays and strings. */
  predicate Spreadable(v: Scenes.Json)
  {
    v.Arr? || v.Str?
  }

  /** The action names a callback of `resolveCallback`. */
  predicate Calls(a: Scenes.Json)
  {
    var name := Scenes.Member(a, "callback");
    name.Some? && name.value.Str? && name.value.s in CALLBACKS
  }

  /** The loop of `renderFromScheme` from `acc` on: an action naming no
      callback is skipped, `addTee` is preceded by a `drawBlocks`, and an
      action that is null or undefined throws, as does spreading `args`
      that are not iterable (for `addTee`, after its `drawBlocks`). */
  function RenderRun(acc: seq<RenderStep>, items: seq<Scenes.Json>): (Outcome, seq<RenderStep>)
    decreases |items|
  {
    if items == [] then (Pass, acc)
    else
      match Scenes.Member(items[0], "callback")
      case None => (Fail(TypeError), acc)
      case Some(name) =>
        if !(name.Str? && name.s in CALLBACKS) then RenderRun(acc, items[1..])
        else
          var args := Scenes.Member(items[0], "args").value;
          var pre: seq<RenderStep> := if name.s == "addTee" then [Flush] else [];
          if !Spreadable(args) then (Fail(TypeError), acc + pre)
          else RenderRun(acc + pre + [Invoke(name.s, args)], items[1..])
  }

  /** A run passes exactly when no action is null or undefined and every
      action naming a callback has `args` that spread; any other run throws
      a TypeError. */
  lemma {:induction false} RenderRunPasses(acc: seq<RenderStep>, items: seq<Scenes.Json>)
    ensures RenderRun(acc, items).0 == Pass <==>
      forall i :: 0 <= i < |items| ==>
        Scenes.Member(items[i], "callback").Some? && (Calls(items[i]) ==> Spreadable(Scenes.Member(items[i], "args").value))
    ensures RenderRun(acc, items).0 != Pass ==> RenderRun(acc, items).0 == Fail(TypeError)
    decreases |items|
  {
    if items != [] {
      assert forall i :: 1 <= i < |items| ==> items[i] == items[1..][i - 1];
      var name := Scenes.Member(items[0], "callback");
      if name.Some? {
        if !Calls(items[0]) {
          RenderRunPasses(acc, items[1..]);
        } else {
          var args := Scenes.Member(items[0], "args").value;
          var pre: seq<RenderStep> := if name.value.s == "addTee" then [Flush] else [];
          if Spreadable(args) {
            RenderRunPasses(acc + pre + [Invoke(name.value.s, args)], items[1..]);
          }
        }
      }
    }
  }

  predicate IsTee(s: RenderStep) { s.Invoke? && s.callback == "addTee" }

  /** Every callback a run calls is a key of `resolveCallback`, and each
      `addTee` comes right after a `drawBlocks`. */
  lemma {:induction false} RenderRunCallbacks(acc: seq<RenderStep>, items: seq<Scenes.Json>)
    ensures |acc| <= |RenderRun(acc, items).1| && RenderRun(acc, items).1[..|acc|] == acc
    ensures forall i :: |acc| <= i < |RenderRun(acc, items).1| && RenderRun(acc, items).1[i].Invoke? ==>
      RenderRun(acc, items).1[i].callback in CALLBACKS
    ensures forall i ::
      (|acc| <= i < |RenderRun(acc, items).1| && IsTee(RenderRun(acc, items).1[i])) ==>
      (i > 0 && RenderRun(acc, items).1[i - 1] == Flush)
    decreases |items|
  {
    if items != [] {
      var name := Scenes.Member(items[0], "callback");
      if name.Some? {
        if !(name.value.Str? && name.value.s in CALLBACKS) {
          RenderRunCallbacks(acc, items[1..]);
        } else {
          var args := Scenes.Member(items[0], "args").value;
          var n := name.value.s;
          var pre: seq<RenderStep> := if n == "addTee" then [Flush] else [];
          if Spreadable(args) {
            var steps := pre + [Invoke(n, args)];
            assert acc + pre + [Invoke(n, args)] == acc + steps;
            RenderRunCallbacks(acc + steps, items[1..]);
            var out := RenderRun(acc + steps, items[1..]).1;
            assert out[..|acc + steps|] == acc + steps;
            forall i | |acc| <= i < |acc + steps|
              ensures out[i] == steps[i - |acc|]
            {
              assert out[i] == out[..|acc + steps|][i];
            }
            assert out[..|acc|] == (acc + steps)[..|acc|];
          } else {
            assert (acc + pre)[..|acc|] == acc;
          }
        }
      }
    }
  }

  /** Actions naming no callback leave the run without steps. */
  lemma {:induction false} RenderRunSkips(acc: seq<RenderStep>, items: seq<Scenes.Json>)
    requires forall i :: 0 <= i < |items| ==>
      items[i].Obj? && !(Scenes.Lookup(items[i].fields, "callback").Str? && Scenes.Lookup(items[i].fields, "callback").s in CALLBACKS)
    ensures RenderRun(acc, items) == (Pass, acc)
    decreases |items|
  {
    if items != [] {
      RenderRunSkips(acc, items[1..]);
    }
  }

  /** `_isValidMapres(img)`: `true &= width == 1024`, then `&= height ==
      1024`; the `&=` leaves the number 1 or 0, not a boolean. */
  function IsValidMapres(width: int, height: int): (r: int)
    ensures r == 0 || r == 1
    ensures r == 1 <==> width == 1024 && height == 1024
  {
    var ret := 1 * (if width == 1024 then 1 else 0);
    ret * (if height == 1024 then 1 else 0)
  }

  /** `TwSceneMaker`: the scene canvas, the block list and the cache. */
  class TwSceneMaker {
    const width: int
    const height: int
    const blocks: TwSceneBlocks
    const cache: CanvasCache
    /** The `drawImage` calls made on the scene canvas. */
    var drawn: seq<Drawing>

    ghost predicate Valid()
      reads this
    {
      blocks != cache as object
    }

    /** `new TwSceneMaker(w, h)`: a 640 by 384 canvas unless given. */
    constructor (w: JsNum, h: JsNum)
      requires w.Undefined? || w.Num?
      requires h.Undefined? || h.Num?
      ensures Valid() && width == Default(w, DEFAULT_W).v && height == Default(h, DEFAULT_H).v
      ensures blocks.queue == [] && cache.cache == map[] && drawn == []
      ensures fresh(blocks) && fresh(cache)
    {
      width := Default(w, DEFAULT_W).v;
      height := Default(h, DEFAULT_H).v;
      blocks := new TwSceneBlocks();
      cache := new CanvasCache();
      drawn := [];
    }

    /** `drawBlocks()`, with `load` for `loadImage`: every queued block is
      drawn, then the list is emptied; a failed load throws InvalidFile and
      leaves the list as it was. */
    method DrawBlocks(load: string -> Option<Image>) returns (o: Outcome)
      requires Valid()
      modifies this, blocks, cache
      ensures Valid()
      ensures (o, cache.cache, drawn) == DrawRun(old(cache.cache), load, old(drawn), old(blocks.queue))
      ensures blocks.queue == if o.Pass? then [] else old(blocks.queue)
    {
      var k := 0;
      while k < |blocks.queue|
        invariant 0 <= k <= |blocks.queue| && blocks.queue == old(blocks.queue)
        invariant DrawRun(old(cache.cache), load, old(drawn), old(blocks.queue)) == DrawRun(cache.cache, load, drawn, blocks.queue[k..])
        decreases |blocks.queue| - k
      {
        var b := blocks.queue[k];
        assert blocks.queue[k..][1..] == blocks.queue[k + 1..];
        var canvas := cache.GetCanvas(b.path, Undefined, Undefined);
        if canvas.None? {
          var img := load(b.path);
          if img.None? {
            return Fail(InvalidFile);
          }
          cache.AddCanvas(b.path, img.value);
          canvas := img;
        }
        drawn := drawn + [Drawing(canvas.value, DrawImageParameters(b))];
        k := k + 1;
      }
      blocks.Reset();
      o := Pass;
    }

    /** `pasteCanvas(canvas, dx, dy, dw, dh)`: the whole canvas, drawn at
      the destination. */
    method PasteCanvas(canvas: Image, dx: JsNum, dy: JsNum, dw: JsNum, dh: JsNum)
      modifies this
      ensures drawn == old(drawn) + [Drawing(canvas, [NumField(Num(0)), NumField(Num(0)),
        NumField(Num(canvas.width)), NumField(Num(canvas.height)), NumField(dx), NumField(dy), NumField(dw), NumField(dh)])]
    {
      drawn := drawn + [Drawing(canvas, [NumField(Num(0)), NumField(Num(0)),
        NumField(Num(canvas.width)), NumField(Num(canvas.height)), NumField(dx), NumField(dy), NumField(dw), NumField(dh)])];
    }

    /** `addTee(path, dx, dy, dw, dh, eye)`, with the rendered tee as
      `tee`: a tee that failed to load or render is logged and skipped. */
    method AddTee(tee: Option<Image>, dx: JsNum, dy: JsNum, dw: JsNum, dh: JsNum)
      modifies this
      ensures tee.None? ==> drawn == old(drawn)
      ensures tee.Some? ==>
        |drawn| == |old(drawn)| + 1 && drawn[..|old(drawn)|] == old(drawn) &&
        FromParameters("", drawn[|old(drawn)|].params) == Some(Block("", Num(0), Num(0), Num(tee.value.width), Num(tee.value.height), dx, dy, dw, dh))
    {
      if tee.Some? {
        PasteCanvas(tee.value, dx, dy, dw, dh);
      }
    }

    /** The dispatch of `renderFromScheme(scheme)`: the steps it takes, each
      callback of `resolveCallback` in turn with a `drawBlocks` before the
      asynchronous `addTee`, and a last `drawBlocks`; `args` that do not
      spread throw. */
    method RenderFromScheme(scheme: Scenes.Json) returns (o: Outcome, steps: seq<RenderStep>)
      ensures Scenes.ActionItems(scheme).None? ==> o == Fail(TypeError) && steps == []
      ensures Scenes.ActionItems(scheme).Some? ==>
        var run := RenderRun([], Scenes.ActionItems(scheme).value);
        o == run.0 && steps == if run.0.Pass? then run.1 + [Flush] else run.1
    {
      var items := Scenes.ActionItems(scheme);
      if items.None? {
        return Fail(TypeError), [];
      }
      steps := [];
      for k := 0 to |items.value|
        invariant RenderRun([], items.value) == RenderRun(steps, items.value[k..])
      {
        var action := items.value[k];
        assert items.value[k..][1..] == items.value[k + 1..];
        var name := Scenes.Member(action, "callback");
        if name.None? {
          return Fail(TypeError), steps;
        }
        if !(name.value.Str? && name.value.s in CALLBACKS) {
          assert RenderRun(steps, items.value[k..]) == RenderRun(steps, items.value[k + 1..]);
          continue;
        }
        var args := Scenes.Member(action, "args").value;
        ghost var before := steps;
        ghost var pre: seq<RenderStep> := if name.value.s == "addTee" then [Flush] else [];
        if name.value.s == "addTee" {
          steps := steps + [Flush];
        }
        assert steps == before + pre;
        if !Spreadable(args) {
          return Fail(TypeError), steps;
        }
        assert RenderRun(before, items.value[k..]) == RenderRun(before + pre + [Invoke(name.value.s, args)], items.value[k + 1..]);
        steps := steps + [Invoke(name.value.s, args)];
      }
      steps := steps + [Flush];
      o := Pass;
    }
  }
}

=== FILE: scenes.dfy ===
// The scene maker of lib/scene.ts (`Scene`) and lib/scene.js
// (`TwSceneMaker`): a JSON scheme of actions, dispatched by name to the
// scene's methods with their arguments put in declared order, and the
// tiling methods that lay mapres blocks along a line or over a rectangle.

module Scenes {
  import opened Results
  import Utils
  import Caches

  /** A JSON value as `JSON.parse` yields it, plus `undefined`. An object
      keeps its keys in insertion order. */
  datatype Json =
    | Undefined | Null | Bool(b: bool) | Num(n: int) | Str(s: string)
    | Arr(items: seq<Json>) | Obj(fields: seq<(string, Json)>)

  /** lib/scene.ts throws `SceneError`, lib/scene.js `InvalidScene`. */
  datatype SceneDraft = SceneTs | SceneJs

  function SceneFailure(d: SceneDraft): Error
  {
    if d == SceneTs then SceneError else InvalidScene
  }

  /** JavaScript truthiness of a value. */
  predicate Truthy(v: Json)
  {
    match v
    case Undefined => false
    case Null => false
    case Bool(b) => b
    case Num(n) => n != 0
    case Str(s) => s != ""
    case _ => true
  }

  /** `Object.entries(v)`: the fields of an object, the indexed items of an
      array or the characters of a string; none on null and undefined, where
      `Object.keys` throws. */
  function Entries(v: Json): (e: Option<seq<(string, Json)>>)
    ensures e.None? <==> v.Undefined? || v.Null?
  {
    match v
    case Undefined => None
    case Null => None
    case Obj(fs) => Some(fs)
    case Arr(items) => Some(seq(|items|, i requires 0 <= i < |items| => (Utils.Decimal(i), items[i])))
    case Str(s) => Some(seq(|s|, i requires 0 <= i < |s| => (Utils.Decimal(i), Str([s[i]]))))
    case _ => Some([])
  }

  function Names(es: seq<(string, Json)>): (r: seq<string>)
    ensures |r| == |es|
    decreases |es|
  {
    if es == [] then [] else [es[0].0] + Names(es[1..])
  }

  function Values(es: seq<(string, Json)>): seq<Json>
    decreases |es|
  {
    if es == [] then [] else [es[0].1] + Values(es[1..])
  }

  /** `obj[key]`: the value of the key, or undefined. */
  function Lookup(es: seq<(string, Json)>, key: string): Json
    decreases |es|
  {
    if es == [] then Undefined else if es[0].0 == key then es[0].1 else Lookup(es[1..], key)
  }

  /** `delete obj[key]`. */
  function Remove(es: seq<(string, Json)>, key: string): (r: seq<(string, Json)>)
    ensures |r| <= |es|
    decreases |es|
  {
    if es == [] then [] else if es[0].0 == key then Remove(es[1..], key) else [es[0]] + Remove(es[1..], key)
  }

  /** The `delete args[arg]` loop of `call`: each needed key deleted in turn. */
  function RemoveAll(es: seq<(string, Json)>, need: seq<string>): seq<(string, Json)>
    decreases |need|
  {
    if need == [] then es else RemoveAll(Remove(es, need[0]), need[1..])
  }

  /** `obj[key] = v` on an object: the entry `obj[key]` reads takes the
      value. */
  function Put(es: seq<(string, Json)>, key: string, v: Json): (r: seq<(string, Json)>)
    ensures Names(r) == Names(es)
    decreases |es|
  {
    if es == [] then []
    else if es[0].0 == key then [(key, v)] + es[1..]
    else
      var r := [es[0]] + Put(es[1..], key, v);
      assert r[1..] == Put(es[1..], key, v);
      r
  }

  /** `v[key]` on an object; other values have no named property here.
      None where reading a property throws (null, undefined). */
  function Member(v: Json, key: string): (r: Option<Json>)
    ensures r.None? <==> v.Undefined? || v.Null?
  {
    match v
    case Undefined => None
    case Null => None
    case Obj(fs) => Some(Lookup(fs, key))
    case _ => Some(Undefined)
  }

  /** `argsChecker(args, ...needed)`: every element of `args` is in `needed`. */
  predicate Within(args: seq<string>, needed: seq<string>)
  {
    forall i :: 0 <= i < |args| ==> args[i] in needed
  }

  predicate DistinctNames(es: seq<(string, Json)>)
    decreases |es|
  {
    es == [] || (es[0].0 !in Names(es[1..]) && DistinctNames(es[1..]))
  }

  predicate DistinctStrings(s: seq<string>)
  {
    forall i, j :: 0 <= i < j < |s| ==> s[i] != s[j]
  }

  // ---------------------------------------------------------------------------
  // the scheme

  /** `checkScheme()`: throws unless every key of the scheme is `size` or
      `actions`; the keys may be missing. */
  function CheckScheme(d: SceneDraft, data: Json): (o: Outcome)
    ensures o == Pass <==> Entries(data).Some? && Within(Names(Entries(data).value), ["size", "actions"])
    ensures Entries(data).None? ==> o == Fail(TypeError)
    ensures Entries(data).Some? && o != Pass ==> o == Fail(SceneFailure(d))
  {
    match Entries(data)
    case None => Fail(TypeError)
    case Some(es) => if Within(Names(es), ["size", "actions"]) then Pass else Fail(SceneFailure(d))
  }

  /** The data `preprocess` settles on: the parsed file when there is a path,
      else a truthy given scheme. */
  function ChosenData(path: string, file: Json, given: Json): Option<Json>
  {
    if path != "" then Some(file) else if Truthy(given) then Some(given) else None
  }

  /** Only extra keys are refused: an empty scheme passes `checkScheme`, one with
      a third key does not. */
  lemma SchemeKeysExamples(d: SceneDraft)
    ensures CheckScheme(d, Obj([])) == Pass
    ensures CheckScheme(d, Obj([("actions", Arr([]))])) == Pass
    ensures CheckScheme(d, Obj([("size", Null), ("extra", Null)])) == Fail(SceneFailure(d))
    ensures CheckScheme(d, Null) == Fail(TypeError)
  {
    assert Names([("size", Null), ("extra", Null)])[1] == "extra";
  }

  /** `Scheme`: a path, or a scheme given to `preprocess`. */
  class Scheme {
    const draft: SceneDraft
    const path: string
    var data: Json

    constructor (draft: SceneDraft, path: string)
      ensures this.draft == draft && this.path == path
      ensures data == if draft == SceneTs then Obj([]) else Undefined
    {
      this.draft, this.path := draft, path;
      data := if draft == SceneTs then Obj([]) else Undefined;
    }

    /** `preprocess(scheme)`, with `file` the parsed content of the file at
        `path` (reading and parsing it is outside the model): the file wins
        over the given scheme; with neither it throws; then the keys are
        checked. */
    method Preprocess(file: Json, given: Json) returns (o: Outcome)
      modifies this
      ensures ChosenData(path, file, given).None? ==> o == Fail(SceneFailure(draft)) && data == old(data)
      ensures ChosenData(path, file, given).Some? ==>
        data == ChosenData(path, file, given).value && o == CheckScheme(draft, data)
    {
      if path != "" {
        data := file;
      } else if Truthy(given) {
        data := given;
      } else {
        return Fail(SceneFailure(draft));
      }
      var es := Entries(data);
      if es.None? {
        return Fail(TypeError);
      }
      var ok := Utils.ArgsChecker(Names(es.value), ["size", "actions"]);
      if !ok {
        return Fail(SceneFailure(draft));
      }
      o := Pass;
    }
  }

  // ---------------------------------------------------------------------------
  // actions

  /** An `Action` on the scene: the method it calls and the arguments it
      needs, in order. */
  datatype ActionSpec = ActionSpec(func: string, needArgs: seq<string>)

  /** A call of a scene method with its positional arguments. */
  datatype Invocation = Invocation(func: string, args: seq<Json>)

  /** The actions `preprocess` registers; lib/scene.js registers
      `setRandomBackground` without arguments. */
  function ActionTable(d: SceneDraft): map<string, ActionSpec>
  {
    map[]
      ["addLine" := ActionSpec("addLine", ["mapres", "source", "point_source", "point_destination"])]
      ["addBlock" := ActionSpec("addBlock", ["mapres", "source", "destination"])]
      ["setRandomBackground" := ActionSpec("setRandomBackground", if d == SceneTs then ["folder"] else [])]
      ["addTee" := ActionSpec("addTee", ["skin", "destination"])]
      ["setBackground" := ActionSpec("setBackground", ["image"])]
      ["addSquare" := ActionSpec("addSquare", ["mapres", "source", "topLeft", "bottomRight"])]
  }

  /** Registering onto a table is a union with what was registered. */
  lemma UnionUpdate<K, V>(m: map<K, V>, t: map<K, V>, k: K, v: V)
    ensures m + t[k := v] == (m + t)[k := v]
  {
  }

  /** `get(name)`: the action registered under a string name, else null. */
  function GetAction(table: map<string, ActionSpec>, name: Json): (r: Option<ActionSpec>)
    ensures r.Some? <==> name.Str? && name.s in table
    ensures r.Some? ==> r.value == table[name.s]
  {
    if name.Str? && name.s in table then Some(table[name.s]) else None
  }

  /** A key that is not there reads as undefined. */
  lemma {:induction false} LookupAbsent(es: seq<(string, Json)>, key: string)
    requires key !in Names(es)
    ensures Lookup(es, key) == Undefined
    decreases |es|
  {
    if es != [] {
      assert Names(es) == [es[0].0] + Names(es[1..]);
      LookupAbsent(es[1..], key);
    }
  }

  /** After `obj[key] = v` on a key that is there, the key reads v and every
      other key reads as before. */
  lemma {:induction false} LookupPut(es: seq<(string, Json)>, key: string, v: Json, k: string)
    requires key in Names(es)
    ensures Lookup(Put(es, key, v), k) == if k == key then v else Lookup(es, k)
    decreases |es|
  {
    assert Names(es) == [es[0].0] + Names(es[1..]);
    if es[0].0 != key {
      LookupPut(es[1..], key, v, k);
    }
  }

  /** Writing back the value a key reads changes nothing. */
  lemma {:induction false} PutSame(es: seq<(string, Json)>, key: string)
    requires key in Names(es)
    ensures Put(es, key, Lookup(es, key)) == es
    decreases |es|
  {
    assert Names(es) == [es[0].0] + Names(es[1..]);
    if es[0].0 != key {
      PutSame(es[1..], key);
    }
  }

  /** Once the needed keys are deleted, the keys left are the others. */
  lemma {:induction false} NamesRemoveAll(es: seq<(string, Json)>, need: seq<string>, k: string)
    ensures k in Names(RemoveAll(es, need)) <==> k in Names(es) && k !in need
    decreases |need|
  {
    if need != [] {
      NamesRemoveAll(Remove(es, need[0]), need[1..], k);
      NamesRemove(es, need[0], k);
      assert k in need <==> k == need[0] || k in need[1..];
    }
  }

  /** The arguments `Action.call` passes: each needed one in declared order,
      deleted as it is taken, then the values left, in key order. */
  function Arrange(need: seq<string>, es: seq<(string, Json)>): seq<Json>
    decreases |need|
  {
    if need == [] then Values(es) else [Lookup(es, need[0])] + Arrange(need[1..], Remove(es, need[0]))
  }

  /** `call(args)`: `Object.keys` throws on null and undefined; a needed
      name missing from the keys throws the scene error. */
  function CallResult(d: SceneDraft, spec: ActionSpec, args: Json): (r: Result<seq<Json>>)
    ensures r.Ok? <==> Entries(args).Some? && Within(spec.needArgs, Names(Entries(args).value))
    ensures r.Err? ==> r.error == (if Entries(args).None? then TypeError else SceneFailure(d))
  {
    match Entries(args)
    case None => Err(TypeError)
    case Some(es) => if Within(spec.needArgs, Names(es)) then Ok(Arrange(spec.needArgs, es)) else Err(SceneFailure(d))
  }

  /** The arguments object once `call` has taken the needed values: `delete
      args[arg]` acts on the caller's own object, which loses the needed keys.
      The needed names of the registered actions are words, never array
      indices, so an array or a string that `argsChecker` accepts has nothing to
      delete and is kept. */
  function Consumed(need: seq<string>, args: Json): (r: Json)
    ensures args.Obj? ==> r.Obj? && forall k :: k in Names(r.fields) <==> k in Names(args.fields) && k !in need
    ensures !args.Obj? ==> r == args
  {
    if args.Obj? then
      var left := RemoveAll(args.fields, need);
      assert forall k :: k in Names(left) <==> k in Names(args.fields) && k !in need by {
        forall k {
          NamesRemoveAll(args.fields, need, k);
        }
      }
      Obj(left)
    else args
  }

  lemma {:induction false} ValuesCount(es: seq<(string, Json)>)
    ensures |Values(es)| == |es|
    decreases |es|
  {
    if es != [] {
      ValuesCount(es[1..]);
    }
  }

  /** Deleting a key that is not the one read leaves the read alone. */
  lemma {:induction false} LookupRemove(es: seq<(string, Json)>, gone: string, key: string)
    requires gone != key
    ensures Lookup(Remove(es, gone), key) == Lookup(es, key)
    decreases |es|
  {
    if es != [] {
      LookupRemove(es[1..], gone, key);
    }
  }

  /** Deleting a key keeps the other names and brings no new one. */
  lemma {:induction false} NamesRemove(es: seq<(string, Json)>, gone: string, k: string)
    ensures k in Names(Remove(es, gone)) <==> k in Names(es) && k != gone
    decreases |es|
  {
    if es != [] {
      NamesRemove(es[1..], gone, k);
      if es[0].0 != gone {
        assert Names(Remove(es, gone)) == [es[0].0] + Names(Remove(es[1..], gone));
      }
    }
  }

  /** Deleting an absent key changes nothing. */
  lemma {:induction false} RemoveAbsent(es: seq<(string, Json)>, key: string)
    requires key !in Names(es)
    ensures Remove(es, key) == es
    decreases |es|
  {
    if es != [] {
      RemoveAbsent(es[1..], key);
    }
  }

  /** Deleting a present key of distinct keys takes out exactly its value. */
  lemma {:induction false} RemoveValues(es: seq<(string, Json)>, key: string)
    requires DistinctNames(es) && key in Names(es)
    ensures multiset(Values(es)) == multiset{Lookup(es, key)} + multiset(Values(Remove(es, key)))
    ensures DistinctNames(Remove(es, key)) && |Remove(es, key)| == |es| - 1
    decreases |es|
  {
    var rest := es[1..];
    if es[0].0 == key {
      RemoveAbsent(rest, key);
    } else {
      RemoveValues(rest, key);
      NamesRemove(rest, key, es[0].0);
      assert Remove(es, key) == [es[0]] + Remove(rest, key);
    }
  }

  /** With distinct needed names, all present among distinct keys, the call
      passes the needed values in declared order, then the others; the
      arguments are a permutation of the object's values. */
  lemma {:induction false} ArrangePermutes(need: seq<string>, es: seq<(string, Json)>)
    requires DistinctStrings(need) && DistinctNames(es) && Within(need, Names(es))
    ensures var r := Arrange(need, es);
      |need| <= |r| == |es| && multiset(r) == multiset(Values(es)) &&
      forall i :: 0 <= i < |need| ==> r[i] == Lookup(es, need[i])
    decreases |need|
  {
    if need == [] {
      ValuesCount(es);
    } else {
      var k := need[0];
      var rest := Remove(es, k);
      RemoveValues(es, k);
      forall i | 0 <= i < |need| - 1
        ensures need[1..][i] in Names(rest)
      {
        NamesRemove(es, k, need[i + 1]);
      }
      ArrangePermutes(need[1..], rest);
      var r := Arrange(need, es);
      forall i | 0 <= i < |need|
        ensures r[i] == Lookup(es, need[i])
      {
        if i > 0 {
          LookupRemove(es, k, need[i]);
          assert r[i] == Arrange(need[1..], rest)[i - 1];
        }
      }
    }
  }

  /** `Actions`: the registered actions by name. */
  class Actions {
    var actions: map<string, ActionSpec>

    constructor ()
      ensures actions == map[]
    {
      actions := map[];
    }

    /** `add(name, object, func, ...needArgs)`: a later action of the same
        name replaces the earlier one. */
    method Add(name: string, spec: ActionSpec)
      modifies this
      ensures actions == old(actions)[name := spec]
    {
      actions := actions[name := spec];
    }

    /** `get(name)`. */
    function Get(name: Json): (r: Option<ActionSpec>)
      reads this
      ensures r == GetAction(actions, name)
    {
      if name.Str? && name.s in actions then Some(actions[name.s]) else None
    }

    /** `call(args)` of the action: the loop that takes each needed value
        and deletes its key from `args`, which comes back as `left`. */
    method Call(d: SceneDraft, spec: ActionSpec, args: Json) returns (r: Result<seq<Json>>, left: Json)
      ensures r == CallResult(d, spec, args)
      ensures left == if r.Ok? then Consumed(spec.needArgs, args) else args
    {
      left := args;
      var es := Entries(args);
      if es.None? {
        return Err(TypeError), left;
      }
      var ok := Utils.ArgsChecker(spec.needArgs, Names(es.value));
      if !ok {
        return Err(SceneFailure(d)), left;
      }
      var good: seq<Json> := [];
      var rest := es.value;
      for k := 0 to |spec.needArgs|
        invariant good + Arrange(spec.needArgs[k..], rest) == Arrange(spec.needArgs, es.value)
        invariant RemoveAll(rest, spec.needArgs[k..]) == RemoveAll(es.value, spec.needArgs)
      {
        assert spec.needArgs[k..][1..] == spec.needArgs[k + 1..];
        good := good + [Lookup(rest, spec.needArgs[k])];
        rest := Remove(rest, spec.needArgs[k]);
      }
      r := Ok(good + Values(rest));
      if args.Obj? {
        left := Obj(rest);
      }
    }

    /** `tryCall(name, args)`: nothing for an unknown name, else the call;
        `left` is `args` after it. */
    method TryCall(d: SceneDraft, name: Json, args: Json) returns (r: Result<Option<Invocation>>, left: Json)
      ensures GetAction(actions, name).None? ==> r == Ok(None) && left == args
      ensures GetAction(actions, name).Some? ==>
        var spec := GetAction(actions, name).value;
        match CallResult(d, spec, args)
        case Err(e) => r == Err(e) && left == args
        case Ok(vals) => r == Ok(Some(Invocation(spec.func, vals))) && left == Consumed(spec.needArgs, args)
    {
      left := args;
      var spec := Get(name);
      if spec.None? {
        return Ok(None), left;
      }
      var vals;
      vals, left := Call(d, spec.value, args);
      if vals.Err? {
        return Err(vals.error), left;
      }
      r := Ok(Some(Invocation(spec.value.func, vals.value)));
    }
  }

  /** The action list of a scheme: `data.actions` iterated by `for..of`; a
      string iterates as its characters, anything else that is not an array
      throws. None where the source throws. */
  function ActionItems(data: Json): Option<seq<Json>>
  {
    match Member(data, "actions")
    case None => None
    case Some(Arr(items)) => Some(items)
    case Some(Str(s)) => Some(seq(|s|, i requires 0 <= i < |s| => Str([s[i]])))
    case Some(_) => None
  }

  /** One turn of the loop of `execScheme` on an item: a throw; nothing,
      for an item whose keys are not within {name, args} or that names no
      action; or the call made, with the item as the call leaves it, its
      needed arguments deleted from its own `args` object. */
  function ItemCall(d: SceneDraft, table: map<string, ActionSpec>, item: Json): Result<Option<(Invocation, Json)>>
  {
    match Entries(item)
    case None => Err(TypeError)
    case Some(es) =>
      if !Within(Names(es), ["name", "args"]) then Ok(None)
      else
        var args := Member(item, "args").value;
        match GetAction(table, Member(item, "name").value)
        case None => Ok(None)
        case Some(spec) =>
          match CallResult(d, spec, args)
          case Err(e) => Err(e)
          case Ok(vals) => Ok(Some((Invocation(spec.func, vals), WithArgs(item, Consumed(spec.needArgs, args)))))
  }

  /** The loop of `execScheme` from `acc` on: an item whose keys are not
      within {name, args} is skipped, an unknown name does nothing, and the
      first call that throws ends the run. */
  function ExecRun(d: SceneDraft, table: map<string, ActionSpec>, acc: seq<Invocation>, items: seq<Json>): (Outcome, seq<Invocation>)
    decreases |items|
  {
    if items == [] then (Pass, acc)
    else
      match ItemCall(d, table, items[0])
      case Err(e) => (Fail(e), acc)
      case Ok(None) => ExecRun(d, table, acc, items[1..])
      case Ok(Some(call)) => ExecRun(d, table, acc + [call.0], items[1..])
  }

  /** An action item whose `args` property now holds `args`. */
  function WithArgs(item: Json, args: Json): Json
  {
    if item.Obj? then Obj(Put(item.fields, "args", args)) else item
  }

  /** The action items after an `execScheme` run over them: every action
      that was called has lost its needed arguments, since `call` deletes
      them from the scheme's own `args` objects; the other items, and every
      item from the first throw on, are as they were. */
  function ExecItems(d: SceneDraft, table: map<string, ActionSpec>, items: seq<Json>): (r: seq<Json>)
    ensures |r| == |items|
    decreases |items|
  {
    if items == [] then []
    else
      match ItemCall(d, table, items[0])
      case Err(_) => items
      case Ok(None) => [items[0]] + ExecItems(d, table, items[1..])
      case Ok(Some(call)) => [call.1] + ExecItems(d, table, items[1..])
  }

  /** One item of a run, for the calls the run makes and for the items it
      leaves. */
  lemma ExecStep(d: SceneDraft, table: map<string, ActionSpec>, acc: seq<Invocation>, items: seq<Json>)
    requires items != []
    ensures var c := ItemCall(d, table, items[0]);
      c.Err? ==> ExecRun(d, table, acc, items) == (Fail(c.error), acc) && ExecItems(d, table, items) == items
    ensures var c := ItemCall(d, table, items[0]);
      c == Ok(None) ==> ExecRun(d, table, acc, items) == ExecRun(d, table, acc, items[1..]) &&
                        ExecItems(d, table, items) == [items[0]] + ExecItems(d, table, items[1..])
    ensures var c := ItemCall(d, table, items[0]);
      c.Ok? && c.value.Some? ==>
        ExecRun(d, table, acc, items) == ExecRun(d, table, acc + [c.value.value.0], items[1..]) &&
        ExecItems(d, table, items) == [c.value.value.1] + ExecItems(d, table, items[1..])
  {
  }

  /** One turn of the loop of `execScheme` at item k, whose action call
      gave `c`, for the calls made by the turns before it. */
  lemma ExecTurnCalls(d: SceneDraft, table: map<string, ActionSpec>, items: seq<Json>, k: nat,
                      calls: seq<Invocation>, c: Result<Option<(Invocation, Json)>>)
    requires k < |items|
    requires c == ItemCall(d, table, items[k])
    requires ExecRun(d, table, [], items) == ExecRun(d, table, calls, items[k..])
    ensures c.Err? ==> ExecRun(d, table, [], items) == (Fail(c.error), calls)
    ensures c == Ok(None) ==> ExecRun(d, table, [], items) == ExecRun(d, table, calls, items[k + 1..])
    ensures c.Ok? && c.value.Some? ==>
      ExecRun(d, table, [], items) == ExecRun(d, table, calls + [c.value.value.0], items[k + 1..])
  {
    var rest := items[k..];
    assert rest[0] == items[k] && rest[1..] == items[k + 1..];
    ExecStep(d, table, calls, rest);
  }

  /** One turn of the loop of `execScheme` at item k, whose action call
      gave `c`, for the items left by the turns before it: a throw leaves
      this item and the rest as they were. */
  lemma ExecTurnThrows(d: SceneDraft, table: map<string, ActionSpec>, items: seq<Json>, k: nat,
                       done: seq<Json>, c: Result<Option<(Invocation, Json)>>)
    requires k < |items| && |done| == k
    requires c == ItemCall(d, table, items[k])
    requires ExecItems(d, table, items) == done + ExecItems(d, table, items[k..])
    ensures done + items[k..] == (done + [items[k]]) + items[k + 1..]
    ensures c.Err? ==> ExecItems(d, table, items) == done + items[k..]
  {
    var rest := items[k..];
    assert rest[0] == items[k] && rest[1..] == items[k + 1..];
    assert done + rest == (done + [items[k]]) + items[k + 1..];
    ExecStep(d, table, [], rest);
  }

  /** One turn of the loop of `execScheme` at item k, whose action call
      gave `c`, for the items left by the turns before it: an item that is
      not thrown on is kept, or replaced by the call's leftover item. */
  lemma ExecTurnItems(d: SceneDraft, table: map<string, ActionSpec>, items: seq<Json>, k: nat,
                      done: seq<Json>, c: Result<Option<(Invocation, Json)>>)
    requires k < |items| && |done| == k
    requires c == ItemCall(d, table, items[k])
    requires ExecItems(d, table, items) == done + ExecItems(d, table, items[k..])
    ensures c == Ok(None) ==> ExecItems(d, table, items) == (done + [items[k]]) + ExecItems(d, table, items[k + 1..])
    ensures c.Ok? && c.value.Some? ==>
      ExecItems(d, table, items) == (done + [c.value.value.1]) + ExecItems(d, table, items[k + 1..])
  {
    var rest := items[k..];
    assert rest[0] == items[k] && rest[1..] == items[k + 1..];
    if c.Ok? {
      var first := if c.value.Some? then c.value.value.1 else items[k];
      ExecItemsKept(d, table, rest, first);
      var after := ExecItems(d, table, items[k + 1..]);
      assert done + ([first] + after) == (done + [first]) + after;
    }
  }

  /** An item that is not thrown on leaves one item, kept or replaced by
      the call's leftover, ahead of the rest's. */
  lemma ExecItemsKept(d: SceneDraft, table: map<string, ActionSpec>, items: seq<Json>, first: Json)
    requires items != [] && ItemCall(d, table, items[0]).Ok?
    requires first == match ItemCall(d, table, items[0]).value
      case Some(call) => call.1
      case None => items[0]
    ensures ExecItems(d, table, items) == [first] + ExecItems(d, table, items[1..])
  {
  }

  /** The scheme's data with the items of its action array replaced. */
  function WithActions(data: Json, items: seq<Json>): Json
  {
    if data.Obj? && Lookup(data.fields, "actions").Arr? then Obj(Put(data.fields, "actions", Arr(items))) else data
  }

  /** Writing back the action items a scheme holds changes nothing. */
  lemma WithOwnActions(data: Json)
    requires ActionItems(data).Some?
    ensures WithActions(data, ActionItems(data).value) == data
  {
    if data.Obj? && Lookup(data.fields, "actions").Arr? {
      if "actions" !in Names(data.fields) {
        LookupAbsent(data.fields, "actions");
      }
      PutSame(data.fields, "actions");
    }
  }

  /** An item that `execScheme` calls with needed arguments taken from an
      `args` object. */
  predicate TakesArgs(table: map<string, ActionSpec>, item: Json)
  {
    Entries(item).Some? && Within(Names(Entries(item).value), ["name", "args"]) &&
    GetAction(table, Member(item, "name").value).Some? &&
    GetAction(table, Member(item, "name").value).value.needArgs != [] &&
    Member(item, "args").value.Obj?
  }

  /** The item a call leaves: an action that took needed arguments from an
      `args` object throws "Missing args" when called with what is left;
      any other item is left as it was. */
  lemma LeftItem(d: SceneDraft, table: map<string, ActionSpec>, item: Json)
    requires ItemCall(d, table, item).Ok? && ItemCall(d, table, item).value.Some?
    ensures TakesArgs(table, item) ==>
      ItemCall(d, table, ItemCall(d, table, item).value.value.1) == Err(SceneFailure(d))
    ensures !TakesArgs(table, item) ==> ItemCall(d, table, item).value.value.1 == item
  {
    var es := Entries(item).value;
    var spec := GetAction(table, Member(item, "name").value).value;
    var args := Member(item, "args").value;
    var left := Consumed(spec.needArgs, args);
    var item2 := WithArgs(item, left);
    // `args` is an own key of the item, or the call would have thrown.
    if "args" !in Names(es) {
      LookupAbsent(es, "args");
    }
    LookupPut(es, "args", left, "name");
    LookupPut(es, "args", left, "args");
    assert Entries(item2) == Some(Put(es, "args", left));
    assert Member(item2, "name") == Member(item, "name");
    assert Member(item2, "args") == Some(left);
    if TakesArgs(table, item) {
      assert spec.needArgs[0] !in Names(left.fields);
      assert !Within(spec.needArgs, Names(left.fields));
      assert CallResult(d, spec, left) == Err(SceneFailure(d));
    } else {
      assert left == args;
      PutSame(es, "args");
    }
  }

  /** The scheme does not survive a run: once a run has passed, running the
      items it left again throws the scene error "Missing args" at the first
      action that took needed arguments. */
  lemma {:induction false} SecondRunFails(d: SceneDraft, table: map<string, ActionSpec>, acc: seq<Invocation>,
                                          again: seq<Invocation>, items: seq<Json>)
    requires ExecRun(d, table, acc, items).0 == Pass
    requires exists i :: 0 <= i < |items| && TakesArgs(table, items[i])
    ensures ExecRun(d, table, again, ExecItems(d, table, items)).0 == Fail(SceneFailure(d))
    decreases |items|
  {
    var item := items[0];
    var rest := items[1..];
    var after := ExecItems(d, table, items);
    var es := Entries(item).value;
    if !Within(Names(es), ["name", "args"]) || GetAction(table, Member(item, "name").value).None? {
      assert after == [item] + ExecItems(d, table, rest);
      assert after[0] == item && after[1..] == ExecItems(d, table, rest);
      assert !TakesArgs(table, item);
      assert exists i :: 0 <= i < |rest| && TakesArgs(table, rest[i]) by {
        var i :| 0 <= i < |items| && TakesArgs(table, items[i]);
        assert i != 0 && rest[i - 1] == items[i];
      }
      SecondRunFails(d, table, acc, again, rest);
      return;
    }
    var call := ItemCall(d, table, item).value.value;
    assert after == [call.1] + ExecItems(d, table, rest);
    assert after[0] == call.1 && after[1..] == ExecItems(d, table, rest);
    LeftItem(d, table, item);
    if !TakesArgs(table, item) {
      assert exists i :: 0 <= i < |rest| && TakesArgs(table, rest[i]) by {
        var i :| 0 <= i < |items| && TakesArgs(table, items[i]);
        assert i != 0 && rest[i - 1] == items[i];
      }
      assert ExecRun(d, table, acc, items) == ExecRun(d, table, acc + [call.0], rest);
      SecondRunFails(d, table, acc + [call.0], again + [call.0], rest);
      assert ExecRun(d, table, again, after) == ExecRun(d, table, again + [call.0], after[1..]);
    }
  }

  /** The methods a table registers. */
  function Methods(table: map<string, ActionSpec>): set<string>
  {
    set n | n in table :: table[n].func
  }

  /** A run only appends, at most one call per item, and each call is one
      of the registered methods. */
  lemma {:induction false} ExecRunCalls(d: SceneDraft, table: map<string, ActionSpec>, acc: seq<Invocation>, items: seq<Json>)
    ensures |acc| <= |ExecRun(d, table, acc, items).1| <= |acc| + |items|
    ensures ExecRun(d, table, acc, items).1[..|acc|] == acc
    ensures forall i :: |acc| <= i < |ExecRun(d, table, acc, items).1| ==>
      ExecRun(d, table, acc, items).1[i].func in Methods(table)
    decreases |items|
  {
    if items == [] {
      return;
    }
    var item := items[0];
    var es := Entries(item);
    if es.None? {
      return;
    }
    if !Within(Names(es.value), ["name", "args"]) {
      assert ExecRun(d, table, acc, items) == ExecRun(d, table, acc, items[1..]);
      ExecRunCalls(d, table, acc, items[1..]);
      return;
    }
    var name := Member(item, "name").value;
    var args := Member(item, "args").value;
    var spec := GetAction(table, name);
    if spec.None? {
      assert ExecRun(d, table, acc, items) == ExecRun(d, table, acc, items[1..]);
      ExecRunCalls(d, table, acc, items[1..]);
      return;
    }
    var call := CallResult(d, spec.value, args);
    if call.Err? {
      return;
    }
    var next := acc + [Invocation(spec.value.func, call.value)];
    assert ExecRun(d, table, acc, items) == ExecRun(d, table, next, items[1..]);
    ExecRunCalls(d, table, next, items[1..]);
    var out := ExecRun(d, table, next, items[1..]).1;
    assert out[..|acc|] == next[..|acc|];
    assert out[|acc|] == next[|acc|];
    assert out[|acc|].func == table[name.s].func;
  }

  /** Items that name no registered action leave the run without calls. */
  lemma {:induction false} ExecRunUnknown(d: SceneDraft, table: map<string, ActionSpec>, acc: seq<Invocation>, items: seq<Json>)
    requires forall i :: 0 <= i < |items| ==> items[i].Obj? && GetAction(table, Lookup(items[i].fields, "name")).None?
    ensures ExecRun(d, table, acc, items) == (Pass, acc)
    decreases |items|
  {
    if items != [] {
      ExecRunUnknown(d, table, acc, items[1..]);
    }
  }

  // ---------------------------------------------------------------------------
  // tiling

  datatype Rect4 = Rect4(x: int, y: int, w: int, h: int)

  /** A `Part`: the `getImageData(...source)` of a mapres, drawn at
      `destination`. */
  datatype Part = Part(mapres: string, source: Rect4, destination: Rect4)

  /** The while loop of `addLine` from (sx, sy) to (dx, dy): x moves by `w`
      while below dx, y by `h` while below dy, until both ends are met or one
      passes its end. */
  function LineSteps(sx: int, sy: int, dx: int, dy: int, w: int, h: int): (r: seq<(int, int)>)
    requires w > 0 && h > 0
    ensures sx <= dx && sy <= dy <==> r != []
    ensures r != [] ==> r[0] == (sx, sy)
    decreases if sx <= dx && sy <= dy then (dx - sx) + (dy - sy) + 1 else 0
  {
    if !(sx <= dx && sy <= dy) then []
    else if sx == dx && sy == dy then [(sx, sy)]
    else [(sx, sy)] + LineSteps(if sx < dx then sx + w else sx, if sy < dy then sy + h else sy, dx, dy, w, h)
  }

  /** Every block of the loop lies between the start and the end. */
  lemma {:induction false} LineInside(sx: int, sy: int, dx: int, dy: int, w: int, h: int)
    requires w > 0 && h > 0
    ensures forall i :: 0 <= i < |LineSteps(sx, sy, dx, dy, w, h)| ==>
      sx <= LineSteps(sx, sy, dx, dy, w, h)[i].0 <= dx && sy <= LineSteps(sx, sy, dx, dy, w, h)[i].1 <= dy
    decreases if sx <= dx && sy <= dy then (dx - sx) + (dy - sy) + 1 else 0
  {
    if sx <= dx && sy <= dy && !(sx == dx && sy == dy) {
      var nx := if sx < dx then sx + w else sx;
      var ny := if sy < dy then sy + h else sy;
      LineInside(nx, ny, dx, dy, w, h);
      var r := LineSteps(sx, sy, dx, dy, w, h);
      var rest := LineSteps(nx, ny, dx, dy, w, h);
      assert r == [(sx, sy)] + rest;
      forall i | 0 <= i < |r|
        ensures sx <= r[i].0 <= dx && sy <= r[i].1 <= dy
      {
        if i > 0 {
          assert r[i] == rest[i - 1];
        }
      }
    }
  }

  /** One turn of the loop: x moves by `w` while below dx, y by `h` while
      below dy. */
  function Next(p: (int, int), dx: int, dy: int, w: int, h: int): (int, int)
  {
    (if p.0 < dx then p.0 + w else p.0, if p.1 < dy then p.1 + h else p.1)
  }

  /** Each block of the line is one turn of the loop after the one before. */
  lemma {:induction false} LineStride(sx: int, sy: int, dx: int, dy: int, w: int, h: int)
    requires w > 0 && h > 0
    ensures forall i :: 0 <= i < |LineSteps(sx, sy, dx, dy, w, h)| - 1 ==>
      LineSteps(sx, sy, dx, dy, w, h)[i + 1] == Next(LineSteps(sx, sy, dx, dy, w, h)[i], dx, dy, w, h)
    decreases if sx <= dx && sy <= dy then (dx - sx) + (dy - sy) + 1 else 0
  {
    if sx <= dx && sy <= dy && !(sx == dx && sy == dy) {
      var n := Next((sx, sy), dx, dy, w, h);
      LineStride(n.0, n.1, dx, dy, w, h);
      var r := LineSteps(sx, sy, dx, dy, w, h);
      var rest := LineSteps(n.0, n.1, dx, dy, w, h);
      assert r == [(sx, sy)] + rest;
      forall i | 0 <= i < |r| - 1
        ensures r[i + 1] == Next(r[i], dx, dy, w, h)
      {
        if i > 0 {
          assert r[i] == rest[i - 1] && r[i + 1] == rest[i];
        }
      }
    }
  }

  function Min(a: int, b: int): int { if a <= b then a else b }

  function Max(a: int, b: int): int { if a <= b then b else a }

  /** The blocks of `addLine(mapres, source, start, end)`: the same start
      and end throw; both start coordinates past the end add the line from
      the end to the start (the recursive call), one past adds nothing. */
  function LinePoints(d: SceneDraft, sx: int, sy: int, dx: int, dy: int, w: int, h: int): (r: Result<seq<(int, int)>>)
    requires w > 0 && h > 0
    ensures r.Err? <==> sx == dx && sy == dy
    ensures r.Err? ==> r.error == SceneFailure(d)
    ensures r.Ok? ==> forall i :: 0 <= i < |r.value| ==>
      Min(sx, dx) <= r.value[i].0 <= Max(sx, dx) && Min(sy, dy) <= r.value[i].1 <= Max(sy, dy)
    ensures (sx > dx) != (sy > dy) ==> r == Ok([])
    ensures r.Ok? && sx > dx && sy > dy ==> r.value != [] && r.value[0] == (dx, dy)
  {
    if sx == dx && sy == dy then Err(SceneFailure(d))
    else if sx > dx && sy > dy then
      LineInside(dx, dy, sx, sy, w, h);
      Ok(LineSteps(dx, dy, sx, sy, w, h))
    else if sx > dx || sy > dy then Ok([])
    else
      LineInside(sx, sy, dx, dy, w, h);
      Ok(LineSteps(sx, sy, dx, dy, w, h))
  }

  /** How many values `for (v = a; v < b; v += step)` takes. */
  function Count(a: int, b: int, step: int): nat
    requires step > 0
    decreases if a < b then b - a else 0
  {
    if a < b then 1 + Count(a + step, b, step) else 0
  }

  /** The inner loop of `addSquare`: the row at height y. */
  function RowFrom(x: int, dx: int, w: int, y: int): seq<(int, int)>
    requires w > 0
    decreases if x < dx then dx - x else 0
  {
    if x < dx then [(x, y)] + RowFrom(x + w, dx, w, y) else []
  }

  /** The outer loop of `addSquare`: the rows from height y on. */
  function SquareFrom(sx: int, dx: int, w: int, y: int, dy: int, h: int): seq<(int, int)>
    requires w > 0 && h > 0
    decreases if y < dy then dy - y else 0
  {
    if y < dy then RowFrom(sx, dx, w, y) + SquareFrom(sx, dx, w, y + h, dy, h) else []
  }

  /** A row holds x, x + w, ... while below dx, and nothing from dx on. */
  lemma {:induction false} RowIndex(x: int, dx: int, w: int, y: int)
    requires w > 0
    ensures |RowFrom(x, dx, w, y)| == Count(x, dx, w)
    ensures x + Count(x, dx, w) * w >= dx
    ensures forall i :: 0 <= i < |RowFrom(x, dx, w, y)| ==> RowFrom(x, dx, w, y)[i] == (x + i * w, y) && x + i * w < dx
    decreases if x < dx then dx - x else 0
  {
    if x < dx {
      RowIndex(x + w, dx, w, y);
      var r := RowFrom(x, dx, w, y);
      var rest := RowFrom(x + w, dx, w, y);
      assert r == [(x, y)] + rest;
      Distrib(|r|, w);
      forall i | 0 <= i < |r|
        ensures r[i] == (x + i * w, y) && x + i * w < dx
      {
        if i > 0 {
          assert r[i] == rest[i - 1];
          Distrib(i, w);
        }
      }
    }
  }

  lemma Distrib(k: int, n: int)
    ensures k * n == n + (k - 1) * n
  {
  }

  lemma IndexBound(j: int, n: int, i: int, m: int)
    requires 0 <= j < m && 0 <= i < n
    ensures 0 <= j * n + i < m * n
  {
    assert (j + 1) * n <= m * n by {
      assert (m - (j + 1)) * n >= 0;
    }
  }

  /** Point j·n + i of r, with n points a row, is (sx + i·w, y + j·h). */
  ghost predicate Grid(r: seq<(int, int)>, sx: int, w: int, y: int, h: int, m: nat, n: nat)
  {
    |r| == m * n &&
    forall j, i :: 0 <= j < m && 0 <= i < n ==> 0 <= j * n + i < |r| && r[j * n + i] == (sx + i * w, y + j * h)
  }

  /** A row of n points at height y on top of a grid from y + h is a grid
      from y. */
  lemma GridCons(row: seq<(int, int)>, rest: seq<(int, int)>, sx: int, w: int, y: int, h: int, m: nat, n: nat)
    requires m >= 1 && |row| == n
    requires forall i :: 0 <= i < n ==> row[i] == (sx + i * w, y)
    requires Grid(rest, sx, w, y + h, h, m - 1, n)
    ensures Grid(row + rest, sx, w, y, h, m, n)
  {
    var r := row + rest;
    Distrib(m, n);
    forall j, i | 0 <= j < m && 0 <= i < n
      ensures 0 <= j * n + i < |r| && r[j * n + i] == (sx + i * w, y + j * h)
    {
      IndexBound(j, n, i, m);
      if j > 0 {
        IndexBound(j - 1, n, i, m - 1);
        Distrib(j, n);
        Distrib(j, h);
        assert r[j * n + i] == rest[(j - 1) * n + i];
      }
    }
  }

  /** `addSquare`'s blocks are the grid points from the top-left corner,
      strictly above and left of the bottom-right one, row after row. */
  lemma {:induction false} SquareIndex(sx: int, dx: int, w: int, y: int, dy: int, h: int)
    requires w > 0 && h > 0
    ensures Grid(SquareFrom(sx, dx, w, y, dy, h), sx, w, y, h, Count(y, dy, h), Count(sx, dx, w))
    decreases if y < dy then dy - y else 0
  {
    if y < dy {
      SquareIndex(sx, dx, w, y + h, dy, h);
      RowIndex(sx, dx, w, y);
      GridCons(RowFrom(sx, dx, w, y), SquareFrom(sx, dx, w, y + h, dy, h), sx, w, y, h, Count(y, dy, h), Count(sx, dx, w));
    } else {
      assert SquareFrom(sx, dx, w, y, dy, h) == [];
    }
  }

  /** The blocks `addBlock(mapres, source, [x, y, w, h])` adds for points. */
  function Blocks(mapres: string, source: Rect4, pts: seq<(int, int)>): (r: seq<Part>)
    ensures |r| == |pts|
    decreases |pts|
  {
    if pts == [] then []
    else [Part(mapres, source, Rect4(pts[0].0, pts[0].1, source.w, source.h))] + Blocks(mapres, source, pts[1..])
  }

  /** Block i is drawn at point i, with the source's size. */
  lemma {:induction false} BlocksIndex(mapres: string, source: Rect4, pts: seq<(int, int)>)
    ensures forall i :: 0 <= i < |pts| ==>
      Blocks(mapres, source, pts)[i] == Part(mapres, source, Rect4(pts[i].0, pts[i].1, source.w, source.h))
    decreases |pts|
  {
    if pts != [] {
      BlocksIndex(mapres, source, pts[1..]);
    }
  }

  lemma {:induction false} BlocksAppend(mapres: string, source: Rect4, a: seq<(int, int)>, b: seq<(int, int)>)
    ensures Blocks(mapres, source, a + b) == Blocks(mapres, source, a) + Blocks(mapres, source, b)
    decreases |a|
  {
    if a != [] {
      BlocksAppend(mapres, source, a[1..], b);
      assert (a + b)[0] == a[0] && (a + b)[1..] == a[1..] + b;
      assert Blocks(mapres, source, a) ==
        [Part(mapres, source, Rect4(a[0].0, a[0].1, source.w, source.h))] + Blocks(mapres, source, a[1..]);
      assert Blocks(mapres, source, a + b) ==
        [Part(mapres, source, Rect4(a[0].0, a[0].1, source.w, source.h))] + Blocks(mapres, source, a[1..] + b);
    } else {
      assert a + b == b;
    }
  }

  /** One step of the `addLine` loop: the block at the current point, then
      the blocks of the points after it. */
  lemma WalkStep(mapres: string, source: Rect4, sx: int, sy: int, dx: int, dy: int)
    requires source.w > 0 && source.h > 0 && sx <= dx && sy <= dy
    ensures Blocks(mapres, source, LineSteps(sx, sy, dx, dy, source.w, source.h)) ==
      [Part(mapres, source, Rect4(sx, sy, source.w, source.h))] +
      (if sx == dx && sy == dy then []
       else Blocks(mapres, source, LineSteps(if sx < dx then sx + source.w else sx, if sy < dy then sy + source.h else sy, dx, dy, source.w, source.h)))
  {
    var w, h := source.w, source.h;
    var nx, ny := if sx < dx then sx + w else sx, if sy < dy then sy + h else sy;
    var rest := if sx == dx && sy == dy then [] else LineSteps(nx, ny, dx, dy, w, h);
    assert LineSteps(sx, sy, dx, dy, w, h) == [(sx, sy)] + rest;
    BlocksAppend(mapres, source, [(sx, sy)], rest);
    assert Blocks(mapres, source, [(sx, sy)]) == [Part(mapres, source, Rect4(sx, sy, w, h))];
  }

  /** Moving the next block from the pending ones to the added ones. */
  lemma WalkShift(added: seq<Part>, block: Part, rest: seq<Part>)
    ensures added + ([block] + rest) == (added + [block]) + rest
    ensures rest == [] ==> added + ([block] + rest) == added + [block]
  {
  }

  /** A `drawImage(part.canvas, 0, 0, width, height, ...destination)` of
      `renderScene`. */
  datatype PartDraw = PartDraw(mapres: string, from: Rect4, to: Rect4)

  function Drawn(p: Part): PartDraw
  {
    PartDraw(p.mapres, Rect4(0, 0, p.source.w, p.source.h), p.destination)
  }

  /** The canvas cache of lib/scene.js, keyed by path. */
  class CanvasCache<T> {
    var cache: map<string, T>

    constructor ()
      ensures cache == map[]
    {
      cache := map[];
    }

    /** `getCanvas(key)`: the stored canvas, null for an unknown key. */
    function GetCanvas(key: string): (r: Option<T>)
      reads this
      ensures r.None? <==> key !in cache
      ensures r.Some? ==> r.value == cache[key]
    {
      if key in cache then Some(cache[key]) else None
    }

    /** `addCanvas(key, canvas)`: a key already there keeps its canvas. */
    method AddCanvas(key: string, canvas: T)
      modifies this
      ensures cache == Caches.Put(old(cache), key, canvas).0
    {
      if GetCanvas(key).Some? {
        return;
      }
      cache := cache[key := canvas];
    }
  }

  /** What `initCanvas` reads: `data.size.w` and `data.size.h`; None where
      the size is null or missing and reading `w` throws. */
  function CanvasSizeOf(data: Json): (r: Option<(Json, Json)>)
    requires !data.Undefined? && !data.Null?
    ensures r.None? <==> Member(data, "size").value.Undefined? || Member(data, "size").value.Null?
  {
    var size := Member(data, "size").value;
    if size.Undefined? || size.Null? then None else Some((Member(size, "w").value, Member(size, "h").value))
  }

  /** A scheme without a size passes the key check, then `initCanvas`
      throws a TypeError. */
  lemma MissingSizeCrashes(d: SceneDraft)
    ensures CheckScheme(d, Obj([("actions", Arr([]))])) == Pass
    ensures CanvasSizeOf(Obj([("actions", Arr([]))])).None?
  {
  }

  /** `Scene` of lib/scene.ts, `TwSceneMaker` of lib/scene.js. */
  class Scene {
    const draft: SceneDraft
    const scheme: Scheme
    const actions: Actions
    var parts: seq<Part>
    /** The `w` and `h` that `initCanvas` read from the scheme's size. */
    var canvasSize: Option<(Json, Json)>

    ghost predicate Valid()
      reads this, scheme
    {
      scheme.draft == draft
    }

    constructor (draft: SceneDraft, path: string)
      ensures Valid() && this.draft == draft && scheme.path == path && parts == [] && canvasSize.None?
      ensures actions.actions == map[] && fresh(scheme) && fresh(actions)
    {
      this.draft := draft;
      scheme := new Scheme(draft, path);
      actions := new Actions();
      parts := [];
      canvasSize := None;
    }

    /** The six `actions.add` calls of `preprocess`. */
    method Register()
      modifies actions
      ensures actions.actions == old(actions.actions) + ActionTable(draft)
    {
      ghost var m := actions.actions;
      var ts := if draft == SceneTs then ["folder"] else [];
      var t1 := map["addLine" := ActionSpec("addLine", ["mapres", "source", "point_source", "point_destination"])];
      var t2 := t1["addBlock" := ActionSpec("addBlock", ["mapres", "source", "destination"])];
      var t3 := t2["setRandomBackground" := ActionSpec("setRandomBackground", ts)];
      var t4 := t3["addTee" := ActionSpec("addTee", ["skin", "destination"])];
      var t5 := t4["setBackground" := ActionSpec("setBackground", ["image"])];
      var t6 := t5["addSquare" := ActionSpec("addSquare", ["mapres", "source", "topLeft", "bottomRight"])];
      assert m + map[] == m;
      actions.Add("addLine", t1["addLine"]);
      UnionUpdate(m, map[], "addLine", t1["addLine"]);
      actions.Add("addBlock", t2["addBlock"]);
      UnionUpdate(m, t1, "addBlock", t2["addBlock"]);
      actions.Add("setRandomBackground", t3["setRandomBackground"]);
      UnionUpdate(m, t2, "setRandomBackground", t3["setRandomBackground"]);
      actions.Add("addTee", t4["addTee"]);
      UnionUpdate(m, t3, "addTee", t4["addTee"]);
      actions.Add("setBackground", t5["setBackground"]);
      UnionUpdate(m, t4, "setBackground", t5["setBackground"]);
      actions.Add("addSquare", t6["addSquare"]);
      UnionUpdate(m, t5, "addSquare", t6["addSquare"]);
      assert t6 == ActionTable(draft);
    }

    /** `preprocess(scheme)`: the scheme, the six actions, then the canvas
        at the scheme's `size.w` by `size.h`; a missing size throws there,
        though the key check let it through. */
    method Preprocess(file: Json, given: Json) returns (o: Outcome)
      requires Valid()
      modifies this, scheme, actions
      ensures Valid()
      ensures var chosen := ChosenData(scheme.path, file, given);
        if chosen.None? then o == Fail(SceneFailure(draft))
        else if CheckScheme(draft, chosen.value).Fail? then o == CheckScheme(draft, chosen.value)
        else
          actions.actions == old(actions.actions) + ActionTable(draft) &&
          o == (if CanvasSizeOf(chosen.value).None? then Fail(TypeError) else Pass) &&
          (o == Pass ==> canvasSize == CanvasSizeOf(chosen.value))
    {
      o := scheme.Preprocess(file, given);
      if o.Fail? {
        return;
      }
      Register();
      var size := Member(scheme.data, "size").value;
      if size.Undefined? || size.Null? {
        return Fail(TypeError);
      }
      canvasSize := Some((Member(size, "w").value, Member(size, "h").value));
    }

    /** One turn of the loop of `execScheme`: the keys checked, then
        `tryCall` with the item's name and arguments. */
    method ExecItem(item: Json) returns (r: Result<Option<(Invocation, Json)>>)
      ensures r == ItemCall(draft, actions.actions, item)
    {
      var es := Entries(item);
      if es.None? {
        return Err(TypeError);
      }
      var ok := Utils.ArgsChecker(Names(es.value), ["name", "args"]);
      if !ok {
        return Ok(None);
      }
      var call, left := actions.TryCall(draft, Member(item, "name").value, Member(item, "args").value);
      if call.Err? {
        return Err(call.error);
      }
      if call.value.None? {
        return Ok(None);
      }
      r := Ok(Some((call.value.value, WithArgs(item, left))));
    }

    /** The loop of `execScheme()` over the scheme's action items: the
        calls made, in order, and the items as the calls leave them. */
    method RunItems(items: seq<Json>) returns (o: Outcome, calls: seq<Invocation>, left: seq<Json>)
      ensures (o, calls) == ExecRun(draft, actions.actions, [], items)
      ensures left == ExecItems(draft, actions.actions, items)
    {
      calls := [];
      var done: seq<Json> := [];
      ghost var table := actions.actions;
      for k := 0 to |items|
        invariant |done| == k
        invariant ExecRun(draft, table, [], items) == ExecRun(draft, table, calls, items[k..])
        invariant ExecItems(draft, table, items) == done + ExecItems(draft, table, items[k..])
      {
        var r := ExecItem(items[k]);
        ExecTurnCalls(draft, table, items, k, calls, r);
        ExecTurnThrows(draft, table, items, k, done, r);
        ExecTurnItems(draft, table, items, k, done, r);
        if r.Err? {
          return Fail(r.error), calls, done + items[k..];
        }
        if r.value.Some? {
          calls := calls + [r.value.value.0];
          done := done + [r.value.value.1];
        } else {
          done := done + [items[k]];
        }
      }
      assert items[|items|..] == [];
      o, left := Pass, done;
    }

    /** `execScheme()`: the calls the scheme's actions make, in order, each
        call deleting its needed arguments from the scheme's own `args`
        object. Nothing reads the scheme between two calls, so the items the
        calls leave are written back once, after the last call or the throw.
        What each called method then does is modelled by the methods below. */
    method ExecScheme() returns (o: Outcome, calls: seq<Invocation>)
      modifies scheme
      ensures ActionItems(old(scheme.data)).None? ==>
        o == Fail(TypeError) && calls == [] && scheme.data == old(scheme.data)
      ensures ActionItems(old(scheme.data)).Some? ==>
        var items := ActionItems(old(scheme.data)).value;
        (o, calls) == ExecRun(draft, actions.actions, [], items) &&
        scheme.data == WithActions(old(scheme.data), ExecItems(draft, actions.actions, items))
    {
      var items := ActionItems(scheme.data);
      if items.None? {
        return Fail(TypeError), [];
      }
      var left;
      o, calls, left := RunItems(items.value);
      scheme.data := WithActions(scheme.data, left);
    }

    /** `addBlock(mapres, source, destination)`: one more part (the mapres
        is read through the cache; the read is outside the model). */
    method AddBlock(mapres: string, source: Rect4, destination: Rect4)
      modifies this
      ensures parts == old(parts) + [Part(mapres, source, destination)]
    {
      parts := parts + [Part(mapres, source, destination)];
    }

    /** The while loop of `addLine`. */
    method Walk(mapres: string, source: Rect4, sx0: int, sy0: int, dx: int, dy: int)
      requires source.w > 0 && source.h > 0
      modifies this
      ensures parts == old(parts) + Blocks(mapres, source, LineSteps(sx0, sy0, dx, dy, source.w, source.h))
    {
      var w, h := source.w, source.h;
      var sx, sy := sx0, sy0;
      while sx <= dx && sy <= dy
        invariant old(parts) + Blocks(mapres, source, LineSteps(sx0, sy0, dx, dy, w, h)) ==
          parts + Blocks(mapres, source, LineSteps(sx, sy, dx, dy, w, h))
        decreases if sx <= dx && sy <= dy then (dx - sx) + (dy - sy) + 1 else 0
      {
        var nx, ny := if sx < dx then sx + w else sx, if sy < dy then sy + h else sy;
        WalkStep(mapres, source, sx, sy, dx, dy);
        WalkShift(parts, Part(mapres, source, Rect4(sx, sy, w, h)),
          if sx == dx && sy == dy then [] else Blocks(mapres, source, LineSteps(nx, ny, dx, dy, w, h)));
        AddBlock(mapres, source, Rect4(sx, sy, w, h));
        if sx == dx && sy == dy {
          break;
        }
        sx, sy := nx, ny;
      }
    }

    /** `addLine(mapres, source, pointSource, pointDestination)`, with the
        block size `source`'s w and h. */
    method AddLine(mapres: string, source: Rect4, start: (int, int), end: (int, int)) returns (o: Outcome)
      requires source.w > 0 && source.h > 0
      modifies this
      ensures var r := LinePoints(draft, start.0, start.1, end.0, end.1, source.w, source.h);
        if r.Err? then o == Fail(r.error) && parts == old(parts)
        else o == Pass && parts == old(parts) + Blocks(mapres, source, r.value)
    {
      var (sx, sy) := start;
      var (dx, dy) := end;
      if sx == dx && sy == dy {
        return Fail(SceneFailure(draft));
      }
      if sx > dx && sy > dy {
        // the recursive call with the points swapped: its own checks pass
        Walk(mapres, source, dx, dy, sx, sy);
      }
      Walk(mapres, source, sx, sy, dx, dy);
      o := Pass;
    }

    /** The inner loop of `addSquare`: one row. */
    method AddRow(mapres: string, source: Rect4, sx: int, dx: int, y: int)
      requires source.w > 0
      modifies this
      ensures parts == old(parts) + Blocks(mapres, source, RowFrom(sx, dx, source.w, y))
    {
      var x := sx;
      while x < dx
        invariant old(parts) + Blocks(mapres, source, RowFrom(sx, dx, source.w, y)) ==
          parts + Blocks(mapres, source, RowFrom(x, dx, source.w, y))
        decreases if x < dx then dx - x else 0
      {
        BlocksAppend(mapres, source, [(x, y)], RowFrom(x + source.w, dx, source.w, y));
        AddBlock(mapres, source, Rect4(x, y, source.w, source.h));
        x := x + source.w;
      }
    }

    /** `addSquare(mapres, source, topLeft, bottomRight)`. */
    method AddSquare(mapres: string, source: Rect4, topLeft: (int, int), bottomRight: (int, int))
      requires source.w > 0 && source.h > 0
      modifies this
      ensures parts == old(parts) + Blocks(mapres, source,
        SquareFrom(topLeft.0, bottomRight.0, source.w, topLeft.1, bottomRight.1, source.h))
    {
      var (sx, sy) := topLeft;
      var (dx, dy) := bottomRight;
      var w, h := source.w, source.h;
      var y := sy;
      while y < dy
        invariant old(parts) + Blocks(mapres, source, SquareFrom(sx, dx, w, sy, dy, h)) ==
          parts + Blocks(mapres, source, SquareFrom(sx, dx, w, y, dy, h))
        decreases if y < dy then dy - y else 0
      {
        BlocksAppend(mapres, source, RowFrom(sx, dx, w, y), SquareFrom(sx, dx, w, y + h, dy, h));
        AddRow(mapres, source, sx, dx, y);
        y := y + h;
      }
    }

    /** The drawing loop of `renderScene`: every part, in the order added. */
    method DrawParts() returns (draws: seq<PartDraw>)
      ensures |draws| == |parts| && forall i :: 0 <= i < |parts| ==> draws[i] == Drawn(parts[i])
    {
      draws := [];
      for i := 0 to |parts|
        invariant |draws| == i && forall j :: 0 <= j < i ==> draws[j] == Drawn(parts[j])
      {
        draws := draws + [Drawn(parts[i])];
      }
    }
  }

  // ---------------------------------------------------------------------------
  // setRandomBackground

  /** The index `setRandomBackground` draws from the listing of the
      backgrounds folder, `Math.floor(Math.random() * (backgrounds.length - 1))`,
      for a random draw r in [0, 1). The image it names is then loaded, which
      is not part of this model. */
  function RandomIndex(count: nat, r: real): int
    requires 0.0 <= r < 1.0
  {
    (r * (count - 1) as real).Floor
  }

  /** The index is in range, but never the last background's. */
  lemma RandomIndexSkipsLast(count: nat, r: real)
    requires 0.0 <= r < 1.0 && count >= 1
    ensures 0 <= RandomIndex(count, r) < count
    ensures count >= 2 ==> RandomIndex(count, r) != count - 1
  {
    var n := (count - 1) as real;
    assert 0.0 <= r * n <= n;
    if count >= 2 {
      assert r * n < n by {
        assert (1.0 - r) * n > 0.0;
      }
    }
  }

  /** The intended draw, `Math.floor(Math.random() * backgrounds.length)`. */
  function IntendedIndex(count: nat, r: real): int
    requires 0.0 <= r < 1.0
  {
    (r * count as real).Floor
  }

  /** The intended draw is in range and reaches every background. */
  lemma IntendedIndexCovers(count: nat, r: real, k: nat)
    requires 0.0 <= r < 1.0 && count >= 1 && k < count
    ensures 0 <= IntendedIndex(count, r) < count
    ensures IntendedIndex(count, k as real / count as real) == k
  {
    var n := count as real;
    assert r * n < n by {
      assert (1.0 - r) * n > 0.0;
    }
    var q := k as real / n;
    assert q * n == k as real;
  }
}

=== FILE: skins.dfy ===
// The tee skin of lib/asset/skin.ts: the asset with an orientation, an eye
// part and a render canvas, whose `colorPart` grays the part, re-weights the
// body and tints it with a lightness floor; and SkinFull, the tee with its
// weapon and emoticon, whose `process` picks the angle and the mirroring of
// the weapon.

module Skins {
  import opened Results
  import opened Numbers
  import opened Colors
  import opened Parts
  import opened Pixels
  import opened Assets

  /** `BODY_LIMIT`: the lowest lightness a skin part is tinted with. */
  const BodyLimit: real := 52.5

  predicate IsEye(p: SkinPart)
  {
    p == DefaultEye || p == AngryEye || p == BlinkEye || p == HappyEye || p == CrossEye || p == ScaryEye
  }

  /** `EyeSkinPart`. */
  type EyeSkinPart = p: SkinPart | IsEye(p) witness DefaultEye

  // ---------------------------------------------------------------------------
  // Colouring a skin part

  /** The lightness floor of `colorPart`: a lightness under 52.5 is raised to
      52.5, hue and saturation are kept. */
  function Floored(v: Hsl): (w: Hsl)
    ensures w.h == v.h && w.s == v.s
    ensures w.l >= BodyLimit && w.l >= v.l
    ensures w.l == BodyLimit || w.l == v.l
  {
    if v.l < BodyLimit then v.(l := BodyLimit) else v
  }

  /** The floor changes nothing the second time, and keeps a valid colour
      valid. */
  lemma FlooredTwice(v: Hsl)
    ensures Floored(Floored(v)) == Floored(v)
    ensures HslValid(v) ==> HslValid(Floored(v))
  {
  }

  /** A skin part's rectangle on a canvas of the given width: its SKIN row
      scaled by the skin's multiplier. */
  function SkinRect(width: nat, part: SkinPart): (r: Rect)
    ensures 0.0 <= r.x && 0.0 <= r.y && 0.0 <= r.w && 0.0 <= r.h
  {
    ScaleMetadata(SkinRow(SkinIndex(part)).1, RenderMultiplier(width))
  }

  /** On an asset with the SKIN kind and base width, `getPartMetadata` finds
      every skin part, at its SkinRect. */
  lemma SkinRectFound(md: Metadata, width: nat, part: SkinPart)
    requires md.kind == AssetKind.Skin && md.baseSize.w == 256
    ensures PartRect(md, width, SkinP(part)) == Ok(SkinRect(width, part))
  {
    assert MultiplierOf(md, width) == Ok(RenderMultiplier(width));
    assert GetAssetPartMetadata(md.kind, SkinP(part)) == Ok(SkinRow(SkinIndex(part)).1);
  }

  /** The body rectangle's mode, read from the canvas `reorderBody` starts
      with. */
  function BodyModeOf(width: nat, rows: seq<seq<Pixel>>): Byte
  {
    var (x, y, w, h) := Region(SkinRect(width, Body));
    BodyMode(Bytes(Cut(rows, x, y, w, h)))
  }

  /** `reorderBody` on a canvas's pixels: the body's buffer is re-weighted
      around its mode, the body rectangle cleared and the buffer put back. */
  function ReorderedBody(width: nat, rows: seq<seq<Pixel>>): seq<seq<Pixel>>
  {
    var (x, y, w, h) := Region(SkinRect(width, Body));
    var s := Bytes(Cut(rows, x, y, w, h));
    Paste(Clear(rows, x, y, w, h), x, y, w, h, Remapped(s, BodyMode(s)))
  }

  /** `reorderBody` remaps every pixel of the body rectangle around the
      body's mode and leaves every other pixel as it was. */
  lemma ReorderedBodyEffect(width: nat, rows: seq<seq<Pixel>>, i: int, j: int)
    requires 0 <= j < |rows| && 0 <= i < |rows[j]|
    ensures var after := ReorderedBody(width, rows);
      |after| == |rows| && |after[j]| == |rows[j]| &&
      after[j][i] == if InRegion(SkinRect(width, Body), i, j) then RemapPixel(rows[j][i], BodyModeOf(width, rows)) else rows[j][i]
  {
    var (x, y, w, h) := Region(SkinRect(width, Body));
    var s := Bytes(Cut(rows, x, y, w, h));
    ClearThenPaste(rows, x, y, w, h, Remapped(s, BodyMode(s)));
    ReweightRect(rows, x, y, w, h, BodyMode(s), i, j);
  }

  /** Skin `colorPart` on a canvas's pixels with the tint the floored colour
      converts to: the part is grayed, the body re-weighted, then the base
      `colorPart` grays and tints it. */
  function SkinPartColoured(width: nat, rows: seq<seq<Pixel>>, part: SkinPart, tint: Rgba): (Outcome, seq<seq<Pixel>>)
  {
    var r := SkinRect(width, part);
    var (o1, r1) := RectRewrite(rows, r, Graying());
    if o1.Fail? then (o1, r1)
    else RectRewrite(if part == Body then ReorderedBody(width, r1) else r1, r, Tinting(tint))
  }

  /** What a pixel of the part goes through before the tint: grayscale, and
      for the body the re-weighting around the mode. */
  function Prepared(p: Pixel, part: SkinPart, mode: Byte): Pixel
  {
    var g := Recoloured(p, Graying());
    if part == Body then RemapPixel(g, mode) else g
  }

  /** The grayed canvas `reorderBody` reads its mode from. */
  function GrayedRows(width: nat, rows: seq<seq<Pixel>>, part: SkinPart): seq<seq<Pixel>>
  {
    RectRewrite(rows, SkinRect(width, part), Graying()).1
  }

  /** The canvas the tint is applied to: grayed, and re-weighted when the
      part is the body. */
  function BeforeTint(width: nat, rows: seq<seq<Pixel>>, part: SkinPart): seq<seq<Pixel>>
  {
    var g := GrayedRows(width, rows, part);
    if part == Body then ReorderedBody(width, g) else g
  }

  /** Grayscale never throws. */
  lemma GrayingPasses(width: nat, rows: seq<seq<Pixel>>, part: SkinPart)
    ensures RectRewrite(rows, SkinRect(width, part), Graying()).0 == Pass
  {
    var (x, y, w, h) := Region(SkinRect(width, part));
    NeverFails(Bytes(Cut(rows, x, y, w, h)), Graying(), 0);
  }

  /** So skin `colorPart` always reaches the tint. */
  lemma SkinPartColouredTints(width: nat, rows: seq<seq<Pixel>>, part: SkinPart, tint: Rgba)
    ensures SkinPartColoured(width, rows, part, tint) == RectRewrite(BeforeTint(width, rows, part), SkinRect(width, part), Tinting(tint))
  {
    GrayingPasses(width, rows, part);
  }

  /** Before the tint, every pixel of the part is grayed, and re-weighted
      when the part is the body; every other pixel is as it was. */
  lemma BeforeTintEffect(width: nat, rows: seq<seq<Pixel>>, part: SkinPart, i: int, j: int)
    requires 0 <= j < |rows| && 0 <= i < |rows[j]|
    ensures var before := BeforeTint(width, rows, part);
      var mode := BodyModeOf(width, GrayedRows(width, rows, part));
      |before| == |rows| && |before[j]| == |rows[j]| &&
      before[j][i] == if InRegion(SkinRect(width, part), i, j) then Prepared(rows[j][i], part, mode) else rows[j][i]
  {
    GrayingPasses(width, rows, part);
    RectRewriteEffect(rows, SkinRect(width, part), Graying(), i, j);
    if part == Body {
      ReorderedBodyEffect(width, GrayedRows(width, rows, part), i, j);
    }
  }

  /** With a tint in 0..255, skin `colorPart` never fails; every pixel of the
      part is grayed, re-weighted when the part is the body, and tinted; every
      other pixel is left as it was. */
  lemma SkinPartColouredEffect(width: nat, rows: seq<seq<Pixel>>, part: SkinPart, tint: Rgba, i: int, j: int)
    requires InByteRange(tint) && 0 <= j < |rows| && 0 <= i < |rows[j]|
    ensures SkinPartColoured(width, rows, part, tint).0 == Pass
    ensures var after := SkinPartColoured(width, rows, part, tint).1;
      var mode := BodyModeOf(width, GrayedRows(width, rows, part));
      |after| == |rows| && |after[j]| == |rows[j]| &&
      after[j][i] == if InRegion(SkinRect(width, part), i, j)
                     then Recoloured(Prepared(rows[j][i], part, mode), Tinting(tint)) else rows[j][i]
  {
    var before := BeforeTint(width, rows, part);
    SkinPartColouredPasses(width, rows, part, tint);
    BeforeTintEffect(width, rows, part, i, j);
    RectRewriteEffect(before, SkinRect(width, part), Tinting(tint), i, j);
  }

  /** With a tint in 0..255, skin `colorPart` never throws. */
  lemma SkinPartColouredPasses(width: nat, rows: seq<seq<Pixel>>, part: SkinPart, tint: Rgba)
    requires InByteRange(tint)
    ensures SkinPartColoured(width, rows, part, tint).0 == Pass
  {
    SkinPartColouredTints(width, rows, part, tint);
    TintingNeverFailsIn(BeforeTint(width, rows, part), SkinRect(width, part), tint);
  }

  /** Pixel (i, j) lies outside the skin part's rectangle. */
  predicate OutsideSkinPart(width: nat, part: SkinPart, i: int, j: int)
  {
    !InRegion(SkinRect(width, part), i, j)
  }

  /** Whatever the tint, and even when the tint throws, skin `colorPart`
      leaves every pixel outside the part as it was. */
  lemma SkinPartColouredOutside(width: nat, rows: seq<seq<Pixel>>, part: SkinPart, tint: Rgba, i: int, j: int)
    requires 0 <= j < |rows| && 0 <= i < |rows[j]| && OutsideSkinPart(width, part, i, j)
    ensures PixelKept(rows, SkinPartColoured(width, rows, part, tint).1, i, j)
  {
    var before := BeforeTint(width, rows, part);
    SkinPartColouredTints(width, rows, part, tint);
    BeforeTintEffect(width, rows, part, i, j);
    if RectRewrite(before, SkinRect(width, part), Tinting(tint)).0.Pass? {
      RectRewriteEffect(before, SkinRect(width, part), Tinting(tint), i, j);
    }
  }

  /** Skin `colorParts`: the parts in order, each through the skin's
      `colorPart`; the first failure stops the run. */
  function SkinPartsColoured(width: nat, rows: seq<seq<Pixel>>, parts: seq<SkinPart>, tint: Rgba): (Outcome, seq<seq<Pixel>>)
    decreases |parts|
  {
    if parts == [] then (Pass, rows)
    else
      var (o, next) := SkinPartColoured(width, rows, parts[0], tint);
      if o.Fail? then (o, next) else SkinPartsColoured(width, next, parts[1..], tint)
  }

  /** With a tint in 0..255, skin `colorParts` never throws. */
  lemma {:induction false} SkinPartsPass(width: nat, rows: seq<seq<Pixel>>, parts: seq<SkinPart>, tint: Rgba)
    requires InByteRange(tint)
    ensures SkinPartsColoured(width, rows, parts, tint).0 == Pass
    decreases |parts|
  {
    if parts != [] {
      SkinPartColouredPasses(width, rows, parts[0], tint);
      SkinPartsPass(width, SkinPartColoured(width, rows, parts[0], tint).1, parts[1..], tint);
    }
  }

  /** Skin `colorParts` keeps the canvas's shape and leaves every pixel
      outside all the parts as it was, whether it throws or not. */
  lemma {:induction false} SkinPartsOutside(width: nat, rows: seq<seq<Pixel>>, parts: seq<SkinPart>, tint: Rgba, i: int, j: int)
    requires 0 <= j < |rows| && 0 <= i < |rows[j]|
    requires forall k :: 0 <= k < |parts| ==> OutsideSkinPart(width, parts[k], i, j)
    ensures PixelKept(rows, SkinPartsColoured(width, rows, parts, tint).1, i, j)
    decreases |parts|
  {
    if parts != [] {
      var r := SkinPartColoured(width, rows, parts[0], tint);
      SkinPartColouredOutside(width, rows, parts[0], tint, i, j);
      if r.0.Pass? {
        assert forall k :: 1 <= k < |parts| ==> parts[1..][k - 1] == parts[k];
        SkinPartsOutside(width, r.1, parts[1..], tint, i, j);
        assert SkinPartsColoured(width, rows, parts, tint) == SkinPartsColoured(width, r.1, parts[1..], tint);
      } else {
        assert SkinPartsColoured(width, rows, parts, tint) == r;
      }
    }
  }

  /** The skin parts in table order: what `Object.keys` gives `setColor`. */
  function SkinTableParts(): (ps: seq<SkinPart>)
    ensures |ps| == |SkinParts()| && forall k :: 0 <= k < |ps| ==> SkinParts()[k].0 == SkinP(ps[k])
  {
    seq(12, i => SkinRow(i).0)
  }

  // ---------------------------------------------------------------------------
  // The skin

  /** `Skin`: an Asset of the SKIN kind with its orientation, its eye part and
      the size of its render canvas. */
  class Skin {
    const asset: Asset
    /** `_orientation`: the angle the tee looks at, in degrees. */
    var orientation: real
    var eyeAssetPart: EyeSkinPart
    /** The size of `renderCanvas`, set by `loadFromCanvas`. */
    var renderSize: Option<(real, real)>

    ghost predicate Valid()
      reads this, asset, asset.canvas
    {
      asset.Valid() && !asset.minimal && asset.metadata.kind == AssetKind.Skin &&
      asset.metadata.baseSize == KindMetadata(AssetKind.Skin).baseSize &&
      0.0 <= orientation <= 360.0
    }

    /** `new Skin()`: the SKIN metadata, looking right, default eyes. */
    constructor (uuid: string)
      ensures Valid() && fresh(asset) && asset.canvas == null
      ensures asset.metadata == KindMetadata(AssetKind.Skin) && asset.verification
      ensures orientation == 0.0 && eyeAssetPart == DefaultEye && renderSize.None?
    {
      asset := new Asset(KindMetadata(AssetKind.Skin), uuid);
      orientation := 0.0;
      eyeAssetPart := DefaultEye;
      renderSize := None;
    }

    method SetEyeAssetPart(value: EyeSkinPart)
      requires Valid()
      modifies this
      ensures Valid() && eyeAssetPart == value
      ensures orientation == old(orientation) && renderSize == old(renderSize)
    {
      eyeAssetPart := value;
    }

    /** `setOrientation(value)`: an angle outside [0, 360] is an AssetError
        and changes nothing. */
    method SetOrientation(value: real) returns (o: Outcome)
      requires Valid()
      modifies this
      ensures Valid()
      ensures o.Fail? <==> value < 0.0 || value > 360.0
      ensures o.Fail? ==> o.error == AssetError && orientation == old(orientation)
      ensures o.Pass? ==> orientation == value
      ensures eyeAssetPart == old(eyeAssetPart) && renderSize == old(renderSize)
    {
      if value < 0.0 || value > 360.0 {
        return Fail(AssetError);
      }
      orientation := value;
      o := Pass;
    }

    /** `loadFromCanvas(canvas)`: the base load, then a render canvas of the
        unscaled body's side plus 12, times the multiplier. */
    method LoadFromCanvas(c: Canvas) returns (o: Outcome)
      requires Valid() && c.Valid()
      modifies this, asset
      ensures Valid()
      ensures o == old(if asset.HasValidAspectRatio(c.width, c.height) then Pass else Fail(FileError))
      ensures o.Pass? ==> asset.canvas == c && asset.original == c.Snapshot()
      ensures o.Pass? ==> renderSize == Some((108.0 * RenderMultiplier(c.width), 108.0 * RenderMultiplier(c.width)))
      ensures o.Fail? ==> asset.canvas == old(asset.canvas) && renderSize == old(renderSize)
      ensures asset.metadata == old(asset.metadata) && asset.verification == old(asset.verification)
      ensures orientation == old(orientation) && eyeAssetPart == old(eyeAssetPart)
    {
      o := asset.LoadFromCanvas(c);
      if o.Fail? {
        return;
      }
      var body := GetAssetPartMetadata(asset.metadata.kind, SkinP(Body));
      var m := asset.Multiplier();
      assert body == Ok(Rt(0, 0, 96, 96));
      renderSize := Some(((body.value.w + 12.0) * m.value, (body.value.h + 12.0) * m.value));
    }

    /** `scale(k)`: the base `scale`, whose `loadFromCanvas` is the skin's.
        The resampled pixels are a parameter; an asset with no canvas throws
        a TypeError. */
    method Scale(k: HelpSize, resampled: seq<seq<Pixel>>) returns (o: Outcome)
      requires Valid()
      requires Shaped(resampled, 256 * Factor(k), 128 * Factor(k))
      modifies this, asset
      ensures Valid()
      ensures old(asset.canvas) == null ==> o == Fail(TypeError) && asset.canvas == null
      ensures old(asset.canvas) != null && (old(asset.canvas.width), old(asset.canvas.height)) == (256 * Factor(k), 128 * Factor(k)) ==>
        o == Pass && asset.canvas == old(asset.canvas) && renderSize == old(renderSize)
      ensures old(asset.canvas) != null && (old(asset.canvas.width), old(asset.canvas.height)) != (256 * Factor(k), 128 * Factor(k)) ==>
        o == old(if asset.HasValidAspectRatio(256 * Factor(k), 128 * Factor(k)) then Pass else Fail(FileError)) &&
        (o.Pass? ==> fresh(asset.canvas) && asset.canvas.Snapshot() == Image(256 * Factor(k), 128 * Factor(k), resampled) &&
                     renderSize == Some((108.0 * Factor(k) as real, 108.0 * Factor(k) as real)))
      ensures o.Fail? ==> asset.canvas == old(asset.canvas) && renderSize == old(renderSize)
      ensures orientation == old(orientation) && eyeAssetPart == old(eyeAssetPart)
    {
      if asset.canvas == null {
        return Fail(TypeError);
      }
      var (w, h) := ScaledSize(asset.metadata, k);
      if w == asset.canvas.width && h == asset.canvas.height {
        return Pass;
      }
      var c := new Canvas.Clone(Image(w, h, resampled));
      o := LoadFromCanvas(c);
      if o.Pass? {
        ScaledMultiplier(k);
      }
    }

    /** `reorderBody()`: the body buffer re-weighted so that its most common
        gray becomes 192, then put back over the cleared body rectangle. On a
        skin the body is always found; with no canvas loaded its metadata
        lookup throws at the multiplier. */
    method ReorderBody() returns (o: Outcome)
      requires Valid()
      modifies asset.canvas
      ensures Valid()
      ensures asset.canvas == null ==> o == Fail(TypeError)
      ensures asset.canvas != null ==> o == Pass && asset.canvas.rows == ReorderedBody(asset.canvas.width, old(asset.canvas.rows))
    {
      if asset.canvas == null {
        return Fail(TypeError);
      }
      var pm := asset.GetPartMetadata(SkinP(Body));
      SkinRectFound(asset.metadata, asset.canvas.width, Body);
      var (x, y, w, h) := Region(pm.value);
      var imageData := asset.canvas.GetImageData(x, y, w, h);
      BufferOfRegion(w, h);
      ReorderBuffer(imageData.data);
      asset.canvas.ClearRect(x, y, w, h);
      asset.canvas.PutImageData(imageData, x, y);
      o := Pass;
    }

    /** `colorPart(color, part)` with a ColorHSL argument: the argument's own
        lightness is floored, the part grayed, the body re-weighted, and the
        base `colorPart` run with the floored colour. Its conversion to RGBA
        is a parameter. With no canvas loaded the colour is still floored
        before the graying throws at the multiplier. */
    method ColorPart(color: ColorHSL, part: SkinPart, toRgba: Hsl -> Rgba) returns (o: Outcome)
      requires Valid()
      modifies asset.canvas, color
      ensures Valid()
      ensures color.Value() == Floored(old(color.Value()))
      ensures asset.canvas == null ==> o == Fail(TypeError)
      ensures asset.canvas != null ==>
        (o, asset.canvas.rows) == SkinPartColoured(asset.canvas.width, old(asset.canvas.rows), part, toRgba(color.Value()))
    {
      if color.l < BodyLimit {
        var raised := color.Set(L, BodyLimit);
      }
      if asset.canvas == null {
        return Fail(TypeError);
      }
      SkinRectFound(asset.metadata, asset.canvas.width, part);
      o := asset.ColorPartWith(SkinP(part), Graying());
      if o.Fail? {
        return;
      }
      if part == Body {
        o := ReorderBody();
      }
      o := asset.ColorPart(toRgba(color.Value()), SkinP(part));
    }

    /** `colorParts(color, ...parts)`: each part through the skin's
        `colorPart`, in order, until one throws; the colour is floored by the
        first call. */
    method ColorParts(color: ColorHSL, parts: seq<SkinPart>, toRgba: Hsl -> Rgba) returns (o: Outcome)
      requires Valid()
      modifies asset.canvas, color
      ensures Valid()
      ensures color.Value() == if parts == [] then old(color.Value()) else Floored(old(color.Value()))
      ensures asset.canvas == null ==> o == if parts == [] then Pass else Fail(TypeError)
      ensures asset.canvas != null ==> (o, asset.canvas.rows) == SkinPartsColoured(asset.canvas.width, old(asset.canvas.rows), parts, toRgba(Floored(old(color.Value()))))
      decreases |parts|
    {
      if parts == [] {
        return Pass;
      }
      FlooredTwice(color.Value());
      o := ColorPart(color, parts[0], toRgba);
      if o.Fail? {
        return;
      }
      o := ColorParts(color, parts[1..], toRgba);
    }

    /** `setColor(color)`: every skin part, in table order; with no canvas
        loaded the first part throws. */
    method SetColor(color: ColorHSL, toRgba: Hsl -> Rgba) returns (o: Outcome)
      requires Valid()
      modifies asset.canvas, color
      ensures Valid()
      ensures color.Value() == Floored(old(color.Value()))
      ensures asset.canvas == null ==> o == Fail(TypeError)
      ensures asset.canvas != null ==> (o, asset.canvas.rows) == SkinPartsColoured(asset.canvas.width, old(asset.canvas.rows), SkinTableParts(), toRgba(Floored(old(color.Value()))))
    {
      o := ColorParts(color, SkinTableParts(), toRgba);
    }
  }

  /** The multiplier the render canvas is sized with: the canvas width over
      the skin's base width. */
  function RenderMultiplier(width: nat): real
  {
    width as real / 256.0
  }

  /** A canvas k times the skin sheet has multiplier k. */
  lemma ScaledMultiplier(k: HelpSize)
    ensures RenderMultiplier(256 * Factor(k)) == Factor(k) as real
  {
  }

  /** The render canvas holds the scaled body with a margin of 6 multiplier
      units on each side, where `render` draws the body. */
  lemma RenderHoldsBody(width: nat)
    ensures var m := RenderMultiplier(width);
      var body := PartRect(KindMetadata(AssetKind.Skin), width, SkinP(Body)).value;
      PartRect(KindMetadata(AssetKind.Skin), width, SkinP(Body)).Ok? &&
      108.0 * m == 6.0 * m + body.w + 6.0 * m && 108.0 * m == 6.0 * m + body.h + 6.0 * m
  {
    assert GetAssetPartMetadata(AssetKind.Skin, SkinP(Body)) == Ok(Rt(0, 0, 96, 96));
  }

  // ---------------------------------------------------------------------------
  // The full tee

  /** The angle `process` draws the weapon at: a missing or zero argument
      falls back to the skin's orientation, and the hammer is snapped to 300
      when the tee looks left (strictly between 90 and 270), to 240
      otherwise. */
  function ProcessAngle(arg: Option<real>, orientation: real, weapon: GameskinPart): (a: real)
    ensures weapon != Hammer && (arg.None? || arg.value == 0.0) ==> a == orientation
    ensures weapon != Hammer && arg.Some? && arg.value != 0.0 ==> a == arg.value
    ensures weapon == Hammer ==> a == 240.0 || a == 300.0
  {
    var a := if arg.None? || arg.value == 0.0 then orientation else arg.value;
    if weapon == Hammer then (if LooksLeft(a) then 300.0 else 240.0) else a
  }

  predicate LooksLeft(a: real)
  {
    90.0 < a < 270.0
  }

  /** `putWeapon`'s vertical flip: looking left, every weapon but the hammer;
      looking right, only the hammer. */
  function WeaponFlip(angle: real, weapon: GameskinPart): (flip: bool)
    ensures flip <==> (LooksLeft(angle) != (weapon == Hammer))
  {
    if LooksLeft(angle) then weapon != Hammer else weapon == Hammer
  }

  /** The hammer snap and the flip rule together: whatever the weapon, it is
      mirrored exactly when the tee looks left. */
  lemma FlipFollowsFacing(arg: Option<real>, orientation: real, weapon: GameskinPart)
    ensures var a := if arg.None? || arg.value == 0.0 then orientation else arg.value;
      WeaponFlip(ProcessAngle(arg, orientation, weapon), weapon) <==> LooksLeft(a)
  {
  }

  /** The weapon pose `process` settles on. */
  datatype WeaponPose = WeaponPose(angle: real, flipped: bool)

  /** `SkinFull`: a 250×250 MinimalAsset holding a skin, a gameskin, an
      optional emoticon, the weapon and the emoticon part. */
  class SkinFull {
    const base: Asset
    var skin: Skin?
    var gameskin: Asset?
    var emoticon: Asset?
    var weapon: GameskinPart
    var emoticonPart: EmoticonPart

    /** `new SkinFull()`: the hammer, the first emoticon, no emoticon, and an
        empty 250×250 canvas. */
    constructor ()
      ensures fresh(base) && base.minimal && base.Valid()
      ensures base.metadata == Metadata(Dimensions(250, 250), Dimensions(1, 1), Unknown, None)
      ensures base.canvas != null && base.canvas.width == 250 && base.canvas.height == 250
      ensures base.canvas.rows == Blank(250, 250)
      ensures skin == null && gameskin == null && emoticon == null
      ensures weapon == Hammer && emoticonPart == Part_1_1
    {
      base := new Asset.Minimal(Metadata(Dimensions(250, 250), Dimensions(1, 1), Unknown, None));
      skin, gameskin, emoticon := null, null, null;
      weapon := Hammer;
      emoticonPart := Part_1_1;
      new;
      var o := base.Empty(Default);
    }

    /** `setSkin(value)`: the skin scaled to the default size is kept. */
    method SetSkin(value: Skin, resampled: seq<seq<Pixel>>) returns (o: Outcome)
      requires value.Valid() && Shaped(resampled, 256, 128)
      modifies this, value, value.asset
      ensures value.Valid()
      ensures o.Pass? ==> skin == value && value.asset.canvas != null
      ensures o.Pass? ==> value.asset.canvas.width == 256 && value.asset.canvas.height == 128
      ensures o.Fail? ==> skin == old(skin)
      ensures old(value.asset.canvas) == null ==> o == Fail(TypeError)
      ensures gameskin == old(gameskin) && emoticon == old(emoticon)
      ensures weapon == old(weapon) && emoticonPart == old(emoticonPart)
    {
      o := value.Scale(Default, resampled);
      if o.Pass? {
        skin := value;
      }
    }

    method SetWeapon(value: GameskinPart)
      modifies this
      ensures weapon == value
      ensures skin == old(skin) && gameskin == old(gameskin) && emoticon == old(emoticon)
      ensures emoticonPart == old(emoticonPart)
    {
      weapon := value;
    }

    /** `setGameskin(value, part)`: the gameskin scaled to the default size,
        and the weapon when one is given. */
    method SetGameskin(value: Asset, part: Option<GameskinPart>, resampled: seq<seq<Pixel>>) returns (o: Outcome)
      requires value.Valid() && Shaped(resampled, value.metadata.baseSize.w, value.metadata.baseSize.h)
      modifies this, value
      ensures value.Valid()
      ensures old(value.canvas) == null ==> o == Fail(TypeError)
      ensures o.Pass? ==> gameskin == value && weapon == (if part.Some? then part.value else old(weapon))
      ensures o.Fail? ==> gameskin == old(gameskin) && weapon == old(weapon)
      ensures skin == old(skin) && emoticon == old(emoticon) && emoticonPart == old(emoticonPart)
    {
      if value.canvas == null {
        return Fail(TypeError);
      }
      assert Factor(Default) == 1 && value.metadata.baseSize.w * 1 == value.metadata.baseSize.w;
      o := value.Scale(Default, resampled);
      if o.Fail? {
        return;
      }
      gameskin := value;
      if part.Some? {
        SetWeapon(part.value);
      }
    }

    /** `setEmoticon(value, part)`: the emoticon scaled to the default size,
        then, when a part is given, `setEmoticonPart(part)`. */
    method SetEmoticon(value: Asset, part: Option<EmoticonPart>, resampled: seq<seq<Pixel>>,
                       eyesOf: EmoticonPart -> EyeSkinPart) returns (o: Outcome)
      requires value.Valid() && value.metadata.kind == AssetKind.Emoticon
      requires Shaped(resampled, value.metadata.baseSize.w, value.metadata.baseSize.h)
      requires skin != null ==> skin.Valid()
      modifies this, value, skin
      ensures value.Valid()
      ensures old(value.canvas) == null ==> o == Fail(TypeError)
      ensures o.Fail? && o.error != TypeError ==> emoticon == old(emoticon) && emoticonPart == old(emoticonPart)
      ensures o == Fail(TypeError) && old(value.canvas) == null ==> emoticon == old(emoticon) && emoticonPart == old(emoticonPart)
      ensures o == Fail(TypeError) && old(value.canvas) != null ==>
        emoticon == value && part.Some? && skin == null && emoticonPart == part.value
      ensures o.Pass? ==> emoticon == value && emoticonPart == (if part.Some? then part.value else old(emoticonPart))
      ensures o.Pass? && part.Some? ==> skin != null && skin.eyeAssetPart == eyesOf(part.value)
      ensures skin == old(skin) && gameskin == old(gameskin) && weapon == old(weapon)
      ensures skin != null ==> skin.Valid() && skin.orientation == old(skin.orientation)
    {
      if value.canvas == null {
        return Fail(TypeError);
      }
      assert Factor(Default) == 1 && value.metadata.baseSize.w * 1 == value.metadata.baseSize.w;
      o := value.Scale(Default, resampled);
      if o.Fail? {
        return;
      }
      emoticon := value;
      if part.Some? {
        o := SetEmoticonPart(part.value, eyesOf);
      }
    }

    /** `setEmoticonPart(value)`: the part is kept, then the skin's eyes are
        set to the ones the emoticon calls for; with no skin yet the second
        step throws a TypeError after the first took effect. The
        emoticon-to-eyes table is a parameter. */
    method SetEmoticonPart(value: EmoticonPart, eyesOf: EmoticonPart -> EyeSkinPart) returns (o: Outcome)
      requires skin != null ==> skin.Valid()
      modifies this, skin
      ensures emoticonPart == value
      ensures o.Fail? <==> skin == null
      ensures o.Fail? ==> o.error == TypeError
      ensures skin == old(skin) && gameskin == old(gameskin) && emoticon == old(emoticon) && weapon == old(weapon)
      ensures skin != null ==> skin.Valid() && skin.eyeAssetPart == eyesOf(value) && skin.orientation == old(skin.orientation)
    {
      emoticonPart := value;
      if skin == null {
        return Fail(TypeError);
      }
      skin.SetEyeAssetPart(eyesOf(value));
      o := Pass;
    }

    /** `resetEmoticon()`: no emoticon, and the skin back to its default
        eyes; with no skin yet the second step throws a TypeError. */
    method ResetEmoticon() returns (o: Outcome)
      requires skin != null ==> skin.Valid()
      modifies this, skin
      ensures emoticon == null
      ensures o.Fail? <==> skin == null
      ensures o.Fail? ==> o.error == TypeError
      ensures skin == old(skin) && gameskin == old(gameskin) && weapon == old(weapon) && emoticonPart == old(emoticonPart)
      ensures skin != null ==> skin.Valid() && skin.eyeAssetPart == DefaultEye && skin.orientation == old(skin.orientation)
    {
      emoticon := null;
      if skin == null {
        return Fail(TypeError);
      }
      skin.SetEyeAssetPart(DefaultEye);
      o := Pass;
    }

    /** `process(orientation)`: the angle and mirroring of the weapon. The
        skin's orientation is read only when the argument is missing or 0;
        `putWeapon` needs the gameskin and `render` the skin, each a
        TypeError when it was never set. The drawing itself is not part of
        this model. */
    method Process(arg: Option<real>) returns (r: Result<WeaponPose>)
      ensures r.Err? <==> skin == null || gameskin == null
      ensures r.Err? ==> r.error == TypeError
      ensures r.Ok? ==> r.value.angle == ProcessAngle(arg, skin.orientation, weapon)
      ensures r.Ok? ==> r.value.flipped == WeaponFlip(r.value.angle, weapon)
    {
      var angle: real;
      if arg.None? || arg.value == 0.0 {
        if skin == null {
          return Err(TypeError);
        }
        angle := skin.orientation;
      } else {
        angle := arg.value;
      }
      if weapon == Hammer {
        angle := if LooksLeft(angle) then 300.0 else 240.0;
      }
      if gameskin == null || skin == null {
        return Err(TypeError);
      }
      r := Ok(WeaponPose(angle, WeaponFlip(angle, weapon)));
    }
  }
}

=== FILE: utils.dfy ===
// String and number helpers shared by the parsers and the size fixer.
// The repository carries four copies of them (lib/utils/util.ts, lib/utils.ts,
// lib/utils.js, src/utils.js) with the same loops and the same arithmetic; they
// are modelled once here.

module Utils {
  import opened Results

  // ---------------------------------------------------------------------------
  // isDigit

  predicate IsDecimalDigit(c: char) { '0' <= c <= '9' }

  predicate AllDigits(s: string) { forall i :: 0 <= i < |s| ==> IsDecimalDigit(s[i]) }

  /** `isDigit`: scans the characters and stops at the first one that is not
      one of "1234567890"; the empty string passes. */
  method IsDigit(s: string) returns (r: bool)
    ensures r <==> AllDigits(s)
    ensures s == "" ==> r
  {
    var i := 0;
    while i < |s|
      invariant 0 <= i <= |s|
      invariant AllDigits(s[..i])
    {
      if !IsDecimalDigit(s[i]) {
        return false;
      }
      i := i + 1;
    }
    assert s[..i] == s;
    return true;
  }

  // ---------------------------------------------------------------------------
  // genChunks

  /** The concatenation of a list of strings. */
  function Concat(ss: seq<string>): string
  {
    if ss == [] then "" else Concat(ss[..|ss| - 1]) + ss[|ss| - 1]
  }

  /** `genChunks(src, size)`: slices `src` from index 0 in steps of `size`.
      A `size` of zero or below never advances the loop, so the source only
      terminates for such a size on the empty string. */
  method GenChunks(src: string, size: int) returns (chunks: seq<string>)
    requires size > 0 || src == ""
    ensures Concat(chunks) == src
    ensures forall k :: 0 <= k < |chunks| ==> 0 < |chunks[k]| <= size
    ensures forall k :: 0 <= k < |chunks| - 1 ==> |chunks[k]| == size
    ensures src == "" ==> chunks == []
    ensures |chunks| * size >= |src|
    ensures |chunks| > 0 ==> (|chunks| - 1) * size < |src|
  {
    chunks := [];
    if src == "" {
      return;
    }
    var i := 0;
    while i < |src|
      invariant 0 <= i
      invariant i == |chunks| * size
      invariant Concat(chunks) == src[..if i < |src| then i else |src|]
      invariant forall k :: 0 <= k < |chunks| ==> 0 < |chunks[k]| <= size
      invariant i < |src| ==> forall k :: 0 <= k < |chunks| ==> |chunks[k]| == size
      invariant forall k :: 0 <= k < |chunks| - 1 ==> |chunks[k]| == size
      invariant |chunks| > 0 ==> (|chunks| - 1) * size < |src|
      decreases |src| - i
    {
      var end := if i + size < |src| then i + size else |src|;
      var piece := src[i..end];
      assert src[..end] == src[..i] + piece;
      chunks := chunks + [piece];
      assert chunks[..|chunks| - 1] == chunks[..|chunks| - 1];
      i := i + size;
    }
  }

  // ---------------------------------------------------------------------------
  // closestNumber

  /** `Math.floor(n / m)` for a non-zero integer divisor. Dafny's `/` is
      Euclidean, which differs from the floor for a negative divisor. */
  function FloorDiv(n: int, m: int): (q: int)
    requires m != 0
    ensures m * q <= n < m * q + m || m * q + m < n <= m * q
  {
    if m > 0 then n / m else (-n) / (-m)
  }

  function Abs(x: int): nat { if x < 0 then -x else x }

  /** `m * Math.floor(n / m)`: the multiple of `m` the candidates start from. */
  function FloorMultiple(n: int, m: int): (r: int)
    requires m != 0
    ensures r % m == 0
    ensures m > 0 ==> r <= n < r + m
    ensures n == 0 ==> r == 0
  {
    var q := FloorDiv(n, m);
    MultipleMod(m, q);
    if n == 0 then assert q == 0; m * q else m * q
  }

  /** One multiple of `m` up or down from another. */
  lemma MultipleShift(x: int, m: int)
    requires m != 0 && x % m == 0
    ensures (x + m) % m == 0 && (x - m) % m == 0
  {
    var k := x / m;
    assert x == m * k;
    assert x + m == m * (k + 1) && x - m == m * (k - 1);
    MultipleMod(m, k + 1);
    MultipleMod(m, k - 1);
  }

  /** `closestNumber(n, m)` as written: the candidates are `n1 = m * q` and
      `n2 = m * (q + 1)` when `n * m > 0` (the sign test is written out),
      else `m * (q - 1)`. `None` is the NaN the source returns for `m == 0`
      (`n / 0` is infinite or NaN, and so is `m * q`). */
  function ClosestNumber(n: int, m: int): (r: Option<int>)
    ensures r.None? <==> m == 0
    ensures r.Some? ==> r.value % m == 0
  {
    if m == 0 then None
    else
      var n1 := FloorMultiple(n, m);
      var n2 := if (n > 0 && m > 0) || (n < 0 && m < 0) then n1 + m else n1 - m;
      MultipleShift(n1, m);
      Some(Closer(n, n1, n2))
  }

  /** The first candidate when it is strictly closer to `n`, else the second. */
  function Closer(n: int, a: int, b: int): (r: int)
    ensures r == a || r == b
  {
    if Abs(n - a) < Abs(n - b) then a else b
  }

  lemma MultipleMod(m: int, k: int)
    requires m != 0
    ensures (m * k) % m == 0
  {
    var x := m * k;
    var q, r := x / m, x % m;
    assert x == m * q + r && 0 <= r < Abs(m);
    assert m * (k - q) == r;
    if k - q != 0 {
      AbsProduct(m, k - q);
    }
  }

  lemma AbsProduct(m: int, j: int)
    requires m != 0 && j != 0
    ensures Abs(m * j) >= Abs(m)
  {
    if j > 0 {
      assert m * j == m + m * (j - 1);
      if m > 0 { NonNegProduct(m, j - 1); } else { NonNegProduct(-m, j - 1); }
    } else {
      assert m * j == -m + m * (j + 1);
      if m > 0 { NonNegProduct(m, -(j + 1)); } else { NonNegProduct(-m, -(j + 1)); }
    }
  }

  /** Ties go to the second candidate: the floor multiple is chosen only when
      it is strictly closer. */
  lemma ClosestNumberTie(n: int, m: int)
    requires m > 0 && n > 0
    requires 2 * (n - FloorMultiple(n, m)) == m
    ensures ClosestNumber(n, m) == Some(FloorMultiple(n, m) + m)
  {
  }

  /** An exact multiple is returned unchanged for positive operands. */
  lemma ClosestNumberOfMultiple(n: int, m: int)
    requires n > 0 && m > 0 && n % m == 0
    ensures ClosestNumber(n, m) == Some(n)
  {
    FloorOfMultiple(n, m);
  }

  /** The floor multiple of a multiple is itself. */
  lemma FloorOfMultiple(n: int, m: int)
    requires m > 0 && n % m == 0
    ensures FloorMultiple(n, m) == n
  {
    var lo := FloorMultiple(n, m);
    var d := (n - lo) / m;
    assert n == m * (n / m) && lo == m * (lo / m);
    assert n - lo == m * (n / m - lo / m);
    MultipleGap(m, lo / m, n / m);
    MultipleGap(m, n / m, lo / m);
  }

  /** Distinct multiples of m are at least m apart. */
  lemma MultipleGap(m: int, a: int, b: int)
    requires m > 0
    ensures a < b ==> m * a + m <= m * b
  {
    if a < b {
      NonNegProduct(m, b - a - 1);
      assert m * b == m * a + m + m * (b - a - 1);
    }
  }

  lemma PositiveProduct(a: int, b: int)
    requires a > 0 && b > 0
    ensures a * b > 0
  {
  }

  /** The nearest multiple of `m` to `n`, ties going up. */
  function NearestMultiple(n: int, m: int): (r: int)
    requires m > 0
    ensures r % m == 0
    ensures r - m < n <= r + m
  {
    var lo := FloorMultiple(n, m);
    MultipleShift(lo, m);
    if 2 * (n - lo) < m then lo else lo + m
  }

  /** `NearestMultiple` is no farther from `n` than any other multiple of `m`. */
  lemma {:induction false} NearestMultipleIsNearest(n: int, m: int, k: int)
    requires m > 0
    ensures Abs(n - NearestMultiple(n, m)) <= Abs(n - m * k)
  {
    var lo := FloorMultiple(n, m);
    var q := lo / m;
    assert lo == m * q;
    MultipleGap(m, k, q);
    MultipleGap(m, q, k);
    assert m * (q + 1) == m * q + m;
  }

  lemma NonNegProduct(a: int, b: int)
    requires a >= 0 && b >= 0
    ensures a * b >= 0
  {
  }

  /** For a non-negative `n` and a positive `m` (the only calls the size fixer
      makes), `closestNumber` returns the nearest multiple. */
  lemma ClosestNumberAgrees(n: int, m: int)
    requires n >= 0 && m > 0
    ensures ClosestNumber(n, m) == Some(NearestMultiple(n, m))
  {
  }

  /** Below zero the floor multiple is not the nearest: the nearest multiple of
      4 to -1 is 0, yet `closestNumber(-1, 4)` is -4. */
  lemma ClosestNumberNegative()
    ensures ClosestNumber(-1, 4) == Some(-4)
    ensures NearestMultiple(-1, 4) == 0
  {
    assert FloorDiv(-1, 4) == -1;
    assert FloorMultiple(-1, 4) == -4;
  }

  /** With a negative `m` the second candidate moves the wrong way:
      `closestNumber(5, -4)` is 8 while 4 is nearer. */
  lemma ClosestNumberNegativeDivisor()
    ensures ClosestNumber(5, -4) == Some(8)
    ensures Abs(5 - 4) < Abs(5 - 8) && 4 % -4 == 0
  {
    assert FloorDiv(5, -4) == -2;
    assert FloorMultiple(5, -4) == 8;
  }

  // ---------------------------------------------------------------------------
  // argsChecker

  /** `argsChecker(args, ...needed)`: every element of `args` is in `needed`
      (a subset test: needed names may be missing from `args`). */
  method ArgsChecker(args: seq<string>, needed: seq<string>) returns (r: bool)
    ensures r <==> forall i :: 0 <= i < |args| ==> args[i] in needed
  {
    var i := 0;
    while i < |args|
      invariant 0 <= i <= |args|
      invariant forall j :: 0 <= j < i ==> args[j] in needed
    {
      if args[i] !in needed {
        return false;
      }
      i := i + 1;
    }
    return true;
  }

  /** The lib/utils.js copy first returns false for a null or undefined `args`. */
  method ArgsCheckerGuarded(args: Option<seq<string>>, needed: seq<string>) returns (r: bool)
    ensures args.None? ==> !r
    ensures args.Some? ==> (r <==> forall i :: 0 <= i < |args.value| ==> args.value[i] in needed)
  {
    if args.None? {
      return false;
    }
    r := ArgsChecker(args.value, needed);
  }

  // ---------------------------------------------------------------------------
  // split and getNameFromPath

  /** `String.prototype.split` on a one-character separator: the pieces
      between occurrences of `c`; "" splits into [""]. */
  function Split(s: string, c: char): (pieces: seq<string>)
    ensures |pieces| >= 1
  {
    if s == [] then [""]
    else if s[0] == c then [""] + Split(s[1..], c)
    else
      var rest := Split(s[1..], c);
      [[s[0]] + rest[0]] + rest[1..]
  }

  /** Joining the pieces with the separator gives back the string, and no
      piece contains the separator. */
  lemma {:induction false} SplitJoin(s: string, c: char)
    ensures Join(Split(s, c), c) == s
    ensures forall k :: 0 <= k < |Split(s, c)| ==> c !in Split(s, c)[k]
  {
    if s != [] {
      SplitJoin(s[1..], c);
      var rest := Split(s[1..], c);
      if s[0] != c {
        var pieces := Split(s, c);
        assert pieces[1..] == rest[1..];
        assert Join(pieces, c) == [s[0]] + Join(rest, c) by { JoinFirst(rest, [s[0]], c); }
        forall k | 0 <= k < |pieces| ensures c !in pieces[k] {
          if k > 0 { assert pieces[k] == rest[k]; }
        }
      } else {
        assert Split(s, c)[1..] == rest;
      }
    }
  }

  function Join(pieces: seq<string>, c: char): string
    requires |pieces| >= 1
  {
    if |pieces| == 1 then pieces[0] else pieces[0] + [c] + Join(pieces[1..], c)
  }

  lemma JoinFirst(pieces: seq<string>, pre: string, c: char)
    requires |pieces| >= 1
    ensures Join([pre + pieces[0]] + pieces[1..], c) == pre + Join(pieces, c)
  {
    var p := [pre + pieces[0]] + pieces[1..];
    assert p[1..] == pieces[1..];
  }

  /** `getNameFromPath(path)`: the last '/'-separated segment, cut at its
      first '.'. */
  function GetNameFromPath(path: string): (name: string)
  {
    var segments := Split(path, '/');
    Split(segments[|segments| - 1], '.')[0]
  }

  /** The name holds neither separator, starts right after the last '/' (or
      at the start) and ends at a '.' (or at the end of the path). */
  lemma {:induction false} GetNameFromPathShape(path: string)
    ensures var name := GetNameFromPath(path);
      '/' !in name && '.' !in name &&
      exists i :: 0 <= i <= |path| - |name| && path[i..i + |name|] == name &&
        (i == 0 || path[i - 1] == '/') && '/' !in path[i..] &&
        (i + |name| == |path| || path[i + |name|] == '.')
  {
    var segments := Split(path, '/');
    var last := segments[|segments| - 1];
    var name := Split(last, '.')[0];
    LastSegment(path);
    FirstPieceIsPrefix(last, '.');
    SplitJoin(last, '.');
    var i := |path| - |last|;
    NameWithin(path, i, last, name);
    assert 0 <= i <= |path| - |name| && path[i..i + |name|] == name &&
      (i == 0 || path[i - 1] == '/') && '/' !in path[i..] &&
      (i + |name| == |path| || path[i + |name|] == '.');
  }

  lemma LastSegment(path: string)
    ensures var p := Split(path, '/'); var last := p[|p| - 1];
      |last| <= |path| && path[|path| - |last|..] == last && '/' !in last &&
      (|last| == |path| || path[|path| - |last| - 1] == '/')
  {
    SplitJoin(path, '/');
    LastPieceIsSuffix(path, '/');
  }

  lemma NameWithin(path: string, i: int, last: string, name: string)
    requires 0 <= i <= |path| && path[i..] == last && '/' !in last
    requires |name| <= |last| && last[..|name|] == name && '.' !in name
    requires |name| == |last| || last[|name|] == '.'
    ensures '/' !in name && path[i..i + |name|] == name && '/' !in path[i..]
    ensures i + |name| == |path| || path[i + |name|] == '.'
  {
    assert path[i..i + |name|] == last[..|name|];
    forall j | 0 <= j < |name| ensures name[j] != '/' { assert name[j] == last[j]; }
    if i + |name| < |path| { assert path[i + |name|] == last[|name|]; }
  }

  /** The last piece of a split is the suffix after the last separator. */
  lemma {:induction false} LastPieceIsSuffix(s: string, c: char)
    ensures var p := Split(s, c); var last := p[|p| - 1];
      |last| <= |s| && s[|s| - |last|..] == last &&
      (|last| == |s| || s[|s| - |last| - 1] == c) &&
      (|p| > 1 ==> |last| < |s|)
  {
    if s != [] {
      LastPieceIsSuffix(s[1..], c);
      var rest := Split(s[1..], c);
      var p := Split(s, c);
      var last := p[|p| - 1];
      if s[0] == c || |rest| > 1 {
        assert last == rest[|rest| - 1];
        assert s[|s| - |last|..] == s[1..][|s| - 1 - |last|..];
        if |last| < |s| - 1 {
          assert s[|s| - |last| - 1] == s[1..][|s| - 1 - |last| - 1];
        }
      } else {
        SplitJoin(s[1..], c);
        assert rest == [rest[0]];
        assert p == [[s[0]] + rest[0]];
        assert s == [s[0]] + s[1..];
      }
    }
  }

  /** The first piece of a split is the prefix before the first separator. */
  lemma {:induction false} FirstPieceIsPrefix(s: string, c: char)
    ensures var first := Split(s, c)[0];
      |first| <= |s| && s[..|first|] == first && (|first| == |s| || s[|first|] == c)
  {
    if s != [] && s[0] != c {
      FirstPieceIsPrefix(s[1..], c);
      var first := Split(s[1..], c)[0];
      assert Split(s, c)[0] == [s[0]] + first;
      assert s[..|first| + 1] == [s[0]] + s[1..][..|first|];
    }
  }

  /** Splitting what `Join` built gives the pieces back when none of them
      holds the separator. */
  lemma {:induction false} JoinSplit(pieces: seq<string>, c: char)
    requires |pieces| >= 1
    requires forall k :: 0 <= k < |pieces| ==> c !in pieces[k]
    ensures Split(Join(pieces, c), c) == pieces
  {
    if |pieces| == 1 {
      SplitWithout(pieces[0], c);
    } else {
      JoinSplit(pieces[1..], c);
      SplitAfter(pieces[0], Join(pieces[1..], c), c);
      assert pieces == [pieces[0]] + pieces[1..];
    }
  }

  /** A string without the separator is a single piece. */
  lemma {:induction false} SplitWithout(s: string, c: char)
    requires c !in s
    ensures Split(s, c) == [s]
  {
    if s != [] {
      assert c !in s[1..] by { assert forall j :: 0 <= j < |s| - 1 ==> s[1..][j] == s[j + 1]; }
      SplitWithout(s[1..], c);
      assert [s[0]] + s[1..] == s;
    }
  }

  /** A separator-free head splits off as the first piece. */
  lemma {:induction false} SplitAfter(a: string, t: string, c: char)
    requires c !in a
    ensures Split(a + [c] + t, c) == [a] + Split(t, c)
  {
    if a == [] {
      assert a + [c] + t == [c] + t;
      assert ([c] + t)[1..] == t;
    } else {
      var s := a + [c] + t;
      assert s[0] == a[0];
      assert s[1..] == a[1..] + [c] + t;
      assert c !in a[1..] by { assert forall j :: 0 <= j < |a| - 1 ==> a[1..][j] == a[j + 1]; }
      SplitAfter(a[1..], t, c);
      assert [a[0]] + a[1..] == a;
    }
  }

  // ---------------------------------------------------------------------------
  // Decimal notation and parseInt

  function DigitChar(d: nat): char
    requires d < 10
  {
    ['0', '1', '2', '3', '4', '5', '6', '7', '8', '9'][d]
  }

  /** Decimal notation of a natural number, as `String(n)` writes it. */
  function Decimal(n: nat): (s: string)
    ensures |s| > 0
  {
    if n < 10 then [DigitChar(n)] else Decimal(n / 10) + Decimal(n % 10)
  }

  /** `parseInt` of a string of decimal digits (leading zeros allowed). */
  function DecimalValue(s: string): nat
    requires AllDigits(s)
  {
    if s == [] then 0
    else DecimalValue(s[..|s| - 1]) * 10 + ((s[|s| - 1] as int) - ('0' as int))
  }

  /** Decimal notation holds only digits and reads back as the number. */
  lemma {:induction false} DecimalRoundTrip(n: nat)
    ensures AllDigits(Decimal(n))
    ensures DecimalValue(Decimal(n)) == n
  {
    if n >= 10 {
      DecimalRoundTrip(n / 10);
      var s := Decimal(n);
      assert s[..|s| - 1] == Decimal(n / 10);
      assert s[|s| - 1] == DigitChar(n % 10);
    }
  }
}
